=== FILE: README.md ===
# Kakuro engine model

A Dafny model of the puzzle engine of a Kakuro game (the `PuzzleBoard` and
`Cell` classes). The board is a grid of squares. A **clue square** carries
a down sum and a right sum. A **fill-in square** carries a value (0 for
empty), a set of candidate notes 1..9, a note-entry flag (`notes[0]` in the
source), a fixed flag and the run metadata the solver attaches.

The model covers the following parts of the engine.

- **Cells** (`cell.dfy`): the cell operations the engine and the keyboard
  use: setting a note, setting a value, a number press, selection.
- **Combinations** (`combos.dfy`): the table of every ascending digit set
  per (sum, count), built by the source's successor walk, and its "unique"
  flag.
- **Board** (`board.dfy`): squares, runs (the walk from a clue square to
  the edge or the next clue square), `setCellValueAndEraseNeighborNoteDups`,
  `clearBoard` and `hasEmptyCells`. It also defines the measures (empty
  squares, notes, listed combinations) that every solver rule lowers.
- **Run metadata** (`meta.dfy`): `giveMetaKnowledgeToCells`,
  `getIntersectNotesForCell`/`writeNotesFromIntersections` and
  `removeNotesFixedValues`.
- **Snapshots** (`snapshot.dfy`): `getCellsInfoFromCellArray` and
  `updateCellArray`, the flat `CellInfo` vector.
- **Win test** (`solved.dfy`): `checkSolved` and the repeat-checking run
  sums.
- **The seven propagation rules**, one module each, all built on the shared
  sweeps of `scans.dfy`:
  - `rule_singles.dfy`: writeCellsWithOneNoteAndRemoveDupNotes.
  - `rule_ranges.dfy`: adjustNotesByLogicalRange.
  - `rule_combo_filter.dfy`: updateClueCellCombos.
  - `rule_uniques.dfy`: solveUniquesWithOneEmpty.
  - `rule_necessary.dfy`: solveCellsWithNecessaryValue.
  - `rule_naked.dfy`: removeExtraNotesFromUniques.
  - `rule_combo_notes.dfy`: removeNotesNotInPossibleCombos.
- **Solver drivers** (`solver.dfy`): `logicSolve` with its seven nested
  loops and lazy mode, `smartBruteForceSolve` and `solve`.
- **Generator** (`layout.dfy`, `generator.dfy`): the deterministic steps of
  `generateBoard`.
  - Phase one: patching single-square runs, the flood fill and the
    contiguity test.
  - Phase two: deriving the clue sums from the filled values.
  - Phase three: the density cutoff, the scan for the square to fix, the fix
    loop, and the final clear.
- **KAK text format** (`kak.dfy`): `getUInt`, `removeSpaces`, the writer
  (`convertCellsInfoToKAKString`, `getKAKString`, `getTimeFormatted`), the
  reader (`makeBoardFromKAKString`) and the validator
  (`lazyValidateKAKString`).

The board is an immutable value, and every in-place procedure is a function
from board to board. A propagation rule returns the new board together
with its "changed" flag. Every rule is given three kinds of contract:

- **Progress**: a change strictly lowers the (empty squares, notes,
  combinations) triple; no change means the board is untouched. This is
  what makes the nested loops of `logicSolve` terminate.
- **Quiet**: the rule reports no change exactly when a rule-specific
  "settled" predicate holds on every square. This is its fixed point,
  stated independently of the sweep.
- **Soundness**: relative to any completion `s` of the board that uses only
  surviving notes (`Agrees`), the rule never removes the digit `s` places,
  nor the combination holding `s`'s digits (`Covers`). `Covers` asks this
  of every run of `s` that has at least one square and a nonzero clue, and
  `Meta.MetaCovers` shows that the lists the metadata pass writes meet it
  for every solution whose squares hold digits. The lemmas about one run
  ask only for that run's own listed combination (`Listed`), plus the
  shape facts they use, which their rows name.
- **The invariant the passes keep**: `Scans.Tracks(b, s)` is `Agrees` and
  `Covers` together with `Scans.Tidy(b)`. `Tidy` says every listed
  combination has its run's length, a filled square's digit is not a note
  of an empty square that sees it, and a filled square has at most one
  note. These are the shape facts the run lemmas of the uniques,
  necessary-value and naked-subset rules use. Every one of the seven
  passes keeps `Tracks` (`Singles.SinglesTracks`, `Ranges.RangesTracks`,
  `ComboFilter.FilterTracks`, `Uniques.UniquesSound`,
  `Necessary.NecessaryPassSound`, `NakedSubsets.NakedSound`,
  `ComboNotes.ComboNotesTracks`). The pass lemmas of the three rules that
  write or strip by run are proved by induction over the row-major sweep,
  run by run. `Solver.Prepare` sets up `Tidy` and `Covers`
  (`Solver.PrepareTracks`), the nested loops keep `Tracks`
  (`Solver.LogicSolveTracks`), and `Solver.SolveFinds` puts the chain
  together: the logic solver started from the prepared board keeps every
  solution that survives preparation, and when it reports a solved board
  that board is that solution.
- **What the puzzle is assumed to satisfy**: two premises of these lemmas
  are assumptions about the puzzle's solution `s`, not derived from
  `Solution(s)`. `Scans.NoRepeats(s)` asks that no two squares that see
  each other hold the same digit. `Solution` asks distinct digits only on
  runs that start at a clue square with a nonzero clue, so a run that
  reaches the board edge without a clue square, or whose clue is zero, is
  not covered by it. `Scans.WellClued(s)` asks that every non-empty run
  has a nonzero clue. The rules that write digits and strike them from
  the squares that see them need the first; the rules that prune both
  runs of a clue square need the second.

Integer widths are modelled where the source depends on them:

- `getUInt` accumulates in 32-bit unsigned arithmetic.
- The time fields are converted back to a signed `int`.
- C++ truncating division is written out for the time formatting.

Behaviours of the code worth knowing:

- `logicSolve`'s lazy mode runs the first four rules: singles, ranges,
  combination filter and uniques.
- Seeding candidates from the intersections happens once, in `solve`,
  before the rule loop starts.
- The naked-subset rule acts only on runs whose clue has a single listed
  combination.
- `smartBruteForceSolve` picks among all empty fill-in squares, fixed or
  not.
- It ends the whole search as soon as it sees an empty square without
  notes.
- Restoring a snapshot does not restore combination lists.
- In phase three, the generator abandons when the scan meets an eligible
  square with zero or one note.
- The phase-three scan stops a row early once it has found a square with
  two notes. See `Generator.ScanSkipsRestOfRow`.
- At a clue square with one nonzero clue, the combination-notes rule also
  prunes the other run. There the clue is zero, so the list is empty and
  every note of that run is erased. `ComboNotes.ComboNotesSound` therefore
  asks that every run with at least one square has a nonzero clue
  (`WellClued`).

## Model

| member | source | states |
|---|---|---|
| Cells.SetNote | cell.h:50 | Exactly note slot `i` (slot 0 being note-entry mode) takes the new flag; every other slot and every other field keeps its value |
| Cells.ClearNotes | puzzleboard.cpp:624-625 | After the ten-slot clearing loop no note is set and note-entry mode is off; nothing but the notes changed |
| Cells.SetValue | cell.cpp:215-220 | A digit 0..9 becomes the value; any argument outside 0..9 leaves the cell exactly as it was; only the value can change |
| Cells.HandleNumPress | cell.cpp:188-199 | A fixed cell ignores the press; outside note mode the press becomes the value unchecked; in note mode exactly note `n` flips and nothing else changes |
| Cells.Select | cell.cpp:201-206 | Selecting marks the cell selected and leaves note mode; value, notes and every other field are kept |
| Cells.Unselect | cell.cpp:208-213 | Unselecting clears the selection and leaves note mode; every other field is kept |
| Cells.NoteList | puzzleboard.cpp:598-601 | The noted digits as an ascending, repeat-free list holding exactly the members of the note set |
| Cells.NoteListInjective | puzzleboard.cpp:598-601 | Two note sets give the same list if and only if they are the same set, so the emitted digits identify the notes |
| Cells.PressTwiceRestores | cell.cpp:195-197 | In note mode, pressing the same digit twice gives back the original cell |
| Cells.ZeroPressLeavesNoteMode | cell.cpp:191-197 | In note mode a press of 0 toggles slot 0 and so leaves note mode; a second 0 then writes value 0 |
| Cells.LastPressWins | cell.cpp:189-194 | Outside note mode two presses in a row have the effect of the last one alone |
| Cells.SelectionKeepsContents | cell.cpp:201-213 | Selecting and unselecting never change the value or the notes, and unselecting after selecting equals unselecting alone |
| Cells.SetValueLastWins | cell.cpp:215-220 | Setting a value and then a digit equals setting the digit alone |
| Combos.SafeIndex | puzzleboard.cpp:165-168 | The index the successor step raises: every digit to its right is at its cap, and the digit there (if any, -1 meaning none) is below its cap |
| Combos.Raise | puzzleboard.cpp:176-180 | The successor keeps the digits left of the index, adds one there, and fills the rest with consecutive digits |
| Combos.RaiseIsCombo | puzzleboard.cpp:165-180 | A successor step of an ascending digit set is again an ascending digit set and comes strictly later in lexicographic order |
| Combos.NextIsLeast | puzzleboard.cpp:165-180 | The successor is the lexicographically next digit set: no ascending set of the same size lies strictly between a set and its successor |
| Combos.RaiseRank | puzzleboard.cpp:159-221 | Each step strictly increases a bounded rank, so the walk ends |
| Combos.CollectSound | puzzleboard.cpp:159-221 | Every set the walk appends solves (sum, count) and lies after the start; the appended list is strictly ascending |
| Combos.CollectComplete | puzzleboard.cpp:159-221 | Every ascending set after the start with the right sum is appended by the walk |
| Combos.Table | puzzleboard.cpp:130-231 | The table entry for (sum, count): empty when the count or sum is 0 or out of reach, otherwise the sets the successor walk collects from 1..count. It has no contract of its own; `Combos.TableExact` proves it holds exactly the ascending digit sets of that size and sum |
| Combos.TableExact | puzzleboard.cpp:134-221 | A digit set is in the table entry for (sum, count) if and only if it is ascending, has `count` digits from 1..9 and adds up to `sum` |
| Combos.TableComplete | puzzleboard.cpp:134-221 | Every solving digit set is listed |
| Combos.TableSound | puzzleboard.cpp:134-221 | Every listed digit set solves its entry |
| Combos.TableSorted | puzzleboard.cpp:196-218 | Each entry is strictly ascending and holds no set twice, so the disabled duplicate guard loses nothing |
| Combos.TableEntries | puzzleboard.cpp:134-221 | Every listed set of every entry, including the count-0 and sum-0 entries, solves that entry |
| Combos.TableEmpty | puzzleboard.cpp:136-142 | Count 0 or sum 0 gives an empty entry; otherwise an entry is empty exactly when no digit set solves it |
| Combos.UniqueMeansOneSet | puzzleboard.cpp:225-229 | The unique flag holds if and only if exactly one digit set solves (sum, count) |
| Combos.SingleEntry | puzzleboard.cpp:225-229 | When one digit set is the only solution, the entry is exactly that set and flagged unique |
| Combos.ThreeInTwo | puzzleboard.cpp:134-229 | The entry for 3 in 2 is [[1, 2]] and is unique |
| Combos.SeventeenInTwo | puzzleboard.cpp:134-229 | The entry for 17 in 2 is [[8, 9]] and is unique |
| Combos.AscendingSolves | puzzleboard.cpp:134-221 | Pairwise different digits, sorted, form a digit set of their count and sum that holds each of them; such a set is what the table lists |
| Boards.Put | puzzleboard.cpp:515-526 | Writing one square changes that square only and keeps the board's shape |
| Boards.RayMembers | puzzleboard.cpp:1965-1997 | A square is on the run walked from `p` in direction `d` if and only if it is reached in a straight line from `p` without crossing a clue square or the edge |
| Boards.RaySameLayout | puzzleboard.cpp:1965-1997 | Runs depend only on which squares are clues |
| Boards.RowMajorDistinct | puzzleboard.cpp:535-552 | The row-major order visits no square twice |
| Boards.PutDelta | puzzleboard.cpp:662-685 | Replacing one square changes any board measure by exactly the difference between the new and old square's weights |
| Boards.Assign | puzzleboard.cpp:1965-1997 | The square gets the value, and its notes become that digit alone, or none when the square is fixed or the value is 0. Every square it sees loses that digit as a note. Every other square is unchanged |
| Boards.AssignFacts | puzzleboard.cpp:1965-1997 | Assignment keeps the layout and every other value, removes the digit from every seen square's notes, and only ever removes notes elsewhere |
| Boards.AssignMeasure | puzzleboard.cpp:1965-1997 | Assigning a digit never adds an empty square, removes one when the square was an empty fill-in square, and keeps every earlier value |
| Boards.AssignFrame | puzzleboard.cpp:1965-1997 | Assigning an empty square, or a square its own value, extends the board |
| Boards.ClearBoard | puzzleboard.cpp:616-630 | Every square is replaced by its cleared form and the shape is kept |
| Boards.ClearBoardFacts | puzzleboard.cpp:616-630 | Clue and fixed squares are untouched; every other square loses its value, notes and note mode; clearing twice equals clearing once |
| Boards.HasEmptyCells | puzzleboard.cpp:1999-2010 | The scan over every square for an empty fill-in square. It has no contract of its own; `Boards.HasEmptyIn` and `Boards.HasEmptyCellsCount` state when it answers true |
| Boards.HasEmptyIn | puzzleboard.cpp:1999-2010 | The scan answers true if and only if some listed square is an empty fill-in square |
| Boards.HasEmptyCellsCount | puzzleboard.cpp:1999-2010 | The board has an empty fill-in square if and only if the empty-square measure is positive |
| Boards.TotalPositive | puzzleboard.cpp:1999-2010 | A board measure is positive if and only if some square has positive weight |
| Meta.Lookup | puzzleboard.cpp:1930-1933 | The table read for a clue: exactly the digit sets solving (sum, run length), and none for sum or length 0 |
| Meta.GovernorIsRunOwner | puzzleboard.cpp:1903-1963 | Walking back from a fill-in square finds clue square `p` if and only if the square lies on `p`'s run in that direction |
| Meta.GiveMeta | puzzleboard.cpp:1903-1963 | Every square is replaced by its metadata form and the shape is kept |
| Meta.GiveMetaClue | puzzleboard.cpp:1903-1963 | A clue square records the lengths of its two runs and lists exactly the digit sets solving each (sum, length) |
| Meta.GiveMetaRun | puzzleboard.cpp:1903-1963 | Every square on a clue's run carries that clue's sum and the run's length in that direction |
| Meta.GiveMetaFrame | puzzleboard.cpp:1903-1963 | Values, notes, note mode, fixed and selection flags, and clue sums are never touched |
| Meta.GiveMetaOrphan | puzzleboard.cpp:1903-1963 | A fill-in square with no clue above (or to the left) keeps its stale sum and gets length 0 in that direction |
| Meta.GiveMetaIdempotent | puzzleboard.cpp:1903-1963 | Re-running the metadata pass on its own result changes nothing |
| Meta.MetaCovers | puzzleboard.cpp:1903-1963 | For every solution of the clues whose squares hold digits, each run with a nonzero clue and at least one square has a combination listed at its clue square that holds the solution's digits on that run |
| Meta.RunDigitSet | puzzleboard.cpp:134-221 | A solution's digits on a run with a nonzero clue form a digit set of the run's length adding up to the clue, so the table entry lists it |
| Meta.DigitsOf | puzzleboard.cpp:1847-1901 | The union of the digits of a list of combinations |
| Meta.AllowedMeaning | puzzleboard.cpp:1847-1901 | A digit is allowed by a clue and run length if and only if some solving digit set contains it |
| Meta.WriteNotesFromIntersections | puzzleboard.cpp:1764-1790 | Every square is replaced by its seeded form and the shape is kept |
| Meta.IntersectNotes | puzzleboard.cpp:1847-1901 | The digits of the down clue's listed sets intersected with those of the right clue's, a zero clue allowing every digit. It has no contract of its own; `Meta.AllowedMeaning` and `Meta.SeededNotesExact` state the result from the clue squares |
| Meta.SeededNotesExact | puzzleboard.cpp:1847-1901 | For every unfixed fill-in square, a seeded note is a digit that, for each positive sum governing it, some solving set of that run length contains (a zero sum imposes nothing), and every such digit is seeded. A square with no clue square above (or to the left) is read with its stale sum and length 0, so a positive stale sum leaves it no notes |
| Meta.WriteNotesFrame | puzzleboard.cpp:1764-1790 | Seeding changes only notes, and never those of clue or fixed squares |
| Meta.AssignFixedStep | puzzleboard.cpp:1640-1650 | Reassigning a fixed square its own value changes no value and no fixed flag, and keeps fixed values in range |
| Meta.Clean | puzzleboard.cpp:1643-1647 | One square of the pass keeps every value and extends the board |
| Meta.RemoveNotesFixedValues | puzzleboard.cpp:1640-1650 | The pass keeps every value and fixed flag and extends the board |
| Meta.RemoveNotesFixedValuesSettles | puzzleboard.cpp:1640-1650 | Afterwards every fixed square has no notes, and no square it sees keeps its digit as a note |
| Snapshots.Capture | puzzleboard.cpp:534-550 | One iteration of the snapshot loop: the square writes its type, fixed flag, and clues or value, notes and note mode; fields it does not write keep what the previous square left in the reused record. It has no contract of its own; `Snapshots.Snapshot` states what every entry records |
| Snapshots.Snapshot | puzzleboard.cpp:531-555 | One entry per square in row-major order, recording the type, fixed flag and clues or value, notes and note mode of that square |
| Snapshots.RestoreCell | puzzleboard.cpp:508-529 | One iteration of the restore loop: type, clues or value (through the 0..9 guard of setValue), all ten note slots and the fixed flag are set, nothing else. It has no contract of its own; `Snapshots.RestoreSnapshot` states what a snapshot written back restores |
| Snapshots.Restore | puzzleboard.cpp:508-529 | The first entries are written back onto the squares in row-major order and the shape is kept |
| Snapshots.RestoreSnapshot | puzzleboard.cpp:508-555 | Writing a snapshot of one board onto another of the same size restores type, fixed flag, clue sums, fill-in values, notes and note mode. It keeps the target's metadata, combination lists and selection |
| Solved.RunValues | puzzleboard.cpp:2045-2053 | One value per square of the run |
| Solved.ValidSum | puzzleboard.cpp:2039-2075 | The walk with the used flags over a run's values. It has no contract of its own; `Solved.ValidSumMeaning` states it gives -1 on a repeat and the sum otherwise |
| Solved.ValidSumMeaning | puzzleboard.cpp:2039-2075 | The run-sum walk gives -1 when a value repeats and the sum of the run otherwise |
| Solved.CheckSolved | puzzleboard.cpp:2012-2037 | The row-major scan that fails at the first empty fill-in square or the first nonzero clue its run does not meet. It has no contract of its own; `Solved.CheckSolvedMeaning` states when it accepts |
| Solved.CheckSolvedMeaning | puzzleboard.cpp:2012-2037 | checkSolved accepts a board if and only if every fill-in square has a value and every nonzero clue equals the repeat-free sum of its run |
| Solved.SolvedHasNoEmpty | puzzleboard.cpp:2012-2037 | A board checkSolved accepts has no empty fill-in square |
| Solved.CheckSolvedSameValues | puzzleboard.cpp:2012-2037 | checkSolved depends only on the layout, the values and the clue sums |
| Scans.Filter | puzzleboard.cpp:998-1014 | Keeps exactly the listed combinations that pass, in order, and is the identity exactly when all pass |
| Scans.EraseLoopIsFilter | puzzleboard.cpp:998-1014 | The erase-while-iterating loop from any position equals filtering the rest of the list |
| Scans.RestrictSquare | puzzleboard.cpp:1792-1821 | Intersecting one square's notes with a kept set changes only that square, only removes notes, and reports a change exactly when a note went |
| Scans.RestrictRun | puzzleboard.cpp:1395-1519 | Restricting the notes of a run square by square only removes notes, each square's notes becoming their intersection with its kept set |
| Scans.AgreesShrunk | puzzleboard.cpp:1395-1519 | Deleting notes keeps a completion whose digits were kept |
| Scans.CoversShrunk | puzzleboard.cpp:1395-1519 | Deleting notes leaves the combination lists alone, so every run of the completion with a nonzero clue and at least one square stays covered |
| Scans.CoveredRun | puzzleboard.cpp:1667-1762 | Under `Covers` and `WellClued`, every run of a clue square is empty or has a listed combination holding the completion's digits |
| Scans.AssignAgrees | puzzleboard.cpp:1802-1821 | Writing a completion's own digit into an empty square, and erasing it from the notes of the squares that square sees, keeps the completion, when the completion repeats no digit on a run |
| Scans.AssignTracks | puzzleboard.cpp:1965-1997 | Writing a repeat-free completion's own digit into a square keeps the completion, its listed combinations and the tidy shape of the board |
| Scans.ShrunkTracks | puzzleboard.cpp:1395-1519 | Deleting notes keeps the tidy shape and the listed combinations, so a completion whose digits were kept is still tracked |
| Singles.LoneNote | puzzleboard.cpp:1802-1812 | Nonzero exactly when the note set has one digit, and then that digit |
| Singles.WriteCellsWithOneNote | puzzleboard.cpp:1792-1821 | Every written value was a note of its square; a change lowers the number of empty squares; no change leaves the board alone |
| Singles.SinglesQuiet | puzzleboard.cpp:1792-1821 | The rule reports no change if and only if no empty fill-in square has exactly one note |
| Singles.SinglesFires | puzzleboard.cpp:1792-1821 | A reported change implies some visited square had a single note |
| Singles.SinglesSound | puzzleboard.cpp:1792-1821 | Writing every lone note keeps each completion that uses only surviving notes and repeats no digit on a run |
| Singles.SinglesTracks | puzzleboard.cpp:1792-1821 | The pass keeps every tracked completion that repeats no digit on a run |
| Ranges.MinNote | puzzleboard.cpp:1823-1833 | The value of a filled square, 10 for an empty square without notes, otherwise the least note |
| Ranges.MaxNote | puzzleboard.cpp:1835-1845 | The value of a filled square, 0 for an empty square without notes, otherwise the greatest note |
| Ranges.Between | puzzleboard.cpp:1395-1519 | Exactly the digits 1..9 inside the bounds |
| Ranges.RangeRun | puzzleboard.cpp:1395-1519 | One run only loses notes; a reported change lowers the note count and no change leaves the board alone |
| Ranges.RangeRunQuiet | puzzleboard.cpp:1395-1519 | A run reports no change if and only if every empty square's notes already lie inside its window [clue - (maxSum - ownMax), clue - (minSum - ownMin)] |
| Ranges.AdjustNotesByLogicalRange | puzzleboard.cpp:1395-1519 | The whole pass only removes notes and makes progress or leaves the board alone |
| Ranges.RangesQuiet | puzzleboard.cpp:1395-1519 | The pass reports no change if and only if every run is inside its windows |
| Ranges.WindowSound | puzzleboard.cpp:1395-1519 | A value between its square's bounds in a run of values that adds up to the clue always lies inside its window |
| Ranges.RangeRunSound | puzzleboard.cpp:1395-1519 | Pruning one run never deletes the digit a solution consistent with the notes puts there |
| Ranges.RangesSound | puzzleboard.cpp:1395-1519 | The whole pass keeps every solution consistent with the notes |
| Ranges.RangesTracks | puzzleboard.cpp:1395-1519 | The pass keeps every tracked solution |
| ComboFilter.FilterRun | puzzleboard.cpp:976-1139 | Keeps, in order, exactly the combinations consistent with the run's placed values and notes, and is shorter exactly when one was dropped |
| ComboFilter.ListsShrunkFromNotes | puzzleboard.cpp:976-1139 | Dropping combinations keeps every value and note, and every solution consistent with the notes stays so |
| ComboFilter.Filtered | puzzleboard.cpp:976-1139 | A clue square's new lists are sub-lists of its old ones |
| ComboFilter.FilterAt | puzzleboard.cpp:976-1139 | One square's step only shortens combination lists and makes progress or reports no change |
| ComboFilter.FilterAtCells | puzzleboard.cpp:976-1139 | Only a clue square with a nonzero clue is touched, and it gets its filtered lists |
| ComboFilter.UpdateClueCellCombos | puzzleboard.cpp:976-1139 | The pass only shortens combination lists and makes progress or leaves the board alone |
| ComboFilter.ComboFilterQuiet | puzzleboard.cpp:976-1139 | The pass reports no change if and only if every listed combination passes both filters on its run |
| ComboFilter.ComboFilterSettles | puzzleboard.cpp:976-1139 | After one pass every listed combination of every clue square with a nonzero clue passes its run's checks against the new board, so a second pass reports no change |
| ComboFilter.FilterKeeps | puzzleboard.cpp:976-1139 | A combination holding the digits of a consistent solution survives the filter |
| ComboFilter.FilterAtSound | puzzleboard.cpp:976-1139 | One square's step keeps, for every run with a nonzero clue and at least one square, a combination holding the solution's digits |
| ComboFilter.ComboFilterSound | puzzleboard.cpp:976-1139 | The whole pass keeps, for every run with a nonzero clue and at least one square, a combination holding the solution's digits |
| ComboFilter.FilterTracks | puzzleboard.cpp:976-1139 | The pass keeps every tracked completion: notes and values are untouched, and the shortened lists still fit their runs and cover the completion |
| Uniques.Scan | puzzleboard.cpp:1157-1180 | The digits left over come from the combination; the empty square found is empty; no empty square found means none was there |
| Uniques.ScanFires | puzzleboard.cpp:1157-1186 | When one digit is left and an empty square was found, that square is the run's only empty square and filling it makes the run's values a permutation of the combination |
| Uniques.UniqueRun | puzzleboard.cpp:1141-1231 | A run changes exactly when the rule fires; a change fills an empty square and extends the board |
| Uniques.Written1 | puzzleboard.cpp:1182-1186 | The square and digit the firing run writes: the run's result is that assignment |
| Uniques.UniqueRunCompletes | puzzleboard.cpp:1141-1231 | A firing run had exactly one empty square, it is filled, and the run then holds exactly the combination's digits |
| Uniques.SolveUniquesWithOneEmpty | puzzleboard.cpp:1141-1231 | The pass extends the board, and a change lowers the number of empty squares |
| Uniques.UniquesQuiet | puzzleboard.cpp:1141-1231 | The pass reports no change if and only if no run with a nonzero clue fires |
| Uniques.UniqueRunSound | puzzleboard.cpp:1141-1231 | The digit written is the one every solution puts there that is consistent with the notes and has its digits on this run in a listed combination |
| Uniques.UniquesSound | puzzleboard.cpp:1141-1231 | The whole pass keeps every tracked solution that repeats no digit and has a nonzero clue on every non-empty run: each digit it writes is the solution's |
| Necessary.Target | puzzleboard.cpp:1233-1393 | Either -1 or the index of a run square that holds the digit as a note |
| Necessary.TargetMeaning | puzzleboard.cpp:1233-1393 | A target exists exactly when the digit is in every combination and exactly one empty square of the run notes it, and then it is that square |
| Necessary.NecessaryRun | puzzleboard.cpp:1233-1393 | A run changes exactly when some digit has a target; a change writes only noted digits and lowers the number of empty squares |
| Necessary.SolveCellsWithNecessaryValue | puzzleboard.cpp:1233-1393 | The pass writes only noted digits and makes progress or leaves the board alone |
| Necessary.NecessaryQuiet | puzzleboard.cpp:1233-1393 | The pass reports no change if and only if no run with a nonzero clue has a digit with a target |
| Necessary.NecessarySound | puzzleboard.cpp:1233-1393 | The target square is where every solution puts the necessary digit, when the solution is consistent with the notes, has its digits on this run in a listed combination, every listed combination has the run's length and no square of the run already holds the digit |
| Necessary.NecessaryPassSound | puzzleboard.cpp:1233-1393 | The whole pass keeps every tracked solution that repeats no digit: each digit it writes is the solution's |
| Necessary.AssignStep | puzzleboard.cpp:1965-1997 | Writing a noted digit keeps every written value taken from the notes of the board before |
| NakedSubsets.GroupFrom | puzzleboard.cpp:1521-1638 | The ascending indices of exactly the squares whose notes equal a given set |
| NakedSubsets.Strip | puzzleboard.cpp:1521-1638 | Squares outside the group keep only digits not in the group's set; group squares keep everything |
| NakedSubsets.NakedRun | puzzleboard.cpp:1521-1638 | A run only loses notes and makes progress or reports no change |
| NakedSubsets.RemoveExtraNotesFromUniques | puzzleboard.cpp:1521-1638 | The pass only removes notes and makes progress or leaves the board alone |
| NakedSubsets.StripQuiet | puzzleboard.cpp:1521-1638 | Stripping a group changes nothing if and only if no other square shares a note with it |
| NakedSubsets.NakedRunQuiet | puzzleboard.cpp:1521-1638 | A run reports no change if and only if, when its clue has a single combination, every naked group already has its digits to itself |
| NakedSubsets.NakedQuiet | puzzleboard.cpp:1521-1638 | The pass reports no change if and only if every single-combination run is already separated |
| NakedSubsets.GroupTakesAll | puzzleboard.cpp:1521-1638 | k squares sharing the same k notes use up those digits, so no other square of a repeat-free run takes one |
| NakedSubsets.NakedRunSound | puzzleboard.cpp:1521-1638 | Stripping keeps every solution consistent with the notes, on a run with a nonzero clue whose filled squares carry at most one note each |
| NakedSubsets.NakedSound | puzzleboard.cpp:1521-1638 | The whole pass keeps every tracked solution with a nonzero clue on every non-empty run |
| ComboNotes.Possible | puzzleboard.cpp:1667-1762 | Exactly the digits 1..9 that occur in some listed combination |
| ComboNotes.ComboRun | puzzleboard.cpp:1667-1762 | A run only loses notes and makes progress or reports no change |
| ComboNotes.ComboRunQuiet | puzzleboard.cpp:1667-1762 | A run reports no change if and only if every square's notes are possible digits |
| ComboNotes.RemoveNotesNotInPossibleCombos | puzzleboard.cpp:1667-1762 | The pass only removes notes and makes progress or leaves the board alone |
| ComboNotes.ComboNotesQuiet | puzzleboard.cpp:1667-1762 | The pass reports no change if and only if every run's notes are within its possible digits |
| ComboNotes.ComboNotesSettles | puzzleboard.cpp:1667-1762 | After one pass, for every clue square with a nonzero clue, the notes of both its runs' squares lie within that run's possible digits on the new board, so a second pass reports no change |
| ComboNotes.ComboRunSound | puzzleboard.cpp:1667-1762 | Pruning one run keeps every completion whose digits on that run some listed combination holds; an empty run changes nothing |
| ComboNotes.ComboNotesSound | puzzleboard.cpp:1667-1762 | The whole pass keeps every completion covered on its runs with a nonzero clue, provided every run with at least one square has a nonzero clue |
| ComboNotes.ComboNotesTracks | puzzleboard.cpp:1667-1762 | The pass keeps every tracked completion with a nonzero clue on every non-empty run |
| Solver.Pass | puzzleboard.cpp:675-681 | Each of the seven rules extends the board and makes progress or leaves it alone |
| Solver.Cycle | puzzleboard.cpp:668-681 | The nested loops stop on a board where none of the enabled rules changes anything, having only extended the board |
| Solver.LogicSolve | puzzleboard.cpp:662-685 | A board with no empty square is only checked. Otherwise the loops reach a board that every enabled rule leaves alone, four rules in lazy mode and seven otherwise. The verdict is checkSolved of the final board |
| Solver.LogicSolveFixed | puzzleboard.cpp:662-685 | The loops leave a board unchanged if and only if it was already quiet |
| Solver.LogicSolveIdempotent | puzzleboard.cpp:662-685 | Running the loops again on their result gives the same board and verdict |
| Solver.LogicSolveSound | puzzleboard.cpp:662-685 | The verdict is true if and only if the final board is a solution |
| Solver.PassTracks | puzzleboard.cpp:675-681 | Each of the seven rules keeps every tracked solution that repeats no digit and has a nonzero clue on every non-empty run |
| Solver.LogicSolveTracks | puzzleboard.cpp:662-685 | The nested loops keep such a solution, and a final board with no empty square holds exactly its digits |
| Solver.QuietMeaning | puzzleboard.cpp:668-681 | The board is quiet for all seven rules if and only if each rule's settled predicate holds on every square |
| Solver.PassQuiet | puzzleboard.cpp:675-681 | Rule `k` reports no change if and only if its settled predicate holds |
| Solver.Pick | puzzleboard.cpp:697-729 | A picked index is an empty fill-in square in row-major order |
| Solver.PickMeaning | puzzleboard.cpp:697-729 | No pick exactly when some empty fill-in square has no notes. Otherwise the pick has the fewest notes, and strictly fewer than every earlier candidate |
| Solver.PickNoneMeaning | puzzleboard.cpp:723-725 | The scan gives up exactly when some empty fill-in square has no notes |
| Solver.RestoreAfter | puzzleboard.cpp:732-749 | Writing the saved snapshot back after a failed try restores every fill-in square's value, notes and note mode |
| Solver.BruteForce | puzzleboard.cpp:688-753 | A true verdict comes with a board checkSolved accepts that extends the input; a false one with the input's squares restored; a full board is only checked |
| Solver.TryNotes | puzzleboard.cpp:735-752 | Trying the notes from digit `i` on either succeeds with an accepted board extending the saved one or ends restored |
| Solver.BruteForceStuck | puzzleboard.cpp:717-726 | An empty fill-in square without notes makes the search fail at once with the board unchanged |
| Solver.BruteForceSound | puzzleboard.cpp:688-753 | A true verdict means the board is a solution keeping every value the input had |
| Solver.Prepare | puzzleboard.cpp:642-645 | Preparation keeps layout, clue sums and fixed flags, keeps fixed values and empties every other fill-in square |
| Solver.Solve | puzzleboard.cpp:641-660 | The result extends the prepared board, and a true verdict comes with a board checkSolved accepts |
| Solver.SolveSound | puzzleboard.cpp:641-660 | A true verdict means a solution that keeps every clue sum and every fixed value |
| Solver.SolveReady | puzzleboard.cpp:641-660 | Solving keeps the layout, clue sums, fixed flags and fixed values, so the board can be solved again |
| Solver.PrepareTidy | puzzleboard.cpp:642-645 | The prepared board is tidy: its lists fit their runs, no fixed digit is a note of a square that sees it, and a fixed square has at most one note |
| Solver.PrepareTracks | puzzleboard.cpp:642-645 | Every solution that keeps the prepared board's notes and values is tracked by it |
| Solver.SolveFinds | puzzleboard.cpp:641-685 | Every such solution survives the logic solver, and a solved verdict means the board holds exactly its digits |
| Layout.PatchDir | puzzleboard.cpp:2536-2562 | One direction of one clue square only ever turns fill-in squares into clues |
| Layout.PatchDirQuiet | puzzleboard.cpp:2536-2562 | The step changes something if and only if the neighbour is a single fill-in square with a clue beyond it, and then the neighbour becomes a clue |
| Layout.PatchAtQuiet | puzzleboard.cpp:2528-2564 | A clue square changes nothing if and only if no direction has a single-square run |
| Layout.Sweep | puzzleboard.cpp:2528-2565 | One pass over every square: the map only gains clue squares, a reported change leaves fewer fill-in squares, and no change leaves the map exactly as it was |
| Layout.SweepQuiet | puzzleboard.cpp:2528-2565 | A full sweep changes nothing if and only if the map has no single-square run |
| Layout.Patch | puzzleboard.cpp:2522-2566 | The repeat-until-unchanged loop ends with no single-square run and only ever adds clues |
| Layout.PatchStable | puzzleboard.cpp:2522-2566 | A map with no single-square run is left as it is |
| Layout.Fill | puzzleboard.cpp:2873-2891 | The flood fill only marks squares and never unmarks one |
| Layout.FillFilled | puzzleboard.cpp:2873-2891 | The fill is closed: every fill-in neighbour of a newly marked square is marked |
| Layout.FillReached | puzzleboard.cpp:2873-2891 | Every square the fill marks is reachable from the start through fill-in squares |
| Layout.Flood | puzzleboard.cpp:2587-2590 | The flood board has the map's shape |
| Layout.FloodExact | puzzleboard.cpp:2587-2590 | A square is marked if and only if it is reachable from the start through fill-in squares |
| Layout.FloodNoClue | puzzleboard.cpp:2873-2891 | No clue square is ever marked |
| Layout.FirstNonClueIsOne | puzzleboard.cpp:2579-2586 | When the map has a fill-in square, the first one in row-major order is a fill-in square |
| Layout.ContiguousConnected | puzzleboard.cpp:2595-2614 | An accepted map has a fill-in square and all fill-in squares are mutually reachable |
| Layout.ConnectedContiguous | puzzleboard.cpp:2595-2614 | Every map with a fill-in square whose fill-in squares are mutually reachable is accepted |
| Layout.Contiguous | puzzleboard.cpp:2595-2614 | The comparison of the flood against the fill-in squares together with the non-empty test. It has no contract of its own; `Layout.ContiguousMeaning` states it accepts exactly the connected non-empty maps |
| Layout.ContiguousMeaning | puzzleboard.cpp:2595-2614 | The flood-fill comparison and the non-empty test accept a map if and only if its fill-in squares form one non-empty connected region |
| Generator.SumAlongMeaning | puzzleboard.cpp:2748-2761 | The summing loop adds exactly the values on the run |
| Generator.DeriveClues | puzzleboard.cpp:2742-2764 | Every square is replaced by its derived form and the shape is kept |
| Generator.DeriveCluesSums | puzzleboard.cpp:2742-2764 | After derivation every clue square's two sums are the sums of its runs' values, and values and layout are kept |
| Generator.DerivedSolves | puzzleboard.cpp:2737-2765 | A filled board with no repeat in any run solves its derived clues, and checkSolved accepts it |
| Generator.TooDense | puzzleboard.cpp:2779-2800 | The cutoff: more than eight notes per empty square on average. It has no contract of its own; `Generator.TooDenseMeaning` relates it to squares still carrying all nine notes |
| Generator.TooDenseMeaning | puzzleboard.cpp:2779-2800 | The density cutoff fires only if some empty square still has all nine notes, and always fires when every empty square has |
| Generator.CountNotes | puzzleboard.cpp:2820-2828 | The note-counting loop. Its own contract says only that the count is not negative; `Generator.CountNotesMeaning` states the capped count and the last note |
| Generator.CountNotesMeaning | puzzleboard.cpp:2820-2828 | The loop counts exactly up to `min` and stops at `min + 1`; when it completes, `lastNote` is the largest note, or 0 without notes |
| Generator.Scan | puzzleboard.cpp:2806-2843 | The row-by-row scan for the square to fix, with its early quit and row break. It has no contract of its own; `Generator.ScanMeaning` and `Generator.ScanSkipsRestOfRow` state what it finds |
| Generator.ScanMeaning | puzzleboard.cpp:2806-2843 | The scan quits only when an eligible square has at most one note. It finds no square exactly when none is eligible. Otherwise its pick has at least two notes and no eligible square with two or more notes has fewer |
| Generator.ScanSkipsRestOfRow | puzzleboard.cpp:2840-2841 | Once a square with two notes is found, the rest of its row is skipped, even a later square with a single note |
| Generator.Fix | puzzleboard.cpp:2851-2855 | The fixed square gets the chosen digit, the fixed flag and no notes, and nothing else of it changes |
| Generator.FixStep | puzzleboard.cpp:2851-2856 | Fixing a square keeps the board ready for solving, keeps layout, sums and fixed values, and lowers the number of unfixed squares |
| Generator.FixLoop | puzzleboard.cpp:2804-2863 | The loop that scans, fixes the chosen square to its largest note and solves again with logic only; it ends because every pass fixes one more square. `Generator.FixLoopSound` states what a made puzzle comes with |
| Generator.FixLoopSound | puzzleboard.cpp:2804-2863 | Whenever the fix loop ends with a puzzle, its last board is a solution keeping layout, sums and fixed values, and the puzzle is that board cleared |
| Generator.Phase3 | puzzleboard.cpp:2767-2863 | One logic-only solve, the density cutoff, then the fix loop. It has no contract of its own; `Generator.Phase3Sound` states what a puzzle from it comes with |
| Generator.Phase3Sound | puzzleboard.cpp:2767-2863 | A puzzle from phase three passed the density cutoff, and comes with a solution that keeps the given layout, sums and fixed values; the puzzle is that solution cleared |
| Kak.GetUInt | puzzleboard.cpp:18-34 | The number read is an unsigned 32-bit value and no more text remains than was given |
| Kak.GetUIntStops | puzzleboard.cpp:18-34 | Reading stops at the first non-digit, and consumes text exactly when the text starts with a digit |
| Kak.GetUIntDigits | puzzleboard.cpp:18-34 | The decimal digits of any number below 2^32, followed by a non-digit, read back as that number and leave exactly the follower |
| Kak.RemoveSpaces | puzzleboard.cpp:36-40 | The result is never longer, and is the same text when nothing was removed |
| Kak.RemoveSpacesMeaning | puzzleboard.cpp:36-40 | The input is a run of blanks followed by the result, the result does not start with a blank, and removing again changes nothing |
| Kak.ReadRaw | puzzleboard.cpp:378-470 | The reader before padding: the `ROWSxCOLS SIZE` header, the cells up to the time marker or the square count, then the time; an out-of-range square count is undefined. It has no contract of its own; `Kak.HeaderBack`, `Kak.CellsBack` and `Kak.RoundTrip` state what it reads back |
| Kak.ReadCell | puzzleboard.cpp:399-457 | A pushed cell consumes text; a step that pushes nothing consumes nothing only by leaving the text as it was |
| Kak.SkipRepeats | puzzleboard.cpp:455-457 | A step that pushes and consumes nothing is not helped by the trailing blank removal either: the loop makes no progress and spins |
| Kak.NoteCharsBack | puzzleboard.cpp:435-445 | The note digits the writer emits read back as the same note set |
| Kak.CellBack | puzzleboard.cpp:399-457 | The text of a cell the writer emits, before a blank, reads back as that cell in normal form |
| Kak.CellsBack | puzzleboard.cpp:397-458 | The written cells read back in order, in normal form, and the reader stops at the time marker |
| Kak.HeaderBack | puzzleboard.cpp:381-387 | The written header reads back as the rows, columns and cell size |
| Kak.TimeText | puzzleboard.cpp:2384-2404 | The `HH:MM:SS` text with C++ truncating division. It has no contract of its own; `Kak.TimeBack` states that it reads back |
| Kak.TimeBack | puzzleboard.cpp:463-470 | The hh:mm:ss text of any non-negative 32-bit count of seconds reads back as the same count |
| Kak.Pad | puzzleboard.cpp:475-490 | Exactly the wanted number of entries: the read ones, then blank fill-in entries |
| Kak.Load | puzzleboard.cpp:378-490 | The reader with the padding corrected. It has no contract of its own; `Kak.LoadSize` and `Kak.RoundTrip` state its size and what it reads back |
| Kak.LoadSize | puzzleboard.cpp:475-490 | With the corrected padding, every successful load holds exactly rows x cols entries |
| Kak.LoadAsWritten | puzzleboard.cpp:378-490 | The reader with the padding loop as written. It has no contract of its own; `Kak.PadOverruns` and `Kak.LoadAsWrittenOverruns` show the extra entry |
| Kak.PadOverruns | puzzleboard.cpp:483-485 | As written, padding a short list yields one entry more than the board has squares |
| Kak.LoadAsWrittenOverruns | puzzleboard.cpp:378-490 | "1x1 40" loads as two entries for a one-square board as written, and as one entry with the corrected padding |
| Kak.Validate | puzzleboard.cpp:233-261 | The validator: at least eight characters, no banned character and a leading `ROWSxCOLS` with both numbers nonzero. It has no contract of its own; `Kak.NoBannedMeaning`, `Kak.WrittenValid` and `Kak.ValidatedMayHang` state what it accepts |
| Kak.NoBannedMeaning | puzzleboard.cpp:239-248 | The character scan rejects a text exactly when it holds a character from '!' up to but not including '~' outside the allowed ones |
| Kak.ValidatedMayHang | puzzleboard.cpp:233-261 | "1x1 1 ((" passes the validator, yet the reader never finishes on it |
| Kak.ValidatedOverruns | puzzleboard.cpp:483-485 | A string the validator accepts, naming four squares and holding three cells, comes back from the reader as written with five cells and from the corrected reader with four |
| Kak.Write | puzzleboard.cpp:564-614 | The header, every cell and a zero time. It has no contract of its own; `Kak.RoundTrip` and `Kak.WrittenValid` state what the reader and the validator make of it |
| Kak.KakString | puzzleboard.cpp:557-562 | The written text with its eight-character zero time replaced by the elapsed time. It has no contract of its own; `Kak.RoundTrip` states that the seconds read back |
| Kak.RoundTrip | puzzleboard.cpp:557-614 | Reading what the writer emits gives back the rows, columns, cell size, every cell in normal form and the seconds; the as-written reader agrees on every written text |
| Kak.WrittenValid | puzzleboard.cpp:557-614 | Every text the writer emits for a board of at least one row and one column passes the validator |

The "normal form" of a cell is what the format can carry:

- a clue entry keeps its two sums and loses its notes and note mode;
- a fill-in entry keeps its value and notes and loses note mode;
- a fill-in entry keeps its fixed flag only when it has no notes, because
  the writer emits `n` and omits `f` when both apply.

## Left out

- Drawing, colours, the Qt widget, mouse and keyboard handling and cursor movement are not modelled: puzzleboard.cpp:2077-2382 and cell.cpp:27-186. They are presentation, not engine logic. `Cell::handleNumPress`, `select` and `unselect` are kept without their `draw()` calls.
- mainwindow.cpp and combohelperdialog.cpp are not part of this model. They are the user interface around the engine.
- The randomised parts of `generateBoard` are left out because they depend on `rand()`, which the model does not have. These are the random clue layout of phase one (puzzleboard.cpp:2437-2516) and the shuffled value fill of phase two (puzzleboard.cpp:2633-2735). Their results enter the model as arbitrary boards, with the properties those loops establish taken as preconditions (no repeated value in a run for `Generator.DerivedSolves`).
- The retry loops and counters of `generateBoard` are not modelled. Each phase is modelled as one attempt that reports success or "start again".
- The reload of the phase-two board through the KAK text (puzzleboard.cpp:2773) is not modelled. It is replaced by passing the board to phase three directly. No lemma follows a board through snapshot, write, load and restore. `Kak.RoundTrip` covers only the text step. It shows the text keeps the size, the clue sums, the values, the notes, and the fixed flag of a square without notes. Note mode, combination lists and metadata are not in the text.
- Phase three's precondition that clue sums are in 0..45 and runs are at most 9 long (`Meta.MetaReady`) is required, not derived from the random layout.
- Uniqueness of the generated puzzle is not stated. The model proves only that the returned puzzle comes with a solution; the program relies on the logic solver alone.
- `removeNotesNotInPossiblePerms` (puzzleboard.cpp:755-974) is left out because its call in `logicSolve` is commented out.
- `setCellsInfo` (puzzleboard.cpp:263-376) is left out because it is a second copy of the reader that nothing calls.
- `putBackFixedValues` (puzzleboard.cpp:1652-1665) is left out because nothing calls it.
- `QChar::digitValue` is modelled for ASCII digits only. Other Unicode digits are treated as non-digits.
- The padding cell's fields that the source leaves indeterminate are modelled as 0/false: the fixed flag and the second clue.
- The uninitialised `CellInfo` record that `getCellsInfoFromCellArray` reuses is not modelled before its first write: the model starts it blank (`Snapshots.Unset`). Only what the first square leaves unwritten depends on this; the carry-over between later squares is modelled.
- The `rows*cols` product of the reader is not modelled as a 32-bit overflow. The model treats it as an unbounded integer, and the round trip requires it to be below 2^31.
- The elapsed-seconds timer is a parameter. It is not read from a clock.
- Memory management, `QTimer` and `setFixedSize` are left out.
- Kak.GetUInt: its own contract states only the range and that no text is added. The exact digits-to-number meaning is stated by `Kak.GetUIntDigits` and `Kak.GetUIntStops`.
- Kak.RoundTrip: it holds for normal-form cells only, because the format cannot carry the fields listed above.
- Solver.SolveFinds: it assumes that the solution keeps the notes and values of the prepared board (`Agrees(Prepare(b), s)`) rather than deriving it from the clues. Seeding from the intersections can drop a solution's digit at a square that no clue square's run reaches in some direction, because that square keeps the sum it carried before and its notes follow that stale sum. The model does not characterise the boards where this cannot happen.
- Generator.Phase3Sound: it does not state that phase three returns a puzzle at all, because the source may ask for new clues at any step.

## Findings

| source | as written | input that shows it | evidently intended | confidence | as-written member | corrected member |
|---|---|---|---|---|---|---|
| puzzleboard.cpp:483-485 | The padding loop runs `i` from the number of cells read up to and including `rows*cols`, appending one blank cell too many. `updateCellArray` then writes index `rows*cols`, one row past the cell array | "1x1 40" (a 1x1 board whose cell list is missing); "2x2 40 - - -", which the validator accepts, comes back with five cells | Pad up to exactly `rows*cols` cells, `i < newRows*newCols` | not executed | Kak.LoadAsWrittenOverruns, Kak.ValidatedOverruns | Kak.LoadSize |

=== FILE: board.dfy ===
/** The board of puzzleboard.cpp: a rows x cols grid of cells, the straight
    runs a clue governs, the row-major scans every solver pass uses, and the
    board-level primitives (assignment with peer-note erasure, clearing, the
    empty-cell test). */
module Boards {
  import opened Cells

  datatype Pos = Pos(r: int, c: int)

  datatype Board = Board(rows: int, cols: int, cells: seq<seq<Cell>>)

  /** The four directions of common.h. */
  datatype Dir = Up | Right | Down | Left

  predicate Shaped(b: Board) {
    && 0 <= b.rows && 0 <= b.cols
    && |b.cells| == b.rows
    && forall r :: 0 <= r < b.rows ==> |b.cells[r]| == b.cols
  }

  predicate InBounds(b: Board, p: Pos) {
    0 <= p.r < b.rows && 0 <= p.c < b.cols
  }

  function At(b: Board, p: Pos): Cell
    requires Shaped(b) && InBounds(b, p)
  {
    b.cells[p.r][p.c]
  }

  function Put(b: Board, p: Pos, x: Cell): (b': Board)
    requires Shaped(b) && InBounds(b, p)
    ensures Shaped(b') && b'.rows == b.rows && b'.cols == b.cols
    ensures At(b', p) == x
    ensures forall q :: InBounds(b, q) && q != p ==> At(b', q) == At(b, q)
  {
    b.(cells := b.cells[p.r := b.cells[p.r][p.c := x]])
  }

  /** Boards of the same shape that agree on every square are equal. */
  lemma BoardExt(a: Board, b: Board)
    requires Shaped(a) && Shaped(b) && a.rows == b.rows && a.cols == b.cols
    requires forall q :: InBounds(a, q) ==> At(a, q) == At(b, q)
    ensures a == b
  {
    forall r | 0 <= r < a.rows
      ensures a.cells[r] == b.cells[r]
    {
      forall c | 0 <= c < a.cols
        ensures a.cells[r][c] == b.cells[r][c]
      {
        assert InBounds(a, Pos(r, c));
      }
    }
  }

  /** Two boards of the same shape with clue squares in the same places. */
  ghost predicate SameLayout(a: Board, b: Board) {
    && Shaped(a) && Shaped(b) && a.rows == b.rows && a.cols == b.cols
    && forall q :: InBounds(a, q) ==> At(a, q).isClue == At(b, q).isClue
  }

  lemma SameLayoutTrans(a: Board, b: Board, c: Board)
    requires SameLayout(a, b) && SameLayout(b, c)
    ensures SameLayout(a, c)
  {
  }

  // ---------------------------------------------------------------------------
  // Runs

  /** `k` squares from `p` in direction `d`. */
  function Walk(p: Pos, d: Dir, k: int): Pos {
    match d
    case Up => Pos(p.r - k, p.c)
    case Right => Pos(p.r, p.c + k)
    case Down => Pos(p.r + k, p.c)
    case Left => Pos(p.r, p.c - k)
  }

  function Dist(b: Board, p: Pos, d: Dir): int {
    match d
    case Up => p.r
    case Right => b.cols - 1 - p.c
    case Down => b.rows - 1 - p.r
    case Left => p.c
  }

  /** The fill-in squares after `p` in direction `d`, up to the first clue
      square or the edge: the squares every run-walking loop visits before
      it stops at a clue. */
  function Ray(b: Board, p: Pos, d: Dir): seq<Pos>
    requires Shaped(b)
  {
    RayFrom(b, p, d, 1)
  }

  function RayFrom(b: Board, p: Pos, d: Dir, k: int): seq<Pos>
    requires Shaped(b)
    decreases Dist(b, p, d) + 1 - k
  {
    var q := Walk(p, d, k);
    if !InBounds(b, q) || At(b, q).isClue then []
    else [q] + RayFrom(b, p, d, k + 1)
  }

  /** The run with its facts attached, for use inside expressions. */
  function Run(b: Board, p: Pos, d: Dir): (ps: seq<Pos>)
    requires Shaped(b)
    ensures ps == Ray(b, p, d)
    ensures forall i :: 0 <= i < |ps| ==> InBounds(b, ps[i]) && !At(b, ps[i]).isClue
    ensures forall i, j :: 0 <= i < j < |ps| ==> ps[i] != ps[j]
  {
    RayFacts(b, p, d);
    Ray(b, p, d)
  }

  /** Membership in a run, stated without the scan: `q` is `k` squares away
      and every square up to it is an in-bounds fill-in square. */
  ghost predicate Reaches(b: Board, p: Pos, d: Dir, q: Pos)
    requires Shaped(b)
  {
    exists k :: 1 <= k && q == Walk(p, d, k) && Open(b, p, d, k)
  }

  ghost predicate Open(b: Board, p: Pos, d: Dir, k: int)
    requires Shaped(b)
  {
    forall j :: 1 <= j <= k ==> InBounds(b, Walk(p, d, j)) && !At(b, Walk(p, d, j)).isClue
  }

  lemma WalkInjective(p: Pos, d: Dir, i: int, j: int)
    ensures Walk(p, d, i) == Walk(p, d, j) <==> i == j
  {
  }

  /** `ps` lists the fill-in squares `k`, `k + 1`, .. steps from `p`, and
      the square after them is a clue square or off the board. */
  ghost predicate Walked(b: Board, p: Pos, d: Dir, k: int, ps: seq<Pos>)
    requires Shaped(b)
  {
    && (forall i :: 0 <= i < |ps| ==> ps[i] == Walk(p, d, k + i))
    && (forall i :: 0 <= i < |ps| ==> InBounds(b, ps[i]) && !At(b, ps[i]).isClue)
    && (var q := Walk(p, d, k + |ps|); !InBounds(b, q) || At(b, q).isClue)
  }

  lemma {:induction false} RayFromFacts(b: Board, p: Pos, d: Dir, k: int)
    requires Shaped(b)
    ensures Walked(b, p, d, k, RayFrom(b, p, d, k))
    decreases Dist(b, p, d) + 1 - k
  {
    var q := Walk(p, d, k);
    if InBounds(b, q) && !At(b, q).isClue {
      var rest := RayFrom(b, p, d, k + 1);
      RayFromFacts(b, p, d, k + 1);
      assert RayFrom(b, p, d, k) == [q] + rest;
      WalkCons(b, p, d, k, rest);
    } else {
      assert RayFrom(b, p, d, k) == [];
    }
  }

  /** One more fill-in square in front of a walked stretch extends it by one step. */
  lemma WalkCons(b: Board, p: Pos, d: Dir, k: int, rest: seq<Pos>)
    requires Shaped(b)
    requires var q := Walk(p, d, k); InBounds(b, q) && !At(b, q).isClue
    requires Walked(b, p, d, k + 1, rest)
    ensures Walked(b, p, d, k, [Walk(p, d, k)] + rest)
  {
    var ps := [Walk(p, d, k)] + rest;
    forall i | 0 <= i < |ps|
      ensures ps[i] == Walk(p, d, k + i) && InBounds(b, ps[i]) && !At(b, ps[i]).isClue
    {
      if i > 0 {
        assert ps[i] == rest[i - 1];
      }
    }
    assert k + |ps| == k + 1 + |rest|;
  }

  /** The run lists the squares 1, 2, .. steps away, all of them in-bounds
      fill-in squares, and stops before a clue square or the edge. */
  lemma RayFacts(b: Board, p: Pos, d: Dir)
    requires Shaped(b)
    ensures var ps := Ray(b, p, d);
      && (forall i :: 0 <= i < |ps| ==> ps[i] == Walk(p, d, i + 1))
      && (forall i :: 0 <= i < |ps| ==> InBounds(b, ps[i]) && !At(b, ps[i]).isClue)
      && (forall i, j :: 0 <= i < j < |ps| ==> ps[i] != ps[j])
      && p !in ps
      && (var q := Walk(p, d, |ps| + 1); !InBounds(b, q) || At(b, q).isClue)
  {
    RayFromFacts(b, p, d, 1);
    var ps := Ray(b, p, d);
    forall i, j | 0 <= i < j < |ps|
      ensures ps[i] != ps[j]
    {
      WalkInjective(p, d, i + 1, j + 1);
    }
    forall i | 0 <= i < |ps|
      ensures ps[i] != p
    {
      assert Walk(p, d, 0) == p;
      WalkInjective(p, d, 0, i + 1);
    }
  }

  /** A run is exactly the set of squares reachable through fill-in squares. */
  lemma RayMembers(b: Board, p: Pos, d: Dir, q: Pos)
    requires Shaped(b)
    ensures q in Ray(b, p, d) <==> Reaches(b, p, d, q)
  {
    RayFacts(b, p, d);
    var ps := Ray(b, p, d);
    if q in ps {
      var i :| 0 <= i < |ps| && ps[i] == q;
      assert Open(b, p, d, i + 1) by {
        forall j | 1 <= j <= i + 1
          ensures InBounds(b, Walk(p, d, j)) && !At(b, Walk(p, d, j)).isClue
        {
          assert ps[j - 1] == Walk(p, d, j);
        }
      }
    }
    if Reaches(b, p, d, q) {
      var k :| 1 <= k && q == Walk(p, d, k) && Open(b, p, d, k);
      if k > |ps| {
        assert false;
      }
      assert ps[k - 1] == q;
    }
  }

  /** Runs depend on nothing but where the clue squares are. */
  lemma RaySameLayout(a: Board, b: Board, p: Pos, d: Dir)
    requires SameLayout(a, b)
    ensures Ray(a, p, d) == Ray(b, p, d)
  {
    RayFromSameLayout(a, b, p, d, 1);
  }

  lemma {:induction false} RayFromSameLayout(a: Board, b: Board, p: Pos, d: Dir, k: int)
    requires SameLayout(a, b)
    ensures RayFrom(a, p, d, k) == RayFrom(b, p, d, k)
    decreases Dist(a, p, d) + 1 - k
  {
    var q := Walk(p, d, k);
    if InBounds(a, q) && !At(a, q).isClue {
      RayFromSameLayout(a, b, p, d, k + 1);
    }
  }

  /** `q` lies on one of the four runs leaving `p`: the squares whose notes
      an assignment to `p` clears. */
  predicate Sees(b: Board, p: Pos, q: Pos)
    requires Shaped(b)
  {
    q in Ray(b, p, Up) || q in Ray(b, p, Down) || q in Ray(b, p, Left) || q in Ray(b, p, Right)
  }

  /** Which squares see each other depends only on the layout. */
  lemma SeesSameLayout(a: Board, b: Board, p: Pos)
    requires SameLayout(a, b)
    ensures forall q :: Sees(a, p, q) == Sees(b, p, q)
  {
    RaySameLayout(a, b, p, Up);
    RaySameLayout(a, b, p, Down);
    RaySameLayout(a, b, p, Left);
    RaySameLayout(a, b, p, Right);
  }

  /** Two squares of one run see each other: the later one lies on the run
      from the earlier one onward, the earlier one on the run back. */
  lemma RunSees(b: Board, p: Pos, d: Dir, i: int, j: int)
    requires Shaped(b) && (d == Right || d == Down)
    requires 0 <= i < |Ray(b, p, d)| && 0 <= j < |Ray(b, p, d)| && i != j
    ensures Sees(b, Ray(b, p, d)[i], Ray(b, p, d)[j])
  {
    RayFacts(b, p, d);
    var ps := Ray(b, p, d);
    var a, c := ps[i], ps[j];
    if i < j {
      assert Walk(a, d, j - i) == c;
      assert Open(b, a, d, j - i) by {
        forall m | 1 <= m <= j - i
          ensures InBounds(b, Walk(a, d, m)) && !At(b, Walk(a, d, m)).isClue
        {
          assert Walk(a, d, m) == ps[i + m];
        }
      }
      RayMembers(b, a, d, c);
    } else {
      var e := if d == Right then Left else Up;
      assert Walk(a, e, i - j) == c;
      assert Open(b, a, e, i - j) by {
        forall m | 1 <= m <= i - j
          ensures InBounds(b, Walk(a, e, m)) && !At(b, Walk(a, e, m)).isClue
        {
          assert Walk(a, e, m) == ps[i - m];
        }
      }
      RayMembers(b, a, e, c);
    }
  }

  // ---------------------------------------------------------------------------
  // Row-major order

  function RowFrom(r: int, c: int, cols: int): (ps: seq<Pos>)
    ensures forall q :: q in ps <==> q.r == r && c <= q.c < cols
    ensures |ps| == if c <= cols then cols - c else 0
    ensures forall i :: 0 <= i < |ps| ==> ps[i] == Pos(r, c + i)
    decreases cols - c
  {
    if c >= cols then [] else [Pos(r, c)] + RowFrom(r, c + 1, cols)
  }

  function RowsFrom(r: int, rows: int, cols: int): (ps: seq<Pos>)
    requires 0 <= cols
    ensures forall q :: q in ps <==> r <= q.r < rows && 0 <= q.c < cols
    decreases rows - r
  {
    if r >= rows then [] else RowFrom(r, 0, cols) + RowsFrom(r + 1, rows, cols)
  }

  /** Every square, row by row and left to right within a row. */
  function RowMajor(b: Board): (ps: seq<Pos>)
    requires Shaped(b)
    ensures forall q :: q in ps <==> InBounds(b, q)
    ensures |ps| == b.rows * b.cols
  {
    RowsFromLength(0, b.rows, b.cols);
    RowsFrom(0, b.rows, b.cols)
  }

  lemma {:induction false} RowsFromLength(r: int, rows: int, cols: int)
    requires 0 <= cols && r <= rows
    ensures |RowsFrom(r, rows, cols)| == (rows - r) * cols
    decreases rows - r
  {
    if r < rows {
      RowsFromLength(r + 1, rows, cols);
      var head, tail := RowFrom(r, 0, cols), RowsFrom(r + 1, rows, cols);
      assert RowsFrom(r, rows, cols) == head + tail;
      MulSucc(|head + tail|, |head|, |tail|, rows - r - 1, cols);
    }
  }

  /** The row-major order visits each square once. */
  lemma RowMajorDistinct(b: Board)
    requires Shaped(b)
    ensures forall i, j :: 0 <= i < j < |RowMajor(b)| ==> RowMajor(b)[i] != RowMajor(b)[j]
  {
    RowsFromDistinct(0, b.rows, b.cols);
    assert RowMajor(b) == RowsFrom(0, b.rows, b.cols);
  }

  lemma {:induction false} RowsFromDistinct(r: int, rows: int, cols: int)
    requires 0 <= cols
    ensures forall i, j :: 0 <= i < j < |RowsFrom(r, rows, cols)| ==>
      RowsFrom(r, rows, cols)[i] != RowsFrom(r, rows, cols)[j]
    decreases rows - r
  {
    if r < rows {
      RowsFromDistinct(r + 1, rows, cols);
      var head := RowFrom(r, 0, cols);
      var tail := RowsFrom(r + 1, rows, cols);
      var ps := head + tail;
      forall i, j | 0 <= i < j < |ps|
        ensures ps[i] != ps[j]
      {
        if j < |head| {
          assert ps[i] == head[i] && ps[j] == head[j];
        } else if i < |head| {
          assert ps[i] == head[i] && ps[j] == tail[j - |head|];
          assert ps[j] in tail;
        } else {
          assert ps[i] == tail[i - |head|] && ps[j] == tail[j - |head|];
          assert tail[i - |head|] != tail[j - |head|];
        }
      }
    }
  }

  lemma MulSucc(total: int, head: int, tail: int, n: int, cols: int)
    requires total == head + tail && head == cols && tail == n * cols
    ensures total == (n + 1) * cols
  {
  }

  // ---------------------------------------------------------------------------
  // The progress measure of the solver

  /** Square counts summed over the board: empty fill-in squares, notes,
      combination-list entries, unfixed fill-in squares, and notes on empty
      fill-in squares. */
  datatype Metric = Empties | NoteCount | ComboCount | Unfixed | EmptyNotes

  function Weight(m: Metric, x: Cell): nat {
    match m
    case Empties => if !x.isClue && x.value == 0 then 1 else 0
    case NoteCount => |x.notes|
    case ComboCount => |x.downCombos| + |x.rightCombos|
    case Unfixed => if !x.isClue && !x.fixed then 1 else 0
    case EmptyNotes => if !x.isClue && x.value == 0 then |x.notes| else 0
  }

  function RowTotal(m: Metric, row: seq<Cell>): nat {
    if |row| == 0 then 0 else Weight(m, row[0]) + RowTotal(m, row[1..])
  }

  function GridTotal(m: Metric, g: seq<seq<Cell>>): nat {
    if |g| == 0 then 0 else RowTotal(m, g[0]) + GridTotal(m, g[1..])
  }

  function Total(m: Metric, b: Board): nat {
    GridTotal(m, b.cells)
  }

  lemma {:induction false} RowTotalMono(m: Metric, x: seq<Cell>, y: seq<Cell>)
    requires |x| == |y|
    requires forall i :: 0 <= i < |x| ==> Weight(m, x[i]) <= Weight(m, y[i])
    ensures RowTotal(m, x) <= RowTotal(m, y)
    ensures (exists i :: 0 <= i < |x| && Weight(m, x[i]) < Weight(m, y[i])) ==>
      RowTotal(m, x) < RowTotal(m, y)
  {
    if |x| > 0 {
      RowTotalMono(m, x[1..], y[1..]);
      if exists i :: 0 <= i < |x| && Weight(m, x[i]) < Weight(m, y[i]) {
        var i :| 0 <= i < |x| && Weight(m, x[i]) < Weight(m, y[i]);
        if i > 0 {
          assert Weight(m, x[1..][i - 1]) < Weight(m, y[1..][i - 1]);
        }
      }
    }
  }

  lemma {:induction false} GridTotalMono(m: Metric, x: seq<seq<Cell>>, y: seq<seq<Cell>>)
    requires |x| == |y|
    requires forall r :: 0 <= r < |x| ==> |x[r]| == |y[r]|
    requires forall r, c :: 0 <= r < |x| && 0 <= c < |x[r]| ==> Weight(m, x[r][c]) <= Weight(m, y[r][c])
    ensures GridTotal(m, x) <= GridTotal(m, y)
    ensures (exists r, c :: 0 <= r < |x| && 0 <= c < |x[r]| && Weight(m, x[r][c]) < Weight(m, y[r][c])) ==>
      GridTotal(m, x) < GridTotal(m, y)
  {
    if |x| > 0 {
      RowTotalMono(m, x[0], y[0]);
      GridTotalMono(m, x[1..], y[1..]);
      if exists r, c :: 0 <= r < |x| && 0 <= c < |x[r]| && Weight(m, x[r][c]) < Weight(m, y[r][c]) {
        var r, c :| 0 <= r < |x| && 0 <= c < |x[r]| && Weight(m, x[r][c]) < Weight(m, y[r][c]);
        if r > 0 {
          assert Weight(m, x[1..][r - 1][c]) < Weight(m, y[1..][r - 1][c]);
        }
      }
    }
  }

  /** Square-by-square comparison of a measure between two boards of the
      same shape. */
  lemma TotalMono(m: Metric, a: Board, b: Board)
    requires Shaped(a) && Shaped(b) && a.rows == b.rows && a.cols == b.cols
    requires forall q :: InBounds(a, q) ==> Weight(m, At(a, q)) <= Weight(m, At(b, q))
    ensures Total(m, a) <= Total(m, b)
    ensures (exists q :: InBounds(a, q) && Weight(m, At(a, q)) < Weight(m, At(b, q))) ==>
      Total(m, a) < Total(m, b)
  {
    forall r, c | 0 <= r < |a.cells| && 0 <= c < |a.cells[r]|
      ensures Weight(m, a.cells[r][c]) <= Weight(m, b.cells[r][c])
    {
      assert InBounds(a, Pos(r, c));
    }
    if exists q :: InBounds(a, q) && Weight(m, At(a, q)) < Weight(m, At(b, q)) {
      var q :| InBounds(a, q) && Weight(m, At(a, q)) < Weight(m, At(b, q));
      assert Weight(m, a.cells[q.r][q.c]) < Weight(m, b.cells[q.r][q.c]);
    }
    GridTotalMono(m, a.cells, b.cells);
  }

  lemma TotalSame(m: Metric, a: Board, b: Board)
    requires Shaped(a) && Shaped(b) && a.rows == b.rows && a.cols == b.cols
    requires forall q :: InBounds(a, q) ==> Weight(m, At(a, q)) == Weight(m, At(b, q))
    ensures Total(m, a) == Total(m, b)
  {
    TotalMono(m, a, b);
    TotalMono(m, b, a);
  }

  lemma {:induction false} RowTotalUpdate(m: Metric, row: seq<Cell>, c: int, x: Cell)
    requires 0 <= c < |row|
    ensures RowTotal(m, row[c := x]) + Weight(m, row[c]) == RowTotal(m, row) + Weight(m, x)
  {
    if c > 0 {
      RowTotalUpdate(m, row[1..], c - 1, x);
      assert row[c := x][1..] == row[1..][c - 1 := x];
    } else {
      assert row[c := x][1..] == row[1..];
    }
  }

  lemma {:induction false} GridTotalUpdate(m: Metric, g: seq<seq<Cell>>, r: int, row: seq<Cell>)
    requires 0 <= r < |g|
    ensures GridTotal(m, g[r := row]) + RowTotal(m, g[r]) == GridTotal(m, g) + RowTotal(m, row)
  {
    if r > 0 {
      GridTotalUpdate(m, g[1..], r - 1, row);
      assert g[r := row][1..] == g[1..][r - 1 := row];
    } else {
      assert g[r := row][1..] == g[1..];
    }
  }

  /** Writing one square changes a measure by that square's change. */
  lemma PutDelta(m: Metric, b: Board, p: Pos, x: Cell)
    requires Shaped(b) && InBounds(b, p)
    ensures Total(m, Put(b, p, x)) + Weight(m, At(b, p)) == Total(m, b) + Weight(m, x)
  {
    RowTotalUpdate(m, b.cells[p.r], p.c, x);
    GridTotalUpdate(m, b.cells, p.r, b.cells[p.r][p.c := x]);
  }

  /** Writing a square back unchanged leaves the board as it was. */
  lemma PutSame(b: Board, p: Pos)
    requires Shaped(b) && InBounds(b, p)
    ensures Put(b, p, At(b, p)) == b
  {
    BoardExt(Put(b, p, At(b, p)), b);
  }

  /** `a` is strictly below `b` in the lexicographic order on (empty squares,
      notes, combinations): every solver rule that reports a change moves down
      this order. */
  predicate Below(a: Board, b: Board) {
    || Total(Empties, a) < Total(Empties, b)
    || (Total(Empties, a) == Total(Empties, b) && Total(NoteCount, a) < Total(NoteCount, b))
    || (Total(Empties, a) == Total(Empties, b) && Total(NoteCount, a) == Total(NoteCount, b)
        && Total(ComboCount, a) < Total(ComboCount, b))
  }

  /** A pass that reports `changed` made progress; one that does not left the
      board alone. */
  predicate Progress(b: Board, b': Board, changed: bool) {
    (changed ==> Below(b', b)) && (!changed ==> b' == b)
  }

  lemma ProgressCompose(b0: Board, b1: Board, b2: Board, c1: bool, c2: bool)
    requires Progress(b0, b1, c1) && Progress(b1, b2, c2)
    ensures Progress(b0, b2, c1 || c2)
  {
  }

  /** The fields the solver never writes: everything except value, notes
      and combination lists. */
  predicate Frame(x: Cell, y: Cell) {
    x.(value := y.value, noteMode := y.noteMode, notes := y.notes,
       downCombos := y.downCombos, rightCombos := y.rightCombos) == y
  }

  /** `b'` keeps the shape, clues, fixed flags and metadata of `b`, every
      square that had a value still has it, and a value that changed is a
      digit. */
  ghost predicate Extends(b: Board, b': Board) {
    && Shaped(b) && Shaped(b') && b.rows == b'.rows && b.cols == b'.cols
    && forall q :: InBounds(b, q) ==>
         && Frame(At(b, q), At(b', q))
         && (At(b, q).value != 0 ==> At(b', q).value == At(b, q).value)
         && (At(b', q).value != At(b, q).value ==> 1 <= At(b', q).value <= 9)
  }

  lemma ExtendsTrans(a: Board, b: Board, c: Board)
    requires Extends(a, b) && Extends(b, c)
    ensures Extends(a, c)
  {
  }

  lemma ExtendsLayout(a: Board, b: Board)
    requires Extends(a, b)
    ensures SameLayout(a, b)
  {
  }

  // ---------------------------------------------------------------------------
  // setCellValueAndEraseNeighborNoteDups

  /** Clears note slot `v` on every listed square. */
  function EraseNote(b: Board, qs: seq<Pos>, v: int): (b': Board)
    requires Shaped(b) && 0 <= v <= 9
    requires forall i :: 0 <= i < |qs| ==> InBounds(b, qs[i])
    ensures Shaped(b') && b'.rows == b.rows && b'.cols == b.cols
    ensures forall q :: InBounds(b, q) ==>
      At(b', q) == if q in qs then SetNote(At(b, q), v, false) else At(b, q)
    decreases |qs|
  {
    if |qs| == 0 then b
    else
      var b1 := Put(b, qs[0], SetNote(At(b, qs[0]), v, false));
      var b' := EraseNote(b1, qs[1..], v);
      assert forall q :: q in qs <==> q == qs[0] || q in qs[1..];
      b'
  }

  /** The new state of the assigned square: the value is written (setValue,
      so out-of-range values are ignored), all ten note slots are cleared,
      and an unfixed square keeps the assigned digit as its only note. */
  function Assigned(x: Cell, v: int): (y: Cell)
    requires 0 <= v <= 9
    ensures y.value == v && y.notes == (if x.fixed || v == 0 then {} else {v})
    ensures Frame(x, y)
  {
    var y := ClearNotes(SetValue(x, v));
    if x.fixed then y else SetNote(y, v, true)
  }

  /** setCellValueAndEraseNeighborNoteDups(p, v): assigns `v` to `p` and
      clears note `v` on the four runs leaving `p`. */
  function Assign(b: Board, p: Pos, v: int): (b': Board)
    requires Shaped(b) && InBounds(b, p) && 0 <= v <= 9
    ensures Shaped(b') && b'.rows == b.rows && b'.cols == b.cols
    ensures At(b', p) == Assigned(At(b, p), v)
    ensures forall q :: InBounds(b, q) && q != p ==>
      At(b', q) == if Sees(b, p, q) then SetNote(At(b, q), v, false) else At(b, q)
  {
    var b1 := Put(b, p, Assigned(At(b, p), v));
    assert SameLayout(b, b1);
    RaySameLayout(b, b1, p, Up);
    RaySameLayout(b, b1, p, Down);
    RaySameLayout(b, b1, p, Left);
    RaySameLayout(b, b1, p, Right);
    RayFacts(b, p, Up);
    RayFacts(b, p, Down);
    RayFacts(b, p, Left);
    RayFacts(b, p, Right);
    var peers := Ray(b1, p, Up) + Ray(b1, p, Down) + Ray(b1, p, Left) + Ray(b1, p, Right);
    assert forall q :: q in peers <==> Sees(b, p, q);
    EraseNote(b1, peers, v)
  }

  /** An assignment keeps the layout and every value but the assigned one;
      a digit assigned to an unfixed square survives only on that square
      among the squares it sees. */
  lemma AssignFacts(b: Board, p: Pos, v: int)
    requires Shaped(b) && InBounds(b, p) && 0 <= v <= 9
    ensures SameLayout(b, Assign(b, p, v))
    ensures forall q :: InBounds(b, q) && q != p ==> At(Assign(b, p, v), q).value == At(b, q).value
    ensures forall q :: InBounds(b, q) && Sees(b, p, q) ==> v !in At(Assign(b, p, v), q).notes
    ensures At(Assign(b, p, v), p).value == v
    ensures At(Assign(b, p, v), p).notes == if At(b, p).fixed || v == 0 then {} else {v}
    ensures forall q :: InBounds(b, q) ==> Frame(At(b, q), At(Assign(b, p, v), q))
    ensures forall q :: InBounds(b, q) && q != p ==> At(Assign(b, p, v), q).notes <= At(b, q).notes
  {
    NotSelf(b, p);
    AssignLayout(b, p, v);
    var b' := Assign(b, p, v);
    forall q | InBounds(b, q) && q != p
      ensures At(b', q).value == At(b, q).value
      ensures Sees(b, p, q) ==> v !in At(b', q).notes
      ensures At(b', q).notes <= At(b, q).notes
      ensures Frame(At(b, q), At(b', q))
    {
      if Sees(b, p, q) {
        assert At(b', q) == SetNote(At(b, q), v, false);
      }
    }
  }

  lemma AssignLayout(b: Board, p: Pos, v: int)
    requires Shaped(b) && InBounds(b, p) && 0 <= v <= 9
    ensures SameLayout(b, Assign(b, p, v))
  {
    var b' := Assign(b, p, v);
    forall q | InBounds(b, q)
      ensures At(b', q).isClue == At(b, q).isClue
    {
      if q == p {
        assert Frame(At(b, p), At(b', p));
      }
    }
  }

  /** A square does not see itself. */
  lemma NotSelf(b: Board, p: Pos)
    requires Shaped(b)
    ensures !Sees(b, p, p)
  {
    RayFacts(b, p, Up);
    RayFacts(b, p, Down);
    RayFacts(b, p, Left);
    RayFacts(b, p, Right);
  }

  /** Assigning a digit to a square that had no value extends the board and
      strictly lowers the number of empty squares; reassigning keeps the
      count. Either way no note is added elsewhere. */
  lemma AssignMeasure(b: Board, p: Pos, v: int)
    requires Shaped(b) && InBounds(b, p) && 1 <= v <= 9
    ensures Total(Empties, Assign(b, p, v)) <= Total(Empties, b)
    ensures !At(b, p).isClue && At(b, p).value == 0 ==>
      Total(Empties, Assign(b, p, v)) < Total(Empties, b)
    ensures At(b, p).value == 0 ==> Extends(b, Assign(b, p, v))
  {
    var b' := Assign(b, p, v);
    AssignFacts(b, p, v);
    TotalMono(Empties, b', b);
    if !At(b, p).isClue && At(b, p).value == 0 {
      assert Weight(Empties, At(b', p)) < Weight(Empties, At(b, p));
    }
  }

  /** An assignment that keeps the square's value, or gives a value to a
      square without one, extends the board. */
  lemma AssignFrame(b: Board, p: Pos, v: int)
    requires Shaped(b) && InBounds(b, p) && 0 <= v <= 9
    requires At(b, p).value == 0 || At(b, p).value == v
    ensures Extends(b, Assign(b, p, v))
  {
    AssignFacts(b, p, v);
  }

  /** An extension that fills a square empty before has fewer empty squares. */
  lemma FillDrops(a: Board, c: Board, q: Pos)
    requires Extends(a, c) && InBounds(a, q) && !At(a, q).isClue
    requires At(a, q).value == 0 && At(c, q).value != 0
    ensures Total(Empties, c) < Total(Empties, a)
  {
    assert Weight(Empties, At(c, q)) < Weight(Empties, At(a, q));
    TotalMono(Empties, c, a);
  }

  // ---------------------------------------------------------------------------
  // clearBoard, hasEmptyCells

  function ClearCell(x: Cell): Cell {
    if x.isClue || x.fixed then x else ClearNotes(SetValue(x, 0))
  }

  /** clearBoard: every unfixed fill-in square loses its value and notes. */
  function ClearBoard(b: Board): (b': Board)
    requires Shaped(b)
    ensures Shaped(b') && b'.rows == b.rows && b'.cols == b.cols
    ensures forall q :: InBounds(b, q) ==> At(b', q) == ClearCell(At(b, q))
  {
    b.(cells := seq(b.rows, r requires 0 <= r < b.rows =>
                  seq(b.cols, c requires 0 <= c < b.cols => ClearCell(b.cells[r][c]))))
  }

  /** Clearing keeps clue and fixed squares, leaves every other fill-in
      square blank, and clearing twice is clearing once. */
  lemma ClearBoardFacts(b: Board)
    requires Shaped(b)
    ensures SameLayout(b, ClearBoard(b))
    ensures forall q :: InBounds(b, q) && (At(b, q).isClue || At(b, q).fixed) ==>
      At(ClearBoard(b), q) == At(b, q)
    ensures forall q :: InBounds(b, q) && !At(b, q).isClue && !At(b, q).fixed ==>
      At(ClearBoard(b), q).value == 0 && At(ClearBoard(b), q).notes == {} && !At(ClearBoard(b), q).noteMode
    ensures ClearBoard(ClearBoard(b)) == ClearBoard(b)
  {
    var c1 := ClearBoard(b);
    var c2 := ClearBoard(c1);
    forall r | 0 <= r < b.rows
      ensures c2.cells[r] == c1.cells[r]
    {
      assert forall c :: 0 <= c < b.cols ==> c2.cells[r][c] == At(c2, Pos(r, c));
    }
  }

  function HasEmptyIn(b: Board, ps: seq<Pos>): (r: bool)
    requires Shaped(b) && forall i :: 0 <= i < |ps| ==> InBounds(b, ps[i])
    ensures r <==> exists q :: q in ps && !At(b, q).isClue && At(b, q).value == 0
  {
    if |ps| == 0 then false
    else if !At(b, ps[0]).isClue && At(b, ps[0]).value == 0 then true
    else HasEmptyIn(b, ps[1..])
  }

  /** hasEmptyCells: the row-major scan for a fill-in square without value. */
  function HasEmptyCells(b: Board): bool
    requires Shaped(b)
  {
    HasEmptyIn(b, RowMajor(b))
  }

  /** The scan answers yes exactly when the empty-square count is positive. */
  lemma HasEmptyCellsCount(b: Board)
    requires Shaped(b)
    ensures HasEmptyCells(b) <==> Total(Empties, b) > 0
  {
    TotalPositive(Empties, b);
  }

  lemma {:induction false} RowTotalPositive(m: Metric, row: seq<Cell>)
    ensures RowTotal(m, row) > 0 <==> exists c :: 0 <= c < |row| && Weight(m, row[c]) > 0
  {
    if |row| > 0 {
      RowTotalPositive(m, row[1..]);
      if exists c :: 0 <= c < |row| && Weight(m, row[c]) > 0 {
        var c :| 0 <= c < |row| && Weight(m, row[c]) > 0;
        if c > 0 {
          assert Weight(m, row[1..][c - 1]) > 0;
        }
      }
    }
  }

  lemma {:induction false} GridTotalPositive(m: Metric, g: seq<seq<Cell>>)
    ensures GridTotal(m, g) > 0 <==>
      exists r, c :: 0 <= r < |g| && 0 <= c < |g[r]| && Weight(m, g[r][c]) > 0
  {
    if |g| > 0 {
      RowTotalPositive(m, g[0]);
      GridTotalPositive(m, g[1..]);
      if exists r, c :: 0 <= r < |g| && 0 <= c < |g[r]| && Weight(m, g[r][c]) > 0 {
        var r, c :| 0 <= r < |g| && 0 <= c < |g[r]| && Weight(m, g[r][c]) > 0;
        if r > 0 {
          assert Weight(m, g[1..][r - 1][c]) > 0;
        }
      }
    }
  }

  /** A measure is positive exactly when some square contributes to it. */
  lemma TotalPositive(m: Metric, b: Board)
    requires Shaped(b)
    ensures Total(m, b) > 0 <==> exists q :: InBounds(b, q) && Weight(m, At(b, q)) > 0
  {
    GridTotalPositive(m, b.cells);
    if Total(m, b) > 0 {
      var r, c :| 0 <= r < |b.cells| && 0 <= c < |b.cells[r]| && Weight(m, b.cells[r][c]) > 0;
      assert InBounds(b, Pos(r, c));
    }
  }
}

=== FILE: cell.dfy ===
/** One square of the Kakuro board (cell.h / cell.cpp): either a clue square
    carrying a down and a right target sum, or a fill-in square carrying a
    value, pencil-mark notes and a fixed flag. */
module Cells {
  import Combos

  /** The pencil marks of a fill-in square: digits 1..9. */
  type NoteSet = s: set<int> | forall x :: x in s ==> 1 <= x <= 9

  /** Every digit: a fresh square's notes. */
  const AllDigits: NoteSet := set v | 1 <= v <= 9

  /** An entry of a clue's combination list. */
  type Combo = d: seq<int> | Combos.IsCombo(d)

  /** The cell state. `noteMode` is slot 0 of the source's ten-slot note
      array (whether note entry is active); `notes` holds slots 1..9.
      Drawing geometry (size, row, col, label, colours) is not modelled. */
  datatype Cell = Cell(
    isClue: bool,
    value: int,
    fixed: bool,
    noteMode: bool,
    notes: NoteSet,
    selected: bool,
    downClue: int,
    rightClue: int,
    numInDown: int,
    numInRight: int,
    downCombos: seq<Combo>,
    rightCombos: seq<Combo>)

  /** A freshly constructed cell (cell.cpp:11-21). */
  const Blank: Cell := Cell(false, 0, false, false, {}, false, 0, 0, 0, 0, [], [])

  /** The ten-slot note array of the source: slot 0 is note entry mode. */
  function Note(c: Cell, i: int): bool
    requires 0 <= i <= 9
  {
    if i == 0 then c.noteMode else i in c.notes
  }

  /** setNote(i, on): writes one slot of the note array. */
  function SetNote(c: Cell, i: int, on: bool): (r: Cell)
    requires 0 <= i <= 9
    ensures Note(r, i) == on
    ensures forall j :: 0 <= j <= 9 && j != i ==> Note(r, j) == Note(c, j)
    ensures r.(noteMode := c.noteMode, notes := c.notes) == c
  {
    if i == 0 then c.(noteMode := on)
    else if on then c.(notes := c.notes + {i})
    else c.(notes := c.notes - {i})
  }

  /** Clears all ten slots. */
  function ClearNotes(c: Cell): (r: Cell)
    ensures forall j :: 0 <= j <= 9 ==> !Note(r, j)
    ensures r.(noteMode := c.noteMode, notes := c.notes) == c
  {
    c.(noteMode := false, notes := {})
  }

  /** setValue: values outside 0..9 are ignored. */
  function SetValue(c: Cell, v: int): (r: Cell)
    ensures 0 <= v <= 9 ==> r.value == v
    ensures !(0 <= v <= 9) ==> r == c
    ensures r.(value := c.value) == c
  {
    if v < 0 || v > 9 then c else c.(value := v)
  }

  /** handleNumPress: a fixed cell ignores key presses; otherwise the key
      sets the value (unchecked) when note entry is off and toggles note
      slot `n` when it is on. */
  function HandleNumPress(c: Cell, n: int): (r: Cell)
    requires !c.fixed && c.noteMode ==> 0 <= n <= 9
    ensures c.fixed ==> r == c
    ensures !c.fixed && !c.noteMode ==> r == c.(value := n)
    ensures !c.fixed && c.noteMode ==>
      && Note(r, n) == !Note(c, n)
      && (forall j :: 0 <= j <= 9 && j != n ==> Note(r, j) == Note(c, j))
      && r.(noteMode := c.noteMode, notes := c.notes) == c
  {
    if c.fixed then c
    else if !c.noteMode then c.(value := n)
    else SetNote(c, n, !Note(c, n))
  }

  /** select: marks the cell selected and turns note entry off. */
  function Select(c: Cell): (r: Cell)
    ensures r.selected && !r.noteMode
    ensures r.(selected := c.selected, noteMode := c.noteMode) == c
  {
    c.(selected := true, noteMode := false)
  }

  /** unselect: clears the selection and turns note entry off. */
  function Unselect(c: Cell): (r: Cell)
    ensures !r.selected && !r.noteMode
    ensures r.(selected := c.selected, noteMode := c.noteMode) == c
  {
    c.(selected := false, noteMode := false)
  }

  /** The notes as the ascending list the source builds by scanning slots
      1..9 (the KAK writer and the naked-subset rule both use it). */
  function NoteList(s: NoteSet): (l: seq<int>)
    ensures forall x :: x in l <==> x in s
    ensures Combos.IsCombo(l) && |l| <= 9
  {
    NoteListFromBound(s, 1);
    NoteListFrom(s, 1)
  }

  function NoteListFrom(s: NoteSet, i: int): (l: seq<int>)
    requires 1 <= i <= 10
    ensures forall x :: x in l <==> x in s && x >= i
    ensures Combos.IsCombo(l)
    ensures forall k :: 0 <= k < |l| ==> l[k] >= i
    decreases 10 - i
  {
    if i == 10 then []
    else if i in s then [i] + NoteListFrom(s, i + 1)
    else NoteListFrom(s, i + 1)
  }

  // ---------------------------------------------------------------------------
  // Properties

  /** A note key pressed twice in note mode leaves the cell as it was. */
  lemma PressTwiceRestores(c: Cell, n: int)
    requires !c.fixed && c.noteMode && 1 <= n <= 9
    ensures HandleNumPress(HandleNumPress(c, n), n) == c
  {
    if n in c.notes {
      assert c.notes - {n} + {n} == c.notes;
    } else {
      assert c.notes + {n} - {n} == c.notes;
    }
  }

  /** Key 0 in note mode toggles slot 0, which is note entry itself: the
      first press leaves note mode and a second press writes the value 0. */
  lemma ZeroPressLeavesNoteMode(c: Cell)
    requires !c.fixed && c.noteMode
    ensures HandleNumPress(c, 0) == c.(noteMode := false)
    ensures HandleNumPress(HandleNumPress(c, 0), 0) == c.(noteMode := false, value := 0)
  {
  }

  /** In value mode only the last key press counts. */
  lemma LastPressWins(c: Cell, m: int, n: int)
    requires !c.noteMode
    ensures HandleNumPress(HandleNumPress(c, m), n) == HandleNumPress(c, n)
  {
  }

  /** Selection never touches the value or the notes 1..9, and unselecting
      after selecting is the same as unselecting. */
  lemma SelectionKeepsContents(c: Cell)
    ensures Select(c).value == c.value && Select(c).notes == c.notes
    ensures Unselect(c).value == c.value && Unselect(c).notes == c.notes
    ensures Unselect(Select(c)) == Unselect(c)
  {
  }

  /** setValue with an in-range value: the last write wins. */
  lemma SetValueLastWins(c: Cell, v: int, w: int)
    requires 0 <= w <= 9
    ensures SetValue(SetValue(c, v), w) == SetValue(c, w)
  {
  }

  lemma {:induction false} NoteListFromBound(s: NoteSet, i: int)
    requires 1 <= i <= 10
    ensures |NoteListFrom(s, i)| <= 10 - i
    decreases 10 - i
  {
    if i < 10 {
      NoteListFromBound(s, i + 1);
    }
  }

  /** The notes from `i` up. */
  function Above(s: NoteSet, i: int): set<int> {
    set x | x in s && x >= i
  }

  /** The ascending list holds each note once. */
  lemma {:induction false} NoteListLength(s: NoteSet, i: int)
    requires 1 <= i <= 10
    ensures |NoteListFrom(s, i)| == |Above(s, i)|
    decreases 10 - i
  {
    AboveStep(s, i);
    if i < 10 {
      NoteListLength(s, i + 1);
    }
  }

  /** How `Above` shrinks as `i` grows: the count drops by one exactly at
      a note. */
  lemma AboveStep(s: NoteSet, i: int)
    requires 1 <= i <= 10
    ensures i == 10 ==> |Above(s, i)| == 0
    ensures i < 10 ==> |Above(s, i)| == |Above(s, i + 1)| + (if i in s then 1 else 0)
  {
    if i == 10 {
      AboveTop(s);
    } else if i in s {
      AboveAt(s, i);
    } else {
      AbovePast(s, i);
    }
  }

  lemma AboveTop(s: NoteSet)
    ensures Above(s, 10) == {}
  {
    forall x | x in Above(s, 10)
      ensures false
    {
    }
  }

  lemma AboveAt(s: NoteSet, i: int)
    requires i in s
    ensures |Above(s, i)| == |Above(s, i + 1)| + 1
  {
    var a, a' := Above(s, i), Above(s, i + 1);
    forall x
      ensures x in a <==> x in a' + {i}
    {
    }
    assert a == a' + {i};
    assert i !in a';
  }

  lemma AbovePast(s: NoteSet, i: int)
    requires i !in s
    ensures Above(s, i) == Above(s, i + 1)
  {
    forall x
      ensures x in Above(s, i) <==> x in Above(s, i + 1)
    {
    }
  }

  /** Two note sets have the same ascending list exactly when they are equal. */
  lemma NoteListInjective(s: NoteSet, t: NoteSet)
    ensures NoteList(s) == NoteList(t) <==> s == t
  {
    if NoteList(s) == NoteList(t) {
      assert forall x :: x in s <==> x in t;
    }
  }
}

=== FILE: combos.dfy ===
/** The combination table of puzzleboard.cpp: for every clue sum S and run
    length N, the strictly ascending N-digit sets over 1..9 whose digits add up
    to S, in the order the successor walk of initSumInNumCombos produces them. */
module Combos {

  /** A digit set as the table stores it: strictly ascending digits in 1..9. */
  predicate IsCombo(d: seq<int>) {
    && (forall i :: 0 <= i < |d| ==> 1 <= d[i] <= 9)
    && (forall i, j :: 0 <= i < j < |d| ==> d[i] < d[j])
  }

  function Sum(d: seq<int>): int {
    if |d| == 0 then 0 else d[0] + Sum(d[1..])
  }

  /** `a` comes strictly before `b` in lexicographic order. */
  predicate LexLess(a: seq<int>, b: seq<int>) {
    && |a| == |b|
    && exists k :: 0 <= k < |a| && a[k] < b[k] && (forall j :: 0 <= j < k ==> a[j] == b[j])
  }

  /** Every element precedes every later one: sorted and duplicate-free. */
  predicate StrictlySorted(l: seq<seq<int>>) {
    forall i, j :: 0 <= i < j < |l| ==> LexLess(l[i], l[j])
  }

  /** The largest value position `i` of an N-digit ascending set can hold. */
  function Cap(n: int, i: int): int {
    9 - ((n - 1) - i)
  }

  /** The scan for the rightmost digit that can still be raised; -1 when none. */
  function SafeIndex(d: seq<int>, i: int): (r: int)
    requires -1 <= i < |d|
    ensures -1 <= r <= i
    ensures r >= 0 ==> d[r] < Cap(|d|, r)
    ensures forall j :: r < j <= i ==> d[j] >= Cap(|d|, j)
    decreases i + 1
  {
    if i < 0 then -1
    else if d[i] >= Cap(|d|, i) then SafeIndex(d, i - 1)
    else i
  }

  /** Raise digit `i` and rebuild the digits to its right as consecutive values. */
  function Raise(d: seq<int>, i: int): (e: seq<int>)
    requires 0 <= i < |d|
    ensures |e| == |d|
    ensures forall j :: 0 <= j < i ==> e[j] == d[j]
    ensures forall j :: i <= j < |d| ==> e[j] == d[i] + 1 + (j - i)
  {
    seq(|d|, j requires 0 <= j < |d| => if j < i then d[j] else d[i] + 1 + (j - i))
  }

  /** The starting vector 1, 2, .., N-1, N-1: the last digit is lowered so the
      first successor step yields 1..N. */
  function Pre(n: int): seq<int>
    requires 1 <= n <= 9
  {
    seq(n, j requires 0 <= j < n => if j < n - 1 then j + 1 else n - 1)
  }

  /** The least N-digit set, 1..N. */
  function First(n: nat): seq<int> {
    seq(n, j requires 0 <= j < n => j + 1)
  }

  /** Digit `j`, or 0 past the end: the walk's termination measure. */
  function Dig(d: seq<int>, j: int): int {
    if 0 <= j < |d| then d[j] else 0
  }

  predicate Walkable(d: seq<int>) {
    1 <= |d| <= 9 && forall j :: 0 <= j < |d| ==> 0 <= d[j] <= 9
  }

  lemma RaiseWalkable(d: seq<int>, i: int)
    requires Walkable(d) && 0 <= i < |d| && d[i] < Cap(|d|, i)
    ensures Walkable(Raise(d, i))
  {
  }

  const Bound := 1_000_000_000

  /** The digits read as a nine-place decimal number. */
  function Rank(d: seq<int>): int {
    Dig(d, 0) * 100_000_000 + Dig(d, 1) * 10_000_000 + Dig(d, 2) * 1_000_000
    + Dig(d, 3) * 100_000 + Dig(d, 4) * 10_000 + Dig(d, 5) * 1_000
    + Dig(d, 6) * 100 + Dig(d, 7) * 10 + Dig(d, 8)
  }

  lemma RankBound(d: seq<int>)
    requires Walkable(d)
    ensures 0 <= Rank(d) < Bound
  {
  }

  /** A successor step moves strictly up in the walk's order. */
  lemma RaiseRank(d: seq<int>, i: int)
    requires Walkable(d) && 0 <= i < |d| && d[i] < Cap(|d|, i)
    ensures Walkable(Raise(d, i))
    ensures Rank(d) < Rank(Raise(d, i)) < Bound
  {
    var e := Raise(d, i);
    RaiseWalkable(d, i);
    RankBound(d);
    RankBound(e);
    assert forall j :: 0 <= j < i ==> Dig(e, j) == Dig(d, j);
    assert Dig(e, i) == Dig(d, i) + 1;
  }

  /** The successor walk from `d` (exclusive): every later vector whose digits
      add up to `s`, in the order visited. */
  function Collect(d: seq<int>, s: int): seq<seq<int>>
    requires Walkable(d)
    decreases Bound - Rank(d)
  {
    var i := SafeIndex(d, |d| - 1);
    if i < 0 then []
    else
      var e := Raise(d, i);
      RaiseWalkable(d, i);
      RaiseRank(d, i);
      (if Sum(e) == s then [e] else []) + Collect(e, s)
  }

  /** sumInNumCombo[S][N]. */
  function Table(s: int, n: int): seq<seq<int>>
    requires 0 <= s <= 45 && 0 <= n <= 9
  {
    if n == 0 || s == 0 || 9 * n < s || n > s then [] else Collect(Pre(n), s)
  }

  /** sumInNumIsUnique[S][N]. */
  predicate IsUnique(s: int, n: int)
    requires 0 <= s <= 45 && 0 <= n <= 9
  {
    |Table(s, n)| == 1
  }

  /** A digit set of length N summing to S: what a table entry must be. */
  predicate Solves(x: seq<int>, s: int, n: int) {
    IsCombo(x) && |x| == n && Sum(x) == s
  }

  // ---------------------------------------------------------------------------
  // Facts about ascending digit sets

  lemma {:induction false} Gap(e: seq<int>, i: int, j: int)
    requires IsCombo(e) && 0 <= i <= j < |e|
    ensures e[j] - e[i] >= j - i
    decreases j - i
  {
    if i < j {
      Gap(e, i, j - 1);
    }
  }

  lemma CapBound(e: seq<int>, j: int)
    requires IsCombo(e) && 0 <= j < |e|
    ensures e[j] <= Cap(|e|, j)
    ensures e[j] >= j + 1
  {
    Gap(e, j, |e| - 1);
    Gap(e, 0, j);
  }

  lemma {:induction false} SumBounds(x: seq<int>)
    requires forall i :: 0 <= i < |x| ==> 1 <= x[i] <= 9
    ensures |x| <= Sum(x) <= 9 * |x|
  {
    if |x| > 0 {
      SumBounds(x[1..]);
    }
  }

  lemma {:induction false} LexTrans(a: seq<int>, b: seq<int>, c: seq<int>)
    requires LexLess(a, b) && LexLess(b, c)
    ensures LexLess(a, c)
  {
    var k1 :| 0 <= k1 < |a| && a[k1] < b[k1] && (forall j :: 0 <= j < k1 ==> a[j] == b[j]);
    var k2 :| 0 <= k2 < |b| && b[k2] < c[k2] && (forall j :: 0 <= j < k2 ==> b[j] == c[j]);
    var k := if k1 < k2 then k1 else k2;
    assert a[k] < c[k];
    assert forall j :: 0 <= j < k ==> a[j] == c[j];
  }

  lemma LexIrreflexive(a: seq<int>)
    ensures !LexLess(a, a)
  {
  }

  /** Digit-wise below-or-equal means lexicographically below-or-equal. */
  lemma {:induction false} PointwiseLexLe(a: seq<int>, b: seq<int>)
    requires |a| == |b|
    requires forall j :: 0 <= j < |a| ==> a[j] <= b[j]
    ensures a == b || LexLess(a, b)
  {
    if |a| > 0 {
      if a[0] < b[0] {
        assert LexLess(a, b);
      } else {
        PointwiseLexLe(a[1..], b[1..]);
        if a[1..] == b[1..] {
          assert a == [a[0]] + a[1..] && b == [b[0]] + b[1..];
        } else {
          var k :| 0 <= k < |a[1..]| && a[1..][k] < b[1..][k]
            && (forall j :: 0 <= j < k ==> a[1..][j] == b[1..][j]);
          assert a[k + 1] < b[k + 1];
          assert forall j :: 0 <= j < k + 1 ==> a[j] == b[j] by {
            forall j | 0 <= j < k + 1
              ensures a[j] == b[j]
            {
              if j > 0 {
                assert a[j] == a[1..][j - 1] && b[j] == b[1..][j - 1];
              }
            }
          }
        }
      }
    }
  }

  // ---------------------------------------------------------------------------
  // The successor step

  lemma RaiseIsCombo(d: seq<int>, i: int)
    requires IsCombo(d) && 0 <= i < |d| && d[i] < Cap(|d|, i)
    ensures IsCombo(Raise(d, i))
    ensures LexLess(d, Raise(d, i))
  {
    var e := Raise(d, i);
    assert e[i] > d[i];
    assert forall j :: 0 <= j < i ==> d[j] == e[j];
  }

  /** The successor of `d` is the least ascending set lexicographically above
      `d`: nothing a later set could be lies strictly between them. */
  lemma NextIsLeast(d: seq<int>, e: seq<int>)
    requires IsCombo(d) && IsCombo(e) && LexLess(d, e)
    ensures SafeIndex(d, |d| - 1) >= 0
    ensures var r := Raise(d, SafeIndex(d, |d| - 1)); r == e || LexLess(r, e)
  {
    var n := |d|;
    var k :| 0 <= k < n && d[k] < e[k] && (forall j :: 0 <= j < k ==> d[j] == e[j]);
    CapBound(e, k);
    var i := SafeIndex(d, n - 1);
    assert i >= k;
    var r := Raise(d, i);
    if i > k {
      assert r[k] < e[k];
      assert forall j :: 0 <= j < k ==> r[j] == e[j];
      assert LexLess(r, e);
    } else if r[k] < e[k] {
      assert forall j :: 0 <= j < k ==> r[j] == e[j];
      assert LexLess(r, e);
    } else {
      forall j | 0 <= j < n
        ensures r[j] <= e[j]
      {
        if j > k {
          Gap(e, k, j);
        }
      }
      PointwiseLexLe(r, e);
    }
  }

  // ---------------------------------------------------------------------------
  // The walk

  /** Putting an element below all of a sorted list in front keeps it sorted. */
  lemma SortedPrepend(e: seq<int>, tail: seq<seq<int>>, keep: bool)
    requires StrictlySorted(tail)
    requires forall x :: x in tail ==> LexLess(e, x)
    ensures StrictlySorted((if keep then [e] else []) + tail)
  {
    var l := (if keep then [e] else []) + tail;
    if keep {
      forall a, b | 0 <= a < b < |l|
        ensures LexLess(l[a], l[b])
      {
        assert l[b] == tail[b - 1];
        if a > 0 {
          assert l[a] == tail[a - 1];
        }
      }
    } else {
      assert l == tail;
    }
  }

  lemma {:induction false} CollectSound(d: seq<int>, s: int)
    requires IsCombo(d) && Walkable(d)
    ensures forall x :: x in Collect(d, s) ==> Solves(x, s, |d|) && LexLess(d, x)
    ensures StrictlySorted(Collect(d, s))
    decreases Bound - Rank(d)
  {
    var i := SafeIndex(d, |d| - 1);
    if i >= 0 {
      var e := Raise(d, i);
      RaiseRank(d, i);
      RaiseIsCombo(d, i);
      CollectSound(e, s);
      var head := if Sum(e) == s then [e] else [];
      var tail := Collect(e, s);
      assert Collect(d, s) == head + tail;
      forall x | x in tail
        ensures LexLess(d, x)
      {
        LexTrans(d, e, x);
      }
      SortedPrepend(e, tail, Sum(e) == s);
    }
  }

  lemma {:induction false} CollectComplete(d: seq<int>, s: int, e: seq<int>)
    requires IsCombo(d) && Walkable(d) && IsCombo(e) && LexLess(d, e) && Sum(e) == s
    ensures e in Collect(d, s)
    decreases Bound - Rank(d)
  {
    NextIsLeast(d, e);
    var i := SafeIndex(d, |d| - 1);
    var r := Raise(d, i);
    RaiseRank(d, i);
    RaiseIsCombo(d, i);
    assert Collect(d, s) == (if Sum(r) == s then [r] else []) + Collect(r, s);
    if r != e {
      CollectComplete(r, s, e);
    }
  }

  lemma PreSteps(n: int, s: int)
    requires 1 <= n <= 9
    ensures Walkable(Pre(n)) && IsCombo(First(n)) && Walkable(First(n))
    ensures Collect(Pre(n), s) == (if Sum(First(n)) == s then [First(n)] else []) + Collect(First(n), s)
  {
    var p := Pre(n);
    assert SafeIndex(p, n - 1) == n - 1;
    assert Raise(p, n - 1) == First(n);
  }

  // ---------------------------------------------------------------------------
  // The table

  /** For 1 <= N <= 9 and 1 <= S <= 45 an entry is in sumInNumCombo[S][N]
      exactly when it is a strictly ascending N-digit set over 1..9 summing to S. */
  lemma TableExact(s: int, n: int, x: seq<int>)
    requires 1 <= s <= 45 && 1 <= n <= 9
    ensures x in Table(s, n) <==> Solves(x, s, n)
  {
    if Solves(x, s, n) {
      TableComplete(s, n, x);
    }
    if x in Table(s, n) {
      TableSound(s, n, x);
    }
  }

  /** Every digit set of the right length and sum is listed. */
  lemma TableComplete(s: int, n: int, x: seq<int>)
    requires 1 <= s <= 45 && 1 <= n <= 9 && Solves(x, s, n)
    ensures x in Table(s, n)
  {
    SumBounds(x);
    TableStart(s, n);
    FirstLeast(x);
    var f := First(n);
    if x != f {
      CollectComplete(f, s, x);
    }
  }

  /** A table cell that the guards let through starts the walk at 1..N. */
  lemma TableStart(s: int, n: int)
    requires 1 <= n <= 9 && n <= s <= 9 * n && s <= 45
    ensures IsCombo(First(n)) && Walkable(First(n))
    ensures Table(s, n) == (if Sum(First(n)) == s then [First(n)] else []) + Collect(First(n), s)
  {
    PreSteps(n, s);
  }

  /** 1..N is the least N-digit set. */
  lemma FirstLeast(x: seq<int>)
    requires IsCombo(x) && 1 <= |x|
    ensures x == First(|x|) || LexLess(First(|x|), x)
  {
    forall j | 0 <= j < |x|
      ensures First(|x|)[j] <= x[j]
    {
      CapBound(x, j);
    }
    PointwiseLexLe(First(|x|), x);
  }

  /** Every listed entry is a digit set of the right length and sum. */
  lemma TableSound(s: int, n: int, x: seq<int>)
    requires 1 <= s <= 45 && 1 <= n <= 9 && x in Table(s, n)
    ensures Solves(x, s, n)
  {
    PreSteps(n, s);
    CollectSound(First(n), s);
  }

  /** Entries come in strictly increasing lexicographic order, so no digit set
      is listed twice. */
  lemma TableSorted(s: int, n: int)
    requires 0 <= s <= 45 && 0 <= n <= 9
    ensures StrictlySorted(Table(s, n))
    ensures forall i, j :: 0 <= i < j < |Table(s, n)| ==> Table(s, n)[i] != Table(s, n)[j]
  {
    if !(n == 0 || s == 0 || 9 * n < s || n > s) {
      PreSteps(n, s);
      CollectSound(First(n), s);
      var t := Table(s, n);
      var head := if Sum(First(n)) == s then [First(n)] else [];
      var tail := Collect(First(n), s);
      assert t == head + tail;
      SortedPrepend(First(n), tail, Sum(First(n)) == s);
    }
    forall i, j | 0 <= i < j < |Table(s, n)|
      ensures Table(s, n)[i] != Table(s, n)[j]
    {
      LexIrreflexive(Table(s, n)[i]);
    }
  }

  /** Every entry of every table cell, including the ones the guards leave
      empty, is a valid digit set of the right length and sum. */
  lemma TableEntries(s: int, n: int)
    requires 0 <= s <= 45 && 0 <= n <= 9
    ensures forall x :: x in Table(s, n) ==> Solves(x, s, n)
  {
    if !(n == 0 || s == 0 || 9 * n < s || n > s) {
      forall x | x in Table(s, n)
        ensures Solves(x, s, n)
      {
        TableExact(s, n, x);
      }
    }
  }

  /** The table is empty exactly when no digit set fits; N = 0 and S = 0 are
      always empty. */
  lemma TableEmpty(s: int, n: int)
    requires 0 <= s <= 45 && 0 <= n <= 9
    ensures (n == 0 || s == 0) ==> Table(s, n) == []
    ensures 1 <= n && 1 <= s ==> (Table(s, n) == [] <==> forall x :: !Solves(x, s, n))
  {
    if 1 <= n && 1 <= s {
      if Table(s, n) != [] {
        TableExact(s, n, Table(s, n)[0]);
      } else {
        forall x
          ensures !Solves(x, s, n)
        {
          TableExact(s, n, x);
        }
      }
    }
  }

  lemma FirstTwoDiffer(t: seq<seq<int>>)
    ensures StrictlySorted(t) && |t| > 1 ==> t[0] != t[1]
  {
    if |t| > 1 {
      LexIrreflexive(t[0]);
    }
  }

  /** sumInNumIsUnique[S][N] holds exactly when a single digit set fits. */
  lemma UniqueMeansOneSet(s: int, n: int)
    requires 1 <= s <= 45 && 1 <= n <= 9
    ensures IsUnique(s, n) <==>
      exists x :: x in Table(s, n) && forall y :: Solves(y, s, n) ==> y == x
  {
    var t := Table(s, n);
    TableSorted(s, n);
    if IsUnique(s, n) {
      var x := t[0];
      forall y | Solves(y, s, n)
        ensures y == x
      {
        TableExact(s, n, y);
      }
      assert x in t;
    }
    if exists x :: x in t && forall y :: Solves(y, s, n) ==> y == x {
      var x :| x in t && forall y :: Solves(y, s, n) ==> y == x;
      forall i | 0 <= i < |t|
        ensures t[i] == x
      {
        TableExact(s, n, t[i]);
      }
      if |t| > 1 {
        FirstTwoDiffer(t);
        assert false;
      }
    }
  }

  /** The single entry of a cell with exactly one fitting digit set. */
  lemma SingleEntry(s: int, n: int, x: seq<int>)
    requires 1 <= s <= 45 && 1 <= n <= 9
    requires Solves(x, s, n)
    requires forall y :: Solves(y, s, n) ==> y == x
    ensures Table(s, n) == [x]
    ensures IsUnique(s, n)
  {
    TableExact(s, n, x);
    UniqueMeansOneSet(s, n);
    var t := Table(s, n);
    assert |t| == 1;
    TableExact(s, n, t[0]);
    assert t == [t[0]];
  }

  lemma SumPair(y: seq<int>)
    requires |y| == 2
    ensures Sum(y) == y[0] + y[1]
  {
    assert y[1..][1..] == [];
    calc {
      Sum(y);
      y[0] + Sum(y[1..]);
      y[0] + (y[1..][0] + Sum(y[1..][1..]));
    }
  }

  /** sumInNumCombo[3][2] is the one set {1, 2}. */
  lemma ThreeInTwo()
    ensures Table(3, 2) == [[1, 2]] && IsUnique(3, 2)
  {
    forall y | Solves(y, 3, 2)
      ensures y == [1, 2]
    {
      SumPair(y);
    }
    assert Sum([1, 2]) == 3;
    SingleEntry(3, 2, [1, 2]);
  }

  /** sumInNumCombo[17][2] is the one set {8, 9}. */
  lemma SeventeenInTwo()
    ensures Table(17, 2) == [[8, 9]] && IsUnique(17, 2)
  {
    forall y | Solves(y, 17, 2)
      ensures y == [8, 9]
    {
      SumPair(y);
    }
    assert Sum([8, 9]) == 17;
    SingleEntry(17, 2, [8, 9]);
  }

  // ---------------------------------------------------------------------------
  // The digit set of a run

  /** The digits from `k` to 9 that occur in `vs`, in ascending order. */
  function Ascending(vs: seq<int>, k: int): (x: seq<int>)
    requires 1 <= k <= 10
    ensures forall i :: 0 <= i < |x| ==> k <= x[i] <= 9
    ensures forall i, j :: 0 <= i < j < |x| ==> x[i] < x[j]
    ensures forall v :: v in x <==> k <= v <= 9 && v in vs
    decreases 10 - k
  {
    if k == 10 then []
    else
      var rest := Ascending(vs, k + 1);
      if k in vs then [k] + rest else rest
  }

  lemma SumCons(v: int, x: seq<int>)
    ensures Sum([v] + x) == v + Sum(x)
  {
    assert ([v] + x)[1..] == x;
  }

  /** One more digit in the values adds that digit to the set, once. */
  lemma {:induction false} AscendingInsert(v: int, vs: seq<int>, k: int)
    requires 1 <= k <= 10 && v !in vs
    ensures var d := if k <= v <= 9 then 1 else 0;
      && |Ascending([v] + vs, k)| == |Ascending(vs, k)| + d
      && Sum(Ascending([v] + vs, k)) == Sum(Ascending(vs, k)) + d * v
    decreases 10 - k
  {
    if k < 10 {
      AscendingInsert(v, vs, k + 1);
      var r1 := Ascending([v] + vs, k + 1);
      var r0 := Ascending(vs, k + 1);
      if k in vs {
        SumCons(k, r1);
        SumCons(k, r0);
      } else if k == v {
        SumCons(k, r1);
      }
    }
  }

  /** Sorting pairwise different digits keeps their number and their sum. */
  lemma {:induction false} AscendingSizeSum(vs: seq<int>)
    requires forall i :: 0 <= i < |vs| ==> 1 <= vs[i] <= 9
    requires forall i, j :: 0 <= i < j < |vs| ==> vs[i] != vs[j]
    ensures |Ascending(vs, 1)| == |vs| && Sum(Ascending(vs, 1)) == Sum(vs)
  {
    if |vs| > 0 {
      var v := vs[0];
      var rest := vs[1..];
      assert forall i :: 0 <= i < |rest| ==> rest[i] == vs[i + 1];
      AscendingSizeSum(rest);
      assert v !in rest by {
        forall i | 0 <= i < |rest|
          ensures rest[i] != v
        {
          assert rest[i] == vs[i + 1];
        }
      }
      assert vs == [v] + rest;
      AscendingInsert(v, rest, 1);
    }
  }

  /** The pairwise different digits of a run, sorted, form a digit set of the
      run's length and sum that holds every one of them. */
  lemma AscendingSolves(vs: seq<int>)
    requires forall i :: 0 <= i < |vs| ==> 1 <= vs[i] <= 9
    requires forall i, j :: 0 <= i < j < |vs| ==> vs[i] != vs[j]
    ensures Solves(Ascending(vs, 1), Sum(vs), |vs|)
    ensures forall i :: 0 <= i < |vs| ==> vs[i] in Ascending(vs, 1)
  {
    AscendingSizeSum(vs);
    assert forall i :: 0 <= i < |vs| ==> vs[i] in vs;
  }
}

=== FILE: generator.dfy ===
/** The second and third phases of generateKAKString in puzzleboard.cpp: the
    clue sums are read off a filled-in board, and fill-in squares are then
    fixed one at a time until the logic solver alone finishes the puzzle.
    The random layout and the random fill are not part of this model; the
    filled board is an input. */
module Generator {
  import Combos
  import opened Cells
  import opened Boards
  import opened Solved
  import Meta
  import Solver

  // ---------------------------------------------------------------------------
  // Phase two, part two: clue sums from the filled board

  /** The sum of the values from the square `k` steps along direction `d`
      up to the next clue square or the edge of the board: the walk that
      totals a down run, and its twin for a right run. */
  function SumAlong(b: Board, p: Pos, d: Dir, k: int): int
    requires Shaped(b)
    decreases Dist(b, p, d) + 1 - k
  {
    var q := Walk(p, d, k);
    if !InBounds(b, q) || At(b, q).isClue then 0
    else At(b, q).value + SumAlong(b, p, d, k + 1)
  }

  /** The values on a list of squares. */
  function Values(b: Board, ps: seq<Pos>): (vs: seq<int>)
    requires Shaped(b) && forall i :: 0 <= i < |ps| ==> InBounds(b, ps[i])
    ensures |vs| == |ps|
  {
    seq(|ps|, i requires 0 <= i < |ps| => At(b, ps[i]).value)
  }

  /** The values on a list of squares, added up front to back (a square
      off the board adds nothing). */
  function SumOver(b: Board, ps: seq<Pos>): int
    requires Shaped(b)
  {
    if |ps| == 0 then 0
    else (if InBounds(b, ps[0]) then At(b, ps[0]).value else 0) + SumOver(b, ps[1..])
  }

  /** The loop sums exactly the values of the run the win test reads. */
  lemma SumAlongMeaning(b: Board, p: Pos, d: Dir)
    requires Shaped(b)
    ensures SumAlong(b, p, d, 1) == Combos.Sum(RunValues(b, p, d))
  {
    RayFacts(b, p, d);
    SumAlongFrom(b, p, d, 1);
    SumOverValues(b, Ray(b, p, d));
    assert RunValues(b, p, d) == Values(b, Ray(b, p, d));
  }

  lemma {:induction false} SumAlongFrom(b: Board, p: Pos, d: Dir, k: int)
    requires Shaped(b)
    ensures SumAlong(b, p, d, k) == SumOver(b, RayFrom(b, p, d, k))
    decreases Dist(b, p, d) + 1 - k
  {
    var q := Walk(p, d, k);
    if InBounds(b, q) && !At(b, q).isClue {
      SumAlongFrom(b, p, d, k + 1);
      assert RayFrom(b, p, d, k)[1..] == RayFrom(b, p, d, k + 1);
    }
  }

  lemma {:induction false} SumOverValues(b: Board, ps: seq<Pos>)
    requires Shaped(b) && forall i :: 0 <= i < |ps| ==> InBounds(b, ps[i])
    ensures SumOver(b, ps) == Combos.Sum(Values(b, ps))
  {
    if |ps| > 0 {
      SumOverValues(b, ps[1..]);
      assert Values(b, ps)[1..] == Values(b, ps[1..]);
    }
  }

  /** Every fill-in square holds a value 0..9 (setValue allows no other). */
  ghost predicate ValuesInRange(b: Board)
    requires Shaped(b)
  {
    forall q :: InBounds(b, q) && !At(b, q).isClue ==> 0 <= At(b, q).value <= 9
  }

  /** One square of the clue loop: a fill-in square gets note slot `value`
      set (slot 0 being note entry mode), a clue square gets the sums of its
      down run and its right run. */
  function DeriveCell(b: Board, q: Pos): Cell
    requires Shaped(b) && InBounds(b, q) && ValuesInRange(b)
  {
    var x := At(b, q);
    if !x.isClue then SetNote(x, x.value, true)
    else x.(downClue := SumAlong(b, q, Down, 1), rightClue := SumAlong(b, q, Right, 1))
  }

  /** The clue loop over the whole board. */
  function DeriveClues(b: Board): (b': Board)
    requires Shaped(b) && ValuesInRange(b)
    ensures Shaped(b') && b'.rows == b.rows && b'.cols == b.cols
    ensures forall q :: InBounds(b, q) ==> At(b', q) == DeriveCell(b, q)
  {
    b.(cells := seq(b.rows, r requires 0 <= r < b.rows =>
                  seq(b.cols, c requires 0 <= c < b.cols => DeriveCell(b, Pos(r, c)))))
  }

  /** The clue loop moves no clue square and changes no value; each clue of
      the result is the sum of the values along its run in the result. */
  lemma DeriveCluesSums(b: Board)
    requires Shaped(b) && ValuesInRange(b)
    ensures SameLayout(b, DeriveClues(b))
    ensures forall q :: InBounds(b, q) ==> At(DeriveClues(b), q).value == At(b, q).value
    ensures forall q :: InBounds(b, q) && At(b, q).isClue ==>
      && At(DeriveClues(b), q).downClue == Combos.Sum(RunValues(DeriveClues(b), q, Down))
      && At(DeriveClues(b), q).rightClue == Combos.Sum(RunValues(DeriveClues(b), q, Right))
  {
    var b' := DeriveClues(b);
    forall q | InBounds(b, q) && At(b, q).isClue
      ensures && At(b', q).downClue == Combos.Sum(RunValues(b', q, Down))
              && At(b', q).rightClue == Combos.Sum(RunValues(b', q, Right))
    {
      SameRunValues(b, b', q, Down);
      SameRunValues(b, b', q, Right);
      SumAlongMeaning(b, q, Down);
      SumAlongMeaning(b, q, Right);
    }
  }

  /** Two boards with the same layout and the same values read the same run
      values. */
  lemma SameRunValues(a: Board, b: Board, p: Pos, d: Dir)
    requires SameLayout(a, b)
    requires forall q :: InBounds(a, q) ==> At(b, q).value == At(a, q).value
    ensures RunValues(a, p, d) == RunValues(b, p, d)
  {
    RaySameLayout(a, b, p, d);
    RayFacts(a, p, d);
  }

  /** Every fill-in square holds a digit: the board the random fill leaves. */
  ghost predicate Filled(b: Board)
    requires Shaped(b)
  {
    forall q :: InBounds(b, q) && !At(b, q).isClue ==> 1 <= At(b, q).value <= 9
  }

  /** No run repeats a digit: what the random fill maintains. */
  ghost predicate RunsDistinct(b: Board)
    requires Shaped(b)
  {
    forall q :: InBounds(b, q) && At(b, q).isClue ==>
      Distinct(RunValues(b, q, Down)) && Distinct(RunValues(b, q, Right))
  }

  /** Clues read off a filled board whose runs repeat no digit make that
      board a solution of its own puzzle, and the win test accepts it. */
  lemma DerivedSolves(b: Board)
    requires Shaped(b) && Filled(b) && RunsDistinct(b)
    ensures Solution(DeriveClues(b))
    ensures CheckSolved(DeriveClues(b))
  {
    var b' := DeriveClues(b);
    DeriveCluesSums(b);
    forall q | InBounds(b', q)
      ensures SquareOk(b', q)
    {
      if At(b, q).isClue {
        SameRunValues(b, b', q, Down);
        SameRunValues(b, b', q, Right);
      }
    }
    forall q | InBounds(b', q) && At(b', q).isClue
      ensures 0 <= At(b', q).downClue && 0 <= At(b', q).rightClue
    {
      SameRunValues(b, b', q, Down);
      SameRunValues(b, b', q, Right);
      RayFacts(b, q, Down);
      RayFacts(b, q, Right);
      SumNonNegative(RunValues(b, q, Down));
      SumNonNegative(RunValues(b, q, Right));
    }
    CheckSolvedMeaning(b');
  }

  lemma {:induction false} SumNonNegative(vs: seq<int>)
    requires forall i :: 0 <= i < |vs| ==> 0 <= vs[i]
    ensures 0 <= Combos.Sum(vs)
  {
    if |vs| > 0 {
      SumNonNegative(vs[1..]);
    }
  }

  // ---------------------------------------------------------------------------
  // Phase three: the density cutoff

  /** After the first solve, more than eight notes per empty fill-in square
      on average sends the generator back for new clues. */
  predicate TooDense(b: Board)
    requires Shaped(b)
  {
    Total(EmptyNotes, b) > 8 * Total(Empties, b)
  }

  /** An empty fill-in square that still carries all nine notes. */
  ghost predicate Untouched(b: Board, q: Pos)
    requires Shaped(b)
  {
    InBounds(b, q) && !At(b, q).isClue && At(b, q).value == 0 && |At(b, q).notes| == 9
  }

  /** The cutoff fires only when some empty square has kept every note, and
      it fires whenever every empty square has, provided there is one. */
  lemma TooDenseMeaning(b: Board)
    requires Shaped(b)
    ensures TooDense(b) ==> exists q :: Untouched(b, q)
    ensures HasEmptyCells(b) && (forall q :: InBounds(b, q) && !At(b, q).isClue && At(b, q).value == 0 ==> Untouched(b, q))
      ==> TooDense(b)
  {
    if !exists q :: Untouched(b, q) {
      forall q | InBounds(b, q)
        ensures Weight(EmptyNotes, At(b, q)) <= 8 * Weight(Empties, At(b, q))
      {
        Solver.NotesAtMostNine(At(b, q).notes);
        assert !Untouched(b, q);
      }
      TotalScaled(EmptyNotes, Empties, 8, b);
    }
    if HasEmptyCells(b) && (forall q :: InBounds(b, q) && !At(b, q).isClue && At(b, q).value == 0 ==> Untouched(b, q)) {
      forall q | InBounds(b, q)
        ensures Weight(EmptyNotes, At(b, q)) == 9 * Weight(Empties, At(b, q))
      {
        if !At(b, q).isClue && At(b, q).value == 0 {
          assert Untouched(b, q);
        }
      }
      TotalScaled(EmptyNotes, Empties, 9, b);
      HasEmptyCellsCount(b);
    }
  }

  /** Square-by-square bounds between two measures scale to the totals. */
  lemma TotalScaled(m: Metric, n: Metric, k: nat, b: Board)
    requires Shaped(b)
    ensures (forall q :: InBounds(b, q) ==> Weight(m, At(b, q)) <= k * Weight(n, At(b, q))) ==>
      Total(m, b) <= k * Total(n, b)
    ensures (forall q :: InBounds(b, q) ==> Weight(m, At(b, q)) == k * Weight(n, At(b, q))) ==>
      Total(m, b) == k * Total(n, b)
  {
    if forall q :: InBounds(b, q) ==> Weight(m, At(b, q)) <= k * Weight(n, At(b, q)) {
      forall r, c | 0 <= r < |b.cells| && 0 <= c < |b.cells[r]|
        ensures Weight(m, b.cells[r][c]) <= k * Weight(n, b.cells[r][c])
      {
        assert InBounds(b, Pos(r, c));
      }
      GridScaled(m, n, k, b.cells, true);
    }
    if forall q :: InBounds(b, q) ==> Weight(m, At(b, q)) == k * Weight(n, At(b, q)) {
      forall r, c | 0 <= r < |b.cells| && 0 <= c < |b.cells[r]|
        ensures Weight(m, b.cells[r][c]) == k * Weight(n, b.cells[r][c])
      {
        assert InBounds(b, Pos(r, c));
      }
      GridScaled(m, n, k, b.cells, true);
      GridScaled(m, n, k, b.cells, false);
    }
  }

  /** `Weight(m, x)` against `k * Weight(n, x)`: at most when `atMost`,
      at least otherwise. */
  predicate ScaledBound(m: Metric, n: Metric, k: nat, x: Cell, atMost: bool) {
    if atMost then Weight(m, x) <= k * Weight(n, x) else Weight(m, x) >= k * Weight(n, x)
  }

  lemma {:induction false} GridScaled(m: Metric, n: Metric, k: nat, g: seq<seq<Cell>>, atMost: bool)
    requires forall r, c :: 0 <= r < |g| && 0 <= c < |g[r]| ==> ScaledBound(m, n, k, g[r][c], atMost)
    ensures atMost ==> GridTotal(m, g) <= k * GridTotal(n, g)
    ensures !atMost ==> GridTotal(m, g) >= k * GridTotal(n, g)
  {
    if |g| > 0 {
      assert forall r, c :: 0 <= r < |g| - 1 && 0 <= c < |g[1..][r]| ==> g[1..][r][c] == g[r + 1][c];
      RowScaled(m, n, k, g[0], atMost);
      GridScaled(m, n, k, g[1..], atMost);
      Distrib(k, RowTotal(n, g[0]), GridTotal(n, g[1..]));
    }
  }

  lemma {:induction false} RowScaled(m: Metric, n: Metric, k: nat, row: seq<Cell>, atMost: bool)
    requires forall c :: 0 <= c < |row| ==> ScaledBound(m, n, k, row[c], atMost)
    ensures atMost ==> RowTotal(m, row) <= k * RowTotal(n, row)
    ensures !atMost ==> RowTotal(m, row) >= k * RowTotal(n, row)
  {
    if |row| > 0 {
      assert forall c :: 0 <= c < |row| - 1 ==> row[1..][c] == row[c + 1];
      assert ScaledBound(m, n, k, row[0], atMost);
      RowScaled(m, n, k, row[1..], atMost);
      Distrib(k, Weight(n, row[0]), RowTotal(n, row[1..]));
    }
  }

  lemma Distrib(k: int, x: int, y: int)
    ensures k * (x + y) == k * x + k * y
  {
  }

  // ---------------------------------------------------------------------------
  // Phase three: counting a square's notes

  /** The note-count loop of the phase-three scan from digit `n` on: it
      counts the notes, remembers the last one, and stops as soon as the
      count passes `min`. The result is (count, last note). */
  function CountFrom(notes: NoteSet, n: int, min: int, count: int, last: int): (r: (int, int))
    requires 1 <= n <= 10
    ensures count <= r.0
    decreases 10 - n
  {
    if n == 10 then (count, last)
    else if n in notes then
      if count + 1 > min then (count + 1, last) else CountFrom(notes, n + 1, min, count + 1, n)
    else CountFrom(notes, n + 1, min, count, last)
  }

  function CountNotes(notes: NoteSet, min: int): (r: (int, int))
    ensures 0 <= r.0
  {
    CountFrom(notes, 1, min, 0, 0)
  }

  /** Within the cap the loop counts every note and ends on the largest;
      past the cap it reports one more than the cap. */
  lemma CountNotesMeaning(notes: NoteSet, min: int)
    requires 0 <= min
    ensures var r := CountNotes(notes, min);
      && (|notes| <= min ==> r.0 == |notes|)
      && (|notes| > min ==> r.0 == min + 1)
      && (|notes| <= min && notes == {} ==> r.1 == 0)
      && (|notes| <= min && notes != {} ==> r.1 in notes && forall x :: x in notes ==> x <= r.1)
  {
    assert Above(notes, 1) == notes;
    CountFromMeaning(notes, 1, min, 0, 0);
  }

  lemma {:induction false} CountFromMeaning(notes: NoteSet, n: int, min: int, count: int, last: int)
    requires 1 <= n <= 10 && 0 <= count <= min
    ensures var r := CountFrom(notes, n, min, count, last); var a := Above(notes, n);
      && (count + |a| <= min ==> r.0 == count + |a|)
      && (count + |a| > min ==> r.0 == min + 1)
      && (count + |a| <= min && a == {} ==> r.1 == last)
      && (count + |a| <= min && a != {} ==> r.1 in a && forall x :: x in a ==> x <= r.1)
    decreases 10 - n
  {
    AboveStep(notes, n);
    if n < 10 {
      var a := Above(notes, n);
      var a' := Above(notes, n + 1);
      assert a == if n in notes then a' + {n} else a';
      if n in notes {
        if count + 1 <= min {
          CountFromMeaning(notes, n + 1, min, count + 1, n);
        }
      } else {
        CountFromMeaning(notes, n + 1, min, count, last);
      }
    } else {
      assert Above(notes, n) == {};
    }
  }

  // ---------------------------------------------------------------------------
  // Phase three: choosing the square to fix

  /** A square the scan looks at: an empty, unfixed fill-in square. */
  predicate Eligible(b: Board, q: Pos)
    requires Shaped(b)
  {
    InBounds(b, q) && !At(b, q).isClue && At(b, q).value == 0 && !At(b, q).fixed
  }

  /** The scan's running state: the smallest note count so far, the square
      that had it, and that square's largest note. */
  datatype Best = Best(min: int, cell: Meta.Option<Pos>, note: int)

  const Start := Best(10, Meta.None, 0)

  /** The column loop of one row, from column `c`. `None` is the `quit`
      exit: an eligible square with fewer than two notes. Once the best
      count is two the loop leaves the row. */
  function ScanCols(b: Board, r: int, c: int, st: Best): (o: Meta.Option<Best>)
    requires Shaped(b) && 0 <= r < b.rows && 0 <= c <= b.cols && 0 <= st.min
    ensures o.Some? ==> 0 <= o.value.min
    decreases b.cols - c
  {
    if c == b.cols then Meta.Some(st)
    else
      var x := b.cells[r][c];
      if x.isClue || x.value != 0 || x.fixed then ScanCols(b, r, c + 1, st)
      else
        var (k, last) := CountNotes(x.notes, st.min);
        if k == 0 || k == 1 then Meta.None
        else
          var st' := if k < st.min then Best(k, Meta.Some(Pos(r, c)), last) else st;
          if st'.min == 2 then Meta.Some(st') else ScanCols(b, r, c + 1, st')
  }

  /** The row loop, from row `r`. */
  function ScanRows(b: Board, r: int, st: Best): Meta.Option<Best>
    requires Shaped(b) && 0 <= r <= b.rows && 0 <= st.min
    decreases b.rows - r
  {
    if r == b.rows then Meta.Some(st)
    else match ScanCols(b, r, 0, st)
      case None => Meta.None
      case Some(st') => ScanRows(b, r + 1, st')
  }

  /** The whole scan of one pass of the fixing loop. */
  function Scan(b: Board): Meta.Option<Best>
    requires Shaped(b)
  {
    ScanRows(b, 0, Start)
  }

  /** `q` comes before row `r`, column `c` in row-major order. */
  predicate Before(q: Pos, r: int, c: int) {
    q.r < r || (q.r == r && q.c < c)
  }

  /** The state names an eligible square seen before (r, c) with exactly
      `min` notes, `note` is its largest note, and every eligible square
      before it has more notes. */
  ghost predicate Picked(b: Board, st: Best, r: int, c: int)
    requires Shaped(b)
  {
    && st.cell.Some?
    && var q := st.cell.value;
    && Eligible(b, q) && Before(q, r, c)
    && |At(b, q).notes| == st.min
    && st.note in At(b, q).notes && (forall x :: x in At(b, q).notes ==> x <= st.note)
    && (forall q' :: Eligible(b, q') && Before(q', q.r, q.c) ==> |At(b, q').notes| > st.min)
  }

  /** What the scan knows once every square before (r, c) is behind it. */
  ghost predicate ScanInv(b: Board, r: int, c: int, st: Best)
    requires Shaped(b)
  {
    && 2 <= st.min <= 10
    && (st.cell.None? ==> st.min == 10 && forall q :: Eligible(b, q) ==> !Before(q, r, c))
    && (st.cell.Some? ==> Picked(b, st, r, c))
    && (forall q :: Eligible(b, q) && Before(q, r, c) ==>
          |At(b, q).notes| >= st.min || (st.min == 2 && |At(b, q).notes| <= 1))
  }

  lemma {:induction false} ScanColsInv(b: Board, r: int, c: int, st: Best)
    requires Shaped(b) && 0 <= r < b.rows && 0 <= c <= b.cols && ScanInv(b, r, c, st)
    ensures match ScanCols(b, r, c, st)
      case None => exists q :: Eligible(b, q) && |At(b, q).notes| <= 1
      case Some(st') => ScanInv(b, r + 1, 0, st')
    decreases b.cols - c
  {
    if c == b.cols {
      return;
    }
    var p := Pos(r, c);
    var x := b.cells[r][c];
    assert x == At(b, p);
    if x.isClue || x.value != 0 || x.fixed {
      ScanColsInv(b, r, c + 1, st);
    } else {
      Solver.NotesAtMostNine(x.notes);
      CountNotesMeaning(x.notes, st.min);
      var (k, last) := CountNotes(x.notes, st.min);
      if k == 0 || k == 1 {
        assert Eligible(b, p);
      } else {
        var st' := if k < st.min then Best(k, Meta.Some(p), last) else st;
        ScanStep(b, r, c, st, st');
        if st'.min != 2 {
          ScanColsInv(b, r, c + 1, st');
        }
      }
    }
  }

  /** One eligible square with at least two notes, processed. */
  lemma ScanStep(b: Board, r: int, c: int, st: Best, st': Best)
    requires Shaped(b) && 0 <= r < b.rows && 0 <= c < b.cols && ScanInv(b, r, c, st)
    requires Eligible(b, Pos(r, c)) && |At(b, Pos(r, c)).notes| >= 2
    requires var (k, last) := CountNotes(At(b, Pos(r, c)).notes, st.min);
      st' == if k < st.min then Best(k, Meta.Some(Pos(r, c)), last) else st
    ensures ScanInv(b, r, c + 1, st')
    ensures st'.min == 2 ==> ScanInv(b, r + 1, 0, st')
  {
    var x := At(b, Pos(r, c));
    Solver.NotesAtMostNine(x.notes);
    CountNotesMeaning(x.notes, st.min);
    var (k, last) := CountNotes(x.notes, st.min);
    if k < st.min {
      ScanUpdate(b, r, c, st, last);
    } else {
      ScanKeep(b, r, c, st);
    }
    if st'.min == 2 {
      ScanLeaveRow(b, r, c, st');
    }
  }

  /** A square with fewer notes than the best so far becomes the best. */
  lemma ScanUpdate(b: Board, r: int, c: int, st: Best, last: int)
    requires Shaped(b) && 0 <= r < b.rows && 0 <= c < b.cols && ScanInv(b, r, c, st)
    requires Eligible(b, Pos(r, c)) && 2 <= |At(b, Pos(r, c)).notes| < st.min
    requires last in At(b, Pos(r, c)).notes && forall x :: x in At(b, Pos(r, c)).notes ==> x <= last
    ensures ScanInv(b, r, c + 1, Best(|At(b, Pos(r, c)).notes|, Meta.Some(Pos(r, c)), last))
  {
    var st' := Best(|At(b, Pos(r, c)).notes|, Meta.Some(Pos(r, c)), last);
    assert Picked(b, st', r, c + 1);
  }

  /** A square with at least as many notes as the best so far changes
      nothing. */
  lemma ScanKeep(b: Board, r: int, c: int, st: Best)
    requires Shaped(b) && 0 <= r < b.rows && 0 <= c < b.cols && ScanInv(b, r, c, st)
    requires Eligible(b, Pos(r, c)) && st.min <= |At(b, Pos(r, c)).notes| <= 9
    ensures ScanInv(b, r, c + 1, st)
  {
  }

  /** With a best count of two the rest of the row may be skipped. */
  lemma ScanLeaveRow(b: Board, r: int, c: int, st: Best)
    requires Shaped(b) && 0 <= r < b.rows && 0 <= c < b.cols && ScanInv(b, r, c + 1, st) && st.min == 2
    ensures ScanInv(b, r + 1, 0, st)
  {
  }

  lemma {:induction false} ScanRowsInv(b: Board, r: int, st: Best)
    requires Shaped(b) && 0 <= r <= b.rows && ScanInv(b, r, 0, st)
    ensures match ScanRows(b, r, st)
      case None => exists q :: Eligible(b, q) && |At(b, q).notes| <= 1
      case Some(st') => ScanInv(b, b.rows, 0, st')
    decreases b.rows - r
  {
    if r < b.rows {
      ScanColsInv(b, r, 0, st);
      if ScanCols(b, r, 0, st).Some? {
        ScanRowsInv(b, r + 1, ScanCols(b, r, 0, st).value);
      }
    }
  }

  /** The scan quits only when some eligible square has fewer than two
      notes; it names no square exactly when there is no eligible square;
      a named square is eligible, has the fewest notes among the squares
      with two or more, every earlier square has more, and the note chosen
      is its largest. */
  lemma ScanMeaning(b: Board)
    requires Shaped(b)
    ensures Scan(b).None? ==> exists q :: Eligible(b, q) && |At(b, q).notes| <= 1
    ensures (Scan(b).Some? && Scan(b).value.cell.None?) <==> forall q :: !Eligible(b, q)
    ensures Scan(b).Some? && Scan(b).value.cell.Some? ==>
      var st := Scan(b).value;
      && Picked(b, st, b.rows, 0)
      && 2 <= st.min
      && forall q :: Eligible(b, q) && |At(b, q).notes| >= 2 ==> |At(b, q).notes| >= st.min
  {
    ScanRowsInv(b, 0, Start);
    if Scan(b).Some? {
      var st := Scan(b).value;
      assert forall q :: Eligible(b, q) ==> Before(q, b.rows, 0);
    }
  }

  /** Leaving the row early also skips the `quit` test on the rest of the
      row: here the second square has a single note, yet the scan names the
      first square instead of quitting. */
  lemma ScanSkipsRestOfRow()
    ensures var b := Board(1, 2, [[Blank.(notes := {1, 2}), Blank.(notes := {3})]]);
      && Shaped(b) && Eligible(b, Pos(0, 1)) && |At(b, Pos(0, 1)).notes| == 1
      && Scan(b) == Meta.Some(Best(2, Meta.Some(Pos(0, 0)), 2))
  {
    var b := Board(1, 2, [[Blank.(notes := {1, 2}), Blank.(notes := {3})]]);
    var ns: NoteSet := {1, 2};
    assert |ns| == 2 && |{3}| == 1;
    assert CountFrom(ns, 9, 10, 2, 2) == (2, 2);
    assert CountFrom(ns, 7, 10, 2, 2) == (2, 2);
    assert CountFrom(ns, 5, 10, 2, 2) == (2, 2);
    assert CountFrom(ns, 3, 10, 2, 2) == (2, 2);
    assert CountNotes(ns, 10) == (2, 2);
    assert Shaped(b);
    assert Eligible(b, Pos(0, 1));
    assert |At(b, Pos(0, 1)).notes| == 1;
    var st := Best(2, Meta.Some(Pos(0, 0)), 2);
    assert ScanCols(b, 0, 0, Start) == Meta.Some(st);
    assert ScanRows(b, 1, st) == Meta.Some(st);
    assert ScanCols(b, 0, 0, Start) == Meta.Some(Best(2, Meta.Some(Pos(0, 0)), 2));
  }

  // ---------------------------------------------------------------------------
  // Phase three: the fixing loop

  /** setValue(note), setFixed(true) and every note slot 1..9 cleared. */
  function Fix(x: Cell, v: int): (y: Cell)
    requires 1 <= v <= 9
    ensures y.value == v && y.fixed && y.notes == {}
    ensures y.(value := x.value, fixed := x.fixed, notes := x.notes) == x
  {
    SetValue(x, v).(fixed := true, notes := {})
  }

  /** How a generation attempt ends: back to making new clues, or a puzzle
      (the cleared board) together with the solution it was cleared from. */
  datatype Attempt = NewClues | Made(puzzle: Board, solution: Board)

  /** The loop that runs until the board is solved: scan, fix the chosen square to its largest
      note, solve again with logic only. Every pass fixes one more square,
      so the loop ends. */
  function FixLoop(b: Board, solved: bool): Attempt
    requires Shaped(b) && Meta.MetaReady(b) && Meta.FixedInRange(b)
    decreases Total(Unfixed, b)
  {
    if solved then Made(ClearBoard(b), b)
    else match Scan(b)
      case None => NewClues
      case Some(st) =>
        ScanMeaning(b);
        if st.cell.None? || At(b, st.cell.value).fixed then NewClues
        else
          var b1 := Put(b, st.cell.value, Fix(At(b, st.cell.value), st.note));
          FixStep(b, st.cell.value, st.note);
          var v := Solver.Solve(b1, false);
          SolveKeeps(b1);
          FixLoop(v.board, v.solved)
  }

  /** `s` keeps the layout and clue sums of `b`, every square `b` fixed
      stays fixed, and every nonzero fixed value stays. */
  ghost predicate Keeps(b: Board, s: Board)
    requires Shaped(b)
  {
    && SameLayout(b, s)
    && forall q :: InBounds(b, q) ==>
      && (At(b, q).isClue ==> At(s, q).downClue == At(b, q).downClue && At(s, q).rightClue == At(b, q).rightClue)
      && (At(b, q).fixed ==> At(s, q).fixed)
      && (!At(b, q).isClue && At(b, q).fixed && At(b, q).value != 0 ==> At(s, q).value == At(b, q).value)
  }

  lemma KeepsTrans(a: Board, b: Board, c: Board)
    requires Shaped(a) && Shaped(b) && Keeps(a, b) && Keeps(b, c)
    ensures Keeps(a, c)
  {
  }

  /** Fixing an eligible square to a digit keeps what solve needs, keeps
      the rest of the board, and leaves one unfixed square fewer. */
  lemma FixStep(b: Board, q: Pos, n: int)
    requires Shaped(b) && Meta.MetaReady(b) && Meta.FixedInRange(b)
    requires Eligible(b, q) && 1 <= n <= 9
    ensures var b1 := Put(b, q, Fix(At(b, q), n));
      && Meta.MetaReady(b1) && Meta.FixedInRange(b1) && Keeps(b, b1)
      && Total(Unfixed, b1) < Total(Unfixed, b)
  {
    var b1 := Put(b, q, Fix(At(b, q), n));
    Solver.MetaReadyKept(b, b1);
    PutDelta(Unfixed, b, q, Fix(At(b, q), n));
  }

  /** solve keeps what `Keeps` asks for and the unfixed count. */
  lemma SolveKeeps(b: Board)
    requires Shaped(b) && Meta.MetaReady(b) && Meta.FixedInRange(b)
    ensures var s := Solver.Solve(b, false).board;
      && Meta.MetaReady(s) && Meta.FixedInRange(s) && Keeps(b, s)
      && Total(Unfixed, s) == Total(Unfixed, b)
  {
    Solver.SolveReady(b, false);
    KeepsFixed(b, Solver.Solve(b, false).board);
  }

  /** A board with the same layout, clue sums, fixed flags and nonzero
      fixed values keeps `b` and has as many unfixed squares. */
  lemma KeepsFixed(b: Board, s: Board)
    requires Shaped(b) && SameLayout(b, s)
    requires forall q :: InBounds(b, q) ==>
      && At(s, q).fixed == At(b, q).fixed
      && (At(b, q).isClue ==> At(s, q).downClue == At(b, q).downClue && At(s, q).rightClue == At(b, q).rightClue)
      && (!At(b, q).isClue && At(b, q).fixed && At(b, q).value != 0 ==> At(s, q).value == At(b, q).value)
    ensures Keeps(b, s) && Total(Unfixed, s) == Total(Unfixed, b)
  {
    TotalSame(Unfixed, b, s);
  }

  /** A finished attempt hands back a board the win test accepts and that
      solves its clues, keeping the starting board's layout, clue sums,
      fixed squares and fixed values; the puzzle is that board cleared. */
  lemma {:induction false} FixLoopSound(b: Board, solved: bool)
    requires Shaped(b) && Meta.MetaReady(b) && Meta.FixedInRange(b)
    requires solved ==> CheckSolved(b)
    ensures FixLoop(b, solved).Made? ==>
      var s := FixLoop(b, solved).solution;
      && Shaped(s) && Keeps(b, s) && CheckSolved(s) && Solution(s)
      && FixLoop(b, solved).puzzle == ClearBoard(s)
    decreases Total(Unfixed, b)
  {
    if solved {
      assert CluesNonNegative(b);
      CheckSolvedMeaning(b);
    } else if Scan(b).Some? {
      var st := Scan(b).value;
      ScanMeaning(b);
      if st.cell.Some? && !At(b, st.cell.value).fixed {
        var q := st.cell.value;
        var b1 := Put(b, q, Fix(At(b, q), st.note));
        FixStep(b, q, st.note);
        var v := Solver.Solve(b1, false);
        SolveKeeps(b1);
        FixLoopSound(v.board, v.solved);
        assert FixLoop(b, solved) == FixLoop(v.board, v.solved);
        if FixLoop(b, solved).Made? {
          KeepsTrans(b, b1, v.board);
          KeepsTrans(b, v.board, FixLoop(b, solved).solution);
        }
      }
    }
  }

  /** Phase three from the board read back from the clue string: one
      logic-only solve, the density cutoff, then the fixing loop. */
  function Phase3(b: Board): Attempt
    requires Shaped(b) && Meta.MetaReady(b) && Meta.FixedInRange(b)
  {
    var v := Solver.Solve(b, false);
    SolveKeeps(b);
    if TooDense(v.board) then NewClues else FixLoop(v.board, v.solved)
  }

  /** A puzzle comes out of phase three only past the density cutoff, and
      with a solution that keeps the clues and fixed squares it started
      from and that the win test accepts. */
  lemma Phase3Sound(b: Board)
    requires Shaped(b) && Meta.MetaReady(b) && Meta.FixedInRange(b)
    ensures Phase3(b).Made? ==>
      var s := Phase3(b).solution;
      && !TooDense(Solver.Solve(b, false).board)
      && Shaped(s) && Keeps(b, s) && CheckSolved(s) && Solution(s)
      && Phase3(b).puzzle == ClearBoard(s)
  {
    var v := Solver.Solve(b, false);
    SolveKeeps(b);
    if !TooDense(v.board) {
      FixLoopSound(v.board, v.solved);
      if Phase3(b).Made? {
        KeepsTrans(b, v.board, Phase3(b).solution);
      }
    }
  }
}

=== FILE: kak.dfy ===
/** The KAK text format of puzzleboard.cpp: the helpers getUInt and
    removeSpaces, the writer convertCellsInfoToKAKString and getKAKString
    with getTimeFormatted, the reader makeBoardFromKAKString, and
    lazyValidateKAKString. A QString is a `string`; reading one character
    past the end yields the null character, as QString's `s[0]` does on an
    empty string. */
module Kak {
  import opened Cells
  import opened Snapshots

  // ---------------------------------------------------------------------------
  // Characters and 32-bit integers

  const Two32: int := 0x1_0000_0000
  const Two31: int := 0x8000_0000

  /** An unsigned int result: arithmetic modulo 2^32. */
  function U32(x: int): (r: int)
    ensures 0 <= r < Two32
  {
    x % Two32
  }

  /** An unsigned value stored in an int: two's complement wrap-around. */
  function ToInt32(u: int): int
    requires 0 <= u < Two32
  {
    if u < Two31 then u else u - Two32
  }

  predicate IsDigit(ch: char) {
    '0' <= ch <= '9'
  }

  /** QChar::digitValue on the ASCII digits; -1 on anything else. */
  function DigitValue(ch: char): (v: int)
    ensures IsDigit(ch) ==> 0 <= v <= 9
    ensures !IsDigit(ch) ==> v == -1
  {
    if IsDigit(ch) then ch as int - '0' as int else -1
  }

  function DigitChar(v: int): (ch: char)
    requires 0 <= v <= 9
    ensures IsDigit(ch) && DigitValue(ch) == v
  {
    ('0' as int + v) as char
  }

  /** `s[0]`: the null character past the end. */
  function Head(s: string): char {
    if |s| > 0 then s[0] else 0 as char
  }

  /** Dropping the first character; an empty string stays empty. */
  function Drop1(s: string): string {
    if |s| > 0 then s[1..] else s
  }

  // ---------------------------------------------------------------------------
  // getUInt and removeSpaces

  /** getUInt: the leading run of decimal digits as an unsigned int (the
      value wraps modulo 2^32), and what follows it. Without a leading digit
      it consumes nothing and yields 0. */
  function GetUInt(s: string): (r: (int, string))
    ensures 0 <= r.0 < Two32
    ensures |r.1| <= |s|
  {
    if |s| == 0 then (0, s)
    else if s[0] < '0' || s[0] > '9' then (0, s)
    else DigitsFrom(s[1..], DigitValue(s[0]))
  }

  /** The digit loop of the number reader: while the text is not empty and
      starts with a digit, `x` becomes ten times itself plus that digit,
      wrapped to 32 bits, and the digit is dropped from the text. */
  function DigitsFrom(s: string, x: int): (r: (int, string))
    requires 0 <= x < Two32
    ensures 0 <= r.0 < Two32
    ensures |r.1| <= |s|
    decreases |s|
  {
    if |s| > 0 && DigitValue(s[0]) != -1 then DigitsFrom(s[1..], U32(x * 10 + DigitValue(s[0])))
    else (x, s)
  }

  /** getUInt consumes exactly its leading digits: what is left starts with
      no digit, and consuming something means the input started with one. */
  lemma GetUIntStops(s: string)
    ensures !IsDigit(Head(GetUInt(s).1))
    ensures |GetUInt(s).1| < |s| <==> |s| > 0 && IsDigit(s[0])
  {
    if |s| > 0 && IsDigit(s[0]) {
      DigitsFromStops(s[1..], DigitValue(s[0]));
    }
  }

  lemma {:induction false} DigitsFromStops(s: string, x: int)
    requires 0 <= x < Two32
    ensures !IsDigit(Head(DigitsFrom(s, x).1))
    decreases |s|
  {
    if |s| > 0 && DigitValue(s[0]) != -1 {
      DigitsFromStops(s[1..], U32(x * 10 + DigitValue(s[0])));
    }
  }

  /** removeSpaces: drops the leading blanks. */
  function RemoveSpaces(s: string): (r: string)
    ensures |r| <= |s| && (|r| == |s| ==> r == s)
    decreases |s|
  {
    if |s| > 0 && s[0] == ' ' then RemoveSpaces(s[1..]) else s
  }

  /** removeSpaces strips exactly a run of blanks, leaves no blank in front,
      and a second call changes nothing. */
  lemma {:induction false} RemoveSpacesMeaning(s: string)
    ensures var r := RemoveSpaces(s);
      && Head(r) != ' '
      && s == Blanks(|s| - |r|) + r
      && RemoveSpaces(r) == r
    decreases |s|
  {
    if |s| > 0 && s[0] == ' ' {
      RemoveSpacesMeaning(s[1..]);
      var r := RemoveSpaces(s);
      assert Blanks(|s| - |r|) == [' '] + Blanks(|s| - 1 - |r|);
    }
  }

  function Blanks(n: nat): (r: string)
    ensures |r| == n && forall i :: 0 <= i < n ==> r[i] == ' '
  {
    if n == 0 then [] else [' '] + Blanks(n - 1)
  }

  // ---------------------------------------------------------------------------
  // QString::number

  /** The decimal digits of a natural number, most significant first. */
  function Digits(n: nat): (ds: string)
    ensures 1 <= |ds| && forall i :: 0 <= i < |ds| ==> IsDigit(ds[i])
    decreases n
  {
    if n < 10 then [DigitChar(n)] else Digits(n / 10) + [DigitChar(n % 10)]
  }

  /** QString::number on an int: a minus sign before negative numbers. */
  function Num(n: int): string {
    if n < 0 then "-" + Digits(-n) else Digits(n)
  }

  /** getUInt reads back what QString::number wrote, up to the first
      character that is not a digit. */
  lemma GetUIntDigits(n: nat, t: string)
    requires n < Two32 && !IsDigit(Head(t))
    ensures GetUInt(Digits(n) + t) == (n, t)
  {
    GetUIntFrom(Digits(n) + t);
    DigitsFromAll(Digits(n), t, 0);
    FoldDigits(n);
  }

  /** getUInt is the digit loop started from zero. */
  lemma GetUIntFrom(s: string)
    ensures GetUInt(s) == DigitsFrom(s, 0)
  {
  }

  /** The value the digit loop accumulates over a string of digits. */
  function Fold(ds: string, x: int): (v: int)
    requires 0 <= x < Two32
    ensures 0 <= v < Two32
  {
    if |ds| == 0 then x else Fold(ds[1..], U32(x * 10 + DigitValue(ds[0])))
  }

  lemma {:induction false} DigitsFromAll(ds: string, t: string, x: int)
    requires 0 <= x < Two32
    requires (forall i :: 0 <= i < |ds| ==> IsDigit(ds[i])) && !IsDigit(Head(t))
    ensures DigitsFrom(ds + t, x) == (Fold(ds, x), t)
    decreases |ds|
  {
    if |ds| > 0 {
      assert (ds + t)[1..] == ds[1..] + t;
      DigitsFromAll(ds[1..], t, U32(x * 10 + DigitValue(ds[0])));
    } else {
      assert ds + t == t;
    }
  }

  lemma {:induction false} FoldSnoc(ds: string, ch: char, x: int)
    requires 0 <= x < Two32
    ensures Fold(ds + [ch], x) == U32(Fold(ds, x) * 10 + DigitValue(ch))
    decreases |ds|
  {
    if |ds| > 0 {
      assert (ds + [ch])[1..] == ds[1..] + [ch];
      FoldSnoc(ds[1..], ch, U32(x * 10 + DigitValue(ds[0])));
    }
  }

  lemma {:induction false} FoldDigits(n: nat)
    requires n < Two32
    ensures Fold(Digits(n), 0) == n
    decreases n
  {
    if n < 10 {
      assert Digits(n) == [] + [DigitChar(n)];
      FoldSnoc([], DigitChar(n), 0);
    } else {
      var q, r := n / 10, n % 10;
      FoldDigits(q);
      FoldSnoc(Digits(q), DigitChar(r), 0);
      assert DigitValue(DigitChar(r)) == r;
      assert q * 10 + r == n;
    }
  }

  /** QString::number(n) for a number below ten, zero-padded to two. */
  function Pad2(n: int): string {
    (if n < 10 then "0" else "") + Num(n)
  }

  // ---------------------------------------------------------------------------
  // The writer

  /** The digits of the notes, ascending. */
  function NoteChars(ns: NoteSet): (cs: string)
    ensures forall i :: 0 <= i < |cs| ==> IsDigit(cs[i]) && cs[i] != '0'
  {
    var l := NoteList(ns);
    seq(|l|, i requires 0 <= i < |l| => DigitChar(l[i]))
  }

  /** One cell of convertCellsInfoToKAKString, without the blank after it:
      `d/r` for a clue square with a nonzero sum, `-` for one without, and
      for a fill-in square its value, then `n` and the notes if it has any,
      or else `f` if it is fixed. */
  function CellText(x: CellInfo): string {
    if x.isClue then
      if x.first != 0 || x.second != 0 then Num(x.first) + "/" + Num(x.second) else "-"
    else Num(x.first) + (if x.notes != {} then "n" + NoteChars(x.notes) else if x.fixed then "f" else "")
  }

  function CellsText(infos: seq<CellInfo>): string {
    if |infos| == 0 then "" else CellText(infos[0]) + " " + CellsText(infos[1..])
  }

  /** convertCellsInfoToKAKString: `ROWSxCOLS SIZE `, the cells, and a zero
      time. */
  function Write(rows: int, cols: int, cellSize: int, infos: seq<CellInfo>): string {
    Header(rows, cols, cellSize) + CellsText(infos) + "t00:00:00"
  }

  function Header(rows: int, cols: int, cellSize: int): string {
    Num(rows) + "x" + Num(cols) + " " + Num(cellSize) + " "
  }

  /** C++ integer division and remainder: truncation toward zero. */
  function Quot(a: int, b: int): int
    requires b > 0
  {
    if a >= 0 then a / b else -((-a) / b)
  }

  function Rem(a: int, b: int): int
    requires b > 0
  {
    a - b * Quot(a, b)
  }

  /** getTimeFormatted: `HH:MM:SS`, each field at least two digits. */
  function TimeText(seconds: int): string {
    var minutes := Quot(seconds, 60);
    var secs := Rem(seconds, 60);
    var hours := Quot(minutes, 60);
    var mins := Rem(minutes, 60);
    Pad2(hours) + ":" + Pad2(mins) + ":" + Pad2(secs)
  }

  /** getKAKString: the written string with its eight-character zero time
      replaced by the elapsed time. */
  function KakString(rows: int, cols: int, cellSize: int, infos: seq<CellInfo>, seconds: int): string {
    var w := Write(rows, cols, cellSize, infos);
    w[..|w| - 8] + TimeText(seconds)
  }

  // ---------------------------------------------------------------------------
  // The reader

  /** A CellInfo as the reader clears it before each cell. */
  function Cleared(isClue: bool): CellInfo {
    CellInfo(isClue, 0, 0, false, {}, false)
  }

  /** The note loop after an `n`: every character up to a blank is a digit
      whose slot is set (slot 0 being note entry mode). */
  datatype NotesRead = NotesRead(mode: bool, notes: NoteSet, rest: string) | NoteOutOfRange

  function ReadNotes(s: string, mode: bool, ns: NoteSet): (r: NotesRead)
    ensures r.NotesRead? ==> |r.rest| <= |s|
    decreases |s|
  {
    if |s| == 0 || s[0] == ' ' then NotesRead(mode, ns, s)
    else
      var v := DigitValue(s[0]);
      if v == -1 then NoteOutOfRange
      else if v == 0 then ReadNotes(s[1..], true, ns)
      else ReadNotes(s[1..], mode, ns + {v})
  }

  /** One pass of the reader's cell loop, before the blanks are skipped. */
  datatype Step = Pushed(info: CellInfo, rest: string) | Skipped(rest: string) | BadNote

  function ReadCell(s: string): (r: Step)
    requires |s| > 0
    ensures r.Pushed? ==> |r.rest| < |s|
    ensures r.Skipped? ==> |r.rest| <= |s| && (|r.rest| == |s| ==> r.rest == s)
  {
    if s[0] == '-' then Pushed(Cleared(true), s[1..])
    else if s[0] != ' ' then
      var (v, r) := GetUInt(s);
      GetUIntStops(s);
      if Head(r) == '/' then
        var (v2, r2) := GetUInt(Drop1(r));
        Pushed(CellInfo(true, ToInt32(v), ToInt32(v2), false, {}, false), r2)
      else if |r| == 0 || r[0] == ' ' || r[0] == 'n' || r[0] == 'f' then
        if Head(r) == 'n' then
          match ReadNotes(r[1..], false, {})
          case NotesRead(mode, ns, r2) => Pushed(CellInfo(false, ToInt32(v), 0, mode, ns, false), r2)
          case NoteOutOfRange => BadNote
        else if Head(r) == 'f' then Pushed(CellInfo(false, ToInt32(v), 0, false, {}, true), r[1..])
        else if |r| < |s| then Pushed(CellInfo(false, ToInt32(v), 0, false, {}, false), r)
        else assert false; BadNote
      else Skipped(r)
    else Skipped(s)
  }

  datatype CellsRead = CellsRead(infos: seq<CellInfo>, rest: string) | CellsHang | CellsBad

  /** The cell loop: until the string ends, a `t` comes up or enough cells
      are read. A pass that consumes nothing leaves the loop in the state it
      started from, so the loop never ends. */
  function ReadCells(s: string, want: int, acc: seq<CellInfo>): CellsRead
    decreases |s|
  {
    if |s| == 0 || s[0] == 't' || want == |acc| then CellsRead(acc, s)
    else match ReadCell(s)
      case BadNote => CellsBad
      case Pushed(x, r) => ReadCells(RemoveSpaces(r), want, acc + [x])
      case Skipped(r) =>
        var r' := RemoveSpaces(r);
        if |r'| == |s| then CellsHang else ReadCells(r', want, acc)
  }

  /** A pass that consumes nothing returns the very string it was given. */
  lemma SkipRepeats(s: string)
    requires |s| > 0 && ReadCell(s).Skipped? && |RemoveSpaces(ReadCell(s).rest)| == |s|
    ensures RemoveSpaces(ReadCell(s).rest) == s
  {
  }

  /** The time field after the `t`: hours, minutes and seconds, each read
      with getUInt and one separator skipped between them, combined in
      unsigned arithmetic and stored in an int. */
  function ReadTime(s: string): int {
    var (h, a) := GetUInt(s);
    var (m, b) := GetUInt(Drop1(a));
    var (sec, _) := GetUInt(Drop1(b));
    ToInt32(U32(3600 * h + 60 * m + sec))
  }

  /** What makeBoardFromKAKString ends with: the board's size, cell size,
      cells and time; or a loop that never ends; or behaviour C++ leaves
      undefined (a note slot outside 0..9, a square count that overflows or
      is negative). */
  datatype Loaded =
    | Loaded(rows: int, cols: int, cellSize: int, infos: seq<CellInfo>, seconds: int)
    | Hangs
    | Undefined

  /** The reader up to, not including, the padding step. `seconds` is the
      board's time before the call, kept when the string has no time. */
  function ReadRaw(s: string, seconds: int): Loaded {
    var (rows, s1) := GetUInt(s);
    var (cols, s2) := GetUInt(Drop1(s1));
    var (size, s3) := GetUInt(RemoveSpaces(s2));
    var body := RemoveSpaces(s3);
    var want := ToInt32(rows) * ToInt32(cols);
    if !(0 <= want < Two31) then Undefined
    else match ReadCells(body, want, [])
      case CellsHang => Hangs
      case CellsBad => Undefined
      case CellsRead(infos, r) =>
        var tail := RemoveSpaces(r);
        var secs := if Head(tail) == 't' then ReadTime(tail[1..]) else seconds;
        Loaded(ToInt32(rows), ToInt32(cols), ToInt32(size), infos, secs)
  }

  /** The fill-in square the padding step appends. */
  const PadCell: CellInfo := Cleared(false)

  function PadCells(n: nat): (r: seq<CellInfo>)
    ensures |r| == n && forall i :: 0 <= i < n ==> r[i] == PadCell
  {
    if n == 0 then [] else [PadCell] + PadCells(n - 1)
  }

  /** The padding step as written: the fill loop runs while
      `i <= rows*cols`, one step too far. */
  function PadAsWritten(infos: seq<CellInfo>, want: nat): seq<CellInfo> {
    if want == |infos| then infos
    else if want > |infos| then infos + PadCells(want - |infos| + 1)
    else infos[..want]
  }

  /** The padding step as intended: exactly `rows*cols` cells. */
  function Pad(infos: seq<CellInfo>, want: nat): (r: seq<CellInfo>)
    ensures |r| == want
    ensures forall i :: 0 <= i < |r| ==> r[i] == if i < |infos| then infos[i] else PadCell
  {
    if want >= |infos| then infos + PadCells(want - |infos|) else infos[..want]
  }

  function LoadAsWritten(s: string, seconds: int): Loaded {
    match ReadRaw(s, seconds)
    case Loaded(rows, cols, size, infos, secs) => Loaded(rows, cols, size, PadAsWritten(infos, rows * cols), secs)
    case other => other
  }

  /** makeBoardFromKAKString with the padding step corrected. */
  function Load(s: string, seconds: int): Loaded {
    match ReadRaw(s, seconds)
    case Loaded(rows, cols, size, infos, secs) => Loaded(rows, cols, size, Pad(infos, rows * cols), secs)
    case other => other
  }

  /** The corrected reader always yields exactly one cell per square: the
      cells read, then blank fill-in squares. */
  lemma LoadSize(s: string, seconds: int)
    ensures var l := Load(s, seconds);
      l.Loaded? ==> 0 <= l.rows * l.cols && |l.infos| == l.rows * l.cols
  {
  }

  /** As written, whenever cells are missing the padding step appends one
      cell more than the board has squares, and updateCellArray then writes
      that cell to row `rows`, past the end of the cell array. */
  lemma PadOverruns(infos: seq<CellInfo>, want: nat)
    requires want > |infos|
    ensures |PadAsWritten(infos, want)| == want + 1
  {
  }

  /** A one-square board whose string holds no cell: two cells come back. */
  lemma LoadAsWrittenOverruns()
    ensures LoadAsWritten("1x1 40", 0) == Loaded(1, 1, 40, [PadCell, PadCell], 0)
    ensures Load("1x1 40", 0) == Loaded(1, 1, 40, [PadCell], 0)
  {
    assert GetUInt("1x1 40") == (1, "x1 40");
    assert Drop1("x1 40") == "1 40";
    assert GetUInt("1 40") == (1, " 40");
    assert RemoveSpaces(" 40") == "40";
    assert GetUInt("40") == (40, "");
    assert ReadRaw("1x1 40", 0) == Loaded(1, 1, 40, [], 0);
    assert PadCells(2) == [PadCell, PadCell];
  }

  // ---------------------------------------------------------------------------
  // lazyValidateKAKString

  /** The characters the validator lets through from `!` up to `}`. */
  predicate Listed(ch: char) {
    ch == '(' || ch == ')' || ch == ':' || ch == '-' || IsDigit(ch) ||
    ch == 'x' || ch == '/' || ch == 'n' || ch == 't' || ch == 'f'
  }

  /** The loop over the characters from code `c` up to, not including, `~`:
      no unlisted one may occur in `s`. */
  function NoBannedFrom(s: string, c: int): bool
    requires 33 <= c
    decreases 126 - c
  {
    if c >= 126 then true
    else (Listed(c as char) || (c as char) !in s) && NoBannedFrom(s, c + 1)
  }

  /** lazyValidateKAKString: at least eight characters, none of the banned
      ones, and a leading `ROWSxCOLS` with both numbers nonzero. */
  predicate Validate(s: string) {
    && |s| >= 8
    && NoBannedFrom(s, 33)
    && var (r, s1) := GetUInt(s);
    && Head(s1) == 'x'
    && var (c, _) := GetUInt(Drop1(s1));
    && ToInt32(r) != 0 && ToInt32(c) != 0
  }

  /** The character test rejects exactly the strings holding a character
      from `!` to `}` that is not listed; blanks, `~` and characters beyond
      it pass. */
  lemma NoBannedMeaning(s: string)
    ensures NoBannedFrom(s, 33) <==> forall i :: 0 <= i < |s| ==> Listed(s[i]) || !(33 <= s[i] as int < 126)
  {
    NoBannedFromMeaning(s, 33);
  }

  lemma {:induction false} NoBannedFromMeaning(s: string, c: int)
    requires 33 <= c
    ensures NoBannedFrom(s, c) <==> forall i :: 0 <= i < |s| ==> Listed(s[i]) || !(c <= s[i] as int < 126)
    decreases 126 - c
  {
    if c < 126 {
      NoBannedFromMeaning(s, c + 1);
      if !Listed(c as char) && (c as char) in s {
        var i :| 0 <= i < |s| && s[i] == c as char;
        assert !(Listed(s[i]) || !(c <= s[i] as int < 126));
      }
    }
  }

  /** The validator checks the header and the alphabet only: this string
      passes it, yet the reader never finishes on it. */
  lemma ValidatedMayHang()
    ensures Validate("1x1 1 ((")
    ensures Load("1x1 1 ((", 0) == Hangs
  {
    NoBannedMeaning("1x1 1 ((");
    assert GetUInt("1x1 1 ((") == (1, "x1 1 ((");
    assert GetUInt("1 1 ((") == (1, " 1 ((");
    assert RemoveSpaces(" 1 ((") == "1 ((";
    assert GetUInt("1 ((") == (1, " ((");
    assert RemoveSpaces(" ((") == "((";
    assert GetUInt("((") == (0, "((");
    assert ReadCell("((") == Skipped("((");
  }

  /** The validator does not stop the padding overrun either: this string
      passes it, names four squares and holds three, and the reader as
      written comes back with five cells. */
  lemma ValidatedOverruns()
    ensures Validate("2x2 40 - - -")
    ensures LoadAsWritten("2x2 40 - - -", 0) == Loaded(2, 2, 40, ThreeCleared + [PadCell, PadCell], 0)
    ensures Load("2x2 40 - - -", 0) == Loaded(2, 2, 40, ThreeCleared + [PadCell], 0)
  {
    OverrunValidates();
    ThreeClearedRead();
    assert PadCells(2) == [PadCell, PadCell];
    assert PadCells(1) == [PadCell];
  }

  lemma OverrunValidates()
    ensures Validate("2x2 40 - - -")
  {
    NoBannedMeaning("2x2 40 - - -");
    assert GetUInt("2x2 40 - - -") == (2, "x2 40 - - -");
    assert GetUInt("2 40 - - -") == (2, " 40 - - -");
  }

  /** The three cells `- - -` stands for. */
  const ThreeCleared: seq<CellInfo> := [Cleared(true), Cleared(true), Cleared(true)]

  lemma ThreeClearedRead()
    ensures ReadRaw("2x2 40 - - -", 0) == Loaded(2, 2, 40, ThreeCleared, 0)
  {
    ThreeClearedHeader();
    ThreeClearedCells();
    assert RemoveSpaces("") == "" && Head("") != 't';
    assert ToInt32(2) == 2 && ToInt32(40) == 40;
  }

  /** The header of `2x2 40 - - -`: two rows, two columns, cell size 40,
      then the cells. */
  lemma ThreeClearedHeader()
    ensures GetUInt("2x2 40 - - -") == (2, "x2 40 - - -")
    ensures GetUInt(Drop1("x2 40 - - -")) == (2, " 40 - - -")
    ensures GetUInt(RemoveSpaces(" 40 - - -")) == (40, " - - -")
    ensures RemoveSpaces(" - - -") == "- - -"
  {
    assert GetUInt("2x2 40 - - -") == (2, "x2 40 - - -");
    assert Drop1("x2 40 - - -") == "2 40 - - -";
    assert GetUInt("2 40 - - -") == (2, " 40 - - -");
    ThreeClearedSize();
  }

  lemma ThreeClearedSize()
    ensures GetUInt(RemoveSpaces(" 40 - - -")) == (40, " - - -")
    ensures RemoveSpaces(" - - -") == "- - -"
  {
    assert RemoveSpaces(" 40 - - -") == "40 - - -";
    assert GetUInt("40 - - -") == (40, " - - -");
    assert RemoveSpaces(" - - -") == "- - -";
  }

  lemma ThreeClearedCells()
    ensures ReadCells("- - -", 4, []) == CellsRead(ThreeCleared, "")
  {
    assert RemoveSpaces(" - -") == "- -";
    assert RemoveSpaces(" -") == "-";
    assert ReadCells("-", 4, [Cleared(true), Cleared(true)]) == CellsRead(ThreeCleared, "");
    assert ReadCells("- -", 4, [Cleared(true)]) == CellsRead(ThreeCleared, "");
  }

  // ---------------------------------------------------------------------------
  // Writing, then reading

  /** What survives a write and a read: a clue square's two sums; a fill-in
      square's value, its notes, and its fixed flag when it has no notes
      (the writer drops the `f` of a square with notes). */
  function Normal(x: CellInfo): CellInfo {
    if x.isClue then CellInfo(true, x.first, x.second, false, {}, false)
    else CellInfo(false, x.first, 0, false, x.notes, x.fixed && x.notes == {})
  }

  function Normalized(infos: seq<CellInfo>): (r: seq<CellInfo>)
    ensures |r| == |infos| && forall i :: 0 <= i < |infos| ==> r[i] == Normal(infos[i])
  {
    seq(|infos|, i requires 0 <= i < |infos| => Normal(infos[i]))
  }

  /** Numbers the reader can take back: not negative and within an int. */
  predicate CellWritable(x: CellInfo) {
    0 <= x.first < Two31 && (x.isClue ==> 0 <= x.second < Two31)
  }

  ghost predicate Writable(rows: int, cols: int, cellSize: int, infos: seq<CellInfo>, seconds: int) {
    && 0 <= rows < Two31 && 0 <= cols < Two31 && rows * cols < Two31 && |infos| == rows * cols
    && 0 <= cellSize < Two31 && 0 <= seconds < Two31
    && forall i :: 0 <= i < |infos| ==> CellWritable(infos[i])
  }

  lemma SkipOneBlank(t: string)
    requires Head(t) != ' '
    ensures RemoveSpaces(" " + t) == t
  {
    assert (" " + t)[1..] == t;
  }

  /** A cell's text starts with a digit or `-`. */
  lemma CellTextStart(x: CellInfo)
    requires CellWritable(x)
    ensures |CellText(x)| > 0 && (IsDigit(CellText(x)[0]) || CellText(x)[0] == '-')
  {
  }

  lemma NumDigits(n: int)
    requires 0 <= n
    ensures Num(n) == Digits(n)
  {
  }

  /** The note loop reads back a string of nonzero digits. */
  lemma {:induction false} NotesBack(cs: string, rest: string, mode: bool, acc: NoteSet)
    requires forall i :: 0 <= i < |cs| ==> IsDigit(cs[i]) && cs[i] != '0'
    requires Head(rest) == ' '
    ensures var r := ReadNotes(cs + rest, mode, acc);
      && r.NotesRead? && r.mode == mode && r.rest == rest
      && forall v :: v in r.notes <==> v in acc || exists i :: 0 <= i < |cs| && DigitValue(cs[i]) == v
    decreases |cs|
  {
    if |cs| == 0 {
      assert cs + rest == rest;
    } else {
      assert (cs + rest)[1..] == cs[1..] + rest;
      var v := DigitValue(cs[0]);
      NotesBack(cs[1..], rest, mode, acc + {v});
      var r := ReadNotes(cs + rest, mode, acc);
      forall w | w in r.notes
        ensures w in acc || exists i :: 0 <= i < |cs| && DigitValue(cs[i]) == w
      {
        if w !in acc && w != v {
          var i :| 0 <= i < |cs[1..]| && DigitValue(cs[1..][i]) == w;
          assert DigitValue(cs[i + 1]) == w;
        }
      }
      forall w | exists i :: 0 <= i < |cs| && DigitValue(cs[i]) == w
        ensures w in r.notes
      {
        var i :| 0 <= i < |cs| && DigitValue(cs[i]) == w;
        if i > 0 {
          assert DigitValue(cs[1..][i - 1]) == w;
        }
      }
    }
  }

  lemma NoteCharsBack(ns: NoteSet, rest: string)
    requires Head(rest) == ' '
    ensures ReadNotes(NoteChars(ns) + rest, false, {}) == NotesRead(false, ns, rest)
  {
    var cs := NoteChars(ns);
    var l := NoteList(ns);
    NotesBack(cs, rest, false, {});
    var r := ReadNotes(cs + rest, false, {});
    forall v
      ensures v in r.notes <==> v in ns
    {
      if v in ns {
        var i :| 0 <= i < |l| && l[i] == v;
        assert DigitValue(cs[i]) == v;
      }
    }
  }

  lemma DashBack(t: string)
    ensures ReadCell("-" + t) == Pushed(Cleared(true), t)
  {
    assert ("-" + t)[1..] == t;
  }

  lemma ClueBack(a: int, b: int, t: string)
    requires 0 <= a < Two31 && 0 <= b < Two31 && Head(t) == ' '
    ensures ReadCell(Digits(a) + ("/" + (Digits(b) + t))) == Pushed(CellInfo(true, a, b, false, {}, false), t)
  {
    var u := "/" + (Digits(b) + t);
    GetUIntDigits(a, u);
    assert Drop1(u) == Digits(b) + t;
    GetUIntDigits(b, t);
  }

  lemma NotedBack(v: int, ns: NoteSet, t: string)
    requires 0 <= v < Two31 && Head(t) == ' '
    ensures ReadCell(Digits(v) + ("n" + (NoteChars(ns) + t))) == Pushed(CellInfo(false, v, 0, false, ns, false), t)
  {
    var u := "n" + (NoteChars(ns) + t);
    GetUIntDigits(v, u);
    assert u[1..] == NoteChars(ns) + t;
    NoteCharsBack(ns, t);
  }

  lemma FixedBack(v: int, t: string)
    requires 0 <= v < Two31
    ensures ReadCell(Digits(v) + ("f" + t)) == Pushed(CellInfo(false, v, 0, false, {}, true), t)
  {
    GetUIntDigits(v, "f" + t);
    assert ("f" + t)[1..] == t;
  }

  lemma PlainBack(v: int, t: string)
    requires 0 <= v < Two31 && Head(t) == ' '
    ensures ReadCell(Digits(v) + t) == Pushed(CellInfo(false, v, 0, false, {}, false), t)
  {
    GetUIntDigits(v, t);
  }

  lemma Reassoc(a: string, b: string, c: string, t: string)
    ensures (a + b) + c + t == a + (b + (c + t))
    ensures (a + (b + c)) + t == a + (b + (c + t))
  {
  }

  lemma ClueCellBack(x: CellInfo, tail: string)
    requires x.isClue && CellWritable(x) && Head(tail) == ' '
    ensures ReadCell(CellText(x) + tail) == Pushed(Normal(x), tail)
  {
    if x.first != 0 || x.second != 0 {
      NumDigits(x.first);
      NumDigits(x.second);
      Reassoc(Digits(x.first), "/", Digits(x.second), tail);
      ClueBack(x.first, x.second, tail);
    } else {
      DashBack(tail);
    }
  }

  lemma FillCellBack(x: CellInfo, tail: string)
    requires !x.isClue && CellWritable(x) && Head(tail) == ' '
    ensures ReadCell(CellText(x) + tail) == Pushed(Normal(x), tail)
  {
    NumDigits(x.first);
    if x.notes != {} {
      Reassoc(Digits(x.first), "n", NoteChars(x.notes), tail);
      NotedBack(x.first, x.notes, tail);
    } else if x.fixed {
      assert CellText(x) == Digits(x.first) + "f";
      assert CellText(x) + tail == Digits(x.first) + ("f" + tail);
      FixedBack(x.first, tail);
    } else {
      assert CellText(x) == Digits(x.first) + "";
      assert CellText(x) + tail == Digits(x.first) + tail;
      PlainBack(x.first, tail);
    }
  }

  /** One cell read back from its text and the blank after it. */
  lemma CellBack(x: CellInfo, tail: string)
    requires CellWritable(x) && Head(tail) == ' '
    ensures ReadCell(CellText(x) + tail) == Pushed(Normal(x), tail)
  {
    if x.isClue {
      ClueCellBack(x, tail);
    } else {
      FillCellBack(x, tail);
    }
  }

  /** A pass of the cell loop that pushes a cell. */
  lemma CellsPushed(s: string, want: int, acc: seq<CellInfo>, x: CellInfo, r: string)
    requires |s| > 0 && s[0] != 't' && want != |acc| && ReadCell(s) == Pushed(x, r)
    ensures ReadCells(s, want, acc) == ReadCells(RemoveSpaces(r), want, acc + [x])
  {
  }

  /** The cell loop takes one written cell and the blank after it. */
  lemma OneCell(x: CellInfo, rest: string, want: int, acc: seq<CellInfo>)
    requires CellWritable(x) && Head(rest) != ' ' && want != |acc|
    ensures ReadCells(CellText(x) + (" " + rest), want, acc) == ReadCells(rest, want, acc + [Normal(x)])
  {
    var s := CellText(x) + (" " + rest);
    CellBack(x, " " + rest);
    CellTextStart(x);
    CellsPushed(s, want, acc, Normal(x), " " + rest);
    SkipOneBlank(rest);
  }

  lemma CellsTextCons(infos: seq<CellInfo>, tail: string)
    requires |infos| > 0
    ensures CellsText(infos) + tail == CellText(infos[0]) + (" " + (CellsText(infos[1..]) + tail))
  {
    Reassoc(CellText(infos[0]), " ", CellsText(infos[1..]), tail);
  }

  lemma NormalizedCons(infos: seq<CellInfo>, acc: seq<CellInfo>)
    requires |infos| > 0
    ensures acc + [Normal(infos[0])] + Normalized(infos[1..]) == acc + Normalized(infos)
  {
    assert [Normal(infos[0])] + Normalized(infos[1..]) == Normalized(infos);
  }

  /** The cell loop reads back a run of written cells and stops at the `t`
      of the time field, having read the cells it wants. */
  lemma {:induction false} CellsBack(infos: seq<CellInfo>, tail: string, want: int, acc: seq<CellInfo>)
    requires forall i :: 0 <= i < |infos| ==> CellWritable(infos[i])
    requires Head(tail) == 't' && want == |acc| + |infos|
    ensures ReadCells(CellsText(infos) + tail, want, acc) == CellsRead(acc + Normalized(infos), tail)
    decreases |infos|
  {
    if |infos| == 0 {
      assert CellsText(infos) + tail == tail;
      assert acc + Normalized(infos) == acc;
    } else {
      var x := infos[0];
      CellsTextCons(infos, tail);
      RestStart(infos[1..], tail);
      OneCell(x, CellsText(infos[1..]) + tail, want, acc);
      CellsBack(infos[1..], tail, want, acc + [Normal(x)]);
      NormalizedCons(infos, acc);
    }
  }

  /** What follows a cell's blank never starts with another blank. */
  lemma RestStart(infos: seq<CellInfo>, tail: string)
    requires forall i :: 0 <= i < |infos| ==> CellWritable(infos[i])
    requires Head(tail) == 't'
    ensures Head(CellsText(infos) + tail) != ' '
  {
    if |infos| > 0 {
      CellTextStart(infos[0]);
    } else {
      assert CellsText(infos) + tail == tail;
    }
  }

  /** getUInt reads back a zero-padded field. */
  lemma GetUIntPad2(n: int, t: string)
    requires 0 <= n < Two32 && !IsDigit(Head(t))
    ensures GetUInt(Pad2(n) + t) == (n, t)
  {
    NumDigits(n);
    if n < 10 {
      var u := Digits(n) + t;
      assert Pad2(n) + t == "0" + u;
      assert ("0" + u)[1..] == u;
      assert GetUInt("0" + u) == DigitsFrom(u, 0);
      DigitsFromAll(Digits(n), t, 0);
      FoldDigits(n);
    } else {
      assert Pad2(n) + t == Digits(n) + t;
      GetUIntDigits(n, t);
    }
  }

  /** The time fields recombine to the seconds. */
  lemma TimeFields(seconds: int)
    requires 0 <= seconds
    ensures var minutes := Quot(seconds, 60);
      var h := Quot(minutes, 60);
      var m := Rem(minutes, 60);
      var sec := Rem(seconds, 60);
      && 0 <= h <= seconds && 0 <= m < 60 && 0 <= sec < 60
      && 3600 * h + 60 * m + sec == seconds
  {
    var minutes := seconds / 60;
    assert seconds == 60 * minutes + seconds % 60;
    assert minutes == 60 * (minutes / 60) + minutes % 60;
  }

  /** ReadTime over three fields, each read by getUInt. */
  lemma ReadTimeParts(p: string, q: string, r: string, h: int, m: int, sec: int)
    requires GetUInt(p + (":" + (q + (":" + r)))) == (h, ":" + (q + (":" + r)))
    requires GetUInt(q + (":" + r)) == (m, ":" + r)
    requires GetUInt(r) == (sec, "")
    ensures ReadTime(p + ":" + q + ":" + r) == ToInt32(U32(3600 * h + 60 * m + sec))
  {
    Reassoc(p, ":", q, ":" + r);
    assert p + ":" + q + ":" + r == p + ":" + q + (":" + r);
    assert Drop1(":" + (q + (":" + r))) == q + (":" + r);
    assert Drop1(":" + r) == r;
  }

  lemma ReadTimeFields(h: int, m: int, sec: int)
    requires 0 <= h < Two32 && 0 <= m < Two32 && 0 <= sec < Two32
    ensures ReadTime(Pad2(h) + ":" + Pad2(m) + ":" + Pad2(sec)) == ToInt32(U32(3600 * h + 60 * m + sec))
  {
    var r := Pad2(sec);
    var q := Pad2(m);
    GetUIntPad2(h, ":" + (q + (":" + r)));
    GetUIntPad2(m, ":" + r);
    GetUIntPad2(sec, "");
    assert r + "" == r;
    ReadTimeParts(Pad2(h), q, r, h, m, sec);
  }

  /** The time field reads back the seconds getTimeFormatted wrote. */
  lemma TimeBack(seconds: int)
    requires 0 <= seconds < Two31
    ensures ReadTime(TimeText(seconds)) == seconds
  {
    var minutes := Quot(seconds, 60);
    var h := Quot(minutes, 60);
    var m := Rem(minutes, 60);
    var sec := Rem(seconds, 60);
    TimeFields(seconds);
    assert TimeText(seconds) == Pad2(h) + ":" + Pad2(m) + ":" + Pad2(sec);
    ReadTimeFields(h, m, sec);
    NoWrap(3600 * h + 60 * m + sec);
  }

  lemma NoWrap(x: int)
    requires 0 <= x < Two31
    ensures ToInt32(U32(x)) == x
  {
  }

  /** Replacing the zero time by another. */
  lemma Chop(p: string, time: string)
    ensures var w := p + "t00:00:00"; w[..|w| - 8] + time == p + ("t" + time)
  {
    var w := p + "t00:00:00";
    assert w[..|w| - 8] == p + "t";
  }

  /** getKAKString: header, cells, then `t` and the time. */
  lemma KakShape(rows: int, cols: int, cellSize: int, infos: seq<CellInfo>, seconds: int)
    ensures KakString(rows, cols, cellSize, infos, seconds) ==
      Header(rows, cols, cellSize) + (CellsText(infos) + ("t" + TimeText(seconds)))
  {
    var h := Header(rows, cols, cellSize);
    var c := CellsText(infos);
    Chop(h + c, TimeText(seconds));
    Reassoc(h, c, "t", TimeText(seconds));
  }

  /** The reader's first three fields read back a header. */
  lemma HeaderBack(rows: int, cols: int, cellSize: int, body: string)
    requires 0 <= rows < Two32 && 0 <= cols < Two32 && 0 <= cellSize < Two32 && Head(body) != ' '
    ensures var (r, s1) := GetUInt(Header(rows, cols, cellSize) + body);
      var (c, s2) := GetUInt(Drop1(s1));
      var (z, s3) := GetUInt(RemoveSpaces(s2));
      r == rows && Head(s1) == 'x' && c == cols && z == cellSize && RemoveSpaces(s3) == body
  {
    NumDigits(rows);
    NumDigits(cols);
    NumDigits(cellSize);
    var t3 := " " + body;
    var t2 := " " + (Digits(cellSize) + t3);
    var t1 := "x" + (Digits(cols) + t2);
    assert Header(rows, cols, cellSize) + body == Digits(rows) + t1;
    GetUIntDigits(rows, t1);
    assert Drop1(t1) == Digits(cols) + t2;
    GetUIntDigits(cols, t2);
    SkipOneBlank(Digits(cellSize) + t3);
    GetUIntDigits(cellSize, t3);
    SkipOneBlank(body);
  }

  /** After the cells: the `t`, then the time. */
  lemma TailBack(seconds: int)
    requires 0 <= seconds < Two31
    ensures var tail := RemoveSpaces("t" + TimeText(seconds));
      Head(tail) == 't' && ReadTime(tail[1..]) == seconds
  {
    assert ("t" + TimeText(seconds))[1..] == TimeText(seconds);
    TimeBack(seconds);
  }

  /** A string getKAKString writes reads back to the same size, cell size,
      time and cells, each cell as `Normal` keeps it; the reader as written
      agrees, since no padding is needed. */
  lemma RoundTrip(rows: int, cols: int, cellSize: int, infos: seq<CellInfo>, seconds: int, before: int)
    requires Writable(rows, cols, cellSize, infos, seconds)
    ensures Load(KakString(rows, cols, cellSize, infos, seconds), before) ==
      Loaded(rows, cols, cellSize, Normalized(infos), seconds)
    ensures LoadAsWritten(KakString(rows, cols, cellSize, infos, seconds), before) ==
      Load(KakString(rows, cols, cellSize, infos, seconds), before)
  {
    var s := KakString(rows, cols, cellSize, infos, seconds);
    var tail := "t" + TimeText(seconds);
    var body := CellsText(infos) + tail;
    KakShape(rows, cols, cellSize, infos, seconds);
    RestStart(infos, tail);
    HeaderBack(rows, cols, cellSize, body);
    CellsBack(infos, tail, rows * cols, []);
    assert [] + Normalized(infos) == Normalized(infos);
    TailBack(seconds);
    assert ReadRaw(s, before) == Loaded(rows, cols, cellSize, Normalized(infos), seconds);
  }

  // ---------------------------------------------------------------------------
  // What the writer emits passes the validator

  /** The characters the writer uses: the listed ones and the blank. */
  predicate Emitted(ch: char) {
    Listed(ch) || ch == ' '
  }

  ghost predicate AllEmitted(s: string) {
    forall i :: 0 <= i < |s| ==> Emitted(s[i])
  }

  lemma EmittedJoin(a: string, b: string)
    requires AllEmitted(a) && AllEmitted(b)
    ensures AllEmitted(a + b)
  {
    forall i | 0 <= i < |a + b|
      ensures Emitted((a + b)[i])
    {
      if i >= |a| {
        assert (a + b)[i] == b[i - |a|];
      }
    }
  }

  lemma CellTextEmitted(x: CellInfo)
    requires CellWritable(x)
    ensures AllEmitted(CellText(x))
  {
    NumDigits(x.first);
    if x.isClue {
      if x.first != 0 || x.second != 0 {
        NumDigits(x.second);
        EmittedJoin(Digits(x.first), "/");
        EmittedJoin(Digits(x.first) + "/", Digits(x.second));
      }
    } else if x.notes != {} {
      EmittedJoin("n", NoteChars(x.notes));
      EmittedJoin(Digits(x.first), "n" + NoteChars(x.notes));
    } else if x.fixed {
      EmittedJoin(Digits(x.first), "f");
    } else {
      EmittedJoin(Digits(x.first), "");
    }
  }

  lemma {:induction false} CellsTextEmitted(infos: seq<CellInfo>)
    requires forall i :: 0 <= i < |infos| ==> CellWritable(infos[i])
    ensures AllEmitted(CellsText(infos))
    decreases |infos|
  {
    if |infos| > 0 {
      CellTextEmitted(infos[0]);
      CellsTextEmitted(infos[1..]);
      EmittedJoin(CellText(infos[0]), " ");
      EmittedJoin(CellText(infos[0]) + " ", CellsText(infos[1..]));
    }
  }

  /** A zero-padded field: two characters or more, all digits. */
  lemma Pad2Facts(n: int)
    requires 0 <= n
    ensures 2 <= |Pad2(n)| && AllEmitted(Pad2(n))
  {
    NumDigits(n);
    if n < 10 {
      EmittedJoin("0", Digits(n));
    } else {
      assert Digits(n) == Digits(n / 10) + [DigitChar(n % 10)];
      EmittedJoin("", Digits(n));
    }
  }

  lemma TimeTextFacts(seconds: int)
    requires 0 <= seconds
    ensures 8 <= |TimeText(seconds)| && AllEmitted(TimeText(seconds))
  {
    TimeFields(seconds);
    var minutes := Quot(seconds, 60);
    var a := Pad2(Quot(minutes, 60));
    var b := Pad2(Rem(minutes, 60));
    var c := Pad2(Rem(seconds, 60));
    Pad2Facts(Quot(minutes, 60));
    Pad2Facts(Rem(minutes, 60));
    Pad2Facts(Rem(seconds, 60));
    EmittedJoin(a, ":");
    EmittedJoin(a + ":", b);
    EmittedJoin(a + ":" + b, ":");
    EmittedJoin(a + ":" + b + ":", c);
  }

  lemma HeaderEmitted(rows: int, cols: int, cellSize: int)
    requires 0 <= rows && 0 <= cols && 0 <= cellSize
    ensures AllEmitted(Header(rows, cols, cellSize))
  {
    NumDigits(rows);
    NumDigits(cols);
    NumDigits(cellSize);
    var a := Digits(rows) + "x";
    EmittedJoin(Digits(rows), "x");
    EmittedJoin(a, Digits(cols));
    EmittedJoin(a + Digits(cols), " ");
    EmittedJoin(a + Digits(cols) + " ", Digits(cellSize));
    EmittedJoin(a + Digits(cols) + " " + Digits(cellSize), " ");
  }

  /** Every string getKAKString writes for a board with at least one square
      passes lazyValidateKAKString. */
  lemma WrittenValid(rows: int, cols: int, cellSize: int, infos: seq<CellInfo>, seconds: int)
    requires Writable(rows, cols, cellSize, infos, seconds) && 1 <= rows && 1 <= cols
    ensures Validate(KakString(rows, cols, cellSize, infos, seconds))
  {
    var s := KakString(rows, cols, cellSize, infos, seconds);
    var tail := "t" + TimeText(seconds);
    var body := CellsText(infos) + tail;
    KakShape(rows, cols, cellSize, infos, seconds);
    TimeTextFacts(seconds);
    CellsTextEmitted(infos);
    HeaderEmitted(rows, cols, cellSize);
    EmittedJoin("t", TimeText(seconds));
    EmittedJoin(CellsText(infos), tail);
    EmittedJoin(Header(rows, cols, cellSize), body);
    NoBannedMeaning(s);
    RestStart(infos, tail);
    HeaderBack(rows, cols, cellSize, body);
  }
}

=== FILE: layout.dfy ===
/** Phase one of generateBoard after its random draw (puzzleboard.cpp:2516-2614):
    the patch loop that removes runs of length one, floodFill, and the check
    that the fill-in squares form one 4-connected region. The source keeps
    the pattern as a flat row-major vector; here it is a grid, with the flat
    index `r * cols + c` read as the square (r, c). */
module Layout {
  import opened Boards

  /** The CLUE/NONCLUE pattern, true marking a clue square: the type field of
      the phase-one CellInfo vector, and the bool map floodFill reads. */
  datatype Map = Map(rows: int, cols: int, clue: seq<seq<bool>>)

  predicate Valid(m: Map) {
    && 0 <= m.rows && 0 <= m.cols
    && |m.clue| == m.rows
    && forall r :: 0 <= r < m.rows ==> |m.clue[r]| == m.cols
  }

  predicate Inside(m: Map, p: Pos) {
    0 <= p.r < m.rows && 0 <= p.c < m.cols
  }

  function IsClue(m: Map, p: Pos): bool
    requires Valid(m) && Inside(m, p)
  {
    m.clue[p.r][p.c]
  }

  /** A grid of flags with the map's shape (floodFill's `filled`). */
  predicate Fits(m: Map, g: seq<seq<bool>>) {
    |g| == m.rows && forall r :: 0 <= r < m.rows ==> |g[r]| == m.cols
  }

  function Get(g: seq<seq<bool>>, p: Pos): bool
    requires 0 <= p.r < |g| && 0 <= p.c < |g[p.r]|
  {
    g[p.r][p.c]
  }

  function Mark(g: seq<seq<bool>>, p: Pos): (g': seq<seq<bool>>)
    requires 0 <= p.r < |g| && 0 <= p.c < |g[p.r]|
    ensures |g'| == |g| && forall r :: 0 <= r < |g| ==> |g'[r]| == |g[r]|
    ensures Get(g', p)
    ensures forall q: Pos :: 0 <= q.r < |g| && 0 <= q.c < |g[q.r]| && q != p ==> Get(g', q) == Get(g, q)
  {
    g[p.r := g[p.r][p.c := true]]
  }

  // ---------------------------------------------------------------------------
  // Counting unmarked squares

  function RowUnmarked(row: seq<bool>): nat {
    if |row| == 0 then 0 else (if row[0] then 0 else 1) + RowUnmarked(row[1..])
  }

  /** The number of false flags: non-clue squares of a map, unfilled
      squares of `filled`. */
  function Unmarked(g: seq<seq<bool>>): nat {
    if |g| == 0 then 0 else RowUnmarked(g[0]) + Unmarked(g[1..])
  }

  lemma {:induction false} RowMark(row: seq<bool>, c: int)
    requires 0 <= c < |row|
    ensures RowUnmarked(row[c := true]) == RowUnmarked(row) - (if row[c] then 0 else 1)
  {
    if c == 0 {
      assert row[c := true][1..] == row[1..];
    } else {
      RowMark(row[1..], c - 1);
      assert row[c := true][1..] == row[1..][c - 1 := true];
    }
  }

  lemma {:induction false} GridMark(g: seq<seq<bool>>, p: Pos)
    requires 0 <= p.r < |g| && 0 <= p.c < |g[p.r]|
    ensures Unmarked(Mark(g, p)) == Unmarked(g) - (if Get(g, p) then 0 else 1)
  {
    if p.r == 0 {
      RowMark(g[0], p.c);
      assert Mark(g, p)[1..] == g[1..];
    } else {
      GridMark(g[1..], Pos(p.r - 1, p.c));
      assert Mark(g, p)[1..] == Mark(g[1..], Pos(p.r - 1, p.c));
    }
  }

  lemma {:induction false} RowMono(x: seq<bool>, y: seq<bool>)
    requires |x| == |y| && forall i :: 0 <= i < |x| && x[i] ==> y[i]
    ensures RowUnmarked(y) <= RowUnmarked(x)
  {
    if |x| > 0 {
      RowMono(x[1..], y[1..]);
    }
  }

  lemma {:induction false} GridMono(x: seq<seq<bool>>, y: seq<seq<bool>>)
    requires |x| == |y| && forall r :: 0 <= r < |x| ==> |x[r]| == |y[r]|
    requires forall p: Pos :: 0 <= p.r < |x| && 0 <= p.c < |x[p.r]| && Get(x, p) ==> Get(y, p)
    ensures Unmarked(y) <= Unmarked(x)
  {
    if |x| > 0 {
      forall i | 0 <= i < |x[0]| && x[0][i]
        ensures y[0][i]
      {
        assert Get(x, Pos(0, i));
      }
      RowMono(x[0], y[0]);
      forall p: Pos | 0 <= p.r < |x[1..]| && 0 <= p.c < |x[1..][p.r]| && Get(x[1..], p)
        ensures Get(y[1..], p)
      {
        assert Get(x, Pos(p.r + 1, p.c));
      }
      GridMono(x[1..], y[1..]);
    }
  }

  // ---------------------------------------------------------------------------
  // The patch loop

  /** The `continue` guards of the direction loop: both squares beyond `p`
      in direction `d` are on the board. */
  predicate Room(m: Map, p: Pos, d: Dir) {
    match d
    case Up => p.r >= 2
    case Right => p.c < m.cols - 2
    case Down => p.r < m.rows - 2
    case Left => p.c >= 2
  }

  /** A CLUE, NONCLUE, CLUE triple starting at `p` in direction `d`: a run
      of length one. */
  predicate Singleton(m: Map, p: Pos, d: Dir)
    requires Valid(m) && Inside(m, p)
  {
    IsClue(m, p) && Room(m, p, d) && !IsClue(m, Walk(p, d, 1)) && IsClue(m, Walk(p, d, 2))
  }

  ghost predicate NoSingletons(m: Map)
    requires Valid(m)
  {
    forall p, d :: Inside(m, p) ==> !Singleton(m, p, d)
  }

  /** `m'` has the shape of `m`, keeps every clue square of it and has no
      more fill-in squares. */
  ghost predicate Grows(m: Map, m': Map) {
    && Valid(m) && Valid(m') && m'.rows == m.rows && m'.cols == m.cols
    && (forall q :: Inside(m, q) && IsClue(m, q) ==> IsClue(m', q))
    && Unmarked(m'.clue) <= Unmarked(m.clue)
  }

  datatype Step = Step(grid: Map, changed: bool)

  /** What every stage of the patch loop promises: the map only grows, a
      reported change turns a fill-in square into a clue square, and no
      change leaves the map as it was. */
  ghost predicate Advances(m: Map, s: Step) {
    && Grows(m, s.grid)
    && (s.changed ==> Unmarked(s.grid.clue) < Unmarked(m.clue))
    && (!s.changed ==> s.grid == m)
  }

  lemma AdvancesTrans(m: Map, s1: Step, s2: Step)
    requires Advances(m, s1) && Advances(s1.grid, s2)
    ensures Advances(m, Step(s2.grid, s1.changed || s2.changed))
  {
  }

  /** One direction at clue square `p`: the middle square of a run of length
      one becomes a clue. */
  function PatchDir(m: Map, p: Pos, d: Dir): (s: Step)
    requires Valid(m) && Inside(m, p)
    ensures Advances(m, s)
  {
    if Singleton(m, p, d) then
      var mid := Walk(p, d, 1);
      GridMark(m.clue, mid);
      Step(m.(clue := Mark(m.clue, mid)), true)
    else Step(m, false)
  }

  /** A single direction changes the map exactly when it finds a run of
      length one. */
  lemma PatchDirQuiet(m: Map, p: Pos, d: Dir)
    requires Valid(m) && Inside(m, p)
    ensures PatchDir(m, p, d).changed <==> Singleton(m, p, d)
    ensures PatchDir(m, p, d).changed ==> !IsClue(m, Walk(p, d, 1)) && IsClue(PatchDir(m, p, d).grid, Walk(p, d, 1))
  {
  }

  /** The body of the sweep at square `p`: nothing for a fill-in square;
      for a clue square the directions UP, RIGHT, DOWN and LEFT in turn,
      each seeing the changes of the ones before. */
  function PatchAt(m: Map, p: Pos): (s: Step)
    requires Valid(m) && Inside(m, p)
    ensures Advances(m, s)
  {
    if !IsClue(m, p) then Step(m, false)
    else
      var s1 := PatchDir(m, p, Up);
      var s2 := PatchDir(s1.grid, p, Right);
      var s3 := PatchDir(s2.grid, p, Down);
      var s4 := PatchDir(s3.grid, p, Left);
      AdvancesTrans(m, s1, s2);
      var t2 := Step(s2.grid, s1.changed || s2.changed);
      AdvancesTrans(m, t2, s3);
      var t3 := Step(s3.grid, t2.changed || s3.changed);
      AdvancesTrans(m, t3, s4);
      Step(s4.grid, s1.changed || s2.changed || s3.changed || s4.changed)
  }

  lemma PatchAtQuiet(m: Map, p: Pos)
    requires Valid(m) && Inside(m, p)
    ensures !PatchAt(m, p).changed <==> forall d :: !Singleton(m, p, d)
  {
    PatchDirQuiet(m, p, Up);
    if IsClue(m, p) && !PatchDir(m, p, Up).changed {
      PatchDirQuiet(m, p, Right);
      if !PatchDir(m, p, Right).changed {
        PatchDirQuiet(m, p, Down);
        if !PatchDir(m, p, Down).changed {
          PatchDirQuiet(m, p, Left);
        }
      }
    }
    if !PatchAt(m, p).changed {
      forall d
        ensures !Singleton(m, p, d)
      {
        PatchDirQuiet(m, p, d);
      }
    }
  }

  function PatchFrom(m: Map, ps: seq<Pos>): (s: Step)
    requires Valid(m) && forall i :: 0 <= i < |ps| ==> Inside(m, ps[i])
    ensures Advances(m, s)
    decreases |ps|
  {
    if |ps| == 0 then Step(m, false)
    else
      var s1 := PatchAt(m, ps[0]);
      var s2 := PatchFrom(s1.grid, ps[1..]);
      AdvancesTrans(m, s1, s2);
      Step(s2.grid, s1.changed || s2.changed)
  }

  /** One pass of the loop that repeats while something changed: every
      square in row-major order. */
  function Sweep(m: Map): (s: Step)
    requires Valid(m)
    ensures Advances(m, s)
  {
    PatchFrom(m, RowsFrom(0, m.rows, m.cols))
  }

  lemma {:induction false} PatchFromQuiet(m: Map, ps: seq<Pos>)
    requires Valid(m) && forall i :: 0 <= i < |ps| ==> Inside(m, ps[i])
    ensures !PatchFrom(m, ps).changed <==> forall i, d :: 0 <= i < |ps| ==> !Singleton(m, ps[i], d)
    decreases |ps|
  {
    if |ps| > 0 {
      PatchAtQuiet(m, ps[0]);
      if !PatchAt(m, ps[0]).changed {
        PatchFromQuiet(m, ps[1..]);
        assert forall i :: 1 <= i < |ps| ==> ps[i] == ps[1..][i - 1];
      }
    }
  }

  /** A sweep changes nothing exactly when no run of length one is left. */
  lemma SweepQuiet(m: Map)
    requires Valid(m)
    ensures !Sweep(m).changed <==> NoSingletons(m)
  {
    var ps := RowsFrom(0, m.rows, m.cols);
    PatchFromQuiet(m, ps);
    if !Sweep(m).changed {
      forall p, d | Inside(m, p)
        ensures !Singleton(m, p, d)
      {
        assert p in ps;
        var i :| 0 <= i < |ps| && ps[i] == p;
      }
    }
  }

  /** Phase One Part 2: sweep until a sweep changes nothing. Each change
      turns a fill-in square into a clue square, so the loop ends. The
      result has no run of length one and keeps every clue square. */
  function Patch(m: Map): (m': Map)
    requires Valid(m)
    ensures Grows(m, m') && NoSingletons(m')
    decreases Unmarked(m.clue)
  {
    var s := Sweep(m);
    if s.changed then Patch(s.grid)
    else
      SweepQuiet(m);
      m
  }

  /** A map without runs of length one is left as it is. */
  lemma PatchStable(m: Map)
    requires Valid(m) && NoSingletons(m)
    ensures Patch(m) == m
  {
    SweepQuiet(m);
  }

  // ---------------------------------------------------------------------------
  // floodFill

  /** Squares sharing a side. */
  predicate Adjacent(a: Pos, b: Pos) {
    || (a.r == b.r && (a.c == b.c + 1 || a.c + 1 == b.c))
    || (a.c == b.c && (a.r == b.r + 1 || a.r + 1 == b.r))
  }

  /** Every fill-in neighbour of `q` is marked in `f`. */
  ghost predicate Closed(m: Map, f: seq<seq<bool>>, q: Pos)
    requires Valid(m) && Fits(m, f)
  {
    forall n :: Inside(m, n) && Adjacent(q, n) && !IsClue(m, n) ==> Get(f, n)
  }

  /** `g` marks at least what `f` marks. */
  ghost predicate Grew(m: Map, f: seq<seq<bool>>, g: seq<seq<bool>>) {
    && Fits(m, f) && Fits(m, g)
    && forall q :: Inside(m, q) && Get(f, q) ==> Get(g, q)
  }

  /** floodFill(index, filled, map): nothing outside the board or on a
      marked or clue square; otherwise mark the square and recurse left,
      right, up and down, each guarded by the edge test of the source. The
      marks only grow, which is what ends the recursion. */
  function Fill(m: Map, f: seq<seq<bool>>, p: Pos): (f': seq<seq<bool>>)
    requires Valid(m) && Fits(m, f)
    ensures Grew(m, f, f') && Unmarked(f') <= Unmarked(f)
    decreases Unmarked(f), 0
  {
    if !Inside(m, p) || Get(f, p) || IsClue(m, p) then f
    else
      var f1 := Mark(f, p);
      GridMark(f, p);
      var f2 := Stage(m, f1, Pos(p.r, p.c - 1), p.c != 0);
      var f3 := Stage(m, f2, Pos(p.r, p.c + 1), p.c != m.cols - 1);
      var f4 := Stage(m, f3, Pos(p.r - 1, p.c), p.r != 0);
      var f5 := Stage(m, f4, Pos(p.r + 1, p.c), p.r != m.rows - 1);
      GrewTrans(m, f, f1, f2);
      GrewTrans(m, f, f2, f3);
      GrewTrans(m, f, f3, f4);
      GrewTrans(m, f, f4, f5);
      f5
  }

  /** One guarded recursive call of the fill. */
  function Stage(m: Map, g: seq<seq<bool>>, n: Pos, go: bool): (h: seq<seq<bool>>)
    requires Valid(m) && Fits(m, g)
    ensures Grew(m, g, h) && Unmarked(h) <= Unmarked(g)
    decreases Unmarked(g), 1
  {
    if go then Fill(m, g, n) else g
  }

  lemma GrewTrans(m: Map, f: seq<seq<bool>>, g: seq<seq<bool>>, h: seq<seq<bool>>)
    requires Grew(m, f, g) && Grew(m, g, h)
    ensures Grew(m, f, h)
  {
  }

  /** Every square marked in `g` but not in `f` is a fill-in square whose
      fill-in neighbours are all marked in `g`. */
  ghost predicate NewClosed(m: Map, f: seq<seq<bool>>, g: seq<seq<bool>>)
    requires Valid(m) && Fits(m, f) && Fits(m, g)
  {
    forall q :: Inside(m, q) && Get(g, q) && !Get(f, q) ==> !IsClue(m, q) && Closed(m, g, q)
  }

  /** What the recursion establishes: the start is marked if it is a
      fill-in square, and only closed fill-in squares get marked. */
  ghost predicate Filled(m: Map, f: seq<seq<bool>>, p: Pos, g: seq<seq<bool>>)
    requires Valid(m) && Fits(m, f) && Fits(m, g)
  {
    && (Inside(m, p) && !IsClue(m, p) ==> Get(g, p))
    && NewClosed(m, f, g)
  }

  lemma NewClosedTrans(m: Map, f: seq<seq<bool>>, g: seq<seq<bool>>, h: seq<seq<bool>>)
    requires Valid(m) && Grew(m, f, g) && Grew(m, g, h)
    requires NewClosed(m, f, g) && NewClosed(m, g, h)
    ensures NewClosed(m, f, h)
  {
    forall q | Inside(m, q) && Get(h, q) && !Get(f, q)
      ensures !IsClue(m, q) && Closed(m, h, q)
    {
      if !Get(g, q) {
        assert Closed(m, h, q);
      } else {
        assert Closed(m, g, q);
      }
    }
  }

  lemma {:induction false} StageFilled(m: Map, g: seq<seq<bool>>, n: Pos, go: bool)
    requires Valid(m) && Fits(m, g)
    ensures NewClosed(m, g, Stage(m, g, n, go))
    ensures go && Inside(m, n) && !IsClue(m, n) ==> Get(Stage(m, g, n, go), n)
    decreases Unmarked(g), 2
  {
    if go {
      FillFilled(m, g, n);
    }
  }

  lemma {:induction false} FillFilled(m: Map, f: seq<seq<bool>>, p: Pos)
    requires Valid(m) && Fits(m, f)
    ensures Filled(m, f, p, Fill(m, f, p))
    decreases Unmarked(f), 0
  {
    if !(!Inside(m, p) || Get(f, p) || IsClue(m, p)) {
      var f1 := Mark(f, p);
      GridMark(f, p);
      var n2, n3, n4, n5 := Pos(p.r, p.c - 1), Pos(p.r, p.c + 1), Pos(p.r - 1, p.c), Pos(p.r + 1, p.c);
      var f2 := Stage(m, f1, n2, p.c != 0);
      var f3 := Stage(m, f2, n3, p.c != m.cols - 1);
      var f4 := Stage(m, f3, n4, p.r != 0);
      var f5 := Stage(m, f4, n5, p.r != m.rows - 1);
      assert Fill(m, f, p) == f5;
      StageFilled(m, f1, n2, p.c != 0);
      StageFilled(m, f2, n3, p.c != m.cols - 1);
      StageFilled(m, f3, n4, p.r != 0);
      StageFilled(m, f4, n5, p.r != m.rows - 1);
      NewClosedTrans(m, f1, f2, f3);
      NewClosedTrans(m, f1, f3, f4);
      NewClosedTrans(m, f1, f4, f5);
      assert Closed(m, f5, p);
      assert NewClosed(m, f, f5) by {
        forall q | Inside(m, q) && Get(f5, q) && !Get(f, q)
          ensures !IsClue(m, q) && Closed(m, f5, q)
        {
          if q != p {
            assert !Get(f1, q);
          }
        }
      }
    }
  }

  // ---------------------------------------------------------------------------
  // Reachability

  /** A walk over fill-in squares, each step to a side neighbour. */
  ghost predicate Path(m: Map, ps: seq<Pos>)
    requires Valid(m)
  {
    && |ps| > 0
    && (forall i :: 0 <= i < |ps| ==> Inside(m, ps[i]) && !IsClue(m, ps[i]))
    && forall i :: 0 <= i < |ps| - 1 ==> Adjacent(ps[i], ps[i + 1])
  }

  /** `b` can be reached from `a` without crossing a clue square. */
  ghost predicate Reach(m: Map, a: Pos, b: Pos)
    requires Valid(m)
  {
    exists ps :: Path(m, ps) && ps[0] == a && ps[|ps| - 1] == b
  }

  lemma ReachSelf(m: Map, p: Pos)
    requires Valid(m) && Inside(m, p) && !IsClue(m, p)
    ensures Reach(m, p, p)
  {
    assert Path(m, [p]);
  }

  /** One step in front of a path. */
  lemma ReachStep(m: Map, p: Pos, n: Pos, q: Pos)
    requires Valid(m) && Inside(m, p) && !IsClue(m, p) && Adjacent(p, n)
    requires Reach(m, n, q)
    ensures Reach(m, p, q)
  {
    var ps :| Path(m, ps) && ps[0] == n && ps[|ps| - 1] == q;
    var ps' := [p] + ps;
    assert forall i :: 0 < i < |ps'| ==> ps'[i] == ps[i - 1];
    assert Path(m, ps');
  }

  lemma ReachSymmetric(m: Map, a: Pos, b: Pos)
    requires Valid(m) && Reach(m, a, b)
    ensures Reach(m, b, a)
  {
    var ps :| Path(m, ps) && ps[0] == a && ps[|ps| - 1] == b;
    var rs := seq(|ps|, i requires 0 <= i < |ps| => ps[|ps| - 1 - i]);
    forall i | 0 <= i < |rs| - 1
      ensures Adjacent(rs[i], rs[i + 1])
    {
      assert Adjacent(ps[|ps| - 2 - i], ps[|ps| - 1 - i]);
    }
    assert Path(m, rs);
  }

  lemma ReachTrans(m: Map, a: Pos, b: Pos, c: Pos)
    requires Valid(m) && Reach(m, a, b) && Reach(m, b, c)
    ensures Reach(m, a, c)
  {
    var ps :| Path(m, ps) && ps[0] == a && ps[|ps| - 1] == b;
    var qs :| Path(m, qs) && qs[0] == b && qs[|qs| - 1] == c;
    var ws := ps + qs[1..];
    forall i | 0 <= i < |ws| - 1
      ensures Adjacent(ws[i], ws[i + 1])
    {
      if i < |ps| - 1 {
        assert ws[i] == ps[i] && ws[i + 1] == ps[i + 1];
      } else {
        assert ws[i] == qs[i - |ps| + 1] && ws[i + 1] == qs[i - |ps| + 2];
      }
    }
    assert Path(m, ws);
  }

  /** Every square marked in `g` but not in `f` can be reached from `p`. */
  ghost predicate NewReached(m: Map, f: seq<seq<bool>>, g: seq<seq<bool>>, p: Pos)
    requires Valid(m) && Fits(m, f) && Fits(m, g)
  {
    forall q :: Inside(m, q) && Get(g, q) && !Get(f, q) ==> Reach(m, p, q)
  }

  lemma {:induction false} StageReached(m: Map, g: seq<seq<bool>>, n: Pos, go: bool)
    requires Valid(m) && Fits(m, g)
    ensures NewReached(m, g, Stage(m, g, n, go), n)
    decreases Unmarked(g), 2
  {
    if go {
      FillReached(m, g, n);
    }
  }

  /** The fill marks nothing it cannot reach from its start. */
  lemma {:induction false} FillReached(m: Map, f: seq<seq<bool>>, p: Pos)
    requires Valid(m) && Fits(m, f)
    ensures NewReached(m, f, Fill(m, f, p), p)
    decreases Unmarked(f), 0
  {
    if !(!Inside(m, p) || Get(f, p) || IsClue(m, p)) {
      var f1 := Mark(f, p);
      GridMark(f, p);
      var n2, n3, n4, n5 := Pos(p.r, p.c - 1), Pos(p.r, p.c + 1), Pos(p.r - 1, p.c), Pos(p.r + 1, p.c);
      var f2 := Stage(m, f1, n2, p.c != 0);
      var f3 := Stage(m, f2, n3, p.c != m.cols - 1);
      var f4 := Stage(m, f3, n4, p.r != 0);
      var f5 := Stage(m, f4, n5, p.r != m.rows - 1);
      assert Fill(m, f, p) == f5;
      StageReached(m, f1, n2, p.c != 0);
      StageReached(m, f2, n3, p.c != m.cols - 1);
      StageReached(m, f3, n4, p.r != 0);
      StageReached(m, f4, n5, p.r != m.rows - 1);
      forall q | Inside(m, q) && Get(f5, q) && !Get(f, q)
        ensures Reach(m, p, q)
      {
        if q == p {
          ReachSelf(m, p);
        } else if Get(f2, q) {
          ReachStep(m, p, n2, q);
        } else if Get(f3, q) {
          ReachStep(m, p, n3, q);
        } else if Get(f4, q) {
          ReachStep(m, p, n4, q);
        } else {
          ReachStep(m, p, n5, q);
        }
      }
    }
  }

  // ---------------------------------------------------------------------------
  // The flood from one square

  /** The flood's marks before it starts: no square is marked. */
  function Blank(m: Map): (g: seq<seq<bool>>)
    requires Valid(m)
    ensures Fits(m, g) && forall q :: Inside(m, q) ==> !Get(g, q)
  {
    seq(m.rows, _ => seq(m.cols, _ => false))
  }

  function Flood(m: Map, start: Pos): (g: seq<seq<bool>>)
    requires Valid(m)
    ensures Fits(m, g)
  {
    Fill(m, Blank(m), start)
  }

  /** A path starting on a marked square stays on marked squares when every
      marked square has all its fill-in neighbours marked. */
  lemma {:induction false} PathMarked(m: Map, g: seq<seq<bool>>, ps: seq<Pos>)
    requires Valid(m) && Fits(m, g) && Path(m, ps) && Get(g, ps[0])
    requires forall q :: Inside(m, q) && Get(g, q) ==> Closed(m, g, q)
    ensures Get(g, ps[|ps| - 1])
  {
    if |ps| > 1 {
      assert Closed(m, g, ps[0]);
      assert Adjacent(ps[0], ps[1]);
      assert Path(m, ps[1..]);
      PathMarked(m, g, ps[1..]);
    }
  }

  /** The flood from `start` marks exactly the squares reachable from it. */
  lemma FloodExact(m: Map, start: Pos, q: Pos)
    requires Valid(m) && Inside(m, q)
    ensures Get(Flood(m, start), q) <==> Reach(m, start, q)
  {
    var g := Flood(m, start);
    FillFilled(m, Blank(m), start);
    FillReached(m, Blank(m), start);
    if Reach(m, start, q) {
      var ps :| Path(m, ps) && ps[0] == start && ps[|ps| - 1] == q;
      PathMarked(m, g, ps);
    }
  }

  /** A flood marks fill-in squares only. */
  lemma FloodNoClue(m: Map, start: Pos, q: Pos)
    requires Valid(m) && Inside(m, q) && IsClue(m, q)
    ensures !Get(Flood(m, start), q)
  {
    FillFilled(m, Blank(m), start);
  }

  // ---------------------------------------------------------------------------
  // The connectivity check

  /** The first fill-in square of `ps`, or `fallback` when there is none. */
  function FirstNonClueIn(m: Map, ps: seq<Pos>, fallback: Pos): (p: Pos)
    requires Valid(m) && forall i :: 0 <= i < |ps| ==> Inside(m, ps[i])
    ensures (exists i :: 0 <= i < |ps| && !IsClue(m, ps[i])) ==>
      exists i :: 0 <= i < |ps| && ps[i] == p && !IsClue(m, p) && forall j :: 0 <= j < i ==> IsClue(m, ps[j])
    ensures (forall i :: 0 <= i < |ps| ==> IsClue(m, ps[i])) ==> p == fallback
  {
    if |ps| == 0 then fallback
    else if !IsClue(m, ps[0]) then ps[0]
    else
      var p := FirstNonClueIn(m, ps[1..], fallback);
      assert forall i :: 0 < i < |ps| ==> ps[i] == ps[1..][i - 1];
      p
  }

  function Squares(m: Map): (ps: seq<Pos>)
    requires Valid(m)
    ensures forall i :: 0 <= i < |ps| ==> Inside(m, ps[i])
    ensures forall q :: Inside(m, q) ==> q in ps
  {
    var ps := RowsFrom(0, m.rows, m.cols);
    assert forall i :: 0 <= i < |ps| ==> ps[i] in ps;
    ps
  }

  /** `firstNonClue`: the first fill-in square in row-major order, and
      square 0 when every square is a clue. */
  function FirstNonClue(m: Map): Pos
    requires Valid(m)
  {
    FirstNonClueIn(m, Squares(m), Pos(0, 0))
  }

  /** A square agrees with the flood when it is marked exactly if it is a
      fill-in square. */
  predicate Agrees(m: Map, g: seq<seq<bool>>, q: Pos)
    requires Valid(m) && Fits(m, g) && Inside(m, q)
  {
    Get(g, q) == !IsClue(m, q)
  }

  /** The comparison loop: `filled` is set exactly on the fill-in squares. */
  function AgreesIn(m: Map, g: seq<seq<bool>>, ps: seq<Pos>): (ok: bool)
    requires Valid(m) && Fits(m, g) && forall i :: 0 <= i < |ps| ==> Inside(m, ps[i])
    ensures ok <==> forall i :: 0 <= i < |ps| ==> Agrees(m, g, ps[i])
  {
    if |ps| == 0 then true
    else if !Agrees(m, g, ps[0]) then false
    else
      assert forall i :: 0 < i < |ps| ==> ps[i] == ps[1..][i - 1];
      AgreesIn(m, g, ps[1..])
  }

  /** The `hasNonClues` loop. */
  function HasNonClueIn(m: Map, ps: seq<Pos>): (ok: bool)
    requires Valid(m) && forall i :: 0 <= i < |ps| ==> Inside(m, ps[i])
    ensures ok <==> exists i :: 0 <= i < |ps| && !IsClue(m, ps[i])
  {
    if |ps| == 0 then false
    else if !IsClue(m, ps[0]) then true
    else
      assert forall i :: 0 < i < |ps| ==> ps[i] == ps[1..][i - 1];
      HasNonClueIn(m, ps[1..])
  }

  /** `contiguous` at the foot of the phase-one loop: the flood from the
      first fill-in square covers every fill-in square and nothing else, and
      there is at least one fill-in square. */
  function Contiguous(m: Map): bool
    requires Valid(m)
  {
    var ps := Squares(m);
    AgreesIn(m, Flood(m, FirstNonClue(m)), ps) && HasNonClueIn(m, ps)
  }

  /** The first fill-in square is one whenever any exists. */
  lemma FirstNonClueIsOne(m: Map, q: Pos)
    requires Valid(m) && Inside(m, q) && !IsClue(m, q)
    ensures Inside(m, FirstNonClue(m)) && !IsClue(m, FirstNonClue(m))
  {
    var ps := Squares(m);
    var i :| 0 <= i < |ps| && ps[i] == q;
  }

  ghost predicate HasNonClue(m: Map)
    requires Valid(m)
  {
    exists q :: Inside(m, q) && !IsClue(m, q)
  }

  /** Any two fill-in squares are joined by a path of fill-in squares. */
  ghost predicate Connected(m: Map)
    requires Valid(m)
  {
    forall a, b :: Inside(m, a) && !IsClue(m, a) && Inside(m, b) && !IsClue(m, b) ==> Reach(m, a, b)
  }

  lemma ContiguousConnected(m: Map)
    requires Valid(m) && Contiguous(m)
    ensures HasNonClue(m) && Connected(m)
  {
    var ps := Squares(m);
    var i :| 0 <= i < |ps| && !IsClue(m, ps[i]);
    assert Inside(m, ps[i]);
    forall a, b | Inside(m, a) && !IsClue(m, a) && Inside(m, b) && !IsClue(m, b)
      ensures Reach(m, a, b)
    {
      ContiguousReach(m, a, b);
    }
  }

  /** Both squares are in the flood from the first fill-in square. */
  lemma ContiguousReach(m: Map, a: Pos, b: Pos)
    requires Valid(m) && Contiguous(m)
    requires Inside(m, a) && !IsClue(m, a) && Inside(m, b) && !IsClue(m, b)
    ensures Reach(m, a, b)
  {
    var ps := Squares(m);
    var s := FirstNonClue(m);
    var ia :| 0 <= ia < |ps| && ps[ia] == a;
    var ib :| 0 <= ib < |ps| && ps[ib] == b;
    assert Agrees(m, Flood(m, s), a) && Agrees(m, Flood(m, s), b);
    FloodExact(m, s, a);
    FloodExact(m, s, b);
    ReachSymmetric(m, s, a);
    ReachTrans(m, a, s, b);
  }

  lemma ConnectedContiguous(m: Map)
    requires Valid(m) && HasNonClue(m) && Connected(m)
    ensures Contiguous(m)
  {
    var ps := Squares(m);
    var s := FirstNonClue(m);
    var g := Flood(m, s);
    var q :| Inside(m, q) && !IsClue(m, q);
    FirstNonClueIsOne(m, q);
    var j :| 0 <= j < |ps| && ps[j] == q;
    forall k | 0 <= k < |ps|
      ensures Agrees(m, g, ps[k])
    {
      if IsClue(m, ps[k]) {
        FloodNoClue(m, s, ps[k]);
      } else {
        FloodExact(m, s, ps[k]);
      }
    }
  }

  /** The board is accepted exactly when it has a fill-in square and any
      two fill-in squares are joined by a path of fill-in squares. */
  lemma ContiguousMeaning(m: Map)
    requires Valid(m)
    ensures Contiguous(m) <==> HasNonClue(m) && Connected(m)
  {
    if Contiguous(m) {
      ContiguousConnected(m);
    } else if HasNonClue(m) && Connected(m) {
      ConnectedContiguous(m);
    }
  }
}

=== FILE: meta.dfy ===
/** Preparing a board for solving (puzzleboard.cpp): giveMetaKnowledgeToCells
    tells every square which clue governs it and how long that run is,
    getIntersectNotesForCell / writeNotesFromIntersections seed the notes from
    the combination table, and removeNotesFixedValues pencils out the digits
    of the given squares. */
module Meta {
  import Combos
  import opened Cells
  import opened Boards
  import Scans
  import Solved

  datatype Option<T> = None | Some(value: T)

  /** sumInNumCombo[s][n], typed as a combination list. The source indexes
      the table without a range check, so callers keep within 0..45 x 0..9. */
  function Lookup(s: int, n: int): (t: seq<Combo>)
    requires 0 <= s <= 45 && 0 <= n <= 9
    ensures forall x :: x in t <==> 1 <= s && 1 <= n && Combos.Solves(x, s, n)
  {
    var raw := Combos.Table(s, n);
    Combos.TableEntries(s, n);
    Combos.TableEmpty(s, n);
    assert forall i :: 0 <= i < |raw| ==> Combos.IsCombo(raw[i]) by {
      forall i | 0 <= i < |raw|
        ensures Combos.IsCombo(raw[i])
      {
        assert raw[i] in raw;
      }
    }
    var t: seq<Combo> := seq(|raw|, i requires 0 <= i < |raw| => raw[i]);
    assert t == raw;
    assert forall x :: x in raw <==> 1 <= s && 1 <= n && Combos.Solves(x, s, n) by {
      forall x
        ensures x in raw <==> 1 <= s && 1 <= n && Combos.Solves(x, s, n)
      {
        if 1 <= s && 1 <= n {
          Combos.TableExact(s, n, x);
        }
      }
    }
    t
  }

  /** The table reads of giveMetaKnowledgeToCells and getIntersectNotesForCell
      stay in range: every clue sum (also the stale one a fill-in square may
      carry) is in 0..45 and no run is longer than 9 squares. */
  ghost predicate MetaReady(b: Board)
    requires Shaped(b)
  {
    forall q :: InBounds(b, q) ==>
      && 0 <= At(b, q).downClue <= 45 && 0 <= At(b, q).rightClue <= 45
      && (At(b, q).isClue ==> |Ray(b, q, Down)| <= 9 && |Ray(b, q, Right)| <= 9)
  }

  /** A fill-in square whose clue sums and run lengths index the table. */
  predicate Indexable(x: Cell) {
    0 <= x.downClue <= 45 && 0 <= x.rightClue <= 45 && 0 <= x.numInDown <= 9 && 0 <= x.numInRight <= 9
  }

  /** The nearest clue square from `q` in direction `d`, skipping fill-in
      squares: the backwards scan of the second pass of
      giveMetaKnowledgeToCells. */
  function Governor(b: Board, q: Pos, d: Dir): Option<Pos>
    requires Shaped(b)
  {
    GovernorFrom(b, q, d, 1)
  }

  function GovernorFrom(b: Board, q: Pos, d: Dir, k: int): (g: Option<Pos>)
    requires Shaped(b)
    ensures g.Some? ==> InBounds(b, g.value) && At(b, g.value).isClue
    decreases Dist(b, q, d) + 1 - k
  {
    var p := Walk(q, d, k);
    if !InBounds(b, p) then None
    else if At(b, p).isClue then Some(p)
    else GovernorFrom(b, q, d, k + 1)
  }

  function Back(d: Dir): Dir {
    match d
    case Up => Down
    case Down => Up
    case Left => Right
    case Right => Left
  }

  lemma WalkBack(q: Pos, d: Dir, k: int, j: int)
    ensures Walk(Walk(q, d, k), Back(d), j) == Walk(q, d, k - j)
  {
  }

  /** The scan only ever stops on a square of the line it walks. */
  lemma {:induction false} GovernorFromShape(b: Board, q: Pos, d: Dir, k: int)
    requires Shaped(b)
    ensures var g := GovernorFrom(b, q, d, k);
      g.Some? ==> exists m :: k <= m && g.value == Walk(q, d, m)
    decreases Dist(b, q, d) + 1 - k
  {
    var p := Walk(q, d, k);
    if InBounds(b, p) && !At(b, p).isClue {
      GovernorFromShape(b, q, d, k + 1);
    }
  }

  /** The scan from step `k` stops at step `m` exactly when that square is an
      in-bounds clue square and every square before it is a fill-in square. */
  lemma {:induction false} GovernorFromAt(b: Board, q: Pos, d: Dir, k: int, m: int)
    requires Shaped(b) && 1 <= k <= m && Open(b, q, d, k - 1)
    ensures GovernorFrom(b, q, d, k) == Some(Walk(q, d, m)) <==>
      InBounds(b, Walk(q, d, m)) && At(b, Walk(q, d, m)).isClue && Open(b, q, d, m - 1)
    decreases m - k
  {
    var p := Walk(q, d, k);
    if m == k {
      if InBounds(b, p) && !At(b, p).isClue {
        GovernorFromShape(b, q, d, k + 1);
        var g := GovernorFrom(b, q, d, k + 1);
        if g.Some? {
          var m' :| k + 1 <= m' && g.value == Walk(q, d, m');
          WalkInjective(q, d, m, m');
        }
      }
    } else {
      WalkInjective(q, d, k, m);
      if InBounds(b, p) && !At(b, p).isClue {
        assert Open(b, q, d, k);
        GovernorFromAt(b, q, d, k + 1, m);
      } else {
        assert !Open(b, q, d, m - 1) by {
          assert !(InBounds(b, Walk(q, d, k)) && !At(b, Walk(q, d, k)).isClue);
        }
      }
    }
  }

  lemma GovernorToRun(b: Board, q: Pos, d: Dir, p: Pos)
    requires Shaped(b) && InBounds(b, q) && !At(b, q).isClue
    requires Governor(b, q, d) == Some(p)
    ensures InBounds(b, p) && At(b, p).isClue && q in Ray(b, p, Back(d))
  {
    GovernorFromShape(b, q, d, 1);
    var m :| 1 <= m && p == Walk(q, d, m);
    GovernorFromAt(b, q, d, 1, m);
    WalkBack(q, d, m, m);
    assert Walk(q, d, 0) == q;
    assert Open(b, p, Back(d), m) by {
      forall j | 1 <= j <= m
        ensures InBounds(b, Walk(p, Back(d), j)) && !At(b, Walk(p, Back(d), j)).isClue
      {
        WalkBack(q, d, m, j);
      }
    }
    RayMembers(b, p, Back(d), q);
  }

  lemma RunToGovernor(b: Board, q: Pos, d: Dir, p: Pos)
    requires Shaped(b) && InBounds(b, p) && At(b, p).isClue && q in Ray(b, p, Back(d))
    ensures Governor(b, q, d) == Some(p)
  {
    RayMembers(b, p, Back(d), q);
    var k :| 1 <= k && q == Walk(p, Back(d), k) && Open(b, p, Back(d), k);
    WalkBack(p, Back(d), k, k);
    assert Back(Back(d)) == d;
    assert Walk(p, Back(d), 0) == p;
    assert Open(b, q, d, k - 1) by {
      forall j | 1 <= j <= k - 1
        ensures InBounds(b, Walk(q, d, j)) && !At(b, Walk(q, d, j)).isClue
      {
        WalkBack(p, Back(d), k, j);
      }
    }
    GovernorFromAt(b, q, d, 1, k);
  }

  /** The two passes of giveMetaKnowledgeToCells agree: a clue square is the
      nearest clue before a fill-in square exactly when that square is on the
      clue's run in the opposite direction. */
  lemma GovernorIsRunOwner(b: Board, q: Pos, d: Dir, p: Pos)
    requires Shaped(b) && InBounds(b, q) && !At(b, q).isClue
    ensures Governor(b, q, d) == Some(p) <==> InBounds(b, p) && At(b, p).isClue && q in Ray(b, p, Back(d))
  {
    if Governor(b, q, d) == Some(p) {
      GovernorToRun(b, q, d, p);
    }
    if InBounds(b, p) && At(b, p).isClue && q in Ray(b, p, Back(d)) {
      RunToGovernor(b, q, d, p);
    }
  }

  /** What giveMetaKnowledgeToCells leaves in one square. A clue square
      records its run lengths and the table's combination lists for them; a
      fill-in square takes the clue sum and run length of the clue above and
      the clue to the left (no clue: its old clue sum stays, its run length
      becomes 0). */
  function MetaCell(b: Board, q: Pos): Cell
    requires Shaped(b) && InBounds(b, q) && MetaReady(b)
  {
    var x := At(b, q);
    if x.isClue then
      var nd := |Ray(b, q, Down)|;
      var nr := |Ray(b, q, Right)|;
      x.(numInDown := nd, numInRight := nr,
         downCombos := Lookup(x.downClue, nd), rightCombos := Lookup(x.rightClue, nr))
    else
      var up := Governor(b, q, Up);
      var left := Governor(b, q, Left);
      x.(downClue := if up.Some? then At(b, up.value).downClue else x.downClue,
         numInDown := if up.Some? then |Ray(b, up.value, Down)| else 0,
         rightClue := if left.Some? then At(b, left.value).rightClue else x.rightClue,
         numInRight := if left.Some? then |Ray(b, left.value, Right)| else 0)
  }

  lemma GovernorBounds(b: Board, q: Pos, d: Dir)
    requires Shaped(b)
    ensures var g := Governor(b, q, d); g.Some? ==> InBounds(b, g.value) && At(b, g.value).isClue
  {
  }

  /** giveMetaKnowledgeToCells. */
  function GiveMeta(b: Board): (b': Board)
    requires Shaped(b) && MetaReady(b)
    ensures Shaped(b') && b'.rows == b.rows && b'.cols == b.cols
    ensures forall q :: InBounds(b, q) ==> At(b', q) == MetaCell(b, q)
  {
    b.(cells := seq(b.rows, r requires 0 <= r < b.rows =>
                  seq(b.cols, c requires 0 <= c < b.cols => MetaCell(b, Pos(r, c)))))
  }

  /** The first pass's promise for a clue square: it records its run
      lengths and exactly the digit sets of those lengths that add up to its
      clues. */
  lemma GiveMetaClue(b: Board, p: Pos)
    requires Shaped(b) && MetaReady(b) && InBounds(b, p) && At(b, p).isClue
    ensures var y := At(GiveMeta(b), p); var x := At(b, p);
      && y.numInDown == |Ray(b, p, Down)| && y.numInRight == |Ray(b, p, Right)|
      && (forall c :: c in y.downCombos <==>
            1 <= x.downClue && 1 <= |Ray(b, p, Down)| && Combos.Solves(c, x.downClue, |Ray(b, p, Down)|))
      && (forall c :: c in y.rightCombos <==>
            1 <= x.rightClue && 1 <= |Ray(b, p, Right)| && Combos.Solves(c, x.rightClue, |Ray(b, p, Right)|))
  {
  }

  /** The first pass's promise for the run: every square on a clue's run
      carries that clue's sum and the run's length. */
  lemma GiveMetaRun(b: Board, p: Pos, q: Pos, d: Dir)
    requires Shaped(b) && MetaReady(b) && InBounds(b, p) && At(b, p).isClue
    requires d == Down || d == Right
    requires q in Ray(b, p, d)
    ensures InBounds(b, q)
    ensures d == Down ==>
      At(GiveMeta(b), q).downClue == At(b, p).downClue && At(GiveMeta(b), q).numInDown == |Ray(b, p, Down)|
    ensures d == Right ==>
      At(GiveMeta(b), q).rightClue == At(b, p).rightClue && At(GiveMeta(b), q).numInRight == |Ray(b, p, Right)|
  {
    RayFacts(b, p, d);
    assert Back(Back(d)) == d;
    RunToGovernor(b, q, Back(d), p);
  }

  /** The lists the first pass writes cover every solution of the puzzle
      whose squares hold digits: on a run with a clue, the solution's digits
      form a set of the run's length adding up to the clue, and the table
      entry lists every such set. */
  lemma MetaCovers(b: Board, s: Board)
    requires Shaped(b) && MetaReady(b) && SameLayout(b, s)
    requires forall q :: InBounds(b, q) && At(b, q).isClue ==>
      At(s, q).downClue == At(b, q).downClue && At(s, q).rightClue == At(b, q).rightClue
    requires Solved.Solution(s) && Solved.DigitsOnly(s)
    ensures Scans.Covers(GiveMeta(b), s)
  {
    GiveMetaFrame(b);
    forall p, d | InBounds(s, p) && Scans.Clued(s, p, d)
      ensures Scans.Listed(GiveMeta(b), p, d, s)
    {
      MetaCoversRun(b, s, p, d);
    }
  }

  lemma MetaCoversRun(b: Board, s: Board, p: Pos, d: Dir)
    requires Shaped(b) && MetaReady(b) && SameLayout(b, s)
    requires forall q :: InBounds(b, q) && At(b, q).isClue ==>
      At(s, q).downClue == At(b, q).downClue && At(s, q).rightClue == At(b, q).rightClue
    requires Solved.Solution(s) && Solved.DigitsOnly(s)
    requires InBounds(s, p) && Scans.Clued(s, p, d)
    ensures SameLayout(GiveMeta(b), s) && Scans.Listed(GiveMeta(b), p, d, s)
  {
    var x := RunDigitSet(s, p, d);
    MetaCoversWith(b, s, p, d, x);
  }

  /** The run's digit set is in the table entry for the run. */
  lemma MetaCoversWith(b: Board, s: Board, p: Pos, d: Dir, x: Combo)
    requires Shaped(b) && MetaReady(b) && SameLayout(b, s)
    requires forall q :: InBounds(b, q) && At(b, q).isClue ==>
      At(s, q).downClue == At(b, q).downClue && At(s, q).rightClue == At(b, q).rightClue
    requires InBounds(s, p) && Scans.Clued(s, p, d)
    requires Combos.Solves(x, Scans.ClueIn(At(s, p), d), |Ray(s, p, d)|)
    requires forall q :: q in Ray(s, p, d) && InBounds(s, q) ==> At(s, q).value in x
    ensures SameLayout(GiveMeta(b), s) && Scans.Listed(GiveMeta(b), p, d, s)
  {
    MetaLayout(b, s);
    MetaListedAt(b, s, p, d, x);
    ListedFromTable(GiveMeta(b), s, p, d, x);
  }

  /** The table entry at a clue square lists every digit set of the completion's run. */
  lemma MetaListedAt(b: Board, s: Board, p: Pos, d: Dir, x: Combo)
    requires Shaped(b) && MetaReady(b) && SameLayout(b, s)
    requires InBounds(s, p) && Scans.Clued(s, p, d)
    requires Scans.ClueIn(At(b, p), d) == Scans.ClueIn(At(s, p), d)
    requires Combos.Solves(x, Scans.ClueIn(At(s, p), d), |Ray(s, p, d)|)
    ensures x in Scans.CombosOf(At(GiveMeta(b), p), d)
  {
    RaySameLayout(b, s, p, d);
    MetaListsAll(b, p, d, x);
  }

  /** GiveMeta keeps the layout, so a completion of b has GiveMeta(b)'s layout too. */
  lemma MetaLayout(b: Board, s: Board)
    requires Shaped(b) && MetaReady(b) && SameLayout(b, s)
    ensures SameLayout(GiveMeta(b), s)
  {
    GiveMetaFrame(b);
  }

  /** A listed digit set holding every digit of the run is a witness. */
  lemma ListedFromTable(m: Board, s: Board, p: Pos, d: Dir, x: Combo)
    requires SameLayout(m, s) && InBounds(m, p) && x in Scans.CombosOf(At(m, p), d)
    requires forall q :: q in Ray(s, p, d) && InBounds(s, q) ==> At(s, q).value in x
    ensures Scans.Listed(m, p, d, s)
  {
    RaySameLayout(m, s, p, d);
    Scans.ListedBy(m, p, d, s, x);
  }

  /** The table entry for a run lists every digit set of the run's length
      adding up to its clue. */
  lemma MetaListsAll(b: Board, p: Pos, d: Dir, x: Combo)
    requires Shaped(b) && MetaReady(b) && InBounds(b, p) && At(b, p).isClue && (d == Right || d == Down)
    requires 1 <= |Ray(b, p, d)| && Combos.Solves(x, Scans.ClueIn(At(b, p), d), |Ray(b, p, d)|)
    requires 1 <= Scans.ClueIn(At(b, p), d)
    ensures x in Scans.CombosOf(At(GiveMeta(b), p), d)
  {
    GiveMetaClue(b, p);
  }

  /** Every list the first pass writes holds digit sets of its run's length. */
  lemma MetaListsFit(b: Board)
    requires Shaped(b) && MetaReady(b)
    ensures Scans.ListsFit(GiveMeta(b))
  {
    var m := GiveMeta(b);
    GiveMetaFrame(b);
    forall p, d, k | InBounds(m, p) && At(m, p).isClue && (d == Right || d == Down) &&
      0 <= k < |Scans.CombosOf(At(m, p), d)|
      ensures |Scans.CombosOf(At(m, p), d)[k]| == |Ray(m, p, d)|
    {
      RaySameLayout(b, m, p, d);
      GiveMetaClue(b, p);
      assert Scans.CombosOf(At(m, p), d)[k] in Scans.CombosOf(At(m, p), d);
    }
  }

  /** The digits a solution puts on a run with a clue form a digit set of the
      run's length adding up to the clue. */
  lemma RunDigitSet(s: Board, p: Pos, d: Dir) returns (x: Combo)
    requires Shaped(s) && Solved.Solution(s) && Solved.DigitsOnly(s)
    requires InBounds(s, p) && Scans.Clued(s, p, d)
    ensures Combos.Solves(x, Scans.ClueIn(At(s, p), d), |Ray(s, p, d)|)
    ensures forall q :: q in Ray(s, p, d) && InBounds(s, q) ==> At(s, q).value in x
  {
    RayFacts(s, p, d);
    var ps := Ray(s, p, d);
    var vs := Solved.RunValues(s, p, d);
    assert Solved.SquareOk(s, p);
    forall i | 0 <= i < |vs|
      ensures 1 <= vs[i] <= 9
    {
      assert vs[i] == At(s, ps[i]).value;
    }
    Combos.AscendingSolves(vs);
    x := Combos.Ascending(vs, 1);
    forall q | q in ps && InBounds(s, q)
      ensures At(s, q).value in x
    {
      var i :| 0 <= i < |ps| && ps[i] == q;
      assert vs[i] == At(s, q).value;
    }
  }

  /** Only metadata changes: layout, values, notes and fixed flags stay, and
      so do the clue sums of clue squares. */
  lemma GiveMetaFrame(b: Board)
    requires Shaped(b) && MetaReady(b)
    ensures SameLayout(b, GiveMeta(b))
    ensures forall q :: InBounds(b, q) ==>
      var x := At(b, q); var y := At(GiveMeta(b), q);
      && y.value == x.value && y.notes == x.notes && y.noteMode == x.noteMode
      && y.fixed == x.fixed && y.selected == x.selected
      && (x.isClue ==> y.downClue == x.downClue && y.rightClue == x.rightClue)
  {
  }

  /** A fill-in square with no clue above (left) keeps its stale clue sum and
      gets run length 0. */
  lemma GiveMetaOrphan(b: Board, q: Pos)
    requires Shaped(b) && MetaReady(b) && InBounds(b, q) && !At(b, q).isClue
    ensures Governor(b, q, Up).None? ==>
      At(GiveMeta(b), q).downClue == At(b, q).downClue && At(GiveMeta(b), q).numInDown == 0
    ensures Governor(b, q, Left).None? ==>
      At(GiveMeta(b), q).rightClue == At(b, q).rightClue && At(GiveMeta(b), q).numInRight == 0
  {
  }

  /** The metadata is a function of the layout and the clue sums alone, so
      giving it twice changes nothing. */
  lemma GiveMetaIdempotent(b: Board)
    requires Shaped(b) && MetaReady(b)
    ensures MetaReady(GiveMeta(b))
    ensures GiveMeta(GiveMeta(b)) == GiveMeta(b)
  {
    var m := GiveMeta(b);
    GiveMetaReady(b);
    var m2 := GiveMeta(m);
    forall q | InBounds(b, q)
      ensures At(m2, q) == At(m, q)
    {
      MetaCellStable(b, q);
    }
    BoardExt(m2, m);
  }

  /** The sums the first pass copies to fill-in squares are clue sums, and
      it keeps the layout, so its output can be annotated again. */
  lemma GiveMetaReady(b: Board)
    requires Shaped(b) && MetaReady(b)
    ensures MetaReady(GiveMeta(b))
  {
    var m := GiveMeta(b);
    GiveMetaFrame(b);
    forall q | InBounds(b, q)
      ensures 0 <= At(m, q).downClue <= 45 && 0 <= At(m, q).rightClue <= 45
    {
      GovernorBounds(b, q, Up);
      GovernorBounds(b, q, Left);
    }
    forall q | InBounds(b, q) && At(b, q).isClue
      ensures |Ray(m, q, Down)| <= 9 && |Ray(m, q, Right)| <= 9
    {
      RaySameLayout(m, b, q, Down);
      RaySameLayout(m, b, q, Right);
    }
  }

  lemma MetaCellStable(b: Board, q: Pos)
    requires Shaped(b) && MetaReady(b) && InBounds(b, q)
    ensures var m := GiveMeta(b); MetaReady(m) ==> MetaCell(m, q) == At(m, q)
  {
    var m := GiveMeta(b);
    GiveMetaFrame(b);
    var x := At(b, q);
    if x.isClue {
      RaySameLayout(m, b, q, Down);
      RaySameLayout(m, b, q, Right);
    } else {
      GovernorSameLayout(m, b, q, Up, 1);
      GovernorSameLayout(m, b, q, Left, 1);
      GovernorBounds(b, q, Up);
      GovernorBounds(b, q, Left);
      var up := Governor(b, q, Up);
      var left := Governor(b, q, Left);
      if up.Some? {
        RaySameLayout(m, b, up.value, Down);
      }
      if left.Some? {
        RaySameLayout(m, b, left.value, Right);
      }
    }
  }

  lemma {:induction false} GovernorSameLayout(a: Board, b: Board, q: Pos, d: Dir, k: int)
    requires SameLayout(a, b)
    ensures GovernorFrom(a, q, d, k) == GovernorFrom(b, q, d, k)
    decreases Dist(a, q, d) + 1 - k
  {
    var p := Walk(q, d, k);
    if InBounds(a, p) && !At(a, p).isClue {
      GovernorSameLayout(a, b, q, d, k + 1);
    }
  }

  // ---------------------------------------------------------------------------
  // Intersection notes

  /** The digits used by any entry of a combination list. */
  function DigitsOf(t: seq<Combo>): (s: NoteSet)
    ensures forall v :: v in s <==> exists i :: 0 <= i < |t| && v in t[i]
  {
    if |t| == 0 then {}
    else
      var rest := DigitsOf(t[1..]);
      assert forall i :: 0 <= i < |t| - 1 ==> t[1..][i] == t[i + 1];
      (set v | v in t[0]) + rest
  }

  /** The digits one clue allows: every digit of a fitting set when the clue
      is positive, any digit otherwise. */
  function Allowed(clue: int, len: int): NoteSet
    requires 0 <= clue <= 45 && 0 <= len <= 9
  {
    if clue > 0 then DigitsOf(Lookup(clue, len)) else AllDigits
  }

  /** getIntersectNotesForCell. */
  function IntersectNotes(x: Cell): NoteSet
    requires Indexable(x)
  {
    Allowed(x.downClue, x.numInDown) * Allowed(x.rightClue, x.numInRight)
  }

  /** A digit is allowed by a positive clue exactly when some digit set of
      the run's length adding up to the clue contains it. */
  lemma AllowedMeaning(clue: int, len: int, v: int)
    requires 0 < clue <= 45 && 0 <= len <= 9
    ensures v in Allowed(clue, len) <==> 1 <= len && exists x :: Combos.Solves(x, clue, len) && v in x
  {
    var t := Lookup(clue, len);
    if v in Allowed(clue, len) {
      var i :| 0 <= i < |t| && v in t[i];
      assert t[i] in t;
    }
    if 1 <= len && exists x :: Combos.Solves(x, clue, len) && v in x {
      var x :| Combos.Solves(x, clue, len) && v in x;
      assert x in t;
      var i :| 0 <= i < |t| && t[i] == x;
    }
  }

  function SeedCell(x: Cell): Cell
    requires !x.isClue && !x.fixed ==> Indexable(x)
  {
    if x.isClue || x.fixed then x else x.(notes := IntersectNotes(x))
  }

  /** writeNotesFromIntersections: every unfixed fill-in square gets exactly
      the digits both of its clues allow as notes 1..9. */
  function WriteNotesFromIntersections(b: Board): (b': Board)
    requires Shaped(b)
    requires forall q :: InBounds(b, q) && !At(b, q).isClue && !At(b, q).fixed ==> Indexable(At(b, q))
    ensures Shaped(b') && b'.rows == b.rows && b'.cols == b.cols
    ensures forall q :: InBounds(b, q) ==> At(b', q) == SeedCell(At(b, q))
  {
    b.(cells := seq(b.rows, r requires 0 <= r < b.rows =>
                  seq(b.cols, c requires 0 <= c < b.cols => SeedCell(At(b, Pos(r, c))))))
  }

  /** After the metadata pass every fill-in square can index the table. */
  lemma GiveMetaIndexable(b: Board, q: Pos)
    requires Shaped(b) && MetaReady(b) && InBounds(b, q) && !At(b, q).isClue
    ensures Indexable(At(GiveMeta(b), q))
  {
    GovernorBounds(b, q, Up);
    GovernorBounds(b, q, Left);
  }

  /** The digits both clues allow, stated from the clue squares. Each
      direction contributes the sum and run length of the clue square that
      governs the square; a square with no such clue keeps its stale sum
      with run length 0, so a positive stale sum admits no digit at all. A
      seeded note is a digit that, for each positive sum, lies in some digit
      set of that length adding up to it. */
  lemma SeededNotesExact(b: Board, q: Pos, v: int)
    requires Shaped(b) && MetaReady(b) && InBounds(b, q) && !At(b, q).isClue && !At(b, q).fixed
    ensures Indexable(At(GiveMeta(b), q))
    ensures var up := Governor(b, q, Up); var left := Governor(b, q, Left);
      var ds := if up.Some? then At(b, up.value).downClue else At(b, q).downClue;
      var dn := if up.Some? then |Ray(b, up.value, Down)| else 0;
      var rs := if left.Some? then At(b, left.value).rightClue else At(b, q).rightClue;
      var rn := if left.Some? then |Ray(b, left.value, Right)| else 0;
      Indexable(At(GiveMeta(b), q)) && v in IntersectNotes(At(GiveMeta(b), q)) <==>
        && 1 <= v <= 9
        && (ds > 0 ==> exists x :: Combos.Solves(x, ds, dn) && v in x)
        && (rs > 0 ==> exists x :: Combos.Solves(x, rs, rn) && v in x)
  {
    GiveMetaIndexable(b, q);
    var x := At(GiveMeta(b), q);
    if x.downClue > 0 {
      AllowedMeaning(x.downClue, x.numInDown, v);
    }
    if x.rightClue > 0 {
      AllowedMeaning(x.rightClue, x.numInRight, v);
    }
  }

  /** Seeding touches only the notes of unfixed fill-in squares. */
  lemma WriteNotesFrame(b: Board)
    requires Shaped(b)
    requires forall q :: InBounds(b, q) && !At(b, q).isClue && !At(b, q).fixed ==> Indexable(At(b, q))
    ensures forall q :: InBounds(b, q) ==>
      At(WriteNotesFromIntersections(b), q) == At(b, q).(notes := At(WriteNotesFromIntersections(b), q).notes)
    ensures forall q :: InBounds(b, q) && (At(b, q).isClue || At(b, q).fixed) ==>
      At(WriteNotesFromIntersections(b), q) == At(b, q)
  {
  }

  // ---------------------------------------------------------------------------
  // removeNotesFixedValues

  /** Fixed squares whose values can index the note array. */
  ghost predicate FixedInRange(b: Board)
    requires Shaped(b)
  {
    forall q :: InBounds(b, q) && !At(b, q).isClue && At(b, q).fixed ==> 0 <= At(b, q).value <= 9
  }

  /** Reassigning a fixed square its own value changes no value and no
      fixed flag, and only ever removes notes from the other squares. */
  lemma AssignFixedStep(b: Board, a: Pos)
    requires Shaped(b) && InBounds(b, a) && !At(b, a).isClue && At(b, a).fixed
    requires 0 <= At(b, a).value <= 9
    ensures FixedInRange(b) ==> FixedInRange(Assign(b, a, At(b, a).value))
    ensures var b' := Assign(b, a, At(b, a).value);
      && SameLayout(b, b')
      && (forall q :: InBounds(b, q) ==> At(b', q).value == At(b, q).value && At(b', q).fixed == At(b, q).fixed)
      && (forall q :: InBounds(b, q) && q != a ==> At(b', q).notes <= At(b, q).notes)
      && At(b', a).notes == {} && !At(b', a).noteMode
      && (forall q :: InBounds(b, q) && Sees(b, a, q) ==> At(b, a).value !in At(b', q).notes)
  {
    var v := At(b, a).value;
    AssignFacts(b, a, v);
    var b' := Assign(b, a, v);
    forall q | InBounds(b, q)
      ensures At(b', q).value == At(b, q).value && At(b', q).fixed == At(b, q).fixed
    {
      assert Frame(At(b, q), At(b', q));
    }
  }

  /** `b` has the layout, values and fixed flags of `a`. */
  ghost predicate KeepsValues(a: Board, b: Board) {
    && SameLayout(a, b)
    && forall q :: InBounds(a, q) ==> At(b, q).value == At(a, q).value && At(b, q).fixed == At(a, q).fixed
  }

  lemma KeepsValuesTrans(a: Board, b: Board, c: Board)
    requires KeepsValues(a, b) && KeepsValues(b, c)
    ensures KeepsValues(a, c)
  {
  }

  /** One step of removeNotesFixedValues at square `a`: a fixed fill-in
      square is reassigned its own value; anything else is left alone. */
  function Clean(b: Board, a: Pos): (b': Board)
    requires Shaped(b) && InBounds(b, a) && FixedInRange(b)
    ensures KeepsValues(b, b') && FixedInRange(b') && Extends(b, b')
  {
    var x := At(b, a);
    if !x.isClue && x.fixed then
      AssignFixedStep(b, a);
      AssignFrame(b, a, x.value);
      Assign(b, a, x.value)
    else b
  }

  function RemoveFixedFrom(b: Board, ps: seq<Pos>): (b': Board)
    requires Shaped(b) && forall i :: 0 <= i < |ps| ==> InBounds(b, ps[i])
    requires FixedInRange(b)
    ensures KeepsValues(b, b')
    decreases |ps|
  {
    if |ps| == 0 then b
    else
      var b1 := Clean(b, ps[0]);
      var r := RemoveFixedFrom(b1, ps[1..]);
      KeepsValuesTrans(b, b1, r);
      r
  }

  /** Stripping fixed values only removes notes and clears note flags. */
  lemma {:induction false} RemoveFixedFromExtends(b: Board, ps: seq<Pos>)
    requires Shaped(b) && forall i :: 0 <= i < |ps| ==> InBounds(b, ps[i])
    requires FixedInRange(b)
    ensures Extends(b, RemoveFixedFrom(b, ps))
    decreases |ps|
  {
    if |ps| > 0 {
      var b1 := Clean(b, ps[0]);
      RemoveFixedFromExtends(b1, ps[1..]);
      ExtendsTrans(b, b1, RemoveFixedFrom(b1, ps[1..]));
    }
  }

  /** removeNotesFixedValues: each fixed fill-in square, in row-major order,
      is reassigned its own value, which clears its notes and pencils its
      digit out of the squares it sees. */
  function RemoveNotesFixedValues(b: Board): (b': Board)
    requires Shaped(b) && FixedInRange(b)
    ensures KeepsValues(b, b') && Extends(b, b')
  {
    RemoveFixedFromExtends(b, RowMajor(b));
    RemoveFixedFrom(b, RowMajor(b))
  }

  /** Stripping fixed values writes no combination list. */
  lemma {:induction false} RemoveFixedFromLists(b: Board, ps: seq<Pos>)
    requires Shaped(b) && forall i :: 0 <= i < |ps| ==> InBounds(b, ps[i])
    requires FixedInRange(b)
    ensures Scans.ListsKept(b, RemoveFixedFrom(b, ps))
    decreases |ps|
  {
    if |ps| > 0 {
      var b1 := Clean(b, ps[0]);
      if !At(b, ps[0]).isClue && At(b, ps[0]).fixed {
        assert b1 == Assign(b, ps[0], At(b, ps[0]).value);
        Scans.AssignListsKept(b, ps[0], At(b, ps[0]).value);
      } else {
        assert b1 == b;
      }
      RemoveFixedFromLists(b1, ps[1..]);
      assert RemoveFixedFrom(b, ps) == RemoveFixedFrom(b1, ps[1..]);
      Scans.ListsKeptTrans(b, b1, RemoveFixedFrom(b1, ps[1..]));
    }
  }

  lemma RemoveNotesFixedValuesLists(b: Board)
    requires Shaped(b) && FixedInRange(b)
    ensures Scans.ListsKept(b, RemoveNotesFixedValues(b))
  {
    RemoveFixedFromLists(b, RowMajor(b));
  }

  /** The state removeNotesFixedValues establishes for the squares it has
      visited: a visited fixed square has no notes, and no square it sees
      keeps its digit as a note. */
  ghost predicate FixedSettled(b: Board, p: Pos)
    requires Shaped(b) && InBounds(b, p)
  {
    var x := At(b, p);
    !x.isClue && x.fixed ==>
      && x.notes == {} && !x.noteMode
      && forall q :: InBounds(b, q) && Sees(b, p, q) ==> x.value !in At(b, q).notes
  }

  /** Assigning a fixed square settles it and keeps every settled square
      settled. */
  lemma AssignKeepsSettled(b: Board, a: Pos, p: Pos)
    requires Shaped(b) && InBounds(b, a) && InBounds(b, p)
    requires !At(b, a).isClue && At(b, a).fixed && 0 <= At(b, a).value <= 9
    requires p == a || FixedSettled(b, p)
    ensures FixedSettled(Assign(b, a, At(b, a).value), p)
  {
    var v := At(b, a).value;
    var b' := Assign(b, a, v);
    AssignFixedStep(b, a);
    SeesSameLayout(b, b', p);
    if p != a && !At(b, p).isClue && At(b, p).fixed {
      var w := At(b, p).value;
      assert At(b', p).notes == {};
      assert !At(b', p).noteMode;
      forall q | InBounds(b', q) && Sees(b', p, q)
        ensures w !in At(b', q).notes
      {
        if q != a {
          assert w !in At(b, q).notes;
        }
      }
    }
  }

  lemma InTail(ps: seq<Pos>, p: Pos)
    requires |ps| > 0 && p in ps && p != ps[0]
    ensures p in ps[1..]
  {
    assert ps == [ps[0]] + ps[1..];
  }

  /** A cleaning step settles its own square and keeps settled squares
      settled. */
  lemma CleanSettles(b: Board, a: Pos, p: Pos)
    requires Shaped(b) && InBounds(b, a) && FixedInRange(b) && InBounds(b, p)
    requires p == a || FixedSettled(b, p)
    ensures FixedSettled(Clean(b, a), p)
  {
    var x := At(b, a);
    if !x.isClue && x.fixed {
      AssignKeepsSettled(b, a, p);
    }
  }

  lemma {:induction false} RemoveFixedFromSettles(b: Board, ps: seq<Pos>, p: Pos)
    requires Shaped(b) && forall i :: 0 <= i < |ps| ==> InBounds(b, ps[i])
    requires FixedInRange(b) && InBounds(b, p)
    requires p in ps || FixedSettled(b, p)
    ensures FixedSettled(RemoveFixedFrom(b, ps), p)
    decreases |ps|
  {
    if |ps| > 0 {
      var b1 := Clean(b, ps[0]);
      if p == ps[0] || FixedSettled(b, p) {
        CleanSettles(b, ps[0], p);
      } else {
        InTail(ps, p);
      }
      RemoveFixedFromSettles(b1, ps[1..], p);
    }
  }

  /** After removeNotesFixedValues every fixed fill-in square is settled. */
  lemma RemoveNotesFixedValuesSettles(b: Board, p: Pos)
    requires Shaped(b) && FixedInRange(b) && InBounds(b, p)
    ensures FixedSettled(RemoveNotesFixedValues(b), p)
  {
    RemoveFixedFromSettles(b, RowMajor(b), p);
  }
}

=== FILE: rule_combo_filter.dfy ===
/** updateClueCellCombos (puzzleboard.cpp): every clue square drops the
    combinations its runs can no longer use: first those missing a value
    already written on the run, then those sharing no note with some empty
    square of the run. */
module ComboFilter {
  import opened Cells
  import opened Boards
  import opened Scans

  /** Every value written on the run is a digit of `x`. */
  predicate HasValues(b: Board, ps: seq<Pos>, x: Combo)
    requires Shaped(b) && forall i :: 0 <= i < |ps| ==> InBounds(b, ps[i])
  {
    forall i :: 0 <= i < |ps| && At(b, ps[i]).value != 0 ==> At(b, ps[i]).value in x
  }

  /** Every empty square of the run has a note among the digits of `x`. */
  predicate MeetsNotes(b: Board, ps: seq<Pos>, x: Combo)
    requires Shaped(b) && forall i :: 0 <= i < |ps| ==> InBounds(b, ps[i])
  {
    forall i :: 0 <= i < |ps| && At(b, ps[i]).value == 0 ==> exists n :: n in At(b, ps[i]).notes && n in x
  }

  /** The combination is still usable on the run. */
  predicate Passes(b: Board, ps: seq<Pos>, x: Combo)
    requires Shaped(b) && forall i :: 0 <= i < |ps| ==> InBounds(b, ps[i])
  {
    HasValues(b, ps, x) && MeetsNotes(b, ps, x)
  }

  /** `r` is what survives of `cs` when only the combinations in `ok` are
      kept: a sub-list with exactly those members, equal to `cs` exactly
      when every entry of `cs` is kept. */
  ghost predicate Kept(r: seq<Combo>, cs: seq<Combo>, ok: iset<Combo>) {
    && Sublist(r, cs)
    && (forall x :: x in r <==> x in cs && x in ok)
    && (r == cs <==> forall k :: 0 <= k < |cs| ==> cs[k] in ok)
  }

  /** Filtering twice is filtering by both tests. */
  lemma KeptCompose(r: seq<Combo>, cs1: seq<Combo>, cs: seq<Combo>, ok1: iset<Combo>, ok2: iset<Combo>)
    requires Kept(cs1, cs, ok1) && Kept(r, cs1, ok2)
    ensures Kept(r, cs, ok1 * ok2)
  {
    SublistTrans(r, cs1, cs);
    SublistLength(cs1, cs);
    SublistLength(r, cs1);
    if r == cs {
      assert forall k :: 0 <= k < |cs| ==> cs[k] in r;
    }
  }

  /** The combinations holding every value written on the run. */
  ghost function ValuesOk(b: Board, ps: seq<Pos>): iset<Combo>
    requires Shaped(b) && forall i :: 0 <= i < |ps| ==> InBounds(b, ps[i])
  {
    iset x: Combo | HasValues(b, ps, x)
  }

  /** The combinations meeting the notes of every empty square of the run. */
  ghost function NotesOk(b: Board, ps: seq<Pos>): iset<Combo>
    requires Shaped(b) && forall i :: 0 <= i < |ps| ==> InBounds(b, ps[i])
  {
    iset x: Combo | MeetsNotes(b, ps, x)
  }

  /** The combinations holding digit `v`; every one when `v` is 0. */
  ghost function ValueOk(v: int): iset<Combo> {
    iset x: Combo | v != 0 ==> v in x
  }

  /** The combinations sharing a note of `y`; every one when `y` has a value. */
  ghost function NoteOk(y: Cell): iset<Combo> {
    iset x: Combo | y.value == 0 ==> SharesDigit(y.notes, x)
  }

  predicate SharesDigit(notes: NoteSet, x: Combo) {
    exists n :: n in notes && n in x
  }

  /** Erasing the combinations without digit `v` (none when `v` is 0). */
  lemma ValueStep(cs: seq<Combo>, v: int)
    ensures Kept(if v != 0 then EraseAll(cs, (c: Combo) => ScanHas(c, v)) else cs, cs, ValueOk(v))
  {
    if v == 0 {
      SublistRefl(cs);
    }
  }

  /** Erasing the combinations sharing no note of an empty square. */
  lemma NoteStep(cs: seq<Combo>, y: Cell)
    ensures Kept(if y.value == 0 then EraseAll(cs, (c: Combo) => SharesNote(c, NoteList(y.notes))) else cs, cs, NoteOk(y))
  {
    SharesNoteList(y.notes);
    if y.value != 0 {
      SublistRefl(cs);
    }
  }

  lemma HasValuesCons(b: Board, ps: seq<Pos>)
    requires Shaped(b) && |ps| > 0 && forall i :: 0 <= i < |ps| ==> InBounds(b, ps[i])
    ensures ValuesOk(b, ps) == ValueOk(At(b, ps[0]).value) * ValuesOk(b, ps[1..])
  {
    assert forall i :: 1 <= i < |ps| ==> ps[i] == ps[1..][i - 1];
  }

  lemma MeetsNotesCons(b: Board, ps: seq<Pos>)
    requires Shaped(b) && |ps| > 0 && forall i :: 0 <= i < |ps| ==> InBounds(b, ps[i])
    ensures NotesOk(b, ps) == NoteOk(At(b, ps[0])) * NotesOk(b, ps[1..])
  {
    assert forall i :: 1 <= i < |ps| ==> ps[i] == ps[1..][i - 1];
  }

  /** The first pair of loops: for each written value along the run, erase
      the combinations without it. */
  function FilterValues(b: Board, ps: seq<Pos>, cs: seq<Combo>): (r: seq<Combo>)
    requires Shaped(b) && forall i :: 0 <= i < |ps| ==> InBounds(b, ps[i])
    ensures Kept(r, cs, ValuesOk(b, ps))
    decreases |ps|
  {
    if |ps| == 0 then
      SublistRefl(cs);
      cs
    else
      var v := At(b, ps[0]).value;
      var cs1 := if v != 0 then EraseAll(cs, (c: Combo) => ScanHas(c, v)) else cs;
      var r := FilterValues(b, ps[1..], cs1);
      ValueStep(cs, v);
      KeptCompose(r, cs1, cs, ValueOk(v), ValuesOk(b, ps[1..]));
      HasValuesCons(b, ps);
      r
  }

  /** The second pair of loops: for each empty square along the run, erase
      the combinations that share none of its notes. */
  function FilterNotes(b: Board, ps: seq<Pos>, cs: seq<Combo>): (r: seq<Combo>)
    requires Shaped(b) && forall i :: 0 <= i < |ps| ==> InBounds(b, ps[i])
    ensures Kept(r, cs, NotesOk(b, ps))
    decreases |ps|
  {
    if |ps| == 0 then
      SublistRefl(cs);
      cs
    else
      var y := At(b, ps[0]);
      var cs1 := if y.value == 0 then EraseAll(cs, (c: Combo) => SharesNote(c, NoteList(y.notes))) else cs;
      var r := FilterNotes(b, ps[1..], cs1);
      NoteStep(cs, y);
      KeptCompose(r, cs1, cs, NoteOk(y), NotesOk(b, ps[1..]));
      MeetsNotesCons(b, ps);
      r
  }

  /** The note list of a square shares a digit with a combination exactly
      when its note set does. */
  lemma SharesNoteList(notes: NoteSet)
    ensures forall x: Combo :: SharesNote(x, NoteList(notes)) <==> exists n :: n in notes && n in x
  {
    var ns := NoteList(notes);
    forall x: Combo
      ensures SharesNote(x, ns) <==> exists n :: n in notes && n in x
    {
      if SharesNote(x, ns) {
        var k :| 0 <= k < |ns| && ns[k] in x;
        assert ns[k] in notes;
      }
      if n :| n in notes && n in x {
        assert n in ns;
        var k :| 0 <= k < |ns| && ns[k] == n;
      }
    }
  }

  /** Both filters in the source's order on one list. */
  function FilterRun(b: Board, ps: seq<Pos>, cs: seq<Combo>): (r: seq<Combo>)
    requires Shaped(b) && forall i :: 0 <= i < |ps| ==> InBounds(b, ps[i])
    ensures Sublist(r, cs)
    ensures forall x :: x in r <==> x in cs && Passes(b, ps, x)
    ensures r == cs <==> forall k :: 0 <= k < |cs| ==> Passes(b, ps, cs[k])
    ensures r != cs <==> |r| < |cs|
  {
    var v := FilterValues(b, ps, cs);
    var r := FilterNotes(b, ps, v);
    KeptCompose(r, v, cs, ValuesOk(b, ps), NotesOk(b, ps));
    SublistLength(r, cs);
    r
  }

  /** `b'` differs from `b` only in combination lists, each a sub-list of
      the one before. */
  ghost predicate ListsShrunk(b: Board, b': Board) {
    && Shaped(b) && Shaped(b') && b.rows == b'.rows && b.cols == b'.cols
    && forall q :: InBounds(b, q) ==>
         && At(b', q) == At(b, q).(downCombos := At(b', q).downCombos, rightCombos := At(b', q).rightCombos)
         && Sublist(At(b', q).downCombos, At(b, q).downCombos)
         && Sublist(At(b', q).rightCombos, At(b, q).rightCombos)
  }

  lemma ListsShrunkTrans(a: Board, b: Board, c: Board)
    requires ListsShrunk(a, b) && ListsShrunk(b, c)
    ensures ListsShrunk(a, c)
  {
    forall q | InBounds(a, q)
      ensures Sublist(At(c, q).downCombos, At(a, q).downCombos)
      ensures Sublist(At(c, q).rightCombos, At(a, q).rightCombos)
    {
      SublistTrans(At(c, q).downCombos, At(b, q).downCombos, At(a, q).downCombos);
      SublistTrans(At(c, q).rightCombos, At(b, q).rightCombos, At(a, q).rightCombos);
    }
  }

  lemma ListsShrunkRefl(b: Board)
    requires Shaped(b)
    ensures ListsShrunk(b, b)
  {
    forall q | InBounds(b, q)
      ensures Sublist(At(b, q).downCombos, At(b, q).downCombos)
      ensures Sublist(At(b, q).rightCombos, At(b, q).rightCombos)
    {
      SublistRefl(At(b, q).downCombos);
      SublistRefl(At(b, q).rightCombos);
    }
  }

  /** Values and notes are untouched, so every later invariant carries over. */
  lemma ListsShrunkFromNotes(b: Board, b': Board)
    requires ListsShrunk(b, b')
    ensures FromNotes(b, b') && SameLayout(b, b')
    ensures forall s :: Agrees(b, s) ==> Agrees(b', s)
  {
  }

  /** The clue square with both of its lists filtered against the board
      as it stands. */
  function Filtered(b: Board, p: Pos): (y: Cell)
    requires Shaped(b) && InBounds(b, p)
    ensures Sublist(y.rightCombos, At(b, p).rightCombos) && Sublist(y.downCombos, At(b, p).downCombos)
  {
    var x := At(b, p);
    RayFacts(b, p, Right);
    RayFacts(b, p, Down);
    x.(rightCombos := FilterRun(b, Ray(b, p, Right), x.rightCombos),
       downCombos := FilterRun(b, Ray(b, p, Down), x.downCombos))
  }

  /** The pass at one clue square: both lists are filtered and written
      back. */
  function FilterAt(b: Board, p: Pos): (o: Outcome)
    requires Shaped(b) && InBounds(b, p)
    ensures Shaped(o.board) && o.board.rows == b.rows && o.board.cols == b.cols
    ensures ListsShrunk(b, o.board)
    ensures Progress(b, o.board, o.changed)
  {
    var x := At(b, p);
    if !x.isClue || (x.rightClue == 0 && x.downClue == 0) then
      ListsShrunkRefl(b);
      Outcome(b, false)
    else
      var y := Filtered(b, p);
      if y != x then
        ReplaceLists(b, p, y.rightCombos, y.downCombos);
        Outcome(Put(b, p, y), true)
      else
        ListsShrunkRefl(b);
        Outcome(b, false)
  }

  /** Writing shorter sub-lists back into one square. */
  lemma ReplaceLists(b: Board, p: Pos, rs: seq<Combo>, ds: seq<Combo>)
    requires Shaped(b) && InBounds(b, p)
    requires Sublist(rs, At(b, p).rightCombos) && Sublist(ds, At(b, p).downCombos)
    requires |rs| < |At(b, p).rightCombos| || |ds| < |At(b, p).downCombos|
    ensures var b' := Put(b, p, At(b, p).(rightCombos := rs, downCombos := ds));
      ListsShrunk(b, b') && Below(b', b)
  {
    var y := At(b, p).(rightCombos := rs, downCombos := ds);
    var b' := Put(b, p, y);
    PutDelta(Empties, b, p, y);
    PutDelta(NoteCount, b, p, y);
    PutDelta(ComboCount, b, p, y);
    SublistLength(rs, At(b, p).rightCombos);
    SublistLength(ds, At(b, p).downCombos);
    forall q | InBounds(b, q)
      ensures Sublist(At(b', q).downCombos, At(b, q).downCombos)
      ensures Sublist(At(b', q).rightCombos, At(b, q).rightCombos)
    {
      if q != p {
        SublistRefl(At(b, q).downCombos);
        SublistRefl(At(b, q).rightCombos);
      }
    }
  }

  /** What the pass at `p` leaves: only `p`'s lists change, to the filtered
      lists. */
  lemma FilterAtCells(b: Board, p: Pos)
    requires Shaped(b) && InBounds(b, p)
    ensures var b' := FilterAt(b, p).board; var x := At(b, p);
      && (forall q :: InBounds(b, q) && q != p ==> At(b', q) == At(b, q))
      && At(b', p) == if x.isClue && (x.rightClue != 0 || x.downClue != 0) then Filtered(b, p) else x
  {
  }

  /** Every combination still listed for a clue square passes both filters
      on its run. */
  ghost predicate Settled(b: Board, p: Pos)
    requires Shaped(b) && InBounds(b, p)
  {
    var x := At(b, p);
    RayFacts(b, p, Right);
    RayFacts(b, p, Down);
    x.isClue && (x.rightClue != 0 || x.downClue != 0) ==>
      && (forall k :: 0 <= k < |x.rightCombos| ==> Passes(b, Ray(b, p, Right), x.rightCombos[k]))
      && (forall k :: 0 <= k < |x.downCombos| ==> Passes(b, Ray(b, p, Down), x.downCombos[k]))
  }

  lemma FilterAtQuiet(b: Board, p: Pos)
    requires Shaped(b) && InBounds(b, p)
    ensures !FilterAt(b, p).changed <==> Settled(b, p)
  {
  }

  function FilterFrom(b: Board, ps: seq<Pos>): (o: Outcome)
    requires Shaped(b) && forall i :: 0 <= i < |ps| ==> InBounds(b, ps[i])
    ensures Shaped(o.board) && o.board.rows == b.rows && o.board.cols == b.cols
    ensures ListsShrunk(b, o.board)
    ensures Progress(b, o.board, o.changed)
    decreases |ps|
  {
    if |ps| == 0 then
      ListsShrunkRefl(b);
      Outcome(b, false)
    else
      var o1 := FilterAt(b, ps[0]);
      var o2 := FilterFrom(o1.board, ps[1..]);
      ListsShrunkTrans(b, o1.board, o2.board);
      ProgressCompose(b, o1.board, o2.board, o1.changed, o2.changed);
      Outcome(o2.board, o1.changed || o2.changed)
  }

  /** updateClueCellCombos: only combination lists change, each to an
      order-preserving sub-list, and `changed` reports that one got shorter. */
  function UpdateClueCellCombos(b: Board): (o: Outcome)
    requires Shaped(b)
    ensures Shaped(o.board) && o.board.rows == b.rows && o.board.cols == b.cols
    ensures ListsShrunk(b, o.board)
    ensures Progress(b, o.board, o.changed)
  {
    FilterFrom(b, RowMajor(b))
  }

  lemma {:induction false} FilterFromQuiet(b: Board, ps: seq<Pos>)
    requires Shaped(b) && forall i :: 0 <= i < |ps| ==> InBounds(b, ps[i])
    ensures !FilterFrom(b, ps).changed <==> forall i :: 0 <= i < |ps| ==> Settled(b, ps[i])
    decreases |ps|
  {
    if |ps| > 0 {
      FilterAtQuiet(b, ps[0]);
      if !FilterAt(b, ps[0]).changed {
        FilterFromQuiet(b, ps[1..]);
        assert forall i :: 1 <= i < |ps| ==> ps[i] == ps[1..][i - 1];
      }
    }
  }

  /** The rule is at rest exactly when every listed combination of every
      clue square is still usable on its run. */
  lemma ComboFilterQuiet(b: Board)
    requires Shaped(b)
    ensures !UpdateClueCellCombos(b).changed <==> forall q :: InBounds(b, q) ==> Settled(b, q)
  {
    var ps := RowMajor(b);
    FilterFromQuiet(b, ps);
    if forall i :: 0 <= i < |ps| ==> Settled(b, ps[i]) {
      forall q | InBounds(b, q)
        ensures Settled(b, q)
      {
        var i :| 0 <= i < |ps| && ps[i] == q;
      }
    }
  }

  // ---------------------------------------------------------------------------
  // What one pass achieves

  /** Whether a combination passes depends only on the values and notes of
      the run, which shrinking the lists leaves alone. */
  lemma PassesListsShrunk(b: Board, b': Board, p: Pos, d: Dir, x: Combo)
    requires ListsShrunk(b, b')
    ensures Ray(b', p, d) == Ray(b, p, d)
    ensures var ps := Ray(b, p, d);
      && (forall i :: 0 <= i < |ps| ==> InBounds(b, ps[i]) && InBounds(b', ps[i]))
      && (Passes(b', ps, x) <==> Passes(b, ps, x))
  {
    ListsShrunkFromNotes(b, b');
    RaySameLayout(b, b', p, d);
    RayFacts(b, p, d);
  }

  /** Shrinking lists anywhere keeps a settled clue square settled. */
  lemma SettledListsShrunk(b: Board, b': Board, p: Pos)
    requires ListsShrunk(b, b') && InBounds(b, p) && Settled(b, p)
    ensures Settled(b', p)
  {
    var x := At(b, p);
    var y := At(b', p);
    if y.isClue && (y.rightClue != 0 || y.downClue != 0) {
      RayFacts(b', p, Right);
      RayFacts(b', p, Down);
      SublistLength(y.rightCombos, x.rightCombos);
      SublistLength(y.downCombos, x.downCombos);
      forall k | 0 <= k < |y.rightCombos|
        ensures Passes(b', Ray(b', p, Right), y.rightCombos[k])
      {
        assert y.rightCombos[k] in x.rightCombos;
        PassesListsShrunk(b, b', p, Right, y.rightCombos[k]);
      }
      forall k | 0 <= k < |y.downCombos|
        ensures Passes(b', Ray(b', p, Down), y.downCombos[k])
      {
        assert y.downCombos[k] in x.downCombos;
        PassesListsShrunk(b, b', p, Down, y.downCombos[k]);
      }
    }
  }

  /** The pass at a clue square leaves that square settled. */
  lemma FilterAtSettles(b: Board, p: Pos)
    requires Shaped(b) && InBounds(b, p)
    ensures Settled(FilterAt(b, p).board, p)
  {
    var b' := FilterAt(b, p).board;
    var x := At(b, p);
    FilterAtCells(b, p);
    if x.isClue && (x.rightClue != 0 || x.downClue != 0) {
      var y := At(b', p);
      assert y == Filtered(b, p);
      FilteredPasses(b, b', p, Right);
      FilteredPasses(b, b', p, Down);
      assert CombosOf(y, Right) == y.rightCombos && CombosOf(y, Down) == y.downCombos;
      assert y.isClue && (y.rightClue != 0 || y.downClue != 0);
    }
  }

  /** Every entry of a freshly filtered list passes on the board the filtered
      square is written back to. */
  lemma FilteredPasses(b: Board, b': Board, p: Pos, d: Dir)
    requires Shaped(b) && InBounds(b, p) && ListsShrunk(b, b') && At(b', p) == Filtered(b, p)
    requires d == Right || d == Down
    ensures var ps := Ray(b', p, d); var cs := CombosOf(At(b', p), d);
      && (forall i :: 0 <= i < |ps| ==> InBounds(b', ps[i]))
      && forall k :: 0 <= k < |cs| ==> Passes(b', ps, cs[k])
  {
    RayFacts(b, p, d);
    RayFacts(b', p, d);
    var ps := Ray(b, p, d);
    var cs := CombosOf(At(b', p), d);
    assert cs == FilterRun(b, ps, CombosOf(At(b, p), d)) by {
      if d == Right {
        assert cs == Filtered(b, p).rightCombos;
      } else {
        assert cs == Filtered(b, p).downCombos;
      }
    }
    forall k | 0 <= k < |cs|
      ensures Passes(b', Ray(b', p, d), cs[k])
    {
      assert cs[k] in cs;
      PassesListsShrunk(b, b', p, d, cs[k]);
    }
  }

  lemma {:induction false} FilterFromSettles(b: Board, ps: seq<Pos>)
    requires Shaped(b) && forall i :: 0 <= i < |ps| ==> InBounds(b, ps[i])
    ensures forall i :: 0 <= i < |ps| ==> Settled(FilterFrom(b, ps).board, ps[i])
    decreases |ps|
  {
    if |ps| > 0 {
      var o1 := FilterAt(b, ps[0]);
      var o2 := FilterFrom(o1.board, ps[1..]);
      FilterAtSettles(b, ps[0]);
      SettledListsShrunk(o1.board, o2.board, ps[0]);
      FilterFromSettles(o1.board, ps[1..]);
      assert forall i :: 1 <= i < |ps| ==> ps[i] == ps[1..][i - 1];
    }
  }

  /** One pass leaves the rule at rest: afterwards every combination listed
      for a clue square holds every value written on its run and shares a
      note with every empty square of the run, so a second pass would report
      no change. */
  lemma ComboFilterSettles(b: Board)
    requires Shaped(b)
    ensures forall q :: InBounds(b, q) ==> Settled(UpdateClueCellCombos(b).board, q)
    ensures !UpdateClueCellCombos(UpdateClueCellCombos(b).board).changed
  {
    var ps := RowMajor(b);
    var b' := UpdateClueCellCombos(b).board;
    FilterFromSettles(b, ps);
    forall q | InBounds(b, q)
      ensures Settled(b', q)
    {
      var i :| 0 <= i < |ps| && ps[i] == q;
    }
    ComboFilterQuiet(b');
  }

  // ---------------------------------------------------------------------------
  // Soundness

  /** A combination holding all of a completion's digits on the run passes
      both filters. */
  lemma CompletionPasses(b: Board, ps: seq<Pos>, s: Board, x: Combo)
    requires Agrees(b, s) && forall i :: 0 <= i < |ps| ==> InBounds(b, ps[i]) && !At(b, ps[i]).isClue
    requires forall i :: 0 <= i < |ps| ==> At(s, ps[i]).value in x
    ensures Passes(b, ps, x)
  {
    forall i | 0 <= i < |ps| && At(b, ps[i]).value == 0
      ensures exists n :: n in At(b, ps[i]).notes && n in x
    {
      assert At(s, ps[i]).value in x;
    }
  }

  /** The filtered list keeps a combination that covers the completion's
      digits on the run. */
  lemma FilterKeeps(b: Board, ps: seq<Pos>, cs: seq<Combo>, s: Board, k: int)
    requires Agrees(b, s) && forall i :: 0 <= i < |ps| ==> InBounds(b, ps[i]) && !At(b, ps[i]).isClue
    requires 0 <= k < |cs| && forall i :: 0 <= i < |ps| ==> At(s, ps[i]).value in cs[k]
    ensures exists j :: 0 <= j < |FilterRun(b, ps, cs)| && FilterRun(b, ps, cs)[j] == cs[k]
  {
    CompletionPasses(b, ps, s, cs[k]);
    var r := FilterRun(b, ps, cs);
    assert cs[k] in r;
  }

  /** One clue square and direction after the pass at `p`. */
  lemma FilterAtListed(b: Board, p: Pos, s: Board, p': Pos, d: Dir)
    requires Agrees(b, s) && Covers(b, s) && InBounds(b, p)
    requires InBounds(s, p') && Clued(s, p', d)
    ensures var b' := FilterAt(b, p).board; SameLayout(b', s) && Listed(b', p', d, s)
  {
    var b' := FilterAt(b, p).board;
    ListsShrunkFromNotes(b, b');
    FilterAtCells(b, p);
    assert Agrees(b', s);
    assert Listed(b, p', d, s);
    var x := At(b, p);
    if p' == p && (x.rightClue != 0 || x.downClue != 0) {
      ListedFiltered(b, b', p, d, s);
    } else {
      ListedKept(b, b', p', d, s);
    }
  }

  lemma ListedKept(b: Board, b': Board, p: Pos, d: Dir, s: Board)
    requires SameLayout(b, b') && SameLayout(b', s) && InBounds(b, p) && Listed(b, p, d, s)
    requires CombosOf(At(b', p), d) == CombosOf(At(b, p), d)
    ensures Listed(b', p, d, s)
  {
    RaySameLayout(b, b', p, d);
    RayFacts(b, p, d);
    var cs := CombosOf(At(b, p), d);
    var k :| 0 <= k < |cs| && forall q :: q in Ray(b, p, d) ==> At(s, q).value in cs[k];
    assert forall q :: q in Ray(b', p, d) ==> At(s, q).value in cs[k];
  }

  lemma ListedFiltered(b: Board, b': Board, p: Pos, d: Dir, s: Board)
    requires Agrees(b, s) && SameLayout(b, b') && SameLayout(b', s) && InBounds(b, p)
    requires d == Right || d == Down
    requires At(b', p) == Filtered(b, p)
    ensures Listed(b, p, d, s) ==> Listed(b', p, d, s)
  {
    if !Listed(b, p, d, s) {
      return;
    }
    RaySameLayout(b, b', p, d);
    RayFacts(b, p, d);
    var ps := Ray(b, p, d);
    var cs := CombosOf(At(b, p), d);
    var k :| 0 <= k < |cs| && forall q :: q in ps ==> At(s, q).value in cs[k];
    var cs' := CombosOf(At(b', p), d);
    assert cs' == FilterRun(b, ps, cs) by {
      if d == Right {
        assert cs' == Filtered(b, p).rightCombos;
      } else {
        assert cs' == Filtered(b, p).downCombos;
      }
    }
    FilterKeeps(b, ps, cs, s, k);
    assert cs[k] in cs';
    assert Ray(b', p, d) == ps;
    ListedBy(b', p, d, s, cs[k]);
  }

  lemma FilterAtSound(b: Board, p: Pos, s: Board)
    requires Agrees(b, s) && Covers(b, s) && InBounds(b, p)
    ensures Covers(FilterAt(b, p).board, s)
  {
    var b' := FilterAt(b, p).board;
    ListsShrunkFromNotes(b, b');
    forall p', d | InBounds(s, p') && Clued(s, p', d)
      ensures Listed(b', p', d, s)
    {
      FilterAtListed(b, p, s, p', d);
    }
  }

  lemma {:induction false} FilterFromSound(b: Board, ps: seq<Pos>, s: Board)
    requires Agrees(b, s) && Covers(b, s) && forall i :: 0 <= i < |ps| ==> InBounds(b, ps[i])
    ensures Agrees(FilterFrom(b, ps).board, s) && Covers(FilterFrom(b, ps).board, s)
    decreases |ps|
  {
    if |ps| > 0 {
      FilterAtSound(b, ps[0], s);
      var b1 := FilterAt(b, ps[0]).board;
      ListsShrunkFromNotes(b, b1);
      FilterFromSound(b1, ps[1..], s);
    } else {
      ListsShrunkRefl(b);
    }
  }

  /** The filter never drops the combination that holds a solution's digits
      on a run, as long as the board agrees with that solution. */
  lemma ComboFilterSound(b: Board, s: Board)
    requires Agrees(b, s) && Covers(b, s)
    ensures Covers(UpdateClueCellCombos(b).board, s)
  {
    FilterFromSound(b, RowMajor(b), s);
  }

  // ---------------------------------------------------------------------------
  // The whole pass keeps a completion

  /** Dropping combinations keeps the invariant, and touches nothing a
      completion is compared with but the lists. */
  lemma ListsShrunkTidy(b: Board, b': Board, s: Board)
    requires ListsShrunk(b, b') && Tidy(b)
    ensures Tidy(b') && (Agrees(b, s) ==> Agrees(b', s))
  {
    assert SameLayout(b, b');
    forall p, d, k | InBounds(b', p) && At(b', p).isClue && (d == Right || d == Down) &&
      0 <= k < |CombosOf(At(b', p), d)|
      ensures |CombosOf(At(b', p), d)[k]| == |Ray(b', p, d)|
    {
      RaySameLayout(b, b', p, d);
      SublistLength(At(b', p).downCombos, At(b, p).downCombos);
      SublistLength(At(b', p).rightCombos, At(b, p).rightCombos);
      assert CombosOf(At(b', p), d)[k] in CombosOf(At(b, p), d);
    }
    forall r | InBounds(b', r)
      ensures forall q :: Sees(b', r, q) == Sees(b, r, q)
    {
      SeesSameLayout(b', b, r);
    }
  }

  /** The pass keeps every completion the board tracks. */
  lemma FilterTracks(b: Board, s: Board)
    requires Tracks(b, s)
    ensures Tracks(UpdateClueCellCombos(b).board, s)
  {
    ComboFilterSound(b, s);
    ListsShrunkTidy(b, UpdateClueCellCombos(b).board, s);
  }
}

=== FILE: rule_combo_notes.dfy ===
/** removeNotesNotInPossibleCombos (puzzleboard.cpp): a note survives on an
    empty square only if some combination still listed for each of its runs
    holds that digit. */
module ComboNotes {
  import opened Cells
  import opened Boards
  import opened Scans
  import opened Solved

  /** The digits that occur in some listed combination. */
  function Possible(cs: seq<Combo>): (k: NoteSet)
    ensures forall n :: n in k <==> n in AllDigits && exists i :: 0 <= i < |cs| && n in cs[i]
  {
    set n | n in AllDigits && InAny(cs, n)
  }

  /** Squares with a value are skipped; empty squares keep the possible
      digits. */
  function ComboKeeps(b: Board, ps: seq<Pos>, cs: seq<Combo>): (keeps: seq<NoteSet>)
    requires Shaped(b) && forall i :: 0 <= i < |ps| ==> InBounds(b, ps[i])
    ensures |keeps| == |ps|
  {
    seq(|ps|, i requires 0 <= i < |ps| => if At(b, ps[i]).value != 0 then AllDigits else Possible(cs))
  }

  function ComboRun(b: Board, p: Pos, d: Dir, cs: seq<Combo>): (o: Outcome)
    requires Shaped(b)
    ensures Shaped(o.board) && o.board.rows == b.rows && o.board.cols == b.cols
    ensures NotesShrunk(b, o.board)
    ensures Progress(b, o.board, o.changed)
  {
    RayFacts(b, p, d);
    var ps := Ray(b, p, d);
    RestrictRun(b, ps, ComboKeeps(b, ps, cs))
  }

  /** Every empty square of the run holds only possible digits. */
  ghost predicate RunSettled(b: Board, p: Pos, d: Dir, cs: seq<Combo>)
    requires Shaped(b)
  {
    RayFacts(b, p, d);
    var ps := Ray(b, p, d);
    forall i :: 0 <= i < |ps| && At(b, ps[i]).value == 0 ==> At(b, ps[i]).notes <= Possible(cs)
  }

  lemma ComboRunQuiet(b: Board, p: Pos, d: Dir, cs: seq<Combo>)
    requires Shaped(b)
    ensures !ComboRun(b, p, d, cs).changed <==> RunSettled(b, p, d, cs)
  {
    RayFacts(b, p, d);
    var ps := Ray(b, p, d);
    var keeps := ComboKeeps(b, ps, cs);
    forall i | 0 <= i < |ps|
      ensures At(b, ps[i]).notes <= keeps[i] <==> (At(b, ps[i]).value == 0 ==> At(b, ps[i]).notes <= Possible(cs))
    {
    }
  }

  /** The pass at one clue square: both runs, right first, each against the
      list read before either. The right run is scanned even when the right
      clue is 0, and then its empty list clears every note there. */
  function ComboAt(b: Board, p: Pos): (o: Outcome)
    requires Shaped(b) && InBounds(b, p)
    ensures Shaped(o.board) && o.board.rows == b.rows && o.board.cols == b.cols
    ensures NotesShrunk(b, o.board)
    ensures Progress(b, o.board, o.changed)
  {
    var x := At(b, p);
    if !x.isClue || (x.rightClue == 0 && x.downClue == 0) then Outcome(b, false)
    else
      var o1 := ComboRun(b, p, Right, x.rightCombos);
      var o2 := ComboRun(o1.board, p, Down, x.downCombos);
      NotesShrunkTrans(b, o1.board, o2.board);
      ProgressCompose(b, o1.board, o2.board, o1.changed, o2.changed);
      Outcome(o2.board, o1.changed || o2.changed)
  }

  ghost predicate Settled(b: Board, p: Pos)
    requires Shaped(b) && InBounds(b, p)
  {
    var x := At(b, p);
    x.isClue && (x.rightClue != 0 || x.downClue != 0) ==>
      RunSettled(b, p, Right, x.rightCombos) && RunSettled(b, p, Down, x.downCombos)
  }

  lemma ComboAtQuiet(b: Board, p: Pos)
    requires Shaped(b) && InBounds(b, p)
    ensures !ComboAt(b, p).changed <==> Settled(b, p)
  {
    var x := At(b, p);
    if x.isClue && (x.rightClue != 0 || x.downClue != 0) {
      ComboRunQuiet(b, p, Right, x.rightCombos);
      ComboRunQuiet(b, p, Down, x.downCombos);
      var o1 := ComboRun(b, p, Right, x.rightCombos);
      if !o1.changed {
        assert o1.board == b;
      }
    }
  }

  function ComboFrom(b: Board, ps: seq<Pos>): (o: Outcome)
    requires Shaped(b) && forall i :: 0 <= i < |ps| ==> InBounds(b, ps[i])
    ensures Shaped(o.board) && o.board.rows == b.rows && o.board.cols == b.cols
    ensures NotesShrunk(b, o.board)
    ensures Progress(b, o.board, o.changed)
    decreases |ps|
  {
    if |ps| == 0 then Outcome(b, false)
    else
      var o1 := ComboAt(b, ps[0]);
      var o2 := ComboFrom(o1.board, ps[1..]);
      NotesShrunkTrans(b, o1.board, o2.board);
      ProgressCompose(b, o1.board, o2.board, o1.changed, o2.changed);
      Outcome(o2.board, o1.changed || o2.changed)
  }

  /** removeNotesNotInPossibleCombos: only notes change, only by deletion,
      and the combination lists stay as they were. */
  function RemoveNotesNotInPossibleCombos(b: Board): (o: Outcome)
    requires Shaped(b)
    ensures Shaped(o.board) && o.board.rows == b.rows && o.board.cols == b.cols
    ensures NotesShrunk(b, o.board)
    ensures Progress(b, o.board, o.changed)
  {
    ComboFrom(b, RowMajor(b))
  }

  lemma {:induction false} ComboFromQuiet(b: Board, ps: seq<Pos>)
    requires Shaped(b) && forall i :: 0 <= i < |ps| ==> InBounds(b, ps[i])
    ensures !ComboFrom(b, ps).changed <==> forall i :: 0 <= i < |ps| ==> Settled(b, ps[i])
    decreases |ps|
  {
    if |ps| > 0 {
      ComboAtQuiet(b, ps[0]);
      if !ComboAt(b, ps[0]).changed {
        ComboFromQuiet(b, ps[1..]);
        assert forall i :: 1 <= i < |ps| ==> ps[i] == ps[1..][i - 1];
      }
    }
  }

  /** The rule is at rest exactly when every empty square on a run of a
      clue square holds only digits of that run's combinations. */
  lemma ComboNotesQuiet(b: Board)
    requires Shaped(b)
    ensures !RemoveNotesNotInPossibleCombos(b).changed <==> forall q :: InBounds(b, q) ==> Settled(b, q)
  {
    var ps := RowMajor(b);
    ComboFromQuiet(b, ps);
    if forall i :: 0 <= i < |ps| ==> Settled(b, ps[i]) {
      forall q | InBounds(b, q)
        ensures Settled(b, q)
      {
        var i :| 0 <= i < |ps| && ps[i] == q;
      }
    }
  }

  // ---------------------------------------------------------------------------
  // What one pass achieves

  /** After the pass along a run, every empty square of the run holds only
      digits of some listed combination. */
  lemma ComboRunSettles(b: Board, p: Pos, d: Dir, cs: seq<Combo>)
    requires Shaped(b)
    ensures RunSettled(ComboRun(b, p, d, cs).board, p, d, cs)
  {
    RayFacts(b, p, d);
    var ps := Ray(b, p, d);
    var keeps := ComboKeeps(b, ps, cs);
    var b' := ComboRun(b, p, d, cs).board;
    NotesShrunkExtends(b, b');
    RaySameLayout(b, b', p, d);
    forall i | 0 <= i < |ps| && At(b', ps[i]).value == 0
      ensures At(b', ps[i]).notes <= Possible(cs)
    {
      assert At(b, ps[i]).value == 0;
      assert At(b', ps[i]).notes == At(b, ps[i]).notes * keeps[i];
    }
  }

  /** Deleting notes anywhere keeps a settled run settled. */
  lemma RunSettledShrunk(b: Board, b': Board, p: Pos, d: Dir, cs: seq<Combo>)
    requires NotesShrunk(b, b') && RunSettled(b, p, d, cs)
    ensures RunSettled(b', p, d, cs)
  {
    NotesShrunkExtends(b, b');
    RaySameLayout(b, b', p, d);
    RayFacts(b, p, d);
  }

  /** Deleting notes anywhere keeps a settled clue square settled. */
  lemma SettledShrunk(b: Board, b': Board, p: Pos)
    requires NotesShrunk(b, b') && InBounds(b, p) && Settled(b, p)
    ensures Settled(b', p)
  {
    var x := At(b, p);
    if x.isClue && (x.rightClue != 0 || x.downClue != 0) {
      RunSettledShrunk(b, b', p, Right, x.rightCombos);
      RunSettledShrunk(b, b', p, Down, x.downCombos);
    }
  }

  /** The pass at a clue square leaves that square settled. */
  lemma ComboAtSettles(b: Board, p: Pos)
    requires Shaped(b) && InBounds(b, p)
    ensures Settled(ComboAt(b, p).board, p)
  {
    var x := At(b, p);
    if x.isClue && (x.rightClue != 0 || x.downClue != 0) {
      var o1 := ComboRun(b, p, Right, x.rightCombos);
      ComboRunSettles(b, p, Right, x.rightCombos);
      var o2 := ComboRun(o1.board, p, Down, x.downCombos);
      ComboRunSettles(o1.board, p, Down, x.downCombos);
      RunSettledShrunk(o1.board, o2.board, p, Right, x.rightCombos);
      NotesShrunkTrans(b, o1.board, o2.board);
      assert At(o2.board, p) == x.(notes := At(o2.board, p).notes);
    }
  }

  lemma {:induction false} ComboFromSettles(b: Board, ps: seq<Pos>)
    requires Shaped(b) && forall i :: 0 <= i < |ps| ==> InBounds(b, ps[i])
    ensures forall i :: 0 <= i < |ps| ==> Settled(ComboFrom(b, ps).board, ps[i])
    decreases |ps|
  {
    if |ps| > 0 {
      var o1 := ComboAt(b, ps[0]);
      var o2 := ComboFrom(o1.board, ps[1..]);
      ComboAtSettles(b, ps[0]);
      SettledShrunk(o1.board, o2.board, ps[0]);
      ComboFromSettles(o1.board, ps[1..]);
      assert forall i :: 1 <= i < |ps| ==> ps[i] == ps[1..][i - 1];
    }
  }

  /** One pass leaves the rule at rest: afterwards every note of an empty
      square on a clue square's run occurs in some combination listed for
      that run, so a second pass would report no change. */
  lemma ComboNotesSettles(b: Board)
    requires Shaped(b)
    ensures forall q :: InBounds(b, q) ==> Settled(RemoveNotesNotInPossibleCombos(b).board, q)
    ensures !RemoveNotesNotInPossibleCombos(RemoveNotesNotInPossibleCombos(b).board).changed
  {
    var ps := RowMajor(b);
    var b' := RemoveNotesNotInPossibleCombos(b).board;
    ComboFromSettles(b, ps);
    forall q | InBounds(b, q)
      ensures Settled(b', q)
    {
      var i :| 0 <= i < |ps| && ps[i] == q;
    }
    ComboNotesQuiet(b');
  }

  // ---------------------------------------------------------------------------
  // Soundness

  /** Pruning a run against its own list keeps a solution agreeing with the
      board when some listed combination holds the solution's digits there
      (or the run has no square to prune). */
  lemma ComboRunSound(b: Board, p: Pos, d: Dir, s: Board)
    requires Agrees(b, s) && InBounds(b, p)
    requires |Ray(b, p, d)| == 0 || Listed(b, p, d, s)
    ensures Agrees(ComboRun(b, p, d, CombosOf(At(b, p), d)).board, s)
  {
    RayFacts(b, p, d);
    var ps := Ray(b, p, d);
    var cs := CombosOf(At(b, p), d);
    if |ps| == 0 {
      AgreesRestrict(b, ps, ComboKeeps(b, ps, cs), s);
    } else {
      var k :| 0 <= k < |cs| && forall q :: q in ps ==> At(s, q).value in cs[k];
      ListedRunSound(b, p, d, cs, k, s);
    }
  }

  /** The run's digits all lie in one listed combination, so every empty
      square keeps the completion's digit. */
  lemma ListedRunSound(b: Board, p: Pos, d: Dir, cs: seq<Combo>, k: int, s: Board)
    requires Agrees(b, s) && 0 <= k < |cs|
    requires forall q :: q in Ray(b, p, d) && InBounds(s, q) ==> At(s, q).value in cs[k]
    ensures Agrees(ComboRun(b, p, d, cs).board, s)
  {
    RayFacts(b, p, d);
    var ps := Ray(b, p, d);
    var keeps := ComboKeeps(b, ps, cs);
    forall i | 0 <= i < |ps| && At(b, ps[i]).value == 0
      ensures At(s, ps[i]).value in keeps[i]
    {
      assert At(s, ps[i]).value in cs[k];
    }
    AgreesRestrict(b, ps, keeps, s);
  }

  lemma ComboAtSound(b: Board, p: Pos, s: Board)
    requires Agrees(b, s) && Covers(b, s) && WellClued(s) && InBounds(b, p)
    ensures Agrees(ComboAt(b, p).board, s) && Covers(ComboAt(b, p).board, s)
  {
    var x := At(b, p);
    if x.isClue && (x.rightClue != 0 || x.downClue != 0) {
      CoveredRun(b, p, Right, s);
      ComboRunSound(b, p, Right, s);
      var b1 := ComboRun(b, p, Right, x.rightCombos).board;
      CoversShrunk(b, b1, s);
      assert At(b1, p) == x.(notes := At(b1, p).notes);
      assert CombosOf(At(b1, p), Down) == x.downCombos;
      CoveredRun(b1, p, Down, s);
      ComboRunSound(b1, p, Down, s);
      var b2 := ComboRun(b1, p, Down, x.downCombos).board;
      assert ComboAt(b, p).board == b2;
      CoversShrunk(b1, b2, s);
    }
  }

  lemma {:induction false} ComboFromSound(b: Board, ps: seq<Pos>, s: Board)
    requires Agrees(b, s) && Covers(b, s) && WellClued(s) && forall i :: 0 <= i < |ps| ==> InBounds(b, ps[i])
    ensures Agrees(ComboFrom(b, ps).board, s)
    decreases |ps|
  {
    if |ps| > 0 {
      ComboAtSound(b, ps[0], s);
      ComboFromSound(ComboAt(b, ps[0]).board, ps[1..], s);
    }
  }

  /** While the lists still hold the solution's digit sets, the rule never
      deletes the digit a solution agreeing with the board puts in a square.
      The puzzle must give every run a clue: a clue square with one nonzero
      clue also prunes its other run, and there a zero clue lists nothing. */
  lemma ComboNotesSound(b: Board, s: Board)
    requires Agrees(b, s) && Covers(b, s) && WellClued(s)
    ensures Agrees(RemoveNotesNotInPossibleCombos(b).board, s)
  {
    ComboFromSound(b, RowMajor(b), s);
  }

  /** The pass keeps every completion with a clue on each run that the
      board tracks. */
  lemma ComboNotesTracks(b: Board, s: Board)
    requires Tracks(b, s) && WellClued(s)
    ensures Tracks(RemoveNotesNotInPossibleCombos(b).board, s)
  {
    ComboNotesSound(b, s);
    ShrunkTracks(b, RemoveNotesNotInPossibleCombos(b).board, s);
  }
}

=== FILE: rule_naked.dfy ===
/** removeExtraNotesFromUniques (puzzleboard.cpp): on a run with a single
    combination left, when N squares carry exactly the same N notes, those
    digits belong to those squares, and the other squares of the run lose
    them. */
module NakedSubsets {
  import opened Cells
  import opened Boards
  import opened Scans
  import opened Solved
  import Uniques
  import Singles

  /** The notes of every square of the run, read before any is changed. */
  function Snap(b: Board, ps: seq<Pos>): (snap: seq<NoteSet>)
    requires Shaped(b) && forall i :: 0 <= i < |ps| ==> InBounds(b, ps[i])
    ensures |snap| == |ps| && forall i :: 0 <= i < |ps| ==> snap[i] == At(b, ps[i]).notes
  {
    seq(|ps|, i requires 0 <= i < |ps| => At(b, ps[i]).notes)
  }

  /** The indices from `j` on whose notes are exactly `S`, in order. */
  function GroupFrom(snap: seq<NoteSet>, S: NoteSet, j: int): (g: seq<int>)
    requires 0 <= j <= |snap|
    ensures forall m :: 0 <= m < |g| ==> j <= g[m] < |snap| && snap[g[m]] == S
    ensures forall k :: j <= k < |snap| && snap[k] == S ==> k in g
    ensures forall m, l :: 0 <= m < l < |g| ==> g[m] < g[l]
    decreases |snap| - j
  {
    if j == |snap| then []
    else if snap[j] == S then [j] + GroupFrom(snap, S, j + 1)
    else GroupFrom(snap, S, j + 1)
  }

  function Group(snap: seq<NoteSet>, S: NoteSet): seq<int> {
    GroupFrom(snap, S, 0)
  }

  /** The test on square `i`: the number of squares whose notes equal its
      own (itself included) is above 1 and equals the number of those notes. */
  predicate Naked(snap: seq<NoteSet>, i: int)
    requires 0 <= i < |snap|
  {
    var count := |Group(snap, snap[i])|;
    count > 1 && count == |snap[i]|
  }

  /** The squares outside the group lose the group's digits. */
  function Strip(snap: seq<NoteSet>, S: NoteSet): (keeps: seq<NoteSet>)
    ensures |keeps| == |snap|
    ensures forall k :: 0 <= k < |snap| ==> keeps[k] == if snap[k] != S then AllDigits - S else AllDigits
  {
    seq(|snap|, k requires 0 <= k < |snap| => if snap[k] != S then AllDigits - S else AllDigits)
  }

  /** The loop over `i` from `i` on, against one snapshot, on the board as
      the earlier strips left it. */
  function NakedFrom(b: Board, ps: seq<Pos>, snap: seq<NoteSet>, i: int): (o: Outcome)
    requires Shaped(b) && forall k :: 0 <= k < |ps| ==> InBounds(b, ps[k])
    requires forall k, l :: 0 <= k < l < |ps| ==> ps[k] != ps[l]
    requires |snap| == |ps| && 0 <= i <= |snap|
    ensures Shaped(o.board) && o.board.rows == b.rows && o.board.cols == b.cols
    ensures NotesShrunk(b, o.board) && Progress(b, o.board, o.changed)
    decreases |snap| - i
  {
    if i == |snap| then Outcome(b, false)
    else
      var o1 := if Naked(snap, i) then RestrictRun(b, ps, Strip(snap, snap[i])) else Outcome(b, false);
      var o2 := NakedFrom(o1.board, ps, snap, i + 1);
      NotesShrunkTrans(b, o1.board, o2.board);
      ProgressCompose(b, o1.board, o2.board, o1.changed, o2.changed);
      Outcome(o2.board, o1.changed || o2.changed)
  }

  /** One run, when a single combination is listed for it. */
  function NakedRun(b: Board, p: Pos, d: Dir): (o: Outcome)
    requires Shaped(b) && InBounds(b, p)
    ensures Shaped(o.board) && o.board.rows == b.rows && o.board.cols == b.cols
    ensures NotesShrunk(b, o.board) && Progress(b, o.board, o.changed)
  {
    var ps := Run(b, p, d);
    if |CombosOf(At(b, p), d)| != 1 then Outcome(b, false)
    else NakedFrom(b, ps, Snap(b, ps), 0)
  }

  /** The pass at one clue square: right run, then down run. */
  function NakedAt(b: Board, p: Pos): (o: Outcome)
    requires Shaped(b) && InBounds(b, p)
    ensures Shaped(o.board) && o.board.rows == b.rows && o.board.cols == b.cols
    ensures NotesShrunk(b, o.board) && Progress(b, o.board, o.changed)
  {
    var x := At(b, p);
    if !x.isClue || (x.rightClue == 0 && x.downClue == 0) then Outcome(b, false)
    else
      var o1 := NakedRun(b, p, Right);
      var o2 := NakedRun(o1.board, p, Down);
      NotesShrunkTrans(b, o1.board, o2.board);
      ProgressCompose(b, o1.board, o2.board, o1.changed, o2.changed);
      Outcome(o2.board, o1.changed || o2.changed)
  }

  function NakedSweep(b: Board, ps: seq<Pos>): (o: Outcome)
    requires Shaped(b) && forall i :: 0 <= i < |ps| ==> InBounds(b, ps[i])
    ensures Shaped(o.board) && o.board.rows == b.rows && o.board.cols == b.cols
    ensures NotesShrunk(b, o.board) && Progress(b, o.board, o.changed)
    decreases |ps|
  {
    if |ps| == 0 then Outcome(b, false)
    else
      var o1 := NakedAt(b, ps[0]);
      var o2 := NakedSweep(o1.board, ps[1..]);
      NotesShrunkTrans(b, o1.board, o2.board);
      ProgressCompose(b, o1.board, o2.board, o1.changed, o2.changed);
      Outcome(o2.board, o1.changed || o2.changed)
  }

  /** removeExtraNotesFromUniques: only notes change, only by deletion. */
  function RemoveExtraNotesFromUniques(b: Board): (o: Outcome)
    requires Shaped(b)
    ensures Shaped(o.board) && o.board.rows == b.rows && o.board.cols == b.cols
    ensures NotesShrunk(b, o.board) && Progress(b, o.board, o.changed)
  {
    NakedSweep(b, RowMajor(b))
  }

  // ---------------------------------------------------------------------------
  // Quiescence

  /** The groups found at `i` and after already have their digits to
      themselves. */
  predicate SeparatedFrom(snap: seq<NoteSet>, i: int)
    requires 0 <= i <= |snap|
  {
    forall j, k :: i <= j < |snap| && 0 <= k < |snap| && Naked(snap, j) && snap[k] != snap[j] ==>
      snap[k] !! snap[j]
  }

  /** Every square whose notes differ from square `i`'s shares none of them. */
  predicate Apart(snap: seq<NoteSet>, i: int)
    requires 0 <= i < |snap|
  {
    forall k :: 0 <= k < |snap| && snap[k] != snap[i] ==> snap[k] !! snap[i]
  }

  predicate Separated(snap: seq<NoteSet>) {
    SeparatedFrom(snap, 0)
  }

  /** `snap` is the notes of the distinct in-bounds squares `ps` of `b`. */
  ghost predicate RunSnap(b: Board, ps: seq<Pos>, snap: seq<NoteSet>) {
    && Shaped(b) && (forall k :: 0 <= k < |ps| ==> InBounds(b, ps[k]))
    && (forall k, l :: 0 <= k < l < |ps| ==> ps[k] != ps[l])
    && |snap| == |ps| && forall k :: 0 <= k < |ps| ==> snap[k] == At(b, ps[k]).notes
  }

  /** One strip changes nothing exactly when the group already has its
      digits to itself. */
  lemma StripQuiet(b: Board, ps: seq<Pos>, snap: seq<NoteSet>, i: int)
    requires RunSnap(b, ps, snap)
    requires 0 <= i < |ps|
    ensures !RestrictRun(b, ps, Strip(snap, snap[i])).changed <==> Apart(snap, i)
  {
    var keeps := Strip(snap, snap[i]);
    assert forall k :: 0 <= k < |ps| ==>
      (At(b, ps[k]).notes <= keeps[k] <==> (snap[k] != snap[i] ==> snap[k] !! snap[i]));
  }

  lemma SeparatedStep(snap: seq<NoteSet>, i: int)
    requires 0 <= i < |snap|
    ensures SeparatedFrom(snap, i) <==>
      && (Naked(snap, i) ==> Apart(snap, i))
      && SeparatedFrom(snap, i + 1)
  {
  }

  /** One turn of the loop changes nothing exactly when its strip (if the
      test passes) changes nothing and the rest of the loop changes nothing. */
  lemma NakedFromStep(b: Board, ps: seq<Pos>, snap: seq<NoteSet>, i: int)
    requires Shaped(b) && forall k :: 0 <= k < |ps| ==> InBounds(b, ps[k])
    requires forall k, l :: 0 <= k < l < |ps| ==> ps[k] != ps[l]
    requires |snap| == |ps| && 0 <= i < |ps|
    ensures !NakedFrom(b, ps, snap, i).changed <==>
      && (Naked(snap, i) ==> !RestrictRun(b, ps, Strip(snap, snap[i])).changed)
      && !NakedFrom(b, ps, snap, i + 1).changed
  {
    var o1 := if Naked(snap, i) then RestrictRun(b, ps, Strip(snap, snap[i])) else Outcome(b, false);
    if !o1.changed {
      assert o1.board == b;
    }
  }

  lemma {:induction false} NakedFromQuiet(b: Board, ps: seq<Pos>, snap: seq<NoteSet>, i: int)
    requires RunSnap(b, ps, snap)
    requires 0 <= i <= |ps|
    ensures !NakedFrom(b, ps, snap, i).changed <==> SeparatedFrom(snap, i)
    decreases |ps| - i
  {
    if i < |ps| {
      NakedFromQuiet(b, ps, snap, i + 1);
      SeparatedStep(snap, i);
      NakedFromStep(b, ps, snap, i);
      if Naked(snap, i) {
        StripQuiet(b, ps, snap, i);
      }
    }
  }

  /** One run is quiet exactly when, having a single combination, its
      groups already have their digits to themselves. */
  lemma NakedRunQuiet(b: Board, p: Pos, d: Dir)
    requires Shaped(b) && InBounds(b, p)
    ensures !NakedRun(b, p, d).changed <==>
      (|CombosOf(At(b, p), d)| == 1 ==> Separated(Snap(b, Run(b, p, d))))
  {
    if |CombosOf(At(b, p), d)| == 1 {
      var ps := Run(b, p, d);
      NakedFromQuiet(b, ps, Snap(b, ps), 0);
    }
  }

  /** The single-combination runs of `p` are already separated. */
  predicate Settled(b: Board, p: Pos)
    requires Shaped(b) && InBounds(b, p)
  {
    var x := At(b, p);
    x.isClue && (x.rightClue != 0 || x.downClue != 0) ==>
      && (|x.rightCombos| == 1 ==> Separated(Snap(b, Run(b, p, Right))))
      && (|x.downCombos| == 1 ==> Separated(Snap(b, Run(b, p, Down))))
  }

  lemma NakedAtQuiet(b: Board, p: Pos)
    requires Shaped(b) && InBounds(b, p)
    ensures !NakedAt(b, p).changed <==> Settled(b, p)
  {
    var x := At(b, p);
    if x.isClue && (x.rightClue != 0 || x.downClue != 0) {
      NakedRunQuiet(b, p, Right);
      NakedRunQuiet(b, p, Down);
      if !NakedRun(b, p, Right).changed {
        assert NakedRun(b, p, Right).board == b;
      }
    }
  }

  lemma {:induction false} NakedSweepQuiet(b: Board, ps: seq<Pos>)
    requires Shaped(b) && forall i :: 0 <= i < |ps| ==> InBounds(b, ps[i])
    ensures !NakedSweep(b, ps).changed <==> forall i :: 0 <= i < |ps| ==> Settled(b, ps[i])
    decreases |ps|
  {
    if |ps| > 0 {
      var o1 := NakedAt(b, ps[0]);
      NakedAtQuiet(b, ps[0]);
      if !o1.changed {
        assert o1.board == b;
        NakedSweepQuiet(b, ps[1..]);
        if forall i :: 0 <= i < |ps| - 1 ==> Settled(b, ps[1..][i]) {
          forall i | 0 <= i < |ps|
            ensures Settled(b, ps[i])
          {
            if i > 0 {
              assert ps[i] == ps[1..][i - 1];
            }
          }
        }
      }
    }
  }

  /** The rule is at rest exactly when, on every single-combination run,
      no square outside a full group of identical note sets shares a digit
      with it. */
  lemma NakedQuiet(b: Board)
    requires Shaped(b)
    ensures !RemoveExtraNotesFromUniques(b).changed <==> forall q :: InBounds(b, q) ==> Settled(b, q)
  {
    var ps := RowMajor(b);
    NakedSweepQuiet(b, ps);
    if forall i :: 0 <= i < |ps| ==> Settled(b, ps[i]) {
      forall q | InBounds(b, q)
        ensures Settled(b, q)
      {
        var i :| 0 <= i < |ps| && ps[i] == q;
      }
    }
  }

  // ---------------------------------------------------------------------------
  // Soundness

  /** N pairwise different digits drawn from a set of N digits use all of
      them: nothing outside the group can take one. */
  lemma GroupTakesAll(sv: seq<int>, snap: seq<NoteSet>, S: NoteSet, k: int)
    requires |sv| == |snap| && Distinct(sv) && 0 <= k < |snap| && snap[k] != S
    requires |Group(snap, S)| == |S|
    requires forall m :: 0 <= m < |snap| && snap[m] == S ==> sv[m] in S
    ensures sv[k] !in S
  {
    if sv[k] in S {
      var x := sv[k];
      var g := Group(snap, S);
      var jv := seq(|g|, m requires 0 <= m < |g| => sv[g[m]]);
      var rest: NoteSet := S - {x};
      var l := NoteList(rest);
      Singles.NoteListSize(rest);
      assert Distinct(jv) by {
        forall m, m' | 0 <= m < m' < |g|
          ensures jv[m] != jv[m']
        {
          assert g[m] < g[m'];
        }
      }
      forall m | 0 <= m < |g|
        ensures jv[m] in l
      {
        assert g[m] != k;
      }
      Uniques.Pigeonhole(jv, l);
      assert false;
    }
  }

  /** The solution's digits keep out of every group the test can find on a
      run whose digits are pairwise different. */
  predicate KeepsOut(snap: seq<NoteSet>, sv: seq<int>)
    requires |sv| == |snap|
  {
    forall i, k :: 0 <= i < |snap| && 0 <= k < |snap| && Naked(snap, i) && snap[k] != snap[i] ==>
      sv[k] !in snap[i]
  }

  /** `sv` holds the digits the solution `s` puts along the run of
      distinct squares `ps`, and they keep out of the groups of `snap`. */
  ghost predicate RunFacts(s: Board, ps: seq<Pos>, snap: seq<NoteSet>, sv: seq<int>) {
    && Shaped(s) && (forall k :: 0 <= k < |ps| ==> InBounds(s, ps[k]))
    && (forall k, l :: 0 <= k < l < |ps| ==> ps[k] != ps[l])
    && |snap| == |ps| && |sv| == |ps|
    && (forall k :: 0 <= k < |ps| ==> sv[k] == At(s, ps[k]).value)
    && KeepsOut(snap, sv)
  }

  lemma {:induction false} NakedFromSound(b: Board, ps: seq<Pos>, snap: seq<NoteSet>, i: int, s: Board, sv: seq<int>)
    requires Shaped(b) && forall k :: 0 <= k < |ps| ==> InBounds(b, ps[k])
    requires RunFacts(s, ps, snap, sv) && 0 <= i <= |snap| && Agrees(b, s)
    ensures Agrees(NakedFrom(b, ps, snap, i).board, s)
    decreases |snap| - i
  {
    if i < |snap| {
      var o1 := if Naked(snap, i) then RestrictRun(b, ps, Strip(snap, snap[i])) else Outcome(b, false);
      NakedStepSound(b, ps, snap, i, s, sv);
      NakedFromSound(o1.board, ps, snap, i + 1, s, sv);
    }
  }

  /** One strip keeps an agreeing solution whose digits keep out of the
      groups. */
  lemma NakedStepSound(b: Board, ps: seq<Pos>, snap: seq<NoteSet>, i: int, s: Board, sv: seq<int>)
    requires Shaped(b) && forall k :: 0 <= k < |ps| ==> InBounds(b, ps[k])
    requires forall k, l :: 0 <= k < l < |ps| ==> ps[k] != ps[l]
    requires RunFacts(s, ps, snap, sv) && 0 <= i < |snap| && Agrees(b, s)
    ensures Agrees((if Naked(snap, i) then RestrictRun(b, ps, Strip(snap, snap[i])) else Outcome(b, false)).board, s)
  {
    if Naked(snap, i) {
      var keeps := Strip(snap, snap[i]);
      forall k | 0 <= k < |ps| && !At(b, ps[k]).isClue && At(b, ps[k]).value == 0
        ensures At(s, ps[k]).value in keeps[k]
      {
        assert At(s, ps[k]).value in At(b, ps[k]).notes;
        assert sv[k] == At(s, ps[k]).value;
      }
      AgreesRestrict(b, ps, keeps, s);
    }
  }

  /** On a run with a nonzero clue, each square whose notes form a full group
      holds, in every agreeing solution, one of those notes. This needs that
      a square with a value notes at most that value (as assignment leaves
      it). */
  lemma GroupMembersEmpty(b: Board, ps: seq<Pos>, s: Board, i: int, m: int)
    requires Agrees(b, s) && forall k :: 0 <= k < |ps| ==> InBounds(b, ps[k]) && !At(b, ps[k]).isClue
    requires forall k :: 0 <= k < |ps| && At(b, ps[k]).value != 0 ==> |At(b, ps[k]).notes| <= 1
    requires 0 <= i < |ps| && 0 <= m < |ps| && Naked(Snap(b, ps), i) && Snap(b, ps)[m] == Snap(b, ps)[i]
    ensures At(s, ps[m]).value in Snap(b, ps)[i]
  {
  }

  /** A run with a nonzero clue in an agreeing solution: its digits keep out
      of every group the test finds. */
  lemma RunKeepsOut(b: Board, p: Pos, d: Dir, s: Board)
    requires Agrees(b, s) && Solution(s) && InBounds(b, p)
    requires At(b, p).isClue && (d == Right || d == Down)
    requires (if d == Down then At(b, p).downClue else At(b, p).rightClue) != 0
    requires forall k :: 0 <= k < |Run(b, p, d)| && At(b, Run(b, p, d)[k]).value != 0 ==>
      |At(b, Run(b, p, d)[k]).notes| <= 1
    ensures var ps := Run(b, p, d);
      KeepsOut(Snap(b, ps), seq(|ps|, k requires 0 <= k < |ps| => At(s, ps[k]).value))
  {
    var ps := Run(b, p, d);
    var snap := Snap(b, ps);
    RaySameLayout(b, s, p, d);
    Uniques.SolutionRunDistinct(b, p, d, s);
    var sv := seq(|ps|, k requires 0 <= k < |ps| => At(s, ps[k]).value);
    assert sv == RunValues(s, p, d);
    forall i, k | 0 <= i < |snap| && 0 <= k < |snap| && Naked(snap, i) && snap[k] != snap[i]
      ensures sv[k] !in snap[i]
    {
      forall m | 0 <= m < |snap| && snap[m] == snap[i]
        ensures sv[m] in snap[i]
      {
        GroupMembersEmpty(b, ps, s, i, m);
      }
      GroupTakesAll(sv, snap, snap[i], k);
    }
  }

  /** On a run with a nonzero clue, the rule never deletes the digit an
      agreeing solution puts in a square, as long as squares with a value
      note at most that value. */
  lemma NakedRunSound(b: Board, p: Pos, d: Dir, s: Board)
    requires Agrees(b, s) && Solution(s) && InBounds(b, p)
    requires At(b, p).isClue && (d == Right || d == Down)
    requires (if d == Down then At(b, p).downClue else At(b, p).rightClue) != 0
    requires forall k :: 0 <= k < |Run(b, p, d)| && At(b, Run(b, p, d)[k]).value != 0 ==>
      |At(b, Run(b, p, d)[k]).notes| <= 1
    ensures Agrees(NakedRun(b, p, d).board, s)
  {
    if |CombosOf(At(b, p), d)| == 1 {
      RunKeepsOut(b, p, d, s);
      var ps := Run(b, p, d);
      NakedFromSound(b, ps, Snap(b, ps), 0, s, seq(|ps|, k requires 0 <= k < |ps| => At(s, ps[k]).value));
    }
  }

  // ---------------------------------------------------------------------------
  // The whole pass keeps a completion

  /** One run keeps a tracked completion: an empty run changes nothing, and
      a run with a square has a nonzero clue, while the invariant gives the
      premise on filled squares that `NakedRunSound` asks for. */
  lemma NakedRunTracks(b: Board, p: Pos, d: Dir, s: Board)
    requires Tracks(b, s) && Solution(s) && WellClued(s)
    requires InBounds(b, p) && At(b, p).isClue && (d == Right || d == Down)
    ensures Tracks(NakedRun(b, p, d).board, s)
  {
    RaySameLayout(b, s, p, d);
    if |Run(b, p, d)| > 0 {
      assert InBounds(s, p) && At(s, p).isClue;
      NakedRunSound(b, p, d, s);
    }
    ShrunkTracks(b, NakedRun(b, p, d).board, s);
  }

  lemma NakedAtTracks(b: Board, p: Pos, s: Board)
    requires Tracks(b, s) && Solution(s) && WellClued(s) && InBounds(b, p)
    ensures Tracks(NakedAt(b, p).board, s)
  {
    var x := At(b, p);
    if x.isClue && (x.rightClue != 0 || x.downClue != 0) {
      NakedRunTracks(b, p, Right, s);
      var b1 := NakedRun(b, p, Right).board;
      assert At(b1, p).isClue;
      NakedRunTracks(b1, p, Down, s);
    }
  }

  lemma {:induction false} NakedSweepTracks(b: Board, ps: seq<Pos>, s: Board)
    requires Tracks(b, s) && Solution(s) && WellClued(s)
    requires forall i :: 0 <= i < |ps| ==> InBounds(b, ps[i])
    ensures Tracks(NakedSweep(b, ps).board, s)
    decreases |ps|
  {
    if |ps| > 0 {
      NakedAtTracks(b, ps[0], s);
      NakedSweepTracks(NakedAt(b, ps[0]).board, ps[1..], s);
    }
  }

  /** The pass keeps every solution with a clue on each run that the board
      tracks: no note it deletes is the solution's digit. */
  lemma NakedSound(b: Board, s: Board)
    requires Tracks(b, s) && Solution(s) && WellClued(s)
    ensures Tracks(RemoveExtraNotesFromUniques(b).board, s)
  {
    NakedSweepTracks(b, RowMajor(b), s);
  }
}

=== FILE: rule_necessary.dfy ===
/** solveCellsWithNecessaryValue (puzzleboard.cpp): a digit that every
    listed combination of a run holds, and that exactly one empty square of
    the run still notes, goes into that square. */
module Necessary {
  import opened Cells
  import opened Boards
  import opened Scans
  import opened Solved
  import Uniques

  /** An empty square that notes `n`: what the timesSeen count tallies. */
  predicate Holds(b: Board, q: Pos, n: int)
    requires Shaped(b) && InBounds(b, q)
  {
    At(b, q).value == 0 && n in At(b, q).notes
  }

  /** The indices, in run order, of the squares from `i` on that hold `n`. */
  function HoldersFrom(b: Board, ps: seq<Pos>, n: int, i: int): (hs: seq<int>)
    requires Shaped(b) && (forall k :: 0 <= k < |ps| ==> InBounds(b, ps[k])) && 0 <= i <= |ps|
    ensures forall k :: 0 <= k < |hs| ==> i <= hs[k] < |ps| && Holds(b, ps[hs[k]], n)
    ensures forall j :: i <= j < |ps| && Holds(b, ps[j], n) ==> j in hs
    ensures forall k, l :: 0 <= k < l < |hs| ==> hs[k] < hs[l]
    decreases |ps| - i
  {
    if i == |ps| then []
    else if Holds(b, ps[i], n) then [i] + HoldersFrom(b, ps, n, i + 1)
    else HoldersFrom(b, ps, n, i + 1)
  }

  /** cell[n] when timesSeen[n] == 1 and n is necessary, otherwise -1. */
  function Target(b: Board, ps: seq<Pos>, cs: seq<Combo>, n: int): (t: int)
    requires Shaped(b) && forall k :: 0 <= k < |ps| ==> InBounds(b, ps[k])
    ensures -1 <= t < |ps| && (t != -1 ==> Holds(b, ps[t], n))
  {
    var hs := HoldersFrom(b, ps, n, 0);
    if InEvery(cs, n) && |hs| == 1 then hs[0] else -1
  }

  /** A digit has a target exactly when every combination holds it and a
      single empty square of the run notes it; the target is that square.
      With no combination listed every digit counts as held by all. */
  lemma TargetMeaning(b: Board, ps: seq<Pos>, cs: seq<Combo>, n: int)
    requires Shaped(b) && forall k :: 0 <= k < |ps| ==> InBounds(b, ps[k])
    ensures var t := Target(b, ps, cs, n);
      && (t != -1 ==> && (forall i :: 0 <= i < |cs| ==> n in cs[i])
                      && forall j :: 0 <= j < |ps| && Holds(b, ps[j], n) ==> j == t)
      && (t == -1 && (forall i :: 0 <= i < |cs| ==> n in cs[i]) ==>
            forall j :: 0 <= j < |ps| && Holds(b, ps[j], n) ==>
              exists k :: 0 <= k < |ps| && k != j && Holds(b, ps[k], n))
  {
    var hs := HoldersFrom(b, ps, n, 0);
    if |hs| >= 2 {
      forall j | 0 <= j < |ps| && Holds(b, ps[j], n)
        ensures exists k :: 0 <= k < |ps| && k != j && Holds(b, ps[k], n)
      {
        if j == hs[0] {
          assert hs[1] != j;
        } else {
          assert Holds(b, ps[hs[0]], n);
        }
      }
    }
  }

  /** The setting loop for n = `n` .. 9, with targets taken from `b0`, the
      board when the count was made, and assignments made one after another
      on the current board `b`. A square that is the sole holder of two
      necessary digits is written twice and keeps the larger. */
  function AssignFrom(b0: Board, b: Board, ps: seq<Pos>, cs: seq<Combo>, n: int): (o: Outcome)
    requires Shaped(b0) && (forall k :: 0 <= k < |ps| ==> InBounds(b0, ps[k]) && !At(b0, ps[k]).isClue)
    requires 1 <= n <= 10 && FromNotes(b0, b)
    ensures FromNotes(b0, o.board)
    ensures Total(Empties, o.board) <= Total(Empties, b)
    ensures o.changed ==> Total(Empties, o.board) < Total(Empties, b0)
    ensures !o.changed ==> o.board == b
    ensures o.changed == AnyTarget(b0, ps, cs, n)
    decreases 10 - n
  {
    if n == 10 then Outcome(b, false)
    else
      var t := Target(b0, ps, cs, n);
      if t == -1 then AssignFrom(b0, b, ps, cs, n + 1)
      else
        var b1 := Assign(b, ps[t], n);
        AssignStep(b0, b, ps[t], n);
        FillDrops(b0, b1, ps[t]);
        var o := AssignFrom(b0, b1, ps, cs, n + 1);
        assert Total(Empties, o.board) <= Total(Empties, b1) <= Total(Empties, b);
        Outcome(o.board, true)
  }

  /** Some digit from `n` on has a target. */
  function AnyTarget(b0: Board, ps: seq<Pos>, cs: seq<Combo>, n: int): bool
    requires Shaped(b0) && (forall k :: 0 <= k < |ps| ==> InBounds(b0, ps[k])) && 1 <= n <= 10
    decreases 10 - n
  {
    n < 10 && (Target(b0, ps, cs, n) != -1 || AnyTarget(b0, ps, cs, n + 1))
  }

  lemma {:induction false} AnyTargetMeaning(b0: Board, ps: seq<Pos>, cs: seq<Combo>, n: int)
    requires Shaped(b0) && (forall k :: 0 <= k < |ps| ==> InBounds(b0, ps[k])) && 1 <= n <= 10
    ensures AnyTarget(b0, ps, cs, n) <==> exists m :: n <= m <= 9 && Target(b0, ps, cs, m) != -1
    decreases 10 - n
  {
    if n < 10 {
      AnyTargetMeaning(b0, ps, cs, n + 1);
    }
  }

  /** One assignment of the setting loop. */
  lemma AssignStep(b0: Board, b: Board, q: Pos, n: int)
    requires FromNotes(b0, b) && InBounds(b0, q) && Holds(b0, q, n) && 1 <= n <= 9
    ensures FromNotes(b0, Assign(b, q, n))
    ensures Total(Empties, Assign(b, q, n)) <= Total(Empties, b)
    ensures At(Assign(b, q, n), q).value != 0
  {
    AssignFromNotes(b0, b, q, n);
    AssignMeasure(b, q, n);
    AssignFacts(b, q, n);
  }

  /** One run: the count is made once, on the board as the run is reached. */
  function NecessaryRun(b: Board, p: Pos, d: Dir): (o: Outcome)
    requires Shaped(b) && InBounds(b, p)
    ensures Shaped(o.board) && o.board.rows == b.rows && o.board.cols == b.cols
    ensures FromNotes(b, o.board) && Progress(b, o.board, o.changed)
    ensures o.changed ==> Total(Empties, o.board) < Total(Empties, b)
    ensures o.changed <==> exists n :: 1 <= n <= 9 && Target(b, Run(b, p, d), CombosOf(At(b, p), d), n) != -1
  {
    FromNotesRefl(b);
    AnyTargetMeaning(b, Run(b, p, d), CombosOf(At(b, p), d), 1);
    AssignFrom(b, b, Run(b, p, d), CombosOf(At(b, p), d), 1)
  }

  /** The pass at one clue square: the right run when its clue is set, then
      the down run, counted on the board the right run left. */
  function NecessaryAt(b: Board, p: Pos): (o: Outcome)
    requires Shaped(b) && InBounds(b, p)
    ensures Shaped(o.board) && o.board.rows == b.rows && o.board.cols == b.cols
    ensures FromNotes(b, o.board) && Progress(b, o.board, o.changed)
    ensures o.changed ==> Total(Empties, o.board) < Total(Empties, b)
  {
    var x := At(b, p);
    FromNotesRefl(b);
    if !x.isClue || (x.rightClue == 0 && x.downClue == 0) then Outcome(b, false)
    else
      var o1 := if x.rightClue != 0 then NecessaryRun(b, p, Right) else Outcome(b, false);
      var o2 := if x.downClue != 0 then NecessaryRun(o1.board, p, Down) else Outcome(o1.board, false);
      FromNotesRefl(o1.board);
      FromNotesTrans(b, o1.board, o2.board);
      ProgressCompose(b, o1.board, o2.board, o1.changed, o2.changed);
      Outcome(o2.board, o1.changed || o2.changed)
  }

  /** No run of `p` with a nonzero clue has a digit to set. */
  predicate Settled(b: Board, p: Pos)
    requires Shaped(b) && InBounds(b, p)
  {
    var x := At(b, p);
    x.isClue ==>
      && (x.rightClue != 0 ==> forall n :: 1 <= n <= 9 ==> Target(b, Run(b, p, Right), x.rightCombos, n) == -1)
      && (x.downClue != 0 ==> forall n :: 1 <= n <= 9 ==> Target(b, Run(b, p, Down), x.downCombos, n) == -1)
  }

  lemma NecessaryAtQuiet(b: Board, p: Pos)
    requires Shaped(b) && InBounds(b, p)
    ensures !NecessaryAt(b, p).changed <==> Settled(b, p)
  {
  }

  function NecessaryFrom(b: Board, ps: seq<Pos>): (o: Outcome)
    requires Shaped(b) && forall i :: 0 <= i < |ps| ==> InBounds(b, ps[i])
    ensures Shaped(o.board) && o.board.rows == b.rows && o.board.cols == b.cols
    ensures FromNotes(b, o.board) && Progress(b, o.board, o.changed)
    ensures o.changed ==> Total(Empties, o.board) < Total(Empties, b)
    decreases |ps|
  {
    if |ps| == 0 then FromNotesRefl(b); Outcome(b, false)
    else
      var o1 := NecessaryAt(b, ps[0]);
      var o2 := NecessaryFrom(o1.board, ps[1..]);
      FromNotesTrans(b, o1.board, o2.board);
      ProgressCompose(b, o1.board, o2.board, o1.changed, o2.changed);
      Outcome(o2.board, o1.changed || o2.changed)
  }

  /** solveCellsWithNecessaryValue: every value written was a note of its
      square, a reported change fills at least one empty square, and no
      value already on the board changes. */
  function SolveCellsWithNecessaryValue(b: Board): (o: Outcome)
    requires Shaped(b)
    ensures Shaped(o.board) && o.board.rows == b.rows && o.board.cols == b.cols
    ensures FromNotes(b, o.board) && Progress(b, o.board, o.changed)
    ensures o.changed ==> Total(Empties, o.board) < Total(Empties, b)
  {
    NecessaryFrom(b, RowMajor(b))
  }

  lemma {:induction false} NecessaryFromQuiet(b: Board, ps: seq<Pos>)
    requires Shaped(b) && forall i :: 0 <= i < |ps| ==> InBounds(b, ps[i])
    ensures !NecessaryFrom(b, ps).changed <==> forall i :: 0 <= i < |ps| ==> Settled(b, ps[i])
    decreases |ps|
  {
    if |ps| > 0 {
      var o1 := NecessaryAt(b, ps[0]);
      NecessaryAtQuiet(b, ps[0]);
      assert forall i :: 1 <= i < |ps| ==> ps[i] == ps[1..][i - 1];
      if !o1.changed {
        assert o1.board == b;
        NecessaryFromQuiet(b, ps[1..]);
      }
    }
  }

  /** The rule is at rest exactly when no run with a nonzero clue has a
      digit held by every combination and noted by exactly one empty square. */
  lemma NecessaryQuiet(b: Board)
    requires Shaped(b)
    ensures !SolveCellsWithNecessaryValue(b).changed <==> forall q :: InBounds(b, q) ==> Settled(b, q)
  {
    var ps := RowMajor(b);
    NecessaryFromQuiet(b, ps);
    if forall i :: 0 <= i < |ps| ==> Settled(b, ps[i]) {
      forall q | InBounds(b, q)
        ensures Settled(b, q)
      {
        var i :| 0 <= i < |ps| && ps[i] == q;
      }
    }
  }

  // ---------------------------------------------------------------------------
  // Soundness

  /** A distinct list as long as a combination and drawn from it holds each
      of its digits. */
  lemma AllUsed(sv: seq<int>, c: seq<int>, n: int)
    requires Distinct(sv) && |sv| == |c| && n in c
    requires forall i :: 0 <= i < |sv| ==> sv[i] in c
    ensures n in sv
  {
    if n !in sv {
      var c' := Uniques.RemoveFirst(c, n);
      forall i | 0 <= i < |sv|
        ensures sv[i] in c'
      {
        assert sv[i] in multiset(c);
        assert sv[i] in multiset(c');
      }
      Uniques.Pigeonhole(sv, c');
      assert false;
    }
  }

  /** On a run with a nonzero clue whose listed combinations all have the
      run's length, a digit the rule sets that is not already written on the
      run is the digit every agreeing solution puts in the target square. */
  lemma NecessarySound(b: Board, p: Pos, d: Dir, n: int, s: Board)
    requires Agrees(b, s) && Solution(s) && InBounds(b, p)
    requires At(b, p).isClue && (d == Right || d == Down) && Listed(b, p, d, s)
    requires ClueIn(At(b, p), d) != 0
    requires forall k :: 0 <= k < |CombosOf(At(b, p), d)| ==> |CombosOf(At(b, p), d)[k]| == |Run(b, p, d)|
    requires forall j :: 0 <= j < |Run(b, p, d)| ==> At(b, Run(b, p, d)[j]).value != n
    requires Target(b, Run(b, p, d), CombosOf(At(b, p), d), n) != -1
    ensures At(s, Run(b, p, d)[Target(b, Run(b, p, d), CombosOf(At(b, p), d), n)]).value == n
  {
    var ps := Run(b, p, d);
    var cs := CombosOf(At(b, p), d);
    var t := Target(b, ps, cs, n);
    RaySameLayout(b, s, p, d);
    var k :| 0 <= k < |cs| && forall q :: q in Ray(b, p, d) ==> At(s, q).value in cs[k];
    TargetMeaning(b, ps, cs, n);
    var sv := RunValues(s, p, d);
    Uniques.SolutionRunDistinct(b, p, d, s);
    forall i | 0 <= i < |sv|
      ensures sv[i] in cs[k]
    {
      assert ps[i] in Ray(b, p, d);
    }
    AllUsed(sv, cs[k], n);
    var j :| 0 <= j < |sv| && sv[j] == n;
    assert At(s, ps[j]).value == n;
    assert Holds(b, ps[j], n);
  }

  // ---------------------------------------------------------------------------
  // The whole pass keeps a completion

  /** The setting loop keeps a tracked completion when every target it takes
      is where the completion has that digit. */
  lemma {:induction false} AssignFromTracks(b0: Board, b: Board, ps: seq<Pos>, cs: seq<Combo>, n: int, s: Board)
    requires Shaped(b0) && (forall k :: 0 <= k < |ps| ==> InBounds(b0, ps[k]) && !At(b0, ps[k]).isClue)
    requires 1 <= n <= 10 && FromNotes(b0, b) && Tracks(b, s) && NoRepeats(s)
    requires forall m :: n <= m <= 9 && Target(b0, ps, cs, m) != -1 ==> At(s, ps[Target(b0, ps, cs, m)]).value == m
    ensures Tracks(AssignFrom(b0, b, ps, cs, n).board, s)
    decreases 10 - n
  {
    if n < 10 {
      var t := Target(b0, ps, cs, n);
      if t == -1 {
        AssignFromSkip(b0, b, ps, cs, n);
        AssignFromTracks(b0, b, ps, cs, n + 1, s);
      } else {
        var b1 := Assign(b, ps[t], n);
        TargetTracks(b0, b, ps, cs, n, s);
        AssignFromTracks(b0, b1, ps, cs, n + 1, s);
      }
    }
  }

  /** One step of the setting loop: the target gets the completion's digit. */
  lemma TargetTracks(b0: Board, b: Board, ps: seq<Pos>, cs: seq<Combo>, n: int, s: Board)
    requires Shaped(b0) && (forall k :: 0 <= k < |ps| ==> InBounds(b0, ps[k]) && !At(b0, ps[k]).isClue)
    requires 1 <= n <= 9 && FromNotes(b0, b) && Tracks(b, s) && NoRepeats(s)
    requires Target(b0, ps, cs, n) != -1 && At(s, ps[Target(b0, ps, cs, n)]).value == n
    ensures var b1 := Assign(b, ps[Target(b0, ps, cs, n)], n);
      && FromNotes(b0, b1) && Tracks(b1, s)
      && AssignFrom(b0, b, ps, cs, n).board == AssignFrom(b0, b1, ps, cs, n + 1).board
  {
    var q := ps[Target(b0, ps, cs, n)];
    assert InBounds(b, q) && !At(b, q).isClue by {
      assert Extends(b0, b);
    }
    AssignTracks(b, q, s);
    AssignStep(b0, b, q, n);
    AssignFromStep(b0, b, ps, cs, n);
  }

  /** A digit without a target is passed over. */
  lemma AssignFromSkip(b0: Board, b: Board, ps: seq<Pos>, cs: seq<Combo>, n: int)
    requires Shaped(b0) && (forall k :: 0 <= k < |ps| ==> InBounds(b0, ps[k]) && !At(b0, ps[k]).isClue)
    requires 1 <= n <= 9 && FromNotes(b0, b) && Target(b0, ps, cs, n) == -1
    ensures AssignFrom(b0, b, ps, cs, n) == AssignFrom(b0, b, ps, cs, n + 1)
  {
  }

  /** A digit with a target is assigned, and the loop goes on from there. */
  lemma AssignFromStep(b0: Board, b: Board, ps: seq<Pos>, cs: seq<Combo>, n: int)
    requires Shaped(b0) && (forall k :: 0 <= k < |ps| ==> InBounds(b0, ps[k]) && !At(b0, ps[k]).isClue)
    requires 1 <= n <= 9 && FromNotes(b0, b) && Target(b0, ps, cs, n) != -1
    requires FromNotes(b0, Assign(b, ps[Target(b0, ps, cs, n)], n))
    ensures AssignFrom(b0, b, ps, cs, n).board == AssignFrom(b0, Assign(b, ps[Target(b0, ps, cs, n)], n), ps, cs, n + 1).board
  {
  }

  /** A digit with a target is on no square of the run yet: its target notes
      it, and a square holding it would see the target. */
  lemma TargetUnplaced(b: Board, p: Pos, d: Dir, n: int)
    requires Tidy(b) && InBounds(b, p) && (d == Right || d == Down)
    requires Target(b, Run(b, p, d), CombosOf(At(b, p), d), n) != -1
    ensures forall j :: 0 <= j < |Run(b, p, d)| ==> At(b, Run(b, p, d)[j]).value != n
  {
    var ps := Run(b, p, d);
    var t := Target(b, ps, CombosOf(At(b, p), d), n);
    forall j | 0 <= j < |ps|
      ensures At(b, ps[j]).value != n
    {
      if j != t && At(b, ps[j]).value == n {
        RunSees(b, p, d, j, t);
        assert false;
      }
    }
  }

  /** One run with a nonzero clue: each digit it sets is the completion's
      digit on the target, by `NecessarySound`, whose other premises the
      tracked lists and the invariant give. */
  lemma NecessaryRunTracks(b: Board, p: Pos, d: Dir, s: Board)
    requires Tracks(b, s) && Solution(s) && NoRepeats(s)
    requires InBounds(b, p) && At(b, p).isClue && (d == Right || d == Down) && ClueIn(At(b, p), d) != 0
    ensures Tracks(NecessaryRun(b, p, d).board, s)
  {
    var ps := Run(b, p, d);
    var cs := CombosOf(At(b, p), d);
    RaySameLayout(b, s, p, d);
    forall m | 1 <= m <= 9 && Target(b, ps, cs, m) != -1
      ensures At(s, ps[Target(b, ps, cs, m)]).value == m
    {
      assert InBounds(s, p) && Clued(s, p, d);
      TargetUnplaced(b, p, d, m);
      NecessarySound(b, p, d, m, s);
    }
    FromNotesRefl(b);
    AssignFromTracks(b, b, ps, cs, 1, s);
  }

  lemma NecessaryAtTracks(b: Board, p: Pos, s: Board)
    requires Tracks(b, s) && Solution(s) && NoRepeats(s) && InBounds(b, p)
    ensures Tracks(NecessaryAt(b, p).board, s)
  {
    var x := At(b, p);
    if x.isClue && (x.rightClue != 0 || x.downClue != 0) {
      var b1 := if x.rightClue != 0 then NecessaryRun(b, p, Right).board else b;
      if x.rightClue != 0 {
        NecessaryRunTracks(b, p, Right, s);
      }
      FromNotesRefl(b);
      assert FromNotes(b, b1);
      assert At(b1, p).isClue && At(b1, p).downClue == x.downClue;
      if x.downClue != 0 {
        NecessaryRunTracks(b1, p, Down, s);
      }
    }
  }

  lemma {:induction false} NecessaryFromTracks(b: Board, ps: seq<Pos>, s: Board)
    requires Tracks(b, s) && Solution(s) && NoRepeats(s)
    requires forall i :: 0 <= i < |ps| ==> InBounds(b, ps[i])
    ensures Tracks(NecessaryFrom(b, ps).board, s)
    decreases |ps|
  {
    if |ps| > 0 {
      NecessaryAtTracks(b, ps[0], s);
      NecessaryFromTracks(NecessaryAt(b, ps[0]).board, ps[1..], s);
    }
  }

  /** The pass keeps every repeat-free solution the board tracks: each digit
      it sets is the solution's. */
  lemma NecessaryPassSound(b: Board, s: Board)
    requires Tracks(b, s) && Solution(s) && NoRepeats(s)
    ensures Tracks(SolveCellsWithNecessaryValue(b).board, s)
  {
    NecessaryFromTracks(b, RowMajor(b), s);
  }
}

=== FILE: rule_ranges.dfy ===
/** adjustNotesByLogicalRange (puzzleboard.cpp): along every run, a digit
    is kept as a note of an empty square only if the other squares of the run,
    each taken at its smallest (largest) possible digit, leave room for it. */
module Ranges {
  import Combos
  import opened Cells
  import opened Boards
  import opened Scans
  import opened Solved

  /** getMinNoteForCell: the value when there is one, else the smallest
      note, else 10. */
  function MinNote(x: Cell): (m: int)
    ensures x.value != 0 ==> m == x.value
    ensures x.value == 0 && x.notes == {} ==> m == 10
    ensures x.value == 0 && x.notes != {} ==> m in x.notes && forall n :: n in x.notes ==> m <= n
  {
    if x.value != 0 then x.value else LowestFrom(x.notes, 1)
  }

  function LowestFrom(s: NoteSet, i: int): (m: int)
    requires 1 <= i <= 10
    ensures (exists n :: n in s && n >= i) ==> m in s && m >= i && forall n :: n in s && n >= i ==> m <= n
    ensures (forall n :: n in s ==> n < i) ==> m == 10
    decreases 10 - i
  {
    if i == 10 then 10
    else if i in s then i
    else LowestFrom(s, i + 1)
  }

  /** getMaxNoteForCell: the value when there is one, else the largest
      note, else 0. */
  function MaxNote(x: Cell): (m: int)
    ensures x.value != 0 ==> m == x.value
    ensures x.value == 0 && x.notes == {} ==> m == 0
    ensures x.value == 0 && x.notes != {} ==> m in x.notes && forall n :: n in x.notes ==> n <= m
  {
    if x.value != 0 then x.value else HighestFrom(x.notes, 9)
  }

  function HighestFrom(s: NoteSet, i: int): (m: int)
    requires 0 <= i <= 9
    ensures (exists n :: n in s && n <= i) ==> m in s && m <= i && forall n :: n in s && n <= i ==> n <= m
    ensures (forall n :: n in s ==> n > i) ==> m == 0
    decreases i
  {
    if i == 0 then 0
    else if i in s then i
    else HighestFrom(s, i - 1)
  }

  function Mins(b: Board, ps: seq<Pos>): (ms: seq<int>)
    requires Shaped(b) && forall i :: 0 <= i < |ps| ==> InBounds(b, ps[i])
    ensures |ms| == |ps|
  {
    seq(|ps|, i requires 0 <= i < |ps| => MinNote(At(b, ps[i])))
  }

  function Maxs(b: Board, ps: seq<Pos>): (ms: seq<int>)
    requires Shaped(b) && forall i :: 0 <= i < |ps| ==> InBounds(b, ps[i])
    ensures |ms| == |ps|
  {
    seq(|ps|, i requires 0 <= i < |ps| => MaxNote(At(b, ps[i])))
  }

  /** The digits between `lo` and `hi`. The two clamped note loops of the
      source delete exactly the digits outside this window. */
  function Between(lo: int, hi: int): (k: NoteSet)
    ensures forall n :: n in k <==> 1 <= n <= 9 && lo <= n <= hi
  {
    set n | n in AllDigits && lo <= n <= hi
  }

  /** The window of square `i`: the clue minus what the other squares can
      contribute at most, up to the clue minus what they contribute at least. */
  function Window(clue: int, mins: seq<int>, maxs: seq<int>, i: int): NoteSet
    requires |mins| == |maxs| && 0 <= i < |mins|
  {
    Between(clue - (Combos.Sum(maxs) - maxs[i]), clue - (Combos.Sum(mins) - mins[i]))
  }

  /** The notes each square of the run may keep: squares with a value are
      skipped, which keeping every digit expresses. */
  function RangeKeeps(b: Board, ps: seq<Pos>, clue: int): (keeps: seq<NoteSet>)
    requires Shaped(b) && forall i :: 0 <= i < |ps| ==> InBounds(b, ps[i])
    ensures |keeps| == |ps|
  {
    var mins := Mins(b, ps);
    var maxs := Maxs(b, ps);
    seq(|ps|, i requires 0 <= i < |ps| =>
      if At(b, ps[i]).value != 0 then AllDigits else Window(clue, mins, maxs, i))
  }

  /** One direction of one clue square. */
  function RangeRun(b: Board, p: Pos, d: Dir, clue: int): (o: Outcome)
    requires Shaped(b)
    ensures Shaped(o.board) && o.board.rows == b.rows && o.board.cols == b.cols
    ensures NotesShrunk(b, o.board)
    ensures Progress(b, o.board, o.changed)
  {
    RayFacts(b, p, d);
    var ps := Ray(b, p, d);
    RestrictRun(b, ps, RangeKeeps(b, ps, clue))
  }

  /** Every empty square of the run already lies inside its window. */
  ghost predicate RunSettled(b: Board, p: Pos, d: Dir, clue: int)
    requires Shaped(b)
  {
    RayFacts(b, p, d);
    var ps := Ray(b, p, d);
    forall i :: 0 <= i < |ps| && At(b, ps[i]).value == 0 ==>
      At(b, ps[i]).notes <= Window(clue, Mins(b, ps), Maxs(b, ps), i)
  }

  /** A direction changes nothing exactly when its run is settled. */
  lemma RangeRunQuiet(b: Board, p: Pos, d: Dir, clue: int)
    requires Shaped(b)
    ensures !RangeRun(b, p, d, clue).changed <==> RunSettled(b, p, d, clue)
  {
    RayFacts(b, p, d);
    var ps := Ray(b, p, d);
    var keeps := RangeKeeps(b, ps, clue);
    forall i | 0 <= i < |ps|
      ensures At(b, ps[i]).notes <= keeps[i] <==>
        (At(b, ps[i]).value == 0 ==> At(b, ps[i]).notes <= Window(clue, Mins(b, ps), Maxs(b, ps), i))
    {
    }
  }

  /** The pass at one square: the right run first, then the down run on the
      board the right run left. */
  function RangeAt(b: Board, p: Pos): (o: Outcome)
    requires Shaped(b) && InBounds(b, p)
    ensures Shaped(o.board) && o.board.rows == b.rows && o.board.cols == b.cols
    ensures NotesShrunk(b, o.board)
    ensures Progress(b, o.board, o.changed)
  {
    var x := At(b, p);
    if !x.isClue || (x.downClue == 0 && x.rightClue == 0) then Outcome(b, false)
    else
      var o1 := if x.rightClue != 0 then RangeRun(b, p, Right, x.rightClue) else Outcome(b, false);
      var o2 := if x.downClue != 0 then RangeRun(o1.board, p, Down, x.downClue) else Outcome(o1.board, false);
      NotesShrunkTrans(b, o1.board, o2.board);
      ProgressCompose(b, o1.board, o2.board, o1.changed, o2.changed);
      Outcome(o2.board, o1.changed || o2.changed)
  }

  /** Both runs of a clue square are settled. */
  ghost predicate Settled(b: Board, p: Pos)
    requires Shaped(b) && InBounds(b, p)
  {
    var x := At(b, p);
    x.isClue ==>
      && (x.rightClue != 0 ==> RunSettled(b, p, Right, x.rightClue))
      && (x.downClue != 0 ==> RunSettled(b, p, Down, x.downClue))
  }

  lemma RangeAtQuiet(b: Board, p: Pos)
    requires Shaped(b) && InBounds(b, p)
    ensures !RangeAt(b, p).changed <==> Settled(b, p)
  {
    var x := At(b, p);
    if x.isClue && (x.downClue != 0 || x.rightClue != 0) {
      RangeRunQuiet(b, p, Right, x.rightClue);
      RangeRunQuiet(b, p, Down, x.downClue);
      var o1 := if x.rightClue != 0 then RangeRun(b, p, Right, x.rightClue) else Outcome(b, false);
      if !o1.changed {
        assert o1.board == b;
      }
    }
  }

  function RangesFrom(b: Board, ps: seq<Pos>): (o: Outcome)
    requires Shaped(b) && forall i :: 0 <= i < |ps| ==> InBounds(b, ps[i])
    ensures Shaped(o.board) && o.board.rows == b.rows && o.board.cols == b.cols
    ensures NotesShrunk(b, o.board)
    ensures Progress(b, o.board, o.changed)
    decreases |ps|
  {
    if |ps| == 0 then Outcome(b, false)
    else
      var o1 := RangeAt(b, ps[0]);
      var o2 := RangesFrom(o1.board, ps[1..]);
      NotesShrunkTrans(b, o1.board, o2.board);
      ProgressCompose(b, o1.board, o2.board, o1.changed, o2.changed);
      Outcome(o2.board, o1.changed || o2.changed)
  }

  /** adjustNotesByLogicalRange: only notes change, and only by deletion;
      `changed` reports a strict drop in the note count. */
  function AdjustNotesByLogicalRange(b: Board): (o: Outcome)
    requires Shaped(b)
    ensures Shaped(o.board) && o.board.rows == b.rows && o.board.cols == b.cols
    ensures NotesShrunk(b, o.board)
    ensures Progress(b, o.board, o.changed)
  {
    RangesFrom(b, RowMajor(b))
  }

  /** A sweep that reports no change ran every step on the board it started
      with, so every square it visited was settled. */
  lemma {:induction false} RangesFromQuiet(b: Board, ps: seq<Pos>)
    requires Shaped(b) && forall i :: 0 <= i < |ps| ==> InBounds(b, ps[i])
    ensures !RangesFrom(b, ps).changed <==> forall i :: 0 <= i < |ps| ==> Settled(b, ps[i])
    decreases |ps|
  {
    if |ps| > 0 {
      var o1 := RangeAt(b, ps[0]);
      RangeAtQuiet(b, ps[0]);
      assert forall i :: 1 <= i < |ps| ==> ps[i] == ps[1..][i - 1];
      if !o1.changed {
        assert o1.board == b;
        RangesFromQuiet(b, ps[1..]);
      }
    }
  }

  /** The rule is at rest on `b` exactly when every run of the board is
      settled. */
  lemma RangesQuiet(b: Board)
    requires Shaped(b)
    ensures !AdjustNotesByLogicalRange(b).changed <==> forall q :: InBounds(b, q) ==> Settled(b, q)
  {
    var ps := RowMajor(b);
    RangesFromQuiet(b, ps);
    if forall i :: 0 <= i < |ps| ==> Settled(b, ps[i]) {
      forall q | InBounds(b, q)
        ensures Settled(b, q)
      {
        var i :| 0 <= i < |ps| && ps[i] == q;
      }
    }
  }

  // ---------------------------------------------------------------------------
  // Soundness

  lemma {:induction false} SumMono(a: seq<int>, c: seq<int>)
    requires |a| == |c| && forall j :: 0 <= j < |a| ==> a[j] <= c[j]
    ensures Combos.Sum(a) <= Combos.Sum(c)
  {
    if |a| > 0 {
      SumMono(a[1..], c[1..]);
    }
  }

  /** Leaving one position out of two pointwise-ordered sequences keeps the
      order of their sums. */
  lemma {:induction false} SumMonoExcept(a: seq<int>, c: seq<int>, i: int)
    requires |a| == |c| && 0 <= i < |a| && forall j :: 0 <= j < |a| ==> a[j] <= c[j]
    ensures Combos.Sum(a) - a[i] <= Combos.Sum(c) - c[i]
  {
    if i == 0 {
      SumMono(a[1..], c[1..]);
    } else {
      SumMonoExcept(a[1..], c[1..], i - 1);
    }
  }

  /** The arithmetic behind the rule: values that lie between their
      squares' least and greatest candidates and add up to the clue lie in
      their windows. */
  lemma WindowSound(mins: seq<int>, maxs: seq<int>, vals: seq<int>, clue: int, i: int)
    requires |mins| == |maxs| == |vals| && 0 <= i < |vals|
    requires forall j :: 0 <= j < |vals| ==> mins[j] <= vals[j] <= maxs[j]
    requires Combos.Sum(vals) == clue && 1 <= vals[i] <= 9
    ensures vals[i] in Window(clue, mins, maxs, i)
  {
    SumMonoExcept(vals, maxs, i);
    SumMonoExcept(mins, vals, i);
  }

  /** In a completion of `b` every run value lies between the least and
      greatest candidate `b` allows for its square. */
  lemma CandidatesBound(b: Board, s: Board, ps: seq<Pos>, i: int)
    requires Agrees(b, s) && 0 <= i < |ps|
    requires forall j :: 0 <= j < |ps| ==> InBounds(b, ps[j]) && !At(b, ps[j]).isClue
    ensures MinNote(At(b, ps[i])) <= At(s, ps[i]).value <= MaxNote(At(b, ps[i]))
  {
  }

  /** One direction never deletes the digit a solution agreeing with `b`
      puts in a square. */
  lemma RangeRunSound(b: Board, p: Pos, d: Dir, s: Board)
    requires Agrees(b, s) && Solution(s) && InBounds(b, p) && At(b, p).isClue
    requires d == Right || d == Down
    ensures var clue := if d == Right then At(b, p).rightClue else At(b, p).downClue;
      clue != 0 ==> Agrees(RangeRun(b, p, d, clue).board, s)
  {
    var clue := if d == Right then At(b, p).rightClue else At(b, p).downClue;
    if clue != 0 {
      RayFacts(b, p, d);
      RaySameLayout(b, s, p, d);
      var ps := Ray(b, p, d);
      var vals := RunValues(s, p, d);
      assert SquareOk(s, p);
      assert Combos.Sum(vals) == clue;
      var mins := Mins(b, ps);
      var maxs := Maxs(b, ps);
      forall j | 0 <= j < |vals|
        ensures mins[j] <= vals[j] <= maxs[j]
      {
        CandidatesBound(b, s, ps, j);
      }
      var keeps := RangeKeeps(b, ps, clue);
      forall i | 0 <= i < |ps| && At(b, ps[i]).value == 0
        ensures At(s, ps[i]).value in keeps[i]
      {
        WindowSound(mins, maxs, vals, clue, i);
      }
      AgreesRestrict(b, ps, keeps, s);
    }
  }

  lemma RangeAtSound(b: Board, p: Pos, s: Board)
    requires Agrees(b, s) && Solution(s) && InBounds(b, p)
    ensures Agrees(RangeAt(b, p).board, s)
  {
    var x := At(b, p);
    if x.isClue && (x.downClue != 0 || x.rightClue != 0) {
      var b1 := if x.rightClue != 0 then RangeRun(b, p, Right, x.rightClue).board else b;
      if x.rightClue != 0 {
        RangeRunSound(b, p, Right, s);
        assert NotesShrunk(b, b1);
      }
      assert At(b1, p).isClue && At(b1, p).downClue == x.downClue;
      if x.downClue != 0 {
        RangeRunSound(b1, p, Down, s);
      }
    }
  }

  lemma {:induction false} RangesFromSound(b: Board, ps: seq<Pos>, s: Board)
    requires Agrees(b, s) && Solution(s) && forall i :: 0 <= i < |ps| ==> InBounds(b, ps[i])
    ensures Agrees(RangesFrom(b, ps).board, s)
    decreases |ps|
  {
    if |ps| > 0 {
      RangeAtSound(b, ps[0], s);
      RangesFromSound(RangeAt(b, ps[0]).board, ps[1..], s);
    }
  }

  /** The rule never deletes the digit a solution agreeing with the board
      puts in a square. */
  lemma RangesSound(b: Board, s: Board)
    requires Agrees(b, s) && Solution(s)
    ensures Agrees(AdjustNotesByLogicalRange(b).board, s)
  {
    RangesFromSound(b, RowMajor(b), s);
  }

  /** The pass keeps every solution the board tracks. */
  lemma RangesTracks(b: Board, s: Board)
    requires Tracks(b, s) && Solution(s)
    ensures Tracks(AdjustNotesByLogicalRange(b).board, s)
  {
    RangesSound(b, s);
    ShrunkTracks(b, AdjustNotesByLogicalRange(b).board, s);
  }
}

=== FILE: rule_singles.dfy ===
/** writeCellsWithOneNoteAndRemoveDupNotes (puzzleboard.cpp): every empty
    fill-in square with a single note, in row-major order, is assigned that
    note. */
module Singles {
  import opened Cells
  import opened Boards
  import opened Scans

  /** The note-counting loop: the square's only note, or 0 when it has none
      or more than one. */
  function LoneNote(s: NoteSet): (v: int)
    ensures v != 0 <==> |s| == 1
    ensures v != 0 ==> s == {v} && 1 <= v <= 9
  {
    var l := NoteList(s);
    NoteListSize(s);
    if |l| == 1 then
      assert l[0] in l;
      assert s == {l[0]};
      l[0]
    else 0
  }

  lemma NoteListSize(s: NoteSet)
    ensures |NoteList(s)| == |s|
  {
    NoteListLength(s, 1);
    assert Above(s, 1) == s;
  }

  /** The firing condition at one square. */
  predicate Fires(x: Cell) {
    !x.isClue && x.value == 0 && LoneNote(x.notes) != 0
  }

  function SinglesFrom(b: Board, ps: seq<Pos>): (o: Outcome)
    requires Shaped(b) && forall i :: 0 <= i < |ps| ==> InBounds(b, ps[i])
    ensures Shaped(o.board) && o.board.rows == b.rows && o.board.cols == b.cols
    ensures Progress(b, o.board, o.changed)
    ensures o.changed ==> Total(Empties, o.board) < Total(Empties, b)
    ensures FromNotes(b, o.board)
    ensures !o.changed ==> forall i :: 0 <= i < |ps| ==> !Fires(At(b, ps[i]))
    decreases |ps|
  {
    if |ps| == 0 then
      FromNotesRefl(b);
      Outcome(b, false)
    else if Fires(At(b, ps[0])) then
      var b1 := Assign(b, ps[0], LoneNote(At(b, ps[0]).notes));
      var o := SinglesFrom(b1, ps[1..]);
      FiredStep(b, ps[0], o.board, o.changed);
      Outcome(o.board, true)
    else
      var o := SinglesFrom(b, ps[1..]);
      QuietCons(b, ps, o.changed);
      o
  }

  /** A square that does not fire, followed by a quiet rest, is quiet. */
  lemma QuietCons(b: Board, ps: seq<Pos>, c: bool)
    requires Shaped(b) && 0 < |ps| && forall i :: 0 <= i < |ps| ==> InBounds(b, ps[i])
    requires !Fires(At(b, ps[0]))
    requires !c ==> forall i :: 0 <= i < |ps| - 1 ==> !Fires(At(b, ps[1..][i]))
    ensures !c ==> forall i :: 0 <= i < |ps| ==> !Fires(At(b, ps[i]))
  {
    assert forall i :: 1 <= i < |ps| ==> ps[i] == ps[1..][i - 1];
  }

  /** One firing square followed by the rest of the sweep. */
  lemma FiredStep(b: Board, p: Pos, b2: Board, c: bool)
    requires Shaped(b) && InBounds(b, p) && Fires(At(b, p))
    ensures var b1 := Assign(b, p, LoneNote(At(b, p).notes));
      Progress(b1, b2, c) && FromNotes(b1, b2) && (c ==> Total(Empties, b2) < Total(Empties, b1)) ==>
        && Progress(b, b2, true) && FromNotes(b, b2)
        && Total(Empties, b2) < Total(Empties, b)
  {
    var v := LoneNote(At(b, p).notes);
    var b1 := Assign(b, p, v);
    if Progress(b1, b2, c) && FromNotes(b1, b2) && (c ==> Total(Empties, b2) < Total(Empties, b1)) {
      AssignNote(b, p, v);
      AssignMeasure(b, p, v);
      FromNotesTrans(b, b1, b2);
    }
  }

  /** writeCellsWithOneNoteAndRemoveDupNotes. A change strictly lowers the
      number of empty squares, and every value written was a note of its
      square. */
  function WriteCellsWithOneNote(b: Board): (o: Outcome)
    requires Shaped(b)
    ensures Shaped(o.board) && o.board.rows == b.rows && o.board.cols == b.cols
    ensures Progress(b, o.board, o.changed)
    ensures o.changed ==> Total(Empties, o.board) < Total(Empties, b)
    ensures FromNotes(b, o.board)
  {
    SinglesFrom(b, RowMajor(b))
  }

  /** A pass that reports no change leaves no empty fill-in square with a
      single note, and one that does report a change found such a square. */
  lemma SinglesQuiet(b: Board)
    requires Shaped(b)
    ensures !WriteCellsWithOneNote(b).changed <==> forall q :: InBounds(b, q) ==> !Fires(At(b, q))
  {
    var ps := RowMajor(b);
    if !WriteCellsWithOneNote(b).changed {
      forall q | InBounds(b, q)
        ensures !Fires(At(b, q))
      {
        var i :| 0 <= i < |ps| && ps[i] == q;
      }
    } else {
      SinglesFires(b, ps);
    }
  }

  lemma {:induction false} SinglesFires(b: Board, ps: seq<Pos>)
    requires Shaped(b) && forall i :: 0 <= i < |ps| ==> InBounds(b, ps[i])
    ensures SinglesFrom(b, ps).changed ==> exists i :: 0 <= i < |ps| && Fires(At(b, ps[i]))
    decreases |ps|
  {
    if SinglesFrom(b, ps).changed && !Fires(At(b, ps[0])) {
      SinglesFires(b, ps[1..]);
      var i :| 0 <= i < |ps| - 1 && Fires(At(b, ps[1..][i]));
      assert ps[1..][i] == ps[i + 1];
    }
  }

  // ---------------------------------------------------------------------------
  // Soundness

  /** A square's lone note is the digit every agreeing solution puts there,
      and striking it from the squares that see the square never takes a
      repeat-free solution's digit. */
  lemma {:induction false} SinglesFromSound(b: Board, ps: seq<Pos>, s: Board)
    requires Agrees(b, s) && NoRepeats(s) && forall i :: 0 <= i < |ps| ==> InBounds(b, ps[i])
    ensures Agrees(SinglesFrom(b, ps).board, s)
    decreases |ps|
  {
    if |ps| > 0 {
      var p := ps[0];
      if Fires(At(b, p)) {
        var v := LoneNote(At(b, p).notes);
        assert At(s, p).value in At(b, p).notes;
        AssignAgrees(b, p, s);
        SinglesFromSound(Assign(b, p, v), ps[1..], s);
      } else {
        SinglesFromSound(b, ps[1..], s);
      }
    }
  }

  /** The pass keeps every solution that agrees with the board and repeats
      no digit along a run. */
  lemma SinglesSound(b: Board, s: Board)
    requires Agrees(b, s) && NoRepeats(s)
    ensures Agrees(WriteCellsWithOneNote(b).board, s)
  {
    SinglesFromSound(b, RowMajor(b), s);
  }

  /** The sweep keeps a tracked repeat-free completion: each lone note is
      the completion's digit. */
  lemma {:induction false} SinglesFromTracks(b: Board, ps: seq<Pos>, s: Board)
    requires Tracks(b, s) && NoRepeats(s) && forall i :: 0 <= i < |ps| ==> InBounds(b, ps[i])
    ensures Tracks(SinglesFrom(b, ps).board, s)
    decreases |ps|
  {
    if |ps| > 0 {
      var p := ps[0];
      if Fires(At(b, p)) {
        assert At(s, p).value in At(b, p).notes;
        AssignTracks(b, p, s);
        SinglesFromTracks(Assign(b, p, LoneNote(At(b, p).notes)), ps[1..], s);
      } else {
        SinglesFromTracks(b, ps[1..], s);
      }
    }
  }

  lemma SinglesTracks(b: Board, s: Board)
    requires Tracks(b, s) && NoRepeats(s)
    ensures Tracks(WriteCellsWithOneNote(b).board, s)
  {
    SinglesFromTracks(b, RowMajor(b), s);
  }
}

=== FILE: rule_uniques.dfy ===
/** solveUniquesWithOneEmpty (puzzleboard.cpp): when a run has a single
    combination left and one empty square, that square gets the digit the
    written values have not used up. */
module Uniques {
  import Combos
  import opened Cells
  import opened Boards
  import opened Scans
  import opened Solved

  /** numsLeft.indexOf(v) followed by an erase when found. */
  function RemoveFirst(l: seq<int>, v: int): (r: seq<int>)
    ensures v in l ==> |r| == |l| - 1 && multiset(r) == multiset(l) - multiset{v}
    ensures v !in l ==> r == l
    ensures forall x :: x in r ==> x in l
  {
    if |l| == 0 then l
    else if l[0] == v then
      assert l == [l[0]] + l[1..];
      l[1..]
    else
      var rest := RemoveFirst(l[1..], v);
      assert l == [l[0]] + l[1..];
      KeepHead(l[0], l[1..], v, rest);
      [l[0]] + rest
  }

  /** Keeping a head that is not `v` in front of the rest's removal. */
  lemma KeepHead(a: int, t: seq<int>, v: int, rest: seq<int>)
    requires a != v
    requires v in t ==> |rest| == |t| - 1 && multiset(rest) == multiset(t) - multiset{v}
    requires v !in t ==> rest == t
    requires forall x :: x in rest ==> x in t
    ensures var l := [a] + t; var r := [a] + rest;
      && (v in l ==> |r| == |l| - 1 && multiset(r) == multiset(l) - multiset{v})
      && (v !in l ==> r == l)
      && (forall x :: x in r ==> x in l)
  {
    var l := [a] + t;
    var r := [a] + rest;
    assert multiset(l) == multiset{a} + multiset(t);
    assert multiset(r) == multiset{a} + multiset(rest);
    assert v in l <==> v in t;
    forall x | x in r
      ensures x in l
    {
      if x != a {
        assert x in rest;
      }
    }
  }

  /** The values along a list of squares. */
  function Values(b: Board, ps: seq<Pos>): (vs: seq<int>)
    requires Shaped(b) && forall i :: 0 <= i < |ps| ==> InBounds(b, ps[i])
    ensures |vs| == |ps| && forall i :: 0 <= i < |ps| ==> vs[i] == At(b, ps[i]).value
  {
    seq(|ps|, i requires 0 <= i < |ps| => At(b, ps[i]).value)
  }

  /** How many squares from `i` on are empty. */
  function Zeros(vs: seq<int>, i: int): nat
    requires 0 <= i <= |vs|
    decreases |vs| - i
  {
    if i == |vs| then 0 else (if vs[i] == 0 then 1 else 0) + Zeros(vs, i + 1)
  }

  /** The values written from `i` on, as a multiset. */
  function Written(vs: seq<int>, i: int): (m: multiset<int>)
    requires 0 <= i <= |vs|
    ensures |m| + Zeros(vs, i) == |vs| - i
    decreases |vs| - i
  {
    if i == |vs| then multiset{}
    else if vs[i] == 0 then Written(vs, i + 1)
    else multiset{vs[i]} + Written(vs, i + 1)
  }

  /** The scan loop from position `i`: written values are struck from
      `left`, the first empty square is remembered in `e` (-1 for none),
      and a second empty square ends the scan. */
  function Scan(vs: seq<int>, i: int, left: seq<int>, e: int): (r: (seq<int>, int))
    requires 0 <= i <= |vs| && -1 <= e < i && (e != -1 ==> vs[e] == 0)
    ensures forall x :: x in r.0 ==> x in left
    ensures -1 <= r.1 < |vs| && (r.1 != -1 ==> vs[r.1] == 0)
    ensures e != -1 ==> r.1 == e
    ensures e == -1 && r.1 == -1 ==> Zeros(vs, i) == 0
    decreases |vs| - i
  {
    if i == |vs| then (left, e)
    else if vs[i] != 0 then Scan(vs, i + 1, RemoveFirst(left, vs[i]), e)
    else if e != -1 then (left, e)
    else Scan(vs, i + 1, left, i)
  }

  /** Each written value strikes at most one digit. */
  lemma {:induction false} ScanBound(vs: seq<int>, i: int, left: seq<int>, e: int)
    requires 0 <= i <= |vs| && -1 <= e < i && (e != -1 ==> vs[e] == 0)
    ensures |Scan(vs, i, left, e).0| + |Written(vs, i)| >= |left|
    decreases |vs| - i
  {
    if i < |vs| {
      if vs[i] != 0 {
        ScanBound(vs, i + 1, RemoveFirst(left, vs[i]), e);
      } else if e == -1 {
        ScanBound(vs, i + 1, left, i);
      }
    }
  }

  /** When every written value strikes a digit (and no second empty square
      cuts the scan short), `left` splits exactly into what remains and what
      was written. */
  lemma {:induction false} ScanExact(vs: seq<int>, i: int, left: seq<int>, e: int)
    requires 0 <= i <= |vs| && -1 <= e < i && (e != -1 ==> vs[e] == 0)
    requires Zeros(vs, i) + (if e == -1 then 0 else 1) <= 1
    requires |Scan(vs, i, left, e).0| + |Written(vs, i)| == |left|
    ensures multiset(Scan(vs, i, left, e).0) + Written(vs, i) == multiset(left)
    decreases |vs| - i
  {
    if i < |vs| {
      if vs[i] != 0 {
        ScanStruck(vs, i, left, e);
        ScanExact(vs, i + 1, RemoveFirst(left, vs[i]), e);
        ScanJoin(vs, i, left, e);
      } else {
        assert Zeros(vs, i) == 1 + Zeros(vs, i + 1);
        assert Scan(vs, i, left, e) == Scan(vs, i + 1, left, i);
        assert Written(vs, i) == Written(vs, i + 1);
        ScanExact(vs, i + 1, left, i);
      }
    }
  }

  /** A written value in an exact scan was still among the digits left. */
  lemma ScanStruck(vs: seq<int>, i: int, left: seq<int>, e: int)
    requires 0 <= i < |vs| && vs[i] != 0 && -1 <= e < i && (e != -1 ==> vs[e] == 0)
    requires |Scan(vs, i, left, e).0| + |Written(vs, i)| == |left|
    ensures vs[i] in left
    ensures var left' := RemoveFirst(left, vs[i]);
      |Scan(vs, i + 1, left', e).0| + |Written(vs, i + 1)| == |left'|
  {
    var left' := RemoveFirst(left, vs[i]);
    var w := Written(vs, i + 1);
    assert Scan(vs, i, left, e) == Scan(vs, i + 1, left', e);
    assert Written(vs, i) == multiset{vs[i]} + w;
    assert |Written(vs, i)| == |w| + 1;
    ScanBound(vs, i + 1, left', e);
    if vs[i] !in left {
      assert false;
    }
  }

  /** Striking one written value joins the split of the rest of the scan. */
  lemma ScanJoin(vs: seq<int>, i: int, left: seq<int>, e: int)
    requires 0 <= i < |vs| && vs[i] != 0 && -1 <= e < i && (e != -1 ==> vs[e] == 0)
    requires vs[i] in left
    requires var left' := RemoveFirst(left, vs[i]);
      multiset(Scan(vs, i + 1, left', e).0) + Written(vs, i + 1) == multiset(left')
    ensures multiset(Scan(vs, i, left, e).0) + Written(vs, i) == multiset(left)
  {
    var left' := RemoveFirst(left, vs[i]);
    assert Scan(vs, i, left, e) == Scan(vs, i + 1, left', e);
    assert Written(vs, i) == multiset{vs[i]} + Written(vs, i + 1);
    StrikeOne(left, vs[i]);
  }

  lemma StrikeOne(l: seq<int>, v: int)
    requires v in l
    ensures multiset(RemoveFirst(l, v)) + multiset{v} == multiset(l)
  {
    assert v in multiset(l);
  }

  /** The rule fires on a run whose single combination has the run's
      length: the scan ends with one digit left and an empty square found. */
  lemma ScanFires(vs: seq<int>, combo: seq<int>)
    requires |combo| == |vs|
    requires var r := Scan(vs, 0, combo, -1); |r.0| == 1 && r.1 != -1
    ensures var r := Scan(vs, 0, combo, -1);
      && Zeros(vs, 0) == 1
      && (forall j :: 0 <= j < |vs| && j != r.1 ==> vs[j] != 0)
      && multiset(vs[r.1 := r.0[0]]) == multiset(combo)
  {
    var r := Scan(vs, 0, combo, -1);
    ScanBound(vs, 0, combo, -1);
    assert Zeros(vs, 0) <= 1;
    ZerosAt(vs, 0, r.1);
    OnlyZero(vs, 0, r.1);
    ScanExact(vs, 0, combo, -1);
    assert r.0 == [r.0[0]];
    WrittenIsRest(vs, 0, r.1, r.0[0]);
    assert vs[r.1 := r.0[0]][0..] == vs[r.1 := r.0[0]];
  }

  lemma {:induction false} ZerosAt(vs: seq<int>, i: int, k: int)
    requires 0 <= i <= k < |vs| && vs[k] == 0
    ensures Zeros(vs, i) >= 1
    decreases k - i
  {
    if i < k {
      ZerosAt(vs, i + 1, k);
    }
  }

  /** With a single empty square at `k`, every other square holds a value. */
  lemma {:induction false} OnlyZero(vs: seq<int>, i: int, k: int)
    requires 0 <= i <= k < |vs| && vs[k] == 0 && Zeros(vs, i) == 1
    ensures forall j :: i <= j < |vs| && j != k ==> vs[j] != 0
    decreases |vs| - i
  {
    if i < k {
      ZerosAt(vs, i + 1, k);
      OnlyZero(vs, i + 1, k);
    } else {
      NoZeros(vs, i + 1);
    }
  }

  lemma {:induction false} NoZeros(vs: seq<int>, i: int)
    requires 0 <= i <= |vs| && Zeros(vs, i) == 0
    ensures forall j :: i <= j < |vs| ==> vs[j] != 0
    decreases |vs| - i
  {
    if i < |vs| {
      NoZeros(vs, i + 1);
    }
  }

  /** Leaving out the only empty square, the written values are the rest of
      the run: putting `x` into that square completes them. */
  lemma {:induction false} WrittenIsRest(vs: seq<int>, i: int, k: int, x: int)
    requires 0 <= i <= k < |vs| && vs[k] == 0
    requires forall j :: i <= j < |vs| && j != k ==> vs[j] != 0
    ensures Written(vs, i) + multiset{x} == multiset(vs[k := x][i..])
    decreases |vs| - i
  {
    var ws := vs[k := x];
    assert ws[i..] == [ws[i]] + ws[i + 1..];
    if i < k {
      WrittenIsRest(vs, i + 1, k, x);
    } else {
      WrittenAll(vs, i + 1);
      assert ws[i + 1..] == vs[i + 1..];
    }
  }

  lemma {:induction false} WrittenAll(vs: seq<int>, i: int)
    requires 0 <= i <= |vs| && forall j :: i <= j < |vs| ==> vs[j] != 0
    ensures Written(vs, i) == multiset(vs[i..])
    decreases |vs| - i
  {
    if i < |vs| {
      assert vs[i..] == [vs[i]] + vs[i + 1..];
      WrittenAll(vs, i + 1);
    }
  }

  /** A distinct list drawn from `c` is no longer than `c`. */
  lemma {:induction false} Pigeonhole(vs: seq<int>, c: seq<int>)
    requires Distinct(vs) && forall i :: 0 <= i < |vs| ==> vs[i] in c
    ensures |vs| <= |c|
    decreases |vs|
  {
    if |vs| > 0 {
      var c' := RemoveFirst(c, vs[0]);
      forall i | 0 <= i < |vs| - 1
        ensures vs[1..][i] in c'
      {
        assert vs[1..][i] == vs[i + 1] != vs[0];
        assert vs[i + 1] in multiset(c);
        assert vs[i + 1] in multiset(c');
      }
      assert Distinct(vs[1..]) by {
        forall i, j | 0 <= i < j < |vs| - 1
          ensures vs[1..][i] != vs[1..][j]
        {
          assert vs[1..][i] == vs[i + 1] && vs[1..][j] == vs[j + 1];
        }
      }
      Pigeonhole(vs[1..], c');
    }
  }

  // ---------------------------------------------------------------------------
  // The rule on the board

  /** The rule fires on the run of `p` in direction `d`: one combination
      listed, one digit left over after the scan, and an empty square found. */
  predicate Fires(b: Board, p: Pos, d: Dir)
    requires Shaped(b) && InBounds(b, p)
  {
    var cs := CombosOf(At(b, p), d);
    var r := Scan(Values(b, Run(b, p, d)), 0, if |cs| == 1 then cs[0] else [], -1);
    |cs| == 1 && |r.0| == 1 && r.1 != -1
  }

  /** One run: when the rule fires, the leftover digit goes to the empty
      square with its notes erased from the squares it sees. The value comes
      from the combination, not from the square's notes. */
  function UniqueRun(b: Board, p: Pos, d: Dir): (o: Outcome)
    requires Shaped(b) && InBounds(b, p)
    ensures Shaped(o.board) && o.board.rows == b.rows && o.board.cols == b.cols
    ensures Progress(b, o.board, o.changed) && Extends(b, o.board)
    ensures o.changed <==> Fires(b, p, d)
    ensures o.changed ==> Total(Empties, o.board) < Total(Empties, b)
  {
    var ps := Run(b, p, d);
    var cs := CombosOf(At(b, p), d);
    if |cs| != 1 then Outcome(b, false)
    else
      var r := Scan(Values(b, ps), 0, cs[0], -1);
      if |r.0| == 1 && r.1 != -1 then
        var v := r.0[0];
        assert v in cs[0];
        AssignNote(b, ps[r.1], v);
        AssignMeasure(b, ps[r.1], v);
        Outcome(Assign(b, ps[r.1], v), true)
      else Outcome(b, false)
  }

  /** The digit a firing run writes and where. */
  function Written1(b: Board, p: Pos, d: Dir): (w: (int, int))
    requires Shaped(b) && InBounds(b, p) && Fires(b, p, d)
    ensures 0 <= w.0 < |Run(b, p, d)| && 1 <= w.1 <= 9
    ensures UniqueRun(b, p, d).board == Assign(b, Run(b, p, d)[w.0], w.1)
  {
    var r := Scan(Values(b, Run(b, p, d)), 0, CombosOf(At(b, p), d)[0], -1);
    assert r.0[0] in CombosOf(At(b, p), d)[0];
    (r.1, r.0[0])
  }

  /** Assigning a square of a run changes only that entry of the run's values. */
  lemma AssignValues(b: Board, ps: seq<Pos>, k: int, v: int)
    requires Shaped(b) && forall i :: 0 <= i < |ps| ==> InBounds(b, ps[i])
    requires forall i, j :: 0 <= i < j < |ps| ==> ps[i] != ps[j]
    requires 0 <= k < |ps| && 0 <= v <= 9
    ensures Values(Assign(b, ps[k], v), ps) == Values(b, ps)[k := v]
  {
    AssignFacts(b, ps[k], v);
  }

  /** `b'` completes the run `ps` of `b` with `combo`: exactly one square
      of the run was empty and is now filled, and the run's values are now
      exactly the combination's digits. */
  ghost predicate Completes(b: Board, b': Board, ps: seq<Pos>, combo: seq<int>)
    requires Shaped(b) && forall i :: 0 <= i < |ps| ==> InBounds(b, ps[i])
  {
    && Shaped(b') && b'.rows == b.rows && b'.cols == b.cols
    && (forall i :: 0 <= i < |ps| ==> InBounds(b', ps[i]))
    && (exists k :: 0 <= k < |ps| && At(b, ps[k]).value == 0 && At(b', ps[k]).value != 0
          && forall j :: 0 <= j < |ps| && j != k ==> At(b, ps[j]).value != 0)
    && multiset(Values(b', ps)) == multiset(combo)
  }

  /** When the single combination has as many digits as the run, a firing
      run had exactly one empty square, the digit goes there, and afterwards
      the run holds exactly the combination's digits. */
  lemma UniqueRunCompletes(b: Board, p: Pos, d: Dir)
    requires Shaped(b) && InBounds(b, p) && Fires(b, p, d)
    requires |CombosOf(At(b, p), d)[0]| == |Run(b, p, d)|
    ensures Completes(b, UniqueRun(b, p, d).board, Run(b, p, d), CombosOf(At(b, p), d)[0])
  {
    var ps := Run(b, p, d);
    var combo := CombosOf(At(b, p), d)[0];
    var vs := Values(b, ps);
    var r := Scan(vs, 0, combo, -1);
    ScanFires(vs, combo);
    var w := Written1(b, p, d);
    assert w == (r.1, r.0[0]);
    var b' := UniqueRun(b, p, d).board;
    AssignValues(b, ps, w.0, w.1);
    CompletesAt(b, b', ps, combo, w.0);
  }

  /** `b'` fills the one empty square `k` of the run and nothing else of it,
      and the run's new values are the combination's digits. */
  lemma CompletesAt(b: Board, b': Board, ps: seq<Pos>, combo: seq<int>, k: int)
    requires Shaped(b) && Shaped(b') && b'.rows == b.rows && b'.cols == b.cols
    requires forall i :: 0 <= i < |ps| ==> InBounds(b, ps[i])
    requires 0 <= k < |ps| && Values(b, ps)[k] == 0
    requires forall j :: 0 <= j < |ps| && j != k ==> Values(b, ps)[j] != 0
    requires multiset(Values(b', ps)) == multiset(combo) && Values(b', ps)[k] != 0
    ensures Completes(b, b', ps, combo)
  {
    assert At(b, ps[k]).value == 0 && At(b', ps[k]).value != 0;
  }

  /** The pass at one clue square: the down run, then the right run on the
      board the first may have changed. */
  function UniqueAt(b: Board, p: Pos): (o: Outcome)
    requires Shaped(b) && InBounds(b, p)
    ensures Shaped(o.board) && o.board.rows == b.rows && o.board.cols == b.cols
    ensures Progress(b, o.board, o.changed) && Extends(b, o.board)
    ensures o.changed ==> Total(Empties, o.board) < Total(Empties, b)
  {
    var x := At(b, p);
    if !x.isClue || (x.rightClue == 0 && x.downClue == 0) then Outcome(b, false)
    else
      var o1 := UniqueRun(b, p, Down);
      var o2 := UniqueRun(o1.board, p, Right);
      ProgressCompose(b, o1.board, o2.board, o1.changed, o2.changed);
      ExtendsTrans(b, o1.board, o2.board);
      Outcome(o2.board, o1.changed || o2.changed)
  }

  predicate Settled(b: Board, p: Pos)
    requires Shaped(b) && InBounds(b, p)
  {
    var x := At(b, p);
    x.isClue && (x.rightClue != 0 || x.downClue != 0) ==> !Fires(b, p, Down) && !Fires(b, p, Right)
  }

  lemma UniqueAtQuiet(b: Board, p: Pos)
    requires Shaped(b) && InBounds(b, p)
    ensures !UniqueAt(b, p).changed <==> Settled(b, p)
  {
  }

  function UniquesFrom(b: Board, ps: seq<Pos>): (o: Outcome)
    requires Shaped(b) && forall i :: 0 <= i < |ps| ==> InBounds(b, ps[i])
    ensures Shaped(o.board) && o.board.rows == b.rows && o.board.cols == b.cols
    ensures Progress(b, o.board, o.changed) && Extends(b, o.board)
    ensures o.changed ==> Total(Empties, o.board) < Total(Empties, b)
    decreases |ps|
  {
    if |ps| == 0 then Outcome(b, false)
    else
      var o1 := UniqueAt(b, ps[0]);
      var o2 := UniquesFrom(o1.board, ps[1..]);
      ProgressCompose(b, o1.board, o2.board, o1.changed, o2.changed);
      ExtendsTrans(b, o1.board, o2.board);
      Outcome(o2.board, o1.changed || o2.changed)
  }

  /** solveUniquesWithOneEmpty: every firing writes a value into an empty
      square, so a reported change fills at least one square, and no value
      already on the board is touched. */
  function SolveUniquesWithOneEmpty(b: Board): (o: Outcome)
    requires Shaped(b)
    ensures Shaped(o.board) && o.board.rows == b.rows && o.board.cols == b.cols
    ensures Progress(b, o.board, o.changed) && Extends(b, o.board)
    ensures o.changed ==> Total(Empties, o.board) < Total(Empties, b)
  {
    UniquesFrom(b, RowMajor(b))
  }

  lemma {:induction false} UniquesFromQuiet(b: Board, ps: seq<Pos>)
    requires Shaped(b) && forall i :: 0 <= i < |ps| ==> InBounds(b, ps[i])
    ensures !UniquesFrom(b, ps).changed <==> forall i :: 0 <= i < |ps| ==> Settled(b, ps[i])
    decreases |ps|
  {
    if |ps| > 0 {
      var o1 := UniqueAt(b, ps[0]);
      UniqueAtQuiet(b, ps[0]);
      assert forall i :: 1 <= i < |ps| ==> ps[i] == ps[1..][i - 1];
      if !o1.changed {
        assert o1.board == b;
        UniquesFromQuiet(b, ps[1..]);
      }
    }
  }

  /** The rule is at rest exactly when no run of a clue square fires. */
  lemma UniquesQuiet(b: Board)
    requires Shaped(b)
    ensures !SolveUniquesWithOneEmpty(b).changed <==> forall q :: InBounds(b, q) ==> Settled(b, q)
  {
    var ps := RowMajor(b);
    UniquesFromQuiet(b, ps);
    if forall i :: 0 <= i < |ps| ==> Settled(b, ps[i]) {
      forall q | InBounds(b, q)
        ensures Settled(b, q)
      {
        var i :| 0 <= i < |ps| && ps[i] == q;
      }
    }
  }

  // ---------------------------------------------------------------------------
  // Soundness

  /** A distinct list that differs from `vs` only at `k`, with its entry
      at `k` drawn from `vs[k := v]`, has `v` there. */
  lemma SoleDigit(vs: seq<int>, sv: seq<int>, k: int, v: int)
    requires |sv| == |vs| && 0 <= k < |vs| && Distinct(sv)
    requires forall j :: 0 <= j < |vs| && j != k ==> sv[j] == vs[j]
    requires sv[k] in multiset(vs[k := v])
    ensures sv[k] == v
  {
    assert sv[k] in vs[k := v];
  }

  /** On a run with a nonzero clue, the digit the rule writes is the digit
      every solution puts there, provided the solution agrees with the board
      and the listed combination holds its run digits. */
  lemma UniqueRunSound(b: Board, p: Pos, d: Dir, s: Board)
    requires Agrees(b, s) && Solution(s) && InBounds(b, p)
    requires At(b, p).isClue && (d == Right || d == Down) && Listed(b, p, d, s)
    requires ClueIn(At(b, p), d) != 0
    requires Fires(b, p, d)
    ensures var w := Written1(b, p, d); At(s, Run(b, p, d)[w.0]).value == w.1
  {
    var w := Written1(b, p, d);
    var sv := RunDigits(b, p, d, s);
    WrittenIsForced(b, p, d, sv);
    RaySameLayout(b, s, p, d);
    assert sv == RunValues(s, p, d);
  }

  /** Any pairwise different digits from the single listed combination that
      keep the run's values put the rule's digit on the rule's square. */
  lemma WrittenIsForced(b: Board, p: Pos, d: Dir, sv: seq<int>)
    requires Shaped(b) && InBounds(b, p) && Fires(b, p, d)
    requires |sv| == |Run(b, p, d)| && Distinct(sv)
    requires forall i :: 0 <= i < |sv| ==> sv[i] in CombosOf(At(b, p), d)[0]
    requires forall i :: 0 <= i < |sv| && At(b, Run(b, p, d)[i]).value != 0 ==>
      sv[i] == At(b, Run(b, p, d)[i]).value
    ensures var w := Written1(b, p, d); sv[w.0] == w.1
  {
    var ps := Run(b, p, d);
    var combo := CombosOf(At(b, p), d)[0];
    var w := Written1(b, p, d);
    Pigeonhole(sv, combo);
    FiresLength(b, p, d);
    var vs := Values(b, ps);
    ScanFires(vs, combo);
    SoleDigit(vs, sv, w.0, w.1);
  }

  /** A firing run is at least as long as its combination. */
  lemma FiresLength(b: Board, p: Pos, d: Dir)
    requires Shaped(b) && InBounds(b, p) && Fires(b, p, d)
    ensures |CombosOf(At(b, p), d)[0]| <= |Run(b, p, d)|
  {
    var vs := Values(b, Run(b, p, d));
    var r := Scan(vs, 0, CombosOf(At(b, p), d)[0], -1);
    ScanBound(vs, 0, CombosOf(At(b, p), d)[0], -1);
    ZerosAt(vs, 0, r.1);
  }

  /** The solution's digits along a run with a nonzero clue: pairwise
      different, all in the single listed combination, and equal to the
      board's where the board has a value. */
  function RunDigits(b: Board, p: Pos, d: Dir, s: Board): (sv: seq<int>)
    requires Agrees(b, s) && Solution(s) && InBounds(b, p)
    requires At(b, p).isClue && (d == Right || d == Down) && Listed(b, p, d, s)
    requires ClueIn(At(b, p), d) != 0
    requires |CombosOf(At(b, p), d)| == 1
    ensures |sv| == |Run(b, p, d)| && Distinct(sv)
    ensures forall i :: 0 <= i < |sv| ==> sv[i] in CombosOf(At(b, p), d)[0]
    ensures forall i :: 0 <= i < |sv| && At(b, Run(b, p, d)[i]).value != 0 ==>
      sv[i] == At(b, Run(b, p, d)[i]).value
  {
    RaySameLayout(b, s, p, d);
    SolutionRunDistinct(b, p, d, s);
    SolutionRunListed(b, p, d, s);
    SolutionRunKept(b, p, d, s);
    RunValues(s, p, d)
  }

  lemma SolutionRunDistinct(b: Board, p: Pos, d: Dir, s: Board)
    requires Agrees(b, s) && Solution(s) && InBounds(b, p)
    requires At(b, p).isClue && (d == Right || d == Down)
    requires ClueIn(At(b, p), d) != 0
    ensures Distinct(RunValues(s, p, d))
  {
    assert SquareOk(s, p);
  }

  lemma SolutionRunListed(b: Board, p: Pos, d: Dir, s: Board)
    requires Agrees(b, s) && InBounds(b, p)
    requires At(b, p).isClue && (d == Right || d == Down) && Listed(b, p, d, s)
    requires |CombosOf(At(b, p), d)| == 1
    ensures forall i :: 0 <= i < |RunValues(s, p, d)| ==> RunValues(s, p, d)[i] in CombosOf(At(b, p), d)[0]
  {
    RaySameLayout(b, s, p, d);
    var ps := Run(b, p, d);
    forall i | 0 <= i < |ps|
      ensures RunValues(s, p, d)[i] in CombosOf(At(b, p), d)[0]
    {
      assert ps[i] in Ray(b, p, d);
    }
  }

  lemma SolutionRunKept(b: Board, p: Pos, d: Dir, s: Board)
    requires Agrees(b, s)
    ensures forall i :: 0 <= i < |RunValues(s, p, d)| && i < |Run(b, p, d)| && At(b, Run(b, p, d)[i]).value != 0 ==>
      RunValues(s, p, d)[i] == At(b, Run(b, p, d)[i]).value
  {
    RaySameLayout(b, s, p, d);
  }

  // ---------------------------------------------------------------------------
  // The whole pass keeps a completion

  /** One run keeps a tracked completion: a firing run writes the digit the
      completion has on the square, since the run's lists still hold the
      completion's digit set and its clue is nonzero. */
  lemma UniqueRunTracks(b: Board, p: Pos, d: Dir, s: Board)
    requires Tracks(b, s) && Solution(s) && NoRepeats(s) && WellClued(s)
    requires InBounds(b, p) && At(b, p).isClue && (d == Right || d == Down)
    ensures Tracks(UniqueRun(b, p, d).board, s)
  {
    if Fires(b, p, d) {
      var w := Written1(b, p, d);
      RaySameLayout(b, s, p, d);
      CoveredRun(b, p, d, s);
      assert InBounds(s, p) && At(s, p).isClue;
      UniqueRunSound(b, p, d, s);
      AssignTracks(b, Run(b, p, d)[w.0], s);
    }
  }

  lemma UniqueAtTracks(b: Board, p: Pos, s: Board)
    requires Tracks(b, s) && Solution(s) && NoRepeats(s) && WellClued(s) && InBounds(b, p)
    ensures Tracks(UniqueAt(b, p).board, s)
  {
    var x := At(b, p);
    if x.isClue && (x.rightClue != 0 || x.downClue != 0) {
      UniqueRunTracks(b, p, Down, s);
      var b1 := UniqueRun(b, p, Down).board;
      assert At(b1, p).isClue;
      UniqueRunTracks(b1, p, Right, s);
    }
  }

  lemma {:induction false} UniquesFromTracks(b: Board, ps: seq<Pos>, s: Board)
    requires Tracks(b, s) && Solution(s) && NoRepeats(s) && WellClued(s)
    requires forall i :: 0 <= i < |ps| ==> InBounds(b, ps[i])
    ensures Tracks(UniquesFrom(b, ps).board, s)
    decreases |ps|
  {
    if |ps| > 0 {
      UniqueAtTracks(b, ps[0], s);
      UniquesFromTracks(UniqueAt(b, ps[0]).board, ps[1..], s);
    }
  }

  /** The pass keeps every repeat-free solution with a clue on each run that
      the board tracks: the digits it writes are the solution's. */
  lemma UniquesSound(b: Board, s: Board)
    requires Tracks(b, s) && Solution(s) && NoRepeats(s) && WellClued(s)
    ensures Tracks(SolveUniquesWithOneEmpty(b).board, s)
  {
    UniquesFromTracks(b, RowMajor(b), s);
  }
}

=== FILE: scans.dfy ===
/** Pieces the propagation rules of puzzleboard.cpp share: the early-exit
    scans they use to look a digit up in an ascending combination, the
    erase-in-place loop over a combination list, and the step that deletes
    notes from the squares of a run. */
module Scans {
  import Combos
  import opened Cells
  import opened Boards

  /** What a rule pass returns: the board it leaves and its `changed` flag. */
  datatype Outcome = Outcome(board: Board, changed: bool)

  // ---------------------------------------------------------------------------
  // Scans over ascending combinations

  /** The inner walk over a combination that stops at the first digit equal
      to `n` (found) or greater than it (not found): on an ascending
      combination it answers membership. */
  function ScanHas(c: seq<int>, n: int): (r: bool)
    ensures Combos.IsCombo(c) ==> (r <==> n in c)
  {
    if |c| == 0 then false
    else if c[0] == n then true
    else if c[0] > n then
      assert Combos.IsCombo(c) ==> forall j :: 0 <= j < |c| ==> c[j] >= c[0];
      false
    else
      assert Combos.IsCombo(c) ==> Combos.IsCombo(c[1..]);
      ScanHas(c[1..], n)
  }

  /** The `necessary[n]` loop: `n` is found in every combination. An empty
      list leaves every digit necessary. */
  function InEvery(cs: seq<Combo>, n: int): (r: bool)
    ensures r <==> forall i :: 0 <= i < |cs| ==> n in cs[i]
  {
    if |cs| == 0 then true
    else
      assert forall i :: 1 <= i < |cs| ==> cs[i] == cs[1..][i - 1];
      ScanHas(cs[0], n) && InEvery(cs[1..], n)
  }

  /** The `foundInAnyCombo` loop: `n` is found in some combination. */
  function InAny(cs: seq<Combo>, n: int): (r: bool)
    ensures r <==> exists i :: 0 <= i < |cs| && n in cs[i]
  {
    if |cs| == 0 then false
    else
      assert forall i :: 1 <= i < |cs| ==> cs[i] == cs[1..][i - 1];
      ScanHas(cs[0], n) || InAny(cs[1..], n)
  }

  /** The `hasAnyOfCellsNotes` loop: the combination holds one of the listed
      notes. */
  function SharesNote(c: Combo, ns: seq<int>): (r: bool)
    ensures r <==> exists k :: 0 <= k < |ns| && ns[k] in c
  {
    if |ns| == 0 then false
    else
      assert forall k :: 1 <= k < |ns| ==> ns[k] == ns[1..][k - 1];
      ScanHas(c, ns[0]) || SharesNote(c, ns[1..])
  }

  // ---------------------------------------------------------------------------
  // Order-preserving sub-lists

  /** `a` is `b` with some entries left out, order kept (greedy match). */
  predicate Sublist<T(==)>(a: seq<T>, b: seq<T>)
    decreases |b|
  {
    if |a| == 0 then true
    else if |b| == 0 then false
    else if a[0] == b[0] then Sublist(a[1..], b[1..])
    else Sublist(a, b[1..])
  }

  lemma {:induction false} SublistRefl<T>(a: seq<T>)
    ensures Sublist(a, a)
  {
    if |a| > 0 {
      SublistRefl(a[1..]);
    }
  }

  lemma {:induction false} SublistLength<T>(a: seq<T>, b: seq<T>)
    requires Sublist(a, b)
    ensures |a| <= |b|
    ensures forall x :: x in a ==> x in b
    ensures |a| == |b| ==> a == b
    decreases |b|
  {
    if |a| > 0 {
      if a[0] == b[0] {
        SublistLength(a[1..], b[1..]);
        assert a == [a[0]] + a[1..] && b == [b[0]] + b[1..];
      } else {
        SublistLength(a, b[1..]);
      }
    }
  }

  /** Leaving out the first entry of the shorter list keeps it a sub-list. */
  lemma {:induction false} SublistTail<T>(a: seq<T>, b: seq<T>)
    requires |a| > 0 && Sublist(a, b)
    ensures Sublist(a[1..], b)
    decreases |b|, 1
  {
    if a[0] == b[0] {
      SublistWeakenHead(a[1..], b);
    } else {
      SublistTail(a, b[1..]);
      SublistWeakenHead(a[1..], b);
    }
  }

  /** A sub-list of `b[1..]` is a sub-list of `b`. */
  lemma {:induction false} SublistWeakenHead<T>(a: seq<T>, b: seq<T>)
    requires |b| > 0 && Sublist(a, b[1..])
    ensures Sublist(a, b)
    decreases |b|, 0
  {
    if |a| > 0 && a[0] == b[0] {
      SublistTail(a, b[1..]);
    }
  }

  lemma {:induction false} SublistTrans<T>(a: seq<T>, b: seq<T>, c: seq<T>)
    requires Sublist(a, b) && Sublist(b, c)
    ensures Sublist(a, c)
    decreases |c|
  {
    if |a| > 0 {
      SublistLength(a, b);
      SublistLength(b, c);
      if b[0] == c[0] {
        if a[0] == b[0] {
          SublistTrans(a[1..], b[1..], c[1..]);
        } else {
          SublistTrans(a, b[1..], c[1..]);
        }
      } else {
        SublistTrans(a, b, c[1..]);
        if a[0] == c[0] {
          SublistTail(a, c[1..]);
        }
      }
    }
  }

  // ---------------------------------------------------------------------------
  // Filtering a combination list

  /** The reference definition: the entries satisfying `keep`, in order. */
  function Filter(cs: seq<Combo>, keep: Combo -> bool): (r: seq<Combo>)
    ensures forall x :: x in r <==> x in cs && keep(x)
    ensures Sublist(r, cs)
    ensures r == cs <==> forall k :: 0 <= k < |cs| ==> keep(cs[k])
  {
    if |cs| == 0 then []
    else
      var rest := Filter(cs[1..], keep);
      assert forall x :: x in cs <==> x == cs[0] || x in cs[1..];
      assert forall k :: 1 <= k < |cs| ==> cs[k] == cs[1..][k - 1];
      if keep(cs[0]) then
        assert ([cs[0]] + rest)[1..] == rest;
        [cs[0]] + rest
      else
        SublistWeakenHead(rest, cs);
        rest
  }

  /** The walk over a combination list that erases, in place, each entry
      `keep` rejects and steps back one index so the next entry is not
      skipped. */
  function EraseLoop(cs: seq<Combo>, i: int, keep: Combo -> bool): (r: seq<Combo>)
    requires 0 <= i <= |cs|
    decreases |cs| - i
  {
    if i == |cs| then cs
    else if keep(cs[i]) then EraseLoop(cs, i + 1, keep)
    else EraseLoop(cs[..i] + cs[i + 1..], i, keep)
  }

  /** Filtering a list from index `i` on: the entry at `i` is kept or
      dropped, and the rest is filtered from `i + 1`. */
  lemma FilterFrom(cs: seq<Combo>, i: int, keep: Combo -> bool)
    requires 0 <= i < |cs|
    ensures Filter(cs[i..], keep) ==
      if keep(cs[i]) then [cs[i]] + Filter(cs[i + 1..], keep) else Filter(cs[i + 1..], keep)
  {
    assert cs[i..][0] == cs[i] && cs[i..][1..] == cs[i + 1..];
  }

  /** The erase loop leaves the entries before `i` and filters the rest. */
  lemma {:induction false} EraseLoopIsFilter(cs: seq<Combo>, i: int, keep: Combo -> bool)
    requires 0 <= i <= |cs|
    ensures EraseLoop(cs, i, keep) == cs[..i] + Filter(cs[i..], keep)
    decreases |cs| - i
  {
    if i == |cs| {
      assert cs[..i] == cs;
    } else if keep(cs[i]) {
      EraseLoopIsFilter(cs, i + 1, keep);
      EraseKeepStep(cs, i, keep);
    } else {
      var cs' := cs[..i] + cs[i + 1..];
      EraseLoopIsFilter(cs', i, keep);
      EraseDropStep(cs, i, keep);
    }
  }

  /** A kept entry moves from the filtered part to the untouched prefix. */
  lemma EraseKeepStep(cs: seq<Combo>, i: int, keep: Combo -> bool)
    requires 0 <= i < |cs| && keep(cs[i])
    ensures cs[..i + 1] + Filter(cs[i + 1..], keep) == cs[..i] + Filter(cs[i..], keep)
  {
    FilterFrom(cs, i, keep);
    PrefixMove(cs, i, Filter(cs[i + 1..], keep));
  }

  /** Moving the entry at `i` from the front of the tail to the end of the
      prefix. */
  lemma PrefixMove<T>(cs: seq<T>, i: int, rest: seq<T>)
    requires 0 <= i < |cs|
    ensures cs[..i + 1] + rest == cs[..i] + ([cs[i]] + rest)
  {
    assert cs[..i + 1] == cs[..i] + [cs[i]];
  }

  /** Erasing a rejected entry leaves the same prefix and the same filtered
      rest. */
  lemma EraseDropStep(cs: seq<Combo>, i: int, keep: Combo -> bool)
    requires 0 <= i < |cs| && !keep(cs[i])
    ensures var cs' := cs[..i] + cs[i + 1..];
      cs'[..i] + Filter(cs'[i..], keep) == cs[..i] + Filter(cs[i..], keep)
  {
    FilterFrom(cs, i, keep);
    var cs' := cs[..i] + cs[i + 1..];
    assert cs'[..i] == cs[..i] && cs'[i..] == cs[i + 1..];
  }

  /** Erasing the entries that fail `keep` from a whole list. */
  function EraseAll(cs: seq<Combo>, keep: Combo -> bool): (r: seq<Combo>)
    ensures r == Filter(cs, keep)
  {
    EraseLoopIsFilter(cs, 0, keep);
    assert cs[..0] == [] && cs[0..] == cs;
    EraseLoop(cs, 0, keep)
  }

  // ---------------------------------------------------------------------------
  // Deleting notes along a run

  /** `b'` differs from `b` only in notes, and only by deleting some. */
  ghost predicate NotesShrunk(b: Board, b': Board) {
    && Shaped(b) && Shaped(b') && b.rows == b'.rows && b.cols == b'.cols
    && forall q :: InBounds(b, q) ==>
         At(b', q) == At(b, q).(notes := At(b', q).notes) && At(b', q).notes <= At(b, q).notes
  }

  lemma NotesShrunkTrans(a: Board, b: Board, c: Board)
    requires NotesShrunk(a, b) && NotesShrunk(b, c)
    ensures NotesShrunk(a, c)
  {
  }

  lemma NotesShrunkExtends(a: Board, b: Board)
    requires NotesShrunk(a, b)
    ensures Extends(a, b) && SameLayout(a, b)
  {
  }

  lemma NotSubset(a: set<int>, b: set<int>)
    ensures a <= b || exists n :: n in a && n !in b
  {
    if forall n :: n in a ==> n in b {
      assert a <= b;
    }
  }

  /** Keeping only the notes in `keep` on one square: a deletion lowers the
      note count and touches no other measure. */
  function RestrictSquare(b: Board, p: Pos, keep: NoteSet): (o: Outcome)
    requires Shaped(b) && InBounds(b, p)
    ensures Shaped(o.board) && o.board.rows == b.rows && o.board.cols == b.cols
    ensures NotesShrunk(b, o.board)
    ensures Progress(b, o.board, o.changed)
    ensures At(o.board, p).notes == At(b, p).notes * keep
    ensures forall q :: InBounds(b, q) && q != p ==> At(o.board, q) == At(b, q)
    ensures o.changed <==> !(At(b, p).notes <= keep)
  {
    var x := At(b, p);
    if x.notes <= keep then
      assert x.notes * keep == x.notes;
      Outcome(b, false)
    else
      var y := x.(notes := x.notes * keep);
      var b' := Put(b, p, y);
      PutDelta(Empties, b, p, y);
      PutDelta(NoteCount, b, p, y);
      PutDelta(ComboCount, b, p, y);
      NotSubset(x.notes, keep);
      assert |y.notes| < |x.notes| by {
        var n :| n in x.notes && n !in keep;
        var gone := x.notes - keep;
        assert x.notes == y.notes + gone && y.notes * gone == {};
        assert n in gone;
      }
      Outcome(b', true)
  }

  /** What restricting the notes along `ps` to `keeps` achieves: only notes
      went, only on the listed squares, each listed square kept exactly its
      notes inside its window, and `changed` records whether any note went. */
  ghost predicate Restricts(b: Board, ps: seq<Pos>, keeps: seq<NoteSet>, o: Outcome)
    requires Shaped(b) && forall i :: 0 <= i < |ps| ==> InBounds(b, ps[i])
    requires |keeps| == |ps|
  {
    && NotesShrunk(b, o.board)
    && Progress(b, o.board, o.changed)
    && Trimmed(b, ps, keeps, o)
  }

  /** The square-by-square part of `Restricts`. */
  ghost predicate Trimmed(b: Board, ps: seq<Pos>, keeps: seq<NoteSet>, o: Outcome)
    requires Shaped(b) && forall i :: 0 <= i < |ps| ==> InBounds(b, ps[i])
    requires |keeps| == |ps|
  {
    && Shaped(o.board) && o.board.rows == b.rows && o.board.cols == b.cols
    && (forall i :: 0 <= i < |ps| ==> InBounds(o.board, ps[i]))
    && (forall i :: 0 <= i < |ps| ==> At(o.board, ps[i]).notes == At(b, ps[i]).notes * keeps[i])
    && (forall q :: InBounds(b, q) && q !in ps ==> At(o.board, q) == At(b, q))
    && (o.changed <==> exists i :: 0 <= i < |ps| && !(At(b, ps[i]).notes <= keeps[i]))
  }

  /** Keeping only the notes in `keeps[i]` on the `i`-th square of a run,
      square by square. */
  function RestrictRun(b: Board, ps: seq<Pos>, keeps: seq<NoteSet>): (o: Outcome)
    requires Shaped(b) && forall i :: 0 <= i < |ps| ==> InBounds(b, ps[i])
    requires forall i, j :: 0 <= i < j < |ps| ==> ps[i] != ps[j]
    requires |keeps| == |ps|
    ensures Shaped(o.board) && o.board.rows == b.rows && o.board.cols == b.cols
    ensures Restricts(b, ps, keeps, o)
    decreases |ps|
  {
    if |ps| == 0 then Outcome(b, false)
    else
      var o1 := RestrictSquare(b, ps[0], keeps[0]);
      RestrictTail(b, ps, keeps);
      var o2 := RestrictRun(o1.board, ps[1..], keeps[1..]);
      RestrictRunStep(b, ps, keeps, o1, o2);
      Outcome(o2.board, o1.changed || o2.changed)
  }

  lemma RestrictTail(b: Board, ps: seq<Pos>, keeps: seq<NoteSet>)
    requires forall i, j :: 0 <= i < j < |ps| ==> ps[i] != ps[j]
    requires |keeps| == |ps| > 0
    ensures forall i, j :: 0 <= i < j < |ps[1..]| ==> ps[1..][i] != ps[1..][j]
    ensures |keeps[1..]| == |ps[1..]|
  {
  }

  lemma RestrictRunStep(b: Board, ps: seq<Pos>, keeps: seq<NoteSet>, o1: Outcome, o2: Outcome)
    requires Shaped(b) && forall i :: 0 <= i < |ps| ==> InBounds(b, ps[i])
    requires forall i, j :: 0 <= i < j < |ps| ==> ps[i] != ps[j]
    requires |keeps| == |ps| > 0
    requires Shaped(o1.board) && o1.board.rows == b.rows && o1.board.cols == b.cols
    requires NotesShrunk(b, o1.board) && Progress(b, o1.board, o1.changed)
    requires At(o1.board, ps[0]).notes == At(b, ps[0]).notes * keeps[0]
    requires forall q :: InBounds(b, q) && q != ps[0] ==> At(o1.board, q) == At(b, q)
    requires o1.changed <==> !(At(b, ps[0]).notes <= keeps[0])
    requires Restricts(o1.board, ps[1..], keeps[1..], o2)
    ensures Restricts(b, ps, keeps, Outcome(o2.board, o1.changed || o2.changed))
  {
    NotesShrunkTrans(b, o1.board, o2.board);
    ProgressCompose(b, o1.board, o2.board, o1.changed, o2.changed);
    TrimmedStep(b, ps, keeps, o1.board, o2);
  }

  lemma TrimmedStep(b: Board, ps: seq<Pos>, keeps: seq<NoteSet>, b1: Board, o2: Outcome)
    requires Shaped(b) && forall i :: 0 <= i < |ps| ==> InBounds(b, ps[i])
    requires forall i, j :: 0 <= i < j < |ps| ==> ps[i] != ps[j]
    requires |keeps| == |ps| > 0
    requires Shaped(b1) && b1.rows == b.rows && b1.cols == b.cols
    requires forall i :: 0 <= i < |ps| ==> InBounds(b1, ps[i])
    requires At(b1, ps[0]).notes == At(b, ps[0]).notes * keeps[0]
    requires forall q :: InBounds(b, q) && q != ps[0] ==> At(b1, q) == At(b, q)
    requires Trimmed(b1, ps[1..], keeps[1..], o2)
    ensures Trimmed(b, ps, keeps, Outcome(o2.board, !(At(b, ps[0]).notes <= keeps[0]) || o2.changed))
  {
    TrimmedSquares(b, ps, keeps, b1, o2.board);
    TrimmedChanged(b, ps, keeps, b1, o2.changed);
  }

  /** The notes and the frame of `Trimmed`, one square at the head. */
  lemma TrimmedSquares(b: Board, ps: seq<Pos>, keeps: seq<NoteSet>, b1: Board, b2: Board)
    requires Shaped(b) && forall i :: 0 <= i < |ps| ==> InBounds(b, ps[i])
    requires forall i, j :: 0 <= i < j < |ps| ==> ps[i] != ps[j]
    requires |keeps| == |ps| > 0
    requires Shaped(b1) && b1.rows == b.rows && b1.cols == b.cols
    requires Shaped(b2) && b2.rows == b.rows && b2.cols == b.cols
    requires forall i :: 0 <= i < |ps| ==> InBounds(b1, ps[i]) && InBounds(b2, ps[i])
    requires At(b1, ps[0]).notes == At(b, ps[0]).notes * keeps[0]
    requires forall q :: InBounds(b, q) && q != ps[0] ==> At(b1, q) == At(b, q)
    requires forall i :: 0 <= i < |ps| - 1 ==> At(b2, ps[1..][i]).notes == At(b1, ps[1..][i]).notes * keeps[1..][i]
    requires forall q :: InBounds(b1, q) && q !in ps[1..] ==> At(b2, q) == At(b1, q)
    ensures forall i :: 0 <= i < |ps| ==> At(b2, ps[i]).notes == At(b, ps[i]).notes * keeps[i]
    ensures forall q :: InBounds(b, q) && q !in ps ==> At(b2, q) == At(b, q)
  {
    assert ps[0] !in ps[1..];
    forall i | 1 <= i < |ps|
      ensures At(b2, ps[i]).notes == At(b, ps[i]).notes * keeps[i]
    {
      assert ps[i] == ps[1..][i - 1] && keeps[i] == keeps[1..][i - 1] && ps[i] != ps[0];
    }
    forall q | InBounds(b, q) && q !in ps
      ensures At(b2, q) == At(b, q)
    {
      assert q != ps[0] && q !in ps[1..];
    }
  }

  /** The `changed` flag of `Trimmed`, one square at the head. */
  lemma TrimmedChanged(b: Board, ps: seq<Pos>, keeps: seq<NoteSet>, b1: Board, c2: bool)
    requires Shaped(b) && forall i :: 0 <= i < |ps| ==> InBounds(b, ps[i])
    requires forall i, j :: 0 <= i < j < |ps| ==> ps[i] != ps[j]
    requires |keeps| == |ps| > 0
    requires Shaped(b1) && b1.rows == b.rows && b1.cols == b.cols
    requires forall i :: 0 <= i < |ps| ==> InBounds(b1, ps[i])
    requires forall q :: InBounds(b, q) && q != ps[0] ==> At(b1, q) == At(b, q)
    requires c2 <==> exists i :: 0 <= i < |ps| - 1 && !(At(b1, ps[1..][i]).notes <= keeps[1..][i])
    ensures (!(At(b, ps[0]).notes <= keeps[0]) || c2) <==>
      exists i :: 0 <= i < |ps| && !(At(b, ps[i]).notes <= keeps[i])
  {
    if c2 {
      var j :| 0 <= j < |ps| - 1 && !(At(b1, ps[1..][j]).notes <= keeps[1..][j]);
      assert ps[1..][j] == ps[j + 1] != ps[0];
      assert !(At(b, ps[j + 1]).notes <= keeps[j + 1]);
    }
    if exists i :: 0 <= i < |ps| && !(At(b, ps[i]).notes <= keeps[i]) {
      var i :| 0 <= i < |ps| && !(At(b, ps[i]).notes <= keeps[i]);
      if i > 0 {
        assert ps[1..][i - 1] == ps[i] != ps[0];
        assert !(At(b1, ps[1..][i - 1]).notes <= keeps[1..][i - 1]);
      }
    }
  }

  // ---------------------------------------------------------------------------
  // Assignments made by the rules

  /** Every value written since `b0` was a note of its square in `b0`, every
      square whose value stayed has only lost notes, and `b` extends `b0`. */
  ghost predicate FromNotes(b0: Board, b: Board) {
    && Extends(b0, b)
    && forall q :: InBounds(b0, q) ==>
         && (At(b, q).value != At(b0, q).value ==> At(b, q).value in At(b0, q).notes)
         && (At(b, q).value == At(b0, q).value ==> At(b, q).notes <= At(b0, q).notes)
  }

  lemma FromNotesRefl(b: Board)
    requires Shaped(b)
    ensures FromNotes(b, b)
  {
  }

  lemma FromNotesTrans(a: Board, b: Board, c: Board)
    requires FromNotes(a, b) && FromNotes(b, c)
    ensures FromNotes(a, c)
  {
    ExtendsTrans(a, b, c);
    forall q | InBounds(a, q)
      ensures At(c, q).value != At(a, q).value ==> At(c, q).value in At(a, q).notes
    {
      if At(c, q).value != At(a, q).value && At(c, q).value != At(b, q).value {
        assert At(a, q).value == 0;
        assert At(b, q).value == 0;
      }
    }
  }

  lemma NotesShrunkFromNotes(a: Board, b: Board)
    requires NotesShrunk(a, b)
    ensures FromNotes(a, b)
  {
  }

  /** Assigning one of its notes to an empty fill-in square: the empty count
      drops, the board is extended, and only notes go elsewhere. */
  lemma AssignNote(b: Board, p: Pos, v: int)
    requires Shaped(b) && InBounds(b, p) && !At(b, p).isClue && At(b, p).value == 0
    requires 1 <= v <= 9
    ensures Below(Assign(b, p, v), b)
    ensures Extends(b, Assign(b, p, v))
    ensures v in At(b, p).notes ==> FromNotes(b, Assign(b, p, v))
  {
    AssignMeasure(b, p, v);
    AssignFacts(b, p, v);
  }

  /** Reassigning a square that was empty at `b0` keeps `b` an extension of
      `b0`: the necessary-digit rule may write the same square twice. */
  lemma AssignExtendsFrom(b0: Board, b: Board, p: Pos, v: int)
    requires Extends(b0, b) && InBounds(b, p) && At(b0, p).value == 0
    requires 1 <= v <= 9
    ensures Extends(b0, Assign(b, p, v))
    ensures Total(Empties, Assign(b, p, v)) <= Total(Empties, b)
  {
    AssignMeasure(b, p, v);
    AssignKeepsExtends(b0, b, p, v);
  }

  lemma AssignKeepsExtends(b0: Board, b: Board, p: Pos, v: int)
    requires Extends(b0, b) && InBounds(b, p) && At(b0, p).value == 0
    requires 1 <= v <= 9
    ensures Extends(b0, Assign(b, p, v))
  {
    AssignFacts(b, p, v);
    var b' := Assign(b, p, v);
    forall q | InBounds(b0, q)
      ensures Frame(At(b0, q), At(b', q))
      ensures At(b0, q).value != 0 ==> At(b', q).value == At(b0, q).value
      ensures At(b', q).value != At(b0, q).value ==> 1 <= At(b', q).value <= 9
    {
      assert Frame(At(b0, q), At(b, q)) && Frame(At(b, q), At(b', q));
    }
  }

  /** Assigning a square a digit it noted at `b0` keeps every change since
      `b0` drawn from `b0`'s notes. */
  lemma AssignFromNotes(b0: Board, b: Board, p: Pos, v: int)
    requires FromNotes(b0, b) && InBounds(b, p) && At(b0, p).value == 0
    requires 1 <= v <= 9 && v in At(b0, p).notes
    ensures FromNotes(b0, Assign(b, p, v))
  {
    var b' := Assign(b, p, v);
    AssignExtendsFrom(b0, b, p, v);
    forall q | InBounds(b0, q) && q != p
      ensures At(b', q).value == At(b, q).value && At(b', q).notes <= At(b, q).notes
    {
    }
  }

  // ---------------------------------------------------------------------------
  // Agreement with a solution

  /** `s` is a completion of `b`: same layout and clues, every value of `b`
      kept, and every empty square of `b` filled with one of its notes. The
      note rules must never take away the digit such an `s` puts there. */
  ghost predicate Agrees(b: Board, s: Board) {
    && SameLayout(b, s)
    && forall q :: InBounds(b, q) ==>
         && (At(b, q).isClue ==>
               At(s, q).downClue == At(b, q).downClue && At(s, q).rightClue == At(b, q).rightClue)
         && (!At(b, q).isClue && At(b, q).value != 0 ==> At(s, q).value == At(b, q).value)
         && (!At(b, q).isClue && At(b, q).value == 0 ==> At(s, q).value in At(b, q).notes)
  }

  /** Deleting notes along a run keeps a completion when no deleted note was
      the completion's digit. */
  lemma AgreesRestrict(b: Board, ps: seq<Pos>, keeps: seq<NoteSet>, s: Board)
    requires Shaped(b) && forall i :: 0 <= i < |ps| ==> InBounds(b, ps[i])
    requires forall i, j :: 0 <= i < j < |ps| ==> ps[i] != ps[j]
    requires |keeps| == |ps|
    requires Agrees(b, s)
    requires forall i :: 0 <= i < |ps| && !At(b, ps[i]).isClue && At(b, ps[i]).value == 0 ==>
      At(s, ps[i]).value in keeps[i]
    ensures Agrees(RestrictRun(b, ps, keeps).board, s)
  {
    var o := RestrictRun(b, ps, keeps);
    forall q | InBounds(b, q) && !At(b, q).isClue && At(b, q).value == 0
      ensures At(s, q).value in At(o.board, q).notes
    {
      if q in ps {
        var i :| 0 <= i < |ps| && ps[i] == q;
        assert At(o.board, q).notes == At(b, q).notes * keeps[i];
      }
    }
    AgreesShrunk(b, o.board, s);
  }

  lemma AgreesShrunk(b: Board, b': Board, s: Board)
    requires NotesShrunk(b, b') && Agrees(b, s)
    requires forall q :: InBounds(b, q) && !At(b, q).isClue && At(b, q).value == 0 ==>
      At(s, q).value in At(b', q).notes
    ensures Agrees(b', s)
  {
  }

  /** No two squares that see each other hold the same value: the digits of
      every run are pairwise different, whether or not the run has a clue. */
  ghost predicate NoRepeats(s: Board)
    requires Shaped(s)
  {
    forall p, q :: InBounds(s, p) && InBounds(s, q) && !At(s, p).isClue && Sees(s, p, q) ==>
      At(s, p).value != At(s, q).value
  }

  /** Writing into a square the digit a repeat-free completion has there keeps
      the completion: the digit is struck only from squares that see it. */
  lemma AssignAgrees(b: Board, p: Pos, s: Board)
    requires Agrees(b, s) && NoRepeats(s) && InBounds(b, p) && !At(b, p).isClue
    requires 1 <= At(s, p).value <= 9
    ensures Agrees(Assign(b, p, At(s, p).value), s)
  {
    var v := At(s, p).value;
    var b' := Assign(b, p, v);
    AssignLayout(b, p, v);
    forall q | InBounds(b', q)
      ensures At(b', q).isClue ==>
        At(s, q).downClue == At(b', q).downClue && At(s, q).rightClue == At(b', q).rightClue
      ensures !At(b', q).isClue && At(b', q).value != 0 ==> At(s, q).value == At(b', q).value
      ensures !At(b', q).isClue && At(b', q).value == 0 ==> At(s, q).value in At(b', q).notes
    {
      AssignAgreesAt(b, p, s, q);
    }
  }

  /** One square of `AssignAgrees`: the assigned square holds the
      completion's digit, a square it sees loses only that digit, which the
      completion does not put there, and every other square is untouched. */
  lemma AssignAgreesAt(b: Board, p: Pos, s: Board, q: Pos)
    requires Agrees(b, s) && NoRepeats(s) && InBounds(b, p) && !At(b, p).isClue
    requires 1 <= At(s, p).value <= 9 && InBounds(b, q)
    ensures var b' := Assign(b, p, At(s, p).value);
      && (At(b', q).isClue ==>
        At(s, q).downClue == At(b', q).downClue && At(s, q).rightClue == At(b', q).rightClue)
      && (!At(b', q).isClue && At(b', q).value != 0 ==> At(s, q).value == At(b', q).value)
      && (!At(b', q).isClue && At(b', q).value == 0 ==> At(s, q).value in At(b', q).notes)
  {
    var v := At(s, p).value;
    var b' := Assign(b, p, v);
    if q == p {
      assert At(b', q).value == v;
    } else if Sees(b, p, q) {
      SeesSameLayout(b, s, p);
      assert At(b', q) == SetNote(At(b, q), v, false);
      assert At(b', q).notes == At(b, q).notes - {v};
      assert At(s, p).value != At(s, q).value;
    } else {
      assert At(b', q) == At(b, q);
    }
  }

  /** The combination list a clue square keeps for one direction. */
  function CombosOf(x: Cell, d: Dir): seq<Combo> {
    if d == Down then x.downCombos else x.rightCombos
  }

  /** The clue a clue square carries for direction `d`. */
  function ClueIn(x: Cell, d: Dir): int {
    if d == Down then x.downClue else x.rightClue
  }

  /** The run of `p` in direction `d` has a nonzero clue and at least one
      square: the runs the combination table lists anything for. */
  ghost predicate Clued(b: Board, p: Pos, d: Dir)
    requires Shaped(b) && InBounds(b, p)
  {
    At(b, p).isClue && (d == Right || d == Down) && ClueIn(At(b, p), d) != 0 && |Ray(b, p, d)| > 0
  }

  /** Every run with a square in it has a nonzero clue. */
  ghost predicate WellClued(b: Board)
    requires Shaped(b)
  {
    forall p, d :: InBounds(b, p) && At(b, p).isClue && (d == Right || d == Down) && |Ray(b, p, d)| > 0 ==>
      ClueIn(At(b, p), d) != 0
  }

  /** For every run of `s` with a clue, some listed combination holds every
      digit `s` puts on the run: the lists have not lost the solution's set. */
  ghost predicate Covers(b: Board, s: Board) {
    && SameLayout(b, s)
    && forall p, d :: InBounds(s, p) && Clued(s, p, d) ==> Listed(b, p, d, s)
  }

  ghost predicate Listed(b: Board, p: Pos, d: Dir, s: Board)
    requires SameLayout(b, s) && InBounds(b, p)
  {
    RayFacts(b, p, d);
    var cs := CombosOf(At(b, p), d);
    exists i :: 0 <= i < |cs| && forall q :: q in Ray(b, p, d) ==> At(s, q).value in cs[i]
  }

  /** A listed combination that holds every digit of the run is a witness. */
  lemma ListedBy(b: Board, p: Pos, d: Dir, s: Board, x: Combo)
    requires SameLayout(b, s) && InBounds(b, p)
    requires x in CombosOf(At(b, p), d)
    requires forall q :: q in Ray(b, p, d) && InBounds(s, q) ==> At(s, q).value in x
    ensures Listed(b, p, d, s)
  {
    RayFacts(b, p, d);
    var cs := CombosOf(At(b, p), d);
    var j :| 0 <= j < |cs| && cs[j] == x;
  }

  /** On a well-clued puzzle every run of a clue square is either empty or
      covered. */
  lemma CoveredRun(b: Board, p: Pos, d: Dir, s: Board)
    requires Covers(b, s) && WellClued(s) && InBounds(b, p) && At(b, p).isClue
    requires d == Right || d == Down
    ensures |Ray(b, p, d)| == 0 || Listed(b, p, d, s)
  {
    RaySameLayout(b, s, p, d);
    if |Ray(b, p, d)| > 0 {
      assert Clued(s, p, d);
    }
  }

  /** Deleting notes touches neither the layout nor the lists. */
  lemma CoversShrunk(b: Board, b': Board, s: Board)
    requires NotesShrunk(b, b') && Covers(b, s)
    ensures Covers(b', s)
  {
    assert SameLayout(b, b');
    assert SameLayout(b', s);
    forall p, d | InBounds(s, p) && Clued(s, p, d)
      ensures Listed(b', p, d, s)
    {
      RaySameLayout(b, b', p, d);
      RayFacts(b, p, d);
      assert Listed(b, p, d, s);
      var cs := CombosOf(At(b, p), d);
      assert CombosOf(At(b', p), d) == cs;
      var i :| 0 <= i < |cs| && forall q :: q in Ray(b, p, d) ==> At(s, q).value in cs[i];
      assert forall q :: q in Ray(b', p, d) ==> At(s, q).value in cs[i];
    }
  }

  // ---------------------------------------------------------------------------
  // The invariant the rules keep

  /** Every combination listed for a run has as many digits as the run has
      squares, as the table entries the first pass writes do. */
  ghost predicate ListsFit(b: Board)
    requires Shaped(b)
  {
    forall p, d, k ::
      (InBounds(b, p) && At(b, p).isClue && (d == Right || d == Down) && 0 <= k < |CombosOf(At(b, p), d)|) ==>
        |CombosOf(At(b, p), d)[k]| == |Ray(b, p, d)|
  }

  /** No empty square notes a digit that a fill-in square seeing it already
      holds: every assignment erases its digit from the squares it sees. */
  ghost predicate NoStale(b: Board)
    requires Shaped(b)
  {
    forall r, q ::
      (InBounds(b, r) && InBounds(b, q) && !At(b, r).isClue && At(b, r).value != 0 &&
       Sees(b, r, q) && At(b, q).value == 0) ==>
        At(b, r).value !in At(b, q).notes
  }

  /** A fill-in square with a value notes at most one digit: an assignment
      leaves an unfixed square noting its own value and a fixed one noting
      nothing. */
  ghost predicate FilledFew(b: Board)
    requires Shaped(b)
  {
    forall q :: InBounds(b, q) && !At(b, q).isClue && At(b, q).value != 0 ==> |At(b, q).notes| <= 1
  }

  /** The board facts the rules rely on beyond the notes and lists. */
  ghost predicate Tidy(b: Board) {
    Shaped(b) && ListsFit(b) && NoStale(b) && FilledFew(b)
  }

  /** A tidy board whose notes and lists keep the completion `s`. */
  ghost predicate Tracks(b: Board, s: Board) {
    Agrees(b, s) && Covers(b, s) && Tidy(b)
  }

  /** `b'` has the layout and the combination lists of `b`. */
  ghost predicate ListsKept(b: Board, b': Board) {
    && SameLayout(b, b')
    && forall q :: InBounds(b, q) ==>
         At(b', q).downCombos == At(b, q).downCombos && At(b', q).rightCombos == At(b, q).rightCombos
  }

  lemma ListsKeptTrans(a: Board, b: Board, c: Board)
    requires ListsKept(a, b) && ListsKept(b, c)
    ensures ListsKept(a, c)
  {
  }

  /** The lists and the runs decide both `ListsFit` and `Covers`. */
  lemma ListsKeptFacts(b: Board, b': Board, s: Board)
    requires ListsKept(b, b')
    ensures ListsFit(b) ==> ListsFit(b')
    ensures Covers(b, s) ==> Covers(b', s)
  {
    forall p, d | InBounds(b, p) && (d == Right || d == Down)
      ensures Ray(b', p, d) == Ray(b, p, d) && CombosOf(At(b', p), d) == CombosOf(At(b, p), d)
    {
      RaySameLayout(b, b', p, d);
    }
    if Covers(b, s) {
      forall p, d | InBounds(s, p) && Clued(s, p, d)
        ensures Listed(b', p, d, s)
      {
        assert Listed(b, p, d, s);
        RayFacts(b, p, d);
        var cs := CombosOf(At(b, p), d);
        var i :| 0 <= i < |cs| && forall q :: q in Ray(b, p, d) ==> At(s, q).value in cs[i];
        assert forall q :: q in Ray(b', p, d) ==> At(s, q).value in cs[i];
      }
    }
  }

  lemma SubsetCard(a: set<int>, c: set<int>)
    requires a <= c
    ensures |a| <= |c|
  {
    assert c == a + (c - a);
    assert a * (c - a) == {};
  }

  /** Deleting notes keeps the lists and the invariant. */
  lemma NotesShrunkTidy(b: Board, b': Board)
    requires NotesShrunk(b, b') && Tidy(b)
    ensures ListsKept(b, b') && Tidy(b')
  {
    assert SameLayout(b, b');
    ListsKeptFacts(b, b', b);
    forall r | InBounds(b, r)
      ensures forall q :: Sees(b', r, q) == Sees(b, r, q)
    {
      SeesSameLayout(b', b, r);
    }
    forall q | InBounds(b', q) && !At(b', q).isClue && At(b', q).value != 0
      ensures |At(b', q).notes| <= 1
    {
      SubsetCard(At(b', q).notes, At(b, q).notes);
    }
  }

  /** An assignment writes values and notes only. */
  lemma AssignListsKept(b: Board, p: Pos, v: int)
    requires Shaped(b) && InBounds(b, p) && 0 <= v <= 9
    ensures ListsKept(b, Assign(b, p, v))
  {
    AssignFacts(b, p, v);
  }

  /** An assignment keeps the lists, and the invariant: the new value is
      erased from every square the assigned square sees. */
  lemma AssignTidy(b: Board, p: Pos, v: int)
    requires Tidy(b) && InBounds(b, p) && !At(b, p).isClue && 1 <= v <= 9
    ensures ListsKept(b, Assign(b, p, v)) && Tidy(Assign(b, p, v))
  {
    var b' := Assign(b, p, v);
    AssignListsKept(b, p, v);
    ListsKeptFacts(b, b', b);
    AssignFilledFew(b, p, v);
    AssignNoStale(b, p, v);
  }

  lemma AssignFilledFew(b: Board, p: Pos, v: int)
    requires Shaped(b) && FilledFew(b) && InBounds(b, p) && 1 <= v <= 9
    ensures FilledFew(Assign(b, p, v))
  {
    var b' := Assign(b, p, v);
    forall q | InBounds(b', q) && !At(b', q).isClue && At(b', q).value != 0
      ensures |At(b', q).notes| <= 1
    {
      if q != p {
        SubsetCard(At(b', q).notes, At(b, q).notes);
      }
    }
  }

  lemma AssignNoStale(b: Board, p: Pos, v: int)
    requires Shaped(b) && NoStale(b) && InBounds(b, p) && !At(b, p).isClue && 1 <= v <= 9
    ensures NoStale(Assign(b, p, v))
  {
    var b' := Assign(b, p, v);
    AssignLayout(b, p, v);
    forall r, q | InBounds(b', r) && InBounds(b', q) && !At(b', r).isClue && At(b', r).value != 0 &&
      Sees(b', r, q) && At(b', q).value == 0
      ensures At(b', r).value !in At(b', q).notes
    {
      SeesSameLayout(b', b, r);
      AssignTidyAt(b, p, v, r, q);
    }
  }

  /** One pair of squares of `AssignTidy`: the assigned square sees `q` and
      erased its digit there; any other square kept its value while `q`'s
      notes only shrank. */
  lemma AssignTidyAt(b: Board, p: Pos, v: int, r: Pos, q: Pos)
    requires Shaped(b) && NoStale(b) && InBounds(b, p) && !At(b, p).isClue && 1 <= v <= 9
    requires InBounds(b, r) && InBounds(b, q) && Sees(b, r, q)
    requires var b' := Assign(b, p, v);
      !At(b', r).isClue && At(b', r).value != 0 && At(b', q).value == 0
    ensures var b' := Assign(b, p, v); At(b', r).value !in At(b', q).notes
  {
    var b' := Assign(b, p, v);
    assert q != p;
    if r == p {
      assert At(b', q) == SetNote(At(b, q), v, false);
    } else {
      assert At(b', r).value == At(b, r).value;
      assert At(b', q).value == At(b, q).value && At(b', q).notes <= At(b, q).notes;
    }
  }

  /** Writing the completion's own digit keeps tracking it. */
  lemma AssignTracks(b: Board, p: Pos, s: Board)
    requires Tracks(b, s) && NoRepeats(s) && InBounds(b, p) && !At(b, p).isClue
    requires 1 <= At(s, p).value <= 9
    ensures Tracks(Assign(b, p, At(s, p).value), s)
  {
    AssignAgrees(b, p, s);
    AssignTidy(b, p, At(s, p).value);
    ListsKeptFacts(b, Assign(b, p, At(s, p).value), s);
  }

  /** Deleting notes that the completion does not use keeps tracking it. */
  lemma ShrunkTracks(b: Board, b': Board, s: Board)
    requires NotesShrunk(b, b') && Tracks(b, s) && Agrees(b', s)
    ensures Tracks(b', s)
  {
    NotesShrunkTidy(b, b');
    ListsKeptFacts(b, b', s);
  }
}

=== FILE: snapshot.dfy ===
/** The flat CellInfo vector of common.h: getCellsInfoFromCellArray takes a
    row-major snapshot of the board and updateCellArray writes one back. The
    brute-force search uses the pair to undo a failed guess, and the KAK
    reader and writer go through the same vector. */
module Snapshots {
  import opened Cells
  import opened Boards

  /** CellInfo: `first` and `second` are valueOrClues[0] and [1]; `noteMode`
      and `notes` are the ten note slots. */
  datatype CellInfo = CellInfo(
    isClue: bool, first: int, second: int, noteMode: bool, notes: NoteSet, fixed: bool)

  /** The reused local CellInfo before its first write. The source leaves it
      uninitialised; the model starts it blank. */
  const Unset: CellInfo := CellInfo(false, 0, 0, false, {}, false)

  /** One loop iteration of getCellsInfoFromCellArray: a clue square writes
      type and both clues, a fill-in square writes type, value and notes, and
      every square writes the fixed flag. Fields a square does not write keep
      whatever the previous square left in the reused record. */
  function Capture(carry: CellInfo, x: Cell): CellInfo {
    if x.isClue then carry.(isClue := true, first := x.downClue, second := x.rightClue, fixed := x.fixed)
    else carry.(isClue := false, first := x.value, noteMode := x.noteMode, notes := x.notes, fixed := x.fixed)
  }

  /** The fields of an entry that describe its own square. */
  predicate Records(ci: CellInfo, x: Cell) {
    && ci.isClue == x.isClue && ci.fixed == x.fixed
    && (x.isClue ==> ci.first == x.downClue && ci.second == x.rightClue)
    && (!x.isClue ==> ci.first == x.value && ci.noteMode == x.noteMode && ci.notes == x.notes)
  }

  function SnapshotFrom(b: Board, ps: seq<Pos>, carry: CellInfo): (infos: seq<CellInfo>)
    requires Shaped(b) && forall i :: 0 <= i < |ps| ==> InBounds(b, ps[i])
    ensures |infos| == |ps|
    ensures forall i :: 0 <= i < |ps| ==> Records(infos[i], At(b, ps[i]))
  {
    if |ps| == 0 then []
    else
      var ci := Capture(carry, At(b, ps[0]));
      [ci] + SnapshotFrom(b, ps[1..], ci)
  }

  /** getCellsInfoFromCellArray: one entry per square in row-major order,
      each recording its own square. */
  function Snapshot(b: Board): (infos: seq<CellInfo>)
    requires Shaped(b)
    ensures |infos| == |RowMajor(b)| == b.rows * b.cols
    ensures forall i :: 0 <= i < |infos| ==> Records(infos[i], At(b, RowMajor(b)[i]))
  {
    SnapshotFrom(b, RowMajor(b), Unset)
  }

  /** One loop iteration of updateCellArray. A clue entry sets the type and
      both clues, a fill-in entry sets the type, the value (through setValue,
      so out-of-range values are dropped) and all ten note slots; every entry
      sets the fixed flag. Nothing else of the square changes. */
  function RestoreCell(x: Cell, ci: CellInfo): Cell {
    var y :=
      if ci.isClue then x.(isClue := true, downClue := ci.first, rightClue := ci.second)
      else SetValue(x.(isClue := false), ci.first).(noteMode := ci.noteMode, notes := ci.notes);
    y.(fixed := ci.fixed)
  }

  /** `b'` is `b` with the first `|infos|` squares of `ps` restored from
      `infos` and every other square as it was. */
  ghost predicate Restored(b: Board, ps: seq<Pos>, infos: seq<CellInfo>, b': Board)
    requires Shaped(b) && forall i :: 0 <= i < |ps| ==> InBounds(b, ps[i])
    requires |infos| <= |ps|
  {
    && Shaped(b') && b'.rows == b.rows && b'.cols == b.cols
    && (forall i :: 0 <= i < |ps| ==> InBounds(b', ps[i]))
    && (forall i :: 0 <= i < |infos| ==> At(b', ps[i]) == RestoreCell(At(b, ps[i]), infos[i]))
    && (forall q :: InBounds(b, q) && q !in ps[..|infos|] ==> At(b', q) == At(b, q))
  }

  function RestoreFrom(b: Board, ps: seq<Pos>, infos: seq<CellInfo>): (b': Board)
    requires Shaped(b) && forall i :: 0 <= i < |ps| ==> InBounds(b, ps[i])
    requires forall i, j :: 0 <= i < j < |ps| ==> ps[i] != ps[j]
    requires |infos| <= |ps|
    ensures Shaped(b') && b'.rows == b.rows && b'.cols == b.cols
    ensures Restored(b, ps, infos, b')
    decreases |infos|
  {
    if |infos| == 0 then b
    else
      var x := RestoreCell(At(b, ps[0]), infos[0]);
      var b1 := Put(b, ps[0], x);
      var b' := RestoreFrom(b1, ps[1..], infos[1..]);
      RestoredCons(b, ps, infos, b1, b');
      b'
  }

  /** Restoring the head square first, then the rest. */
  lemma RestoredCons(b: Board, ps: seq<Pos>, infos: seq<CellInfo>, b1: Board, b': Board)
    requires Shaped(b) && forall i :: 0 <= i < |ps| ==> InBounds(b, ps[i])
    requires forall i, j :: 0 <= i < j < |ps| ==> ps[i] != ps[j]
    requires 0 < |infos| <= |ps|
    requires b1 == Put(b, ps[0], RestoreCell(At(b, ps[0]), infos[0]))
    requires Restored(b1, ps[1..], infos[1..], b')
    ensures Restored(b, ps, infos, b')
  {
    forall i | 0 <= i < |infos|
      ensures At(b', ps[i]) == RestoreCell(At(b, ps[i]), infos[i])
    {
      if i == 0 {
        assert ps[0] !in ps[1..][..|infos| - 1];
      } else {
        assert ps[i] == ps[1..][i - 1] && ps[i] != ps[0];
      }
    }
    forall q | InBounds(b, q) && q !in ps[..|infos|]
      ensures At(b', q) == At(b, q)
    {
      assert q != ps[0] && q !in ps[1..][..|infos| - 1];
    }
  }

  /** updateCellArray(info): entry `k` goes to square (k / cols, k % cols),
      so the vector may not be longer than the board. */
  function Restore(b: Board, infos: seq<CellInfo>): (b': Board)
    requires Shaped(b) && |infos| <= b.rows * b.cols
    ensures Shaped(b') && b'.rows == b.rows && b'.cols == b.cols
    ensures forall i :: 0 <= i < |infos| ==>
      At(b', RowMajor(b)[i]) == RestoreCell(At(b, RowMajor(b)[i]), infos[i])
  {
    RowMajorDistinct(b);
    RestoreFrom(b, RowMajor(b), infos)
  }

  /** Writing a snapshot of `b` back onto a board `x` of the same shape puts
      back `b`'s layout, clues, fixed flags, notes and (in-range) values, and
      keeps `x`'s metadata and combination lists. */
  lemma RestoreSnapshot(b: Board, x: Board)
    requires Shaped(b) && Shaped(x) && b.rows == x.rows && b.cols == x.cols
    ensures |Snapshot(b)| <= x.rows * x.cols
    ensures var y := Restore(x, Snapshot(b));
      forall q :: InBounds(b, q) ==>
        && At(y, q).isClue == At(b, q).isClue
        && At(y, q).fixed == At(b, q).fixed
        && (At(b, q).isClue ==>
              && At(y, q).downClue == At(b, q).downClue && At(y, q).rightClue == At(b, q).rightClue
              && At(y, q).value == At(x, q).value && At(y, q).notes == At(x, q).notes)
        && (!At(b, q).isClue ==>
              && At(y, q).notes == At(b, q).notes && At(y, q).noteMode == At(b, q).noteMode
              && At(y, q).downClue == At(x, q).downClue && At(y, q).rightClue == At(x, q).rightClue
              && At(y, q).value == (if 0 <= At(b, q).value <= 9 then At(b, q).value else At(x, q).value))
        && At(y, q).selected == At(x, q).selected
        && At(y, q).numInDown == At(x, q).numInDown && At(y, q).numInRight == At(x, q).numInRight
        && At(y, q).downCombos == At(x, q).downCombos && At(y, q).rightCombos == At(x, q).rightCombos
  {
    var y := Restore(x, Snapshot(b));
    var ps := RowMajor(b);
    assert RowMajor(x) == ps;
    forall q | InBounds(b, q)
      ensures At(y, q) == RestoreCell(At(x, q), Snapshot(b)[IndexOf(ps, q)])
      ensures Records(Snapshot(b)[IndexOf(ps, q)], At(b, q))
    {
    }
  }

  function IndexOf(ps: seq<Pos>, q: Pos): (i: int)
    requires q in ps
    ensures 0 <= i < |ps| && ps[i] == q
  {
    if ps[0] == q then 0 else 1 + IndexOf(ps[1..], q)
  }
}

=== FILE: solved.dfy ===
/** The win test of puzzleboard.cpp: checkSolved and the run-sum helpers
    getValidDownSumFromCell / getValidRightSumFromCell. */
module Solved {
  import Combos
  import opened Cells
  import opened Boards

  /** The values along a run, in order. */
  function RunValues(b: Board, p: Pos, d: Dir): (vs: seq<int>)
    requires Shaped(b)
    ensures |vs| == |Ray(b, p, d)|
  {
    RayFacts(b, p, d);
    var ps := Ray(b, p, d);
    seq(|ps|, i requires 0 <= i < |ps| => At(b, ps[i]).value)
  }

  predicate Distinct(vs: seq<int>) {
    forall i, j :: 0 <= i < j < |vs| ==> vs[i] != vs[j]
  }

  /** The walk with the `used` flags: -1 as soon as a value repeats,
      otherwise the running sum. */
  function ValidSumFrom(vs: seq<int>, used: set<int>, sum: int): int {
    if |vs| == 0 then sum
    else if vs[0] in used then -1
    else ValidSumFrom(vs[1..], used + {vs[0]}, sum + vs[0])
  }

  function ValidSum(vs: seq<int>): int {
    ValidSumFrom(vs, {}, 0)
  }

  lemma {:induction false} ValidSumFromMeaning(vs: seq<int>, used: set<int>, sum: int)
    ensures ValidSumFrom(vs, used, sum) ==
      if Distinct(vs) && (forall i :: 0 <= i < |vs| ==> vs[i] !in used)
      then sum + Combos.Sum(vs) else -1
  {
    if |vs| > 0 {
      ValidSumFromMeaning(vs[1..], used + {vs[0]}, sum + vs[0]);
      if vs[0] !in used {
        var good := Distinct(vs) && (forall i :: 0 <= i < |vs| ==> vs[i] !in used);
        var rest := Distinct(vs[1..]) && (forall i :: 0 <= i < |vs| - 1 ==> vs[1..][i] !in used + {vs[0]});
        if good {
          assert rest;
        }
        if rest {
          forall i, j | 0 <= i < j < |vs|
            ensures vs[i] != vs[j]
          {
            if i == 0 {
              assert vs[j] == vs[1..][j - 1];
            } else {
              assert vs[i] == vs[1..][i - 1] && vs[j] == vs[1..][j - 1];
            }
          }
          forall i | 0 <= i < |vs|
            ensures vs[i] !in used
          {
            if i > 0 {
              assert vs[i] == vs[1..][i - 1];
            }
          }
        }
      }
    }
  }

  /** getValid*SumFromCell: the sum of the run when its values are pairwise
      different, -1 when one repeats. */
  lemma ValidSumMeaning(vs: seq<int>)
    ensures ValidSum(vs) == if Distinct(vs) then Combos.Sum(vs) else -1
  {
    ValidSumFromMeaning(vs, {}, 0);
  }

  function CheckFrom(b: Board, ps: seq<Pos>): bool
    requires Shaped(b) && forall i :: 0 <= i < |ps| ==> InBounds(b, ps[i])
  {
    if |ps| == 0 then true
    else
      var x := At(b, ps[0]);
      if !x.isClue then
        if x.value == 0 then false else CheckFrom(b, ps[1..])
      else if x.downClue != 0 && ValidSum(RunValues(b, ps[0], Down)) != x.downClue then false
      else if x.rightClue != 0 && ValidSum(RunValues(b, ps[0], Right)) != x.rightClue then false
      else CheckFrom(b, ps[1..])
  }

  /** checkSolved: the row-major scan that stops at the first empty square or
      unmet clue. */
  function CheckSolved(b: Board): bool
    requires Shaped(b)
  {
    CheckFrom(b, RowMajor(b))
  }

  /** A clue is met by its run when it is 0 (no run to check) or the run holds
      pairwise different values adding up to it. */
  predicate Meets(clue: int, vs: seq<int>) {
    clue == 0 || (Distinct(vs) && Combos.Sum(vs) == clue)
  }

  predicate SquareOk(b: Board, q: Pos)
    requires Shaped(b) && InBounds(b, q)
  {
    var x := At(b, q);
    if x.isClue then Meets(x.downClue, RunValues(b, q, Down)) && Meets(x.rightClue, RunValues(b, q, Right))
    else x.value != 0
  }

  /** The puzzle rules, stated without the scan: every fill-in square has a
      value and every clue is met. Clues are taken non-negative (they are
      sums of digits); a negative clue of -1 would be met by a repeat. */
  ghost predicate Solution(b: Board)
    requires Shaped(b)
  {
    forall q :: InBounds(b, q) ==> SquareOk(b, q)
  }

  /** Every fill-in square holds a digit from 1 to 9. */
  ghost predicate DigitsOnly(b: Board)
    requires Shaped(b)
  {
    forall q :: InBounds(b, q) && !At(b, q).isClue ==> 1 <= At(b, q).value <= 9
  }

  ghost predicate CluesNonNegative(b: Board)
    requires Shaped(b)
  {
    forall q :: InBounds(b, q) && At(b, q).isClue ==> 0 <= At(b, q).downClue && 0 <= At(b, q).rightClue
  }

  lemma {:induction false} CheckFromMeaning(b: Board, ps: seq<Pos>)
    requires Shaped(b) && forall i :: 0 <= i < |ps| ==> InBounds(b, ps[i])
    requires CluesNonNegative(b)
    ensures CheckFrom(b, ps) <==> forall i :: 0 <= i < |ps| ==> SquareOk(b, ps[i])
  {
    if |ps| > 0 {
      CheckFromMeaning(b, ps[1..]);
      CheckHead(b, ps);
      OkCons(b, ps);
    }
  }

  /** One step of the scan checks exactly the square it visits. */
  lemma CheckHead(b: Board, ps: seq<Pos>)
    requires Shaped(b) && 0 < |ps| && forall i :: 0 <= i < |ps| ==> InBounds(b, ps[i])
    requires CluesNonNegative(b)
    ensures CheckFrom(b, ps) == (SquareOk(b, ps[0]) && CheckFrom(b, ps[1..]))
  {
    ValidSumMeaning(RunValues(b, ps[0], Down));
    ValidSumMeaning(RunValues(b, ps[0], Right));
  }

  lemma OkCons(b: Board, ps: seq<Pos>)
    requires Shaped(b) && 0 < |ps| && forall i :: 0 <= i < |ps| ==> InBounds(b, ps[i])
    ensures (forall i :: 0 <= i < |ps| ==> SquareOk(b, ps[i])) <==>
      SquareOk(b, ps[0]) && forall i :: 0 <= i < |ps| - 1 ==> SquareOk(b, ps[1..][i])
  {
    if SquareOk(b, ps[0]) && forall i :: 0 <= i < |ps| - 1 ==> SquareOk(b, ps[1..][i]) {
      forall i | 0 < i < |ps|
        ensures SquareOk(b, ps[i])
      {
        assert ps[i] == ps[1..][i - 1];
      }
    }
  }

  /** checkSolved answers yes exactly on solutions. */
  lemma CheckSolvedMeaning(b: Board)
    requires Shaped(b) && CluesNonNegative(b)
    ensures CheckSolved(b) <==> Solution(b)
  {
    var ps := RowMajor(b);
    CheckFromMeaning(b, ps);
    if CheckSolved(b) {
      forall q | InBounds(b, q)
        ensures SquareOk(b, q)
      {
        var i :| 0 <= i < |ps| && ps[i] == q;
      }
    }
  }

  /** A solved board has no empty square left. */
  lemma SolvedHasNoEmpty(b: Board)
    requires Shaped(b)
    ensures CheckSolved(b) ==> !HasEmptyCells(b)
  {
    if CheckSolved(b) {
      CheckFromFilled(b, RowMajor(b));
    }
  }

  lemma {:induction false} CheckFromFilled(b: Board, ps: seq<Pos>)
    requires Shaped(b) && forall i :: 0 <= i < |ps| ==> InBounds(b, ps[i])
    requires CheckFrom(b, ps)
    ensures !HasEmptyIn(b, ps)
  {
    if |ps| > 0 {
      CheckFromFilled(b, ps[1..]);
    }
  }

  /** The scan reads only values, clue flags and clue sums, so boards that
      agree on those agree on the verdict. */
  lemma CheckSolvedSameValues(a: Board, b: Board)
    requires SameLayout(a, b)
    requires forall q :: InBounds(a, q) ==>
      At(a, q).value == At(b, q).value && At(a, q).downClue == At(b, q).downClue
      && At(a, q).rightClue == At(b, q).rightClue
    ensures CheckSolved(a) == CheckSolved(b)
  {
    forall p, d
      ensures RunValues(a, p, d) == RunValues(b, p, d)
    {
      RaySameLayout(a, b, p, d);
      RayFacts(a, p, d);
    }
    CheckFromSame(a, b, RowMajor(a));
  }

  lemma {:induction false} CheckFromSame(a: Board, b: Board, ps: seq<Pos>)
    requires SameLayout(a, b) && forall i :: 0 <= i < |ps| ==> InBounds(a, ps[i])
    requires forall q :: InBounds(a, q) ==>
      At(a, q).value == At(b, q).value && At(a, q).downClue == At(b, q).downClue
      && At(a, q).rightClue == At(b, q).rightClue
    requires forall p, d :: RunValues(a, p, d) == RunValues(b, p, d)
    ensures CheckFrom(a, ps) == CheckFrom(b, ps)
  {
    if |ps| > 0 {
      CheckFromSame(a, b, ps[1..]);
    }
  }
}

=== FILE: solver.dfy ===
/** The solver drivers of puzzleboard.cpp: logicSolve runs the propagation
    rules to a fixed point, smartBruteForceSolve guesses on the most
    constrained empty square and undoes failed guesses from a snapshot, and
    solve prepares the board and chains the two. */
module Solver {
  import opened Cells
  import opened Boards
  import opened Scans
  import opened Solved
  import Snapshots
  import opened Meta
  import Singles
  import Ranges
  import ComboFilter
  import Uniques
  import Necessary
  import NakedSubsets
  import ComboNotes

  /** A driver's answer: the board it leaves and whether it reports solved. */
  datatype Verdict = Verdict(board: Board, solved: bool)

  // ---------------------------------------------------------------------------
  // logicSolve

  /** The rules of the nested do-while, innermost first:
      writeCellsWithOneNoteAndRemoveDupNotes, adjustNotesByLogicalRange,
      updateClueCellCombos, solveUniquesWithOneEmpty,
      solveCellsWithNecessaryValue, removeExtraNotesFromUniques and
      removeNotesNotInPossibleCombos. */
  function Pass(k: int, b: Board): (o: Outcome)
    requires Shaped(b) && 0 <= k < 7
    ensures Shaped(o.board) && o.board.rows == b.rows && o.board.cols == b.cols
    ensures Progress(b, o.board, o.changed) && Extends(b, o.board)
  {
    if k == 0 then Singles.WriteCellsWithOneNote(b)
    else if k == 1 then
      var o := Ranges.AdjustNotesByLogicalRange(b);
      NotesShrunkExtends(b, o.board);
      o
    else if k == 2 then ComboFilter.UpdateClueCellCombos(b)
    else if k == 3 then Uniques.SolveUniquesWithOneEmpty(b)
    else if k == 4 then Necessary.SolveCellsWithNecessaryValue(b)
    else if k == 5 then
      var o := NakedSubsets.RemoveExtraNotesFromUniques(b);
      NotesShrunkExtends(b, o.board);
      o
    else
      var o := ComboNotes.RemoveNotesNotInPossibleCombos(b);
      NotesShrunkExtends(b, o.board);
      o
  }

  /** How many of the rules run: `!lazy && …` short-circuits the outer
      three loop conditions, so a lazy call runs only the first four. */
  function Limit(lazy: bool): int {
    if lazy then 4 else 7
  }

  /** None of the first `limit` rules would change the board. */
  predicate Quiet(b: Board, limit: int)
    requires Shaped(b) && 0 <= limit <= 7
  {
    forall k :: 0 <= k < limit ==> !Pass(k, b).changed
  }

  /** The nested loops as one state machine: rule `k` is next; when it
      changes the board every inner loop starts over at rule 0, otherwise
      the next loop condition, rule `k + 1`, is tried. Rules before `k` are
      quiet on the current board. Each change lowers the (empty squares,
      notes, combinations) triple, which is what ends the loop. */
  function Cycle(b: Board, k: int, limit: int): (b': Board)
    requires Shaped(b) && 0 <= k <= limit <= 7
    requires forall j :: 0 <= j < k ==> !Pass(j, b).changed
    ensures Shaped(b') && b'.rows == b.rows && b'.cols == b.cols
    ensures Extends(b, b') && (b' == b || Below(b', b))
    ensures Quiet(b', limit)
    decreases Total(Empties, b), Total(NoteCount, b), Total(ComboCount, b), limit - k
  {
    if k == limit then b
    else
      var o := Pass(k, b);
      if o.changed then
        var b' := Cycle(o.board, 0, limit);
        ExtendsTrans(b, o.board, b');
        b'
      else Cycle(b, k + 1, limit)
  }

  /** logicSolve(lazy): a board without empty squares is only checked;
      otherwise the rules run to their fixed point and the result is
      checked. */
  function LogicSolve(b: Board, lazy: bool): (v: Verdict)
    requires Shaped(b)
    ensures Shaped(v.board) && v.board.rows == b.rows && v.board.cols == b.cols
    ensures Extends(b, v.board) && (v.board == b || Below(v.board, b))
    ensures HasEmptyCells(b) ==> Quiet(v.board, Limit(lazy))
    ensures !HasEmptyCells(b) ==> v.board == b
    ensures v.solved == CheckSolved(v.board)
  {
    if !HasEmptyCells(b) then Verdict(b, CheckSolved(b))
    else
      var b' := Cycle(b, 0, Limit(lazy));
      Verdict(b', CheckSolved(b'))
  }

  /** Each rule keeps every repeat-free solution, with a clue on each run,
      that the board tracks. */
  lemma PassTracks(k: int, b: Board, s: Board)
    requires 0 <= k < 7 && Tracks(b, s) && Solution(s) && NoRepeats(s) && WellClued(s)
    ensures Tracks(Pass(k, b).board, s)
  {
    if k == 0 {
      Singles.SinglesTracks(b, s);
    } else if k == 1 {
      Ranges.RangesTracks(b, s);
    } else if k == 2 {
      ComboFilter.FilterTracks(b, s);
    } else if k == 3 {
      Uniques.UniquesSound(b, s);
    } else if k == 4 {
      Necessary.NecessaryPassSound(b, s);
    } else if k == 5 {
      NakedSubsets.NakedSound(b, s);
    } else {
      ComboNotes.ComboNotesTracks(b, s);
    }
  }

  lemma {:induction false} CycleTracks(b: Board, k: int, limit: int, s: Board)
    requires Shaped(b) && 0 <= k <= limit <= 7
    requires forall j :: 0 <= j < k ==> !Pass(j, b).changed
    requires Tracks(b, s) && Solution(s) && NoRepeats(s) && WellClued(s)
    ensures Tracks(Cycle(b, k, limit), s)
    decreases Total(Empties, b), Total(NoteCount, b), Total(ComboCount, b), limit - k
  {
    if k < limit {
      var o := Pass(k, b);
      PassTracks(k, b, s);
      if o.changed {
        CycleTracks(o.board, 0, limit, s);
      } else {
        CycleTracks(b, k + 1, limit, s);
      }
    }
  }

  /** The loop never loses a repeat-free solution, with a clue on each run,
      that the board tracks; so a board it fills holds that solution's
      digits, and no other solution of that kind can exist. */
  lemma LogicSolveTracks(b: Board, lazy: bool, s: Board)
    requires Tracks(b, s) && Solution(s) && NoRepeats(s) && WellClued(s)
    ensures Tracks(LogicSolve(b, lazy).board, s)
    ensures !HasEmptyCells(LogicSolve(b, lazy).board) ==>
      forall q :: InBounds(b, q) && !At(b, q).isClue ==> At(LogicSolve(b, lazy).board, q).value == At(s, q).value
  {
    var v := LogicSolve(b, lazy).board;
    if HasEmptyCells(b) {
      CycleTracks(b, 0, Limit(lazy), s);
    }
    if !HasEmptyCells(v) {
      forall q | InBounds(b, q) && !At(b, q).isClue
        ensures At(v, q).value == At(s, q).value
      {
        assert q in RowMajor(v);
      }
    }
  }

  /** A board on which every rule is quiet is a fixed point of the loop. */
  lemma {:induction false} CycleStays(b: Board, k: int, limit: int)
    requires Shaped(b) && 0 <= k <= limit <= 7 && Quiet(b, limit)
    ensures Cycle(b, k, limit) == b
    decreases limit - k
  {
    if k < limit {
      CycleStays(b, k + 1, limit);
    }
  }

  /** logicSolve leaves a board with empty squares alone exactly when none
      of the rules it runs would change it; in particular a lazy call
      ignores the last three rules. */
  lemma LogicSolveFixed(b: Board, lazy: bool)
    requires Shaped(b) && HasEmptyCells(b)
    ensures LogicSolve(b, lazy).board == b <==> Quiet(b, Limit(lazy))
  {
    if Quiet(b, Limit(lazy)) {
      CycleStays(b, 0, Limit(lazy));
    }
  }

  /** Running logicSolve on its own result changes nothing. */
  lemma LogicSolveIdempotent(b: Board, lazy: bool)
    requires Shaped(b)
    ensures LogicSolve(LogicSolve(b, lazy).board, lazy) == LogicSolve(b, lazy)
  {
    var b' := LogicSolve(b, lazy).board;
    if HasEmptyCells(b) && HasEmptyCells(b') {
      LogicSolveFixed(b', lazy);
    }
  }

  /** On boards whose clues are sums of digits the verdict is the puzzle's
      own rule: solved exactly when the board it leaves is a solution. */
  lemma LogicSolveSound(b: Board, lazy: bool)
    requires Shaped(b) && CluesNonNegative(b)
    ensures LogicSolve(b, lazy).solved <==> Solution(LogicSolve(b, lazy).board)
  {
    var v := LogicSolve(b, lazy);
    ExtendsClues(b, v.board);
    CheckSolvedMeaning(v.board);
  }

  /** Extending a board keeps its clue sums. */
  lemma ExtendsClues(a: Board, b: Board)
    requires Extends(a, b) && CluesNonNegative(a)
    ensures CluesNonNegative(b)
  {
    forall q | InBounds(b, q) && At(b, q).isClue
      ensures 0 <= At(b, q).downClue && 0 <= At(b, q).rightClue
    {
      assert Frame(At(a, q), At(b, q));
    }
  }

  /** The full fixed point, rule by rule: the seven rules are quiet on `b`
      exactly when each is settled on every square (see `RuleSettled`). */
  lemma QuietMeaning(b: Board)
    requires Shaped(b)
    ensures Quiet(b, 7) <==> forall k :: 0 <= k < 7 ==> RuleSettled(b, k)
  {
    forall k | 0 <= k < 7
      ensures !Pass(k, b).changed <==> RuleSettled(b, k)
    {
      PassQuiet(b, k);
    }
  }

  /** Rule `k` is at rest on every square: no fill-in square is down to
      one note (0), and every clue square is settled for range pruning (1),
      combination filtering (2), the unique-combination rule (3), necessary
      digits (4), naked subsets (5) and notes outside every combination (6). */
  ghost predicate RuleSettled(b: Board, k: int)
    requires Shaped(b)
  {
    if k == 0 then forall q :: InBounds(b, q) ==> !Singles.Fires(At(b, q))
    else if k == 1 then forall q :: InBounds(b, q) ==> Ranges.Settled(b, q)
    else if k == 2 then forall q :: InBounds(b, q) ==> ComboFilter.Settled(b, q)
    else if k == 3 then forall q :: InBounds(b, q) ==> Uniques.Settled(b, q)
    else if k == 4 then forall q :: InBounds(b, q) ==> Necessary.Settled(b, q)
    else if k == 5 then forall q :: InBounds(b, q) ==> NakedSubsets.Settled(b, q)
    else forall q :: InBounds(b, q) ==> ComboNotes.Settled(b, q)
  }

  lemma PassQuiet(b: Board, k: int)
    requires Shaped(b) && 0 <= k < 7
    ensures !Pass(k, b).changed <==> RuleSettled(b, k)
  {
    if k == 0 {
      Singles.SinglesQuiet(b);
    } else if k == 1 {
      Ranges.RangesQuiet(b);
    } else if k == 2 {
      ComboFilter.ComboFilterQuiet(b);
    } else if k == 3 {
      Uniques.UniquesQuiet(b);
    } else if k == 4 {
      Necessary.NecessaryQuiet(b);
    } else if k == 5 {
      NakedSubsets.NakedQuiet(b);
    } else {
      ComboNotes.ComboNotesQuiet(b);
    }
  }

  // ---------------------------------------------------------------------------
  // smartBruteForceSolve: picking the square

  /** A square has at most nine notes, so the first empty square always
      undercuts the initial minimum of 10. */
  lemma NotesAtMostNine(s: NoteSet)
    ensures |s| <= 9
  {
    Singles.NoteListSize(s);
  }

  /** A fill-in square still without a value. */
  predicate Candidate(b: Board, q: Pos)
    requires Shaped(b)
  {
    InBounds(b, q) && !At(b, q).isClue && At(b, q).value == 0
  }

  /** The branching scan from index `i` on. `best` is the index of the
      square picked so far (-1: none, with `min` still 10) and `min` its note
      count. A square replaces it only with strictly fewer notes, and a
      square without notes ends the whole search (None). The note-counting
      loop's early break only happens once the count exceeds `min`, so the
      comparison sees the full count. */
  function PickFrom(b: Board, ps: seq<Pos>, i: int, best: int, min: int): (r: Option<int>)
    requires Shaped(b) && 0 <= i <= |ps| && forall k :: 0 <= k < |ps| ==> InBounds(b, ps[k])
    requires -1 <= best < i
    requires best == -1 ==> min == 10 && exists k :: i <= k < |ps| && Candidate(b, ps[k])
    requires best != -1 ==>
      Candidate(b, ps[best]) && At(b, ps[best]).notes != {} && min == |At(b, ps[best]).notes|
    ensures r.Some? ==> 0 <= r.value < |ps| && Candidate(b, ps[r.value]) && At(b, ps[r.value]).notes != {}
    decreases |ps| - i
  {
    if i == |ps| then Some(best)
    else
      var x := At(b, ps[i]);
      NotesAtMostNine(x.notes);
      if !x.isClue && x.value == 0 && |x.notes| < min then
        if |x.notes| == 0 then None
        else PickFrom(b, ps, i + 1, i, |x.notes|)
      else PickFrom(b, ps, i + 1, best, min)
  }

  /** The square smartBruteForceSolve branches on, as an index into the
      row-major order; None when some empty square has no notes. */
  function Pick(b: Board): (r: Option<int>)
    requires Shaped(b) && HasEmptyCells(b)
    ensures r.Some? ==> 0 <= r.value < |RowMajor(b)| && Candidate(b, RowMajor(b)[r.value])
  {
    var ps := RowMajor(b);
    assert exists k :: 0 <= k < |ps| && Candidate(b, ps[k]) by {
      var q :| q in ps && !At(b, q).isClue && At(b, q).value == 0;
      var k :| 0 <= k < |ps| && ps[k] == q;
    }
    PickFrom(b, ps, 0, -1, 10)
  }

  /** The state the scan keeps between squares: `best` is -1 (and `min`
      10) while no empty square was met, otherwise an empty square with
      `min` notes, none of them zero. */
  ghost predicate ScanState(b: Board, ps: seq<Pos>, i: int, best: int, min: int) {
    && Shaped(b) && 0 <= i <= |ps| && (forall k :: 0 <= k < |ps| ==> InBounds(b, ps[k]))
    && -1 <= best < i
    && (best == -1 ==> min == 10 && exists k :: i <= k < |ps| && Candidate(b, ps[k]))
    && (best != -1 ==>
         Candidate(b, ps[best]) && At(b, ps[best]).notes != {} && min == |At(b, ps[best]).notes|)
  }

  /** The scan gives up exactly when some square from `i` on is empty and
      without notes. */
  lemma {:induction false} PickFromNone(b: Board, ps: seq<Pos>, i: int, best: int, min: int)
    requires ScanState(b, ps, i, best, min)
    ensures PickFrom(b, ps, i, best, min).None? <==> exists k :: i <= k < |ps| && Stuck(b, ps[k])
    decreases |ps| - i
  {
    if i < |ps| {
      var x := At(b, ps[i]);
      NotesAtMostNine(x.notes);
      StuckStep(b, ps, i);
      if !x.isClue && x.value == 0 && |x.notes| < min {
        if |x.notes| != 0 {
          PickFromNone(b, ps, i + 1, i, |x.notes|);
        }
      } else {
        PickFromNone(b, ps, i + 1, best, min);
      }
    }
  }

  /** An empty square the search cannot branch on. */
  ghost predicate Stuck(b: Board, q: Pos)
    requires Shaped(b)
  {
    Candidate(b, q) && At(b, q).notes == {}
  }

  lemma StuckStep(b: Board, ps: seq<Pos>, i: int)
    requires Shaped(b) && 0 <= i < |ps|
    ensures (exists k :: i <= k < |ps| && Stuck(b, ps[k])) <==>
      Stuck(b, ps[i]) || exists k :: i + 1 <= k < |ps| && Stuck(b, ps[k])
  {
  }

  /** A square the scan picks has no more notes than any empty square from
      `i` on, and, unless it is the one picked before `i`, strictly fewer
      than every empty square it passed and than the earlier pick. */
  lemma {:induction false} PickFromSome(b: Board, ps: seq<Pos>, i: int, best: int, min: int)
    requires ScanState(b, ps, i, best, min)
    requires PickFrom(b, ps, i, best, min).Some?
    ensures var j := PickFrom(b, ps, i, best, min).value;
      && (j == best || i <= j)
      && |At(b, ps[j]).notes| <= min
      && (forall k :: i <= k < |ps| && Candidate(b, ps[k]) ==> |At(b, ps[j]).notes| <= |At(b, ps[k]).notes|)
      && (j != best ==> |At(b, ps[j]).notes| < min)
      && (j != best ==> forall k :: i <= k < j && Candidate(b, ps[k]) ==> |At(b, ps[j]).notes| < |At(b, ps[k]).notes|)
    decreases |ps| - i
  {
    if i < |ps| {
      var x := At(b, ps[i]);
      NotesAtMostNine(x.notes);
      if !x.isClue && x.value == 0 && |x.notes| < min {
        PickFromSome(b, ps, i + 1, i, |x.notes|);
      } else {
        PickFromSome(b, ps, i + 1, best, min);
      }
    }
  }

  /** The scan's choice: the search gives up exactly when an empty square
      has no notes; otherwise it branches on the first empty square, in
      row-major order, with the fewest notes. */
  lemma PickMeaning(b: Board)
    requires Shaped(b) && HasEmptyCells(b)
    ensures Pick(b).None? <==> exists q :: Candidate(b, q) && At(b, q).notes == {}
    ensures Pick(b).Some? ==>
      var ps := RowMajor(b); var j := Pick(b).value;
      && At(b, ps[j]).notes != {}
      && (forall q :: Candidate(b, q) ==> |At(b, ps[j]).notes| <= |At(b, q).notes|)
      && (forall k :: 0 <= k < j && Candidate(b, ps[k]) ==> |At(b, ps[j]).notes| < |At(b, ps[k]).notes|)
  {
    PickNoneMeaning(b);
    if Pick(b).Some? {
      var ps := RowMajor(b);
      ScanStart(b);
      PickFromSome(b, ps, 0, -1, 10);
      forall q | Candidate(b, q)
        ensures exists k :: 0 <= k < |ps| && ps[k] == q
      {
        assert q in ps;
      }
    }
  }

  /** The scan starts in a proper state: the board has an empty square. */
  lemma ScanStart(b: Board)
    requires Shaped(b) && HasEmptyCells(b)
    ensures ScanState(b, RowMajor(b), 0, -1, 10)
  {
    var ps := RowMajor(b);
    var q :| q in ps && !At(b, q).isClue && At(b, q).value == 0;
    var k :| 0 <= k < |ps| && ps[k] == q;
    assert Candidate(b, ps[k]);
  }

  lemma PickNoneMeaning(b: Board)
    requires Shaped(b) && HasEmptyCells(b)
    ensures Pick(b).None? <==> exists q :: Candidate(b, q) && At(b, q).notes == {}
  {
    var ps := RowMajor(b);
    ScanStart(b);
    PickFromNone(b, ps, 0, -1, 10);
    if exists q :: Candidate(b, q) && At(b, q).notes == {} {
      var q :| Candidate(b, q) && At(b, q).notes == {};
      assert q in ps;
      var k :| 0 <= k < |ps| && ps[k] == q;
      assert Stuck(b, ps[k]);
    }
    if exists k :: 0 <= k < |ps| && Stuck(b, ps[k]) {
      var k :| 0 <= k < |ps| && Stuck(b, ps[k]);
      assert Candidate(b, ps[k]) && At(b, ps[k]).notes == {};
    }
  }

  // ---------------------------------------------------------------------------
  // smartBruteForceSolve: the search

  /** What updateCellArray(savedCellInfo) gives back: the board extends
      the saved one and every fill-in square has its saved value, notes and
      note flag again. Combination lists are not part of the snapshot. */
  ghost predicate Restored(b0: Board, y: Board) {
    && Extends(b0, y)
    && forall q :: InBounds(b0, q) && !At(b0, q).isClue ==>
         && At(y, q).value == At(b0, q).value
         && At(y, q).notes == At(b0, q).notes && At(y, q).noteMode == At(b0, q).noteMode
  }

  /** Writing a snapshot of `b0` back onto any board that extends `b0`
      restores it in that sense. */
  lemma RestoreAfter(b0: Board, x: Board)
    requires Extends(b0, x)
    ensures |Snapshots.Snapshot(b0)| <= x.rows * x.cols
    ensures Restored(b0, Snapshots.Restore(x, Snapshots.Snapshot(b0)))
  {
    Snapshots.RestoreSnapshot(b0, x);
    var y := Snapshots.Restore(x, Snapshots.Snapshot(b0));
    forall q | InBounds(b0, q)
      ensures Frame(At(b0, q), At(y, q))
      ensures At(b0, q).value != 0 ==> At(y, q).value == At(b0, q).value
      ensures !At(b0, q).isClue ==> At(y, q).value == At(b0, q).value
    {
      assert Frame(At(b0, q), At(x, q));
    }
  }

  /** A restored board has as many empty squares as the saved one. */
  lemma RestoredEmpties(b0: Board, y: Board)
    requires Restored(b0, y)
    ensures Total(Empties, y) == Total(Empties, b0)
  {
    forall q | InBounds(b0, q)
      ensures Weight(Empties, At(b0, q)) == Weight(Empties, At(y, q))
    {
      assert Frame(At(b0, q), At(y, q));
    }
    TotalSame(Empties, b0, y);
  }

  /** smartBruteForceSolve. A true answer always comes with a solved
      board that extends the given one; a false answer leaves the values,
      notes, clue sums and fixed flags of the given board (combination
      lists may have shrunk). */
  function BruteForce(b: Board): (v: Verdict)
    requires Shaped(b)
    ensures Shaped(v.board) && v.board.rows == b.rows && v.board.cols == b.cols
    ensures v.solved ==> CheckSolved(v.board) && Extends(b, v.board)
    ensures !v.solved ==> Restored(b, v.board)
    ensures !HasEmptyCells(b) ==> v == Verdict(b, CheckSolved(b))
    decreases Total(Empties, b), 1, 0
  {
    if !HasEmptyCells(b) then Verdict(b, CheckSolved(b))
    else
      match Pick(b)
      case None => Verdict(b, false)
      case Some(j) => TryNotes(b, b, RowMajor(b)[j], 1)
  }

  /** The loop over the picked square's notes from digit `i` on. `cur` is
      the board after the previous failed branch was undone. Each branch
      places the digit, runs a lazy logicSolve and then, because `|=` does
      not short-circuit, always recurses. */
  function TryNotes(b0: Board, cur: Board, p: Pos, i: int): (v: Verdict)
    requires Shaped(b0) && Restored(b0, cur) && Candidate(b0, p) && 1 <= i <= 10
    ensures Shaped(v.board) && v.board.rows == b0.rows && v.board.cols == b0.cols
    ensures v.solved ==> CheckSolved(v.board) && Extends(b0, v.board)
    ensures !v.solved ==> Restored(b0, v.board)
    decreases Total(Empties, b0), 0, 10 - i
  {
    if i == 10 then Verdict(cur, false)
    else if i !in At(cur, p).notes then TryNotes(b0, cur, p, i + 1)
    else
      var l := LogicSolve(Assign(cur, p, i), true);
      BranchFacts(b0, cur, p, i);
      var r := BruteForce(l.board);
      if l.solved then
        assert r == Verdict(l.board, true);
        Verdict(r.board, true)
      else if r.solved then
        ExtendsTrans(b0, l.board, r.board);
        Verdict(r.board, true)
      else
        ExtendsTrans(b0, l.board, r.board);
        RestoreAfter(b0, r.board);
        TryNotes(b0, Snapshots.Restore(r.board, Snapshots.Snapshot(b0)), p, i + 1)
  }

  /** One branch of the search: placing `i` and running the lazy solve
      leaves fewer empty squares than the board the search started from,
      extends that board, and a solved result has no empty square left. */
  lemma BranchFacts(b0: Board, cur: Board, p: Pos, i: int)
    requires Shaped(b0) && Restored(b0, cur) && Candidate(b0, p) && 1 <= i <= 9
    requires i in At(cur, p).notes
    ensures var l := LogicSolve(Assign(cur, p, i), true);
      && Total(Empties, l.board) < Total(Empties, b0)
      && Extends(b0, l.board)
      && (l.solved ==> !HasEmptyCells(l.board))
  {
    var b1 := Assign(cur, p, i);
    var l := LogicSolve(b1, true);
    RestoredEmpties(b0, cur);
    AssignMeasure(cur, p, i);
    AssignExtendsFrom(b0, cur, p, i);
    ExtendsTrans(b0, b1, l.board);
    if l.solved {
      SolvedHasNoEmpty(l.board);
    }
  }

  /** The search gives up at once, leaving the board as it was, when some
      empty square has no notes. */
  lemma BruteForceStuck(b: Board, q: Pos)
    requires Shaped(b) && Candidate(b, q) && At(b, q).notes == {}
    ensures BruteForce(b) == Verdict(b, false)
  {
    assert HasEmptyCells(b) by {
      assert q in RowMajor(b);
    }
    PickMeaning(b);
  }

  /** On boards whose clues are sums of digits a true answer means the
      board left behind is a solution that keeps every value the given
      board had. */
  lemma BruteForceSound(b: Board)
    requires Shaped(b) && CluesNonNegative(b)
    ensures BruteForce(b).solved ==> Solution(BruteForce(b).board)
    ensures BruteForce(b).solved ==> forall q :: InBounds(b, q) && At(b, q).value != 0 ==>
      At(BruteForce(b).board, q).value == At(b, q).value
  {
    if BruteForce(b).solved {
      ExtendsClues(b, BruteForce(b).board);
      CheckSolvedMeaning(BruteForce(b).board);
    }
  }

  // ---------------------------------------------------------------------------
  // solve

  /** Clearing keeps the layout and every clue sum, so the table reads stay
      in range. */
  lemma ClearKeepsMeta(b: Board)
    requires Shaped(b) && Meta.MetaReady(b)
    ensures Meta.MetaReady(ClearBoard(b))
  {
    ClearBoardFacts(b);
    var c := ClearBoard(b);
    forall q | InBounds(c, q)
      ensures 0 <= At(c, q).downClue <= 45 && 0 <= At(c, q).rightClue <= 45
      ensures At(c, q).isClue ==> |Ray(c, q, Down)| <= 9 && |Ray(c, q, Right)| <= 9
    {
      RaySameLayout(b, c, q, Down);
      RaySameLayout(b, c, q, Right);
    }
  }

  /** `w` keeps the layout, fixed flags and clue sums of `b`, and holds the
      values clearBoard leaves. */
  ghost predicate SeedShape(b: Board, w: Board)
    requires Shaped(b)
  {
    && Shaped(w) && w.rows == b.rows && w.cols == b.cols
    && (forall q :: InBounds(b, q) ==>
         && At(w, q).isClue == At(b, q).isClue && At(w, q).fixed == At(b, q).fixed
         && At(w, q).value == At(ClearBoard(b), q).value)
    && (forall q :: InBounds(b, q) && At(b, q).isClue ==>
         At(w, q).downClue == At(b, q).downClue && At(w, q).rightClue == At(b, q).rightClue)
  }

  lemma ClearShape(b: Board)
    requires Shaped(b)
    ensures SeedShape(b, ClearBoard(b))
  {
    ClearBoardFacts(b);
  }

  /** giveMetaKnowledgeToCells touches only metadata of fill-in squares. */
  lemma GiveMetaShape(b: Board, c: Board)
    requires Shaped(b) && SeedShape(b, c) && Meta.MetaReady(c)
    ensures SeedShape(b, Meta.GiveMeta(c))
  {
    Meta.GiveMetaFrame(c);
  }

  lemma GiveMetaAllIndexable(c: Board)
    requires Shaped(c) && Meta.MetaReady(c)
    ensures forall q :: InBounds(c, q) && !At(c, q).isClue ==> Meta.Indexable(At(Meta.GiveMeta(c), q))
  {
    forall q | InBounds(c, q) && !At(c, q).isClue
      ensures Meta.Indexable(At(Meta.GiveMeta(c), q))
    {
      Meta.GiveMetaIndexable(c, q);
    }
  }

  /** clearBoard followed by giveMetaKnowledgeToCells: every unfixed fill-in
      square can then index the combination table. */
  function Annotated(b: Board): (m: Board)
    requires Shaped(b) && Meta.MetaReady(b)
    ensures SeedShape(b, m)
    ensures forall q :: InBounds(m, q) && !At(m, q).isClue && !At(m, q).fixed ==> Meta.Indexable(At(m, q))
  {
    var c := ClearBoard(b);
    ClearShape(b);
    ClearKeepsMeta(b);
    GiveMetaShape(b, c);
    GiveMetaAllIndexable(c);
    Meta.GiveMeta(c)
  }

  /** The first three preparation steps of solve: clearBoard,
      giveMetaKnowledgeToCells and writeNotesFromIntersections. */
  function Seeded(b: Board): (w: Board)
    requires Shaped(b) && Meta.MetaReady(b) && Meta.FixedInRange(b)
    ensures SeedShape(b, w)
  {
    var m := Annotated(b);
    Meta.WriteNotesFrame(m);
    Meta.WriteNotesFromIntersections(m)
  }

  /** What preparation promises: the layout, clue sums and fixed flags
      stay, fixed fill-in squares keep their values and the others are
      empty. */
  ghost predicate Prepared(b: Board, b': Board)
    requires Shaped(b)
  {
    && Shaped(b') && b'.rows == b.rows && b'.cols == b.cols && SameLayout(b, b')
    && (forall q :: InBounds(b, q) && At(b, q).isClue ==>
         At(b', q).downClue == At(b, q).downClue && At(b', q).rightClue == At(b, q).rightClue)
    && (forall q :: InBounds(b, q) && !At(b, q).isClue ==>
         At(b', q).value == (if At(b, q).fixed then At(b, q).value else 0))
    && (forall q :: InBounds(b, q) ==> At(b', q).fixed == At(b, q).fixed)
  }

  lemma SeedFixedInRange(b: Board, w: Board)
    requires Shaped(b) && Meta.FixedInRange(b) && SeedShape(b, w)
    ensures Meta.FixedInRange(w)
  {
    ClearBoardFacts(b);
  }

  lemma PreparedFrom(b: Board, w: Board, b': Board)
    requires Shaped(b) && SeedShape(b, w) && Meta.KeepsValues(w, b') && Extends(w, b')
    ensures Prepared(b, b')
  {
    ClearBoardFacts(b);
    forall q | InBounds(b, q)
      ensures At(b', q).fixed == At(b, q).fixed && At(b', q).isClue == At(b, q).isClue
      ensures !At(b, q).isClue ==> At(b', q).value == (if At(b, q).fixed then At(b, q).value else 0)
      ensures At(b, q).isClue ==>
        At(b', q).downClue == At(b, q).downClue && At(b', q).rightClue == At(b, q).rightClue
    {
      assert Frame(At(w, q), At(b', q));
    }
  }

  /** The four preparation steps of solve: the three above and
      removeNotesFixedValues. Unfixed fill-in squares start empty; clue
      sums, fixed flags and fixed values stay. */
  function Prepare(b: Board): (b': Board)
    requires Shaped(b) && Meta.MetaReady(b) && Meta.FixedInRange(b)
    ensures Prepared(b, b')
  {
    var w := Seeded(b);
    SeedFixedInRange(b, w);
    var b' := Meta.RemoveNotesFixedValues(w);
    PreparedFrom(b, w, b');
    b'
  }

  /** solve(useBruteForce): prepare, run the full logicSolve and, if that
      does not finish and search is allowed, smartBruteForceSolve. */
  function Solve(b: Board, useBruteForce: bool): (v: Verdict)
    requires Shaped(b) && Meta.MetaReady(b) && Meta.FixedInRange(b)
    ensures Shaped(v.board) && v.board.rows == b.rows && v.board.cols == b.cols
    ensures Extends(Prepare(b), v.board)
    ensures v.solved ==> CheckSolved(v.board)
  {
    var b1 := Prepare(b);
    var l := LogicSolve(b1, false);
    if !l.solved && useBruteForce then
      var r := BruteForce(l.board);
      ExtendsTrans(b1, l.board, r.board);
      Verdict(r.board, r.solved)
    else l
  }

  /** A board solve reports solved is a solution of the puzzle's clues that
      keeps every fixed square's value. */
  lemma SolveSound(b: Board, useBruteForce: bool)
    requires Shaped(b) && Meta.MetaReady(b) && Meta.FixedInRange(b)
    requires Solve(b, useBruteForce).solved
    ensures Solution(Solve(b, useBruteForce).board)
    ensures forall q :: InBounds(b, q) && At(b, q).isClue ==>
      At(Solve(b, useBruteForce).board, q).downClue == At(b, q).downClue
      && At(Solve(b, useBruteForce).board, q).rightClue == At(b, q).rightClue
    ensures forall q :: InBounds(b, q) && !At(b, q).isClue && At(b, q).fixed && At(b, q).value != 0 ==>
      At(Solve(b, useBruteForce).board, q).value == At(b, q).value
  {
    SoundFrom(b, Prepare(b), Solve(b, useBruteForce).board);
  }

  /** A checked board reached from the prepared puzzle by filling in
      squares is a solution that keeps the clues and fixed values. */
  lemma SoundFrom(b: Board, p: Board, s: Board)
    requires Shaped(b) && Meta.MetaReady(b) && Prepared(b, p) && Extends(p, s) && CheckSolved(s)
    ensures Solution(s)
    ensures forall q :: InBounds(b, q) && At(b, q).isClue ==>
      At(s, q).downClue == At(b, q).downClue && At(s, q).rightClue == At(b, q).rightClue
    ensures forall q :: InBounds(b, q) && !At(b, q).isClue && At(b, q).fixed && At(b, q).value != 0 ==>
      At(s, q).value == At(b, q).value
  {
    assert CluesNonNegative(p);
    ExtendsClues(p, s);
    CheckSolvedMeaning(s);
    forall q | InBounds(b, q)
      ensures Frame(At(p, q), At(s, q))
    {
    }
  }

  /** MetaReady reads only the layout and the clue sums. */
  lemma MetaReadyKept(a: Board, b: Board)
    requires Shaped(a) && Meta.MetaReady(a) && SameLayout(a, b)
    requires forall q :: InBounds(a, q) ==>
      At(b, q).downClue == At(a, q).downClue && At(b, q).rightClue == At(a, q).rightClue
    ensures Meta.MetaReady(b)
  {
    forall q | InBounds(b, q) && At(b, q).isClue
      ensures |Ray(b, q, Down)| <= 9 && |Ray(b, q, Right)| <= 9
    {
      RaySameLayout(a, b, q, Down);
      RaySameLayout(a, b, q, Right);
    }
  }

  lemma SeededReady(b: Board)
    requires Shaped(b) && Meta.MetaReady(b) && Meta.FixedInRange(b)
    ensures Meta.MetaReady(Seeded(b))
  {
    ClearBoardFacts(b);
    ClearKeepsMeta(b);
    var c := ClearBoard(b);
    Meta.GiveMetaFrame(c);
    Meta.GiveMetaIdempotent(c);
    var m := Meta.GiveMeta(c);
    forall q | InBounds(m, q) && !At(m, q).isClue && !At(m, q).fixed
      ensures Meta.Indexable(At(m, q))
    {
      Meta.GiveMetaIndexable(c, q);
    }
    Meta.WriteNotesFrame(m);
    MetaReadyKept(m, Meta.WriteNotesFromIntersections(m));
  }

  /** The board solve works on meets solve's own requirements again: the
      table reads stay in range. */
  lemma PrepareReady(b: Board)
    requires Shaped(b) && Meta.MetaReady(b) && Meta.FixedInRange(b)
    ensures Meta.MetaReady(Prepare(b))
  {
    SeededReady(b);
    var w := Seeded(b);
    var p := Prepare(b);
    assert Meta.FixedInRange(w);
    assert p == Meta.RemoveNotesFixedValues(w);
    forall q | InBounds(w, q)
      ensures At(p, q).downClue == At(w, q).downClue && At(p, q).rightClue == At(w, q).rightClue
    {
      assert Frame(At(w, q), At(p, q));
    }
    MetaReadyKept(w, p);
  }

  /** Extending a board keeps what solve needs of it. */
  lemma ExtendsReady(p: Board, s: Board)
    requires Shaped(p) && Meta.MetaReady(p) && Meta.FixedInRange(p) && Extends(p, s)
    ensures Meta.MetaReady(s) && Meta.FixedInRange(s) && SameLayout(p, s)
    ensures forall q :: InBounds(p, q) ==>
      && At(s, q).fixed == At(p, q).fixed
      && At(s, q).downClue == At(p, q).downClue && At(s, q).rightClue == At(p, q).rightClue
  {
    ExtendsLayout(p, s);
    forall q | InBounds(p, q)
      ensures At(s, q).fixed == At(p, q).fixed
      ensures At(s, q).downClue == At(p, q).downClue && At(s, q).rightClue == At(p, q).rightClue
    {
      assert Frame(At(p, q), At(s, q));
    }
    MetaReadyKept(p, s);
  }

  /** solve keeps the layout, the clue sums, the fixed flags and the
      nonzero fixed values, and leaves a board solve can be called on
      again. */
  lemma SolveReady(b: Board, useBruteForce: bool)
    requires Shaped(b) && Meta.MetaReady(b) && Meta.FixedInRange(b)
    ensures var s := Solve(b, useBruteForce).board;
      Meta.MetaReady(s) && Meta.FixedInRange(s) && SameLayout(b, s)
    ensures var s := Solve(b, useBruteForce).board;
      forall q :: InBounds(b, q) ==>
        && At(s, q).fixed == At(b, q).fixed
        && (At(b, q).isClue ==> At(s, q).downClue == At(b, q).downClue && At(s, q).rightClue == At(b, q).rightClue)
        && (!At(b, q).isClue && At(b, q).fixed && At(b, q).value != 0 ==> At(s, q).value == At(b, q).value)
  {
    PrepareReady(b);
    ReadyFrom(b, Prepare(b), Solve(b, useBruteForce).board);
  }

  /** A board reached from the prepared puzzle by filling in squares keeps
      what solve promises to keep. */
  lemma ReadyFrom(b: Board, p: Board, s: Board)
    requires Shaped(b) && Meta.FixedInRange(b) && Prepared(b, p) && Meta.MetaReady(p) && Extends(p, s)
    ensures Meta.MetaReady(s) && Meta.FixedInRange(s) && SameLayout(b, s)
    ensures forall q :: InBounds(b, q) ==>
      && At(s, q).fixed == At(b, q).fixed
      && (At(b, q).isClue ==> At(s, q).downClue == At(b, q).downClue && At(s, q).rightClue == At(b, q).rightClue)
      && (!At(b, q).isClue && At(b, q).fixed && At(b, q).value != 0 ==> At(s, q).value == At(b, q).value)
  {
    assert Meta.FixedInRange(p);
    ExtendsReady(p, s);
    SameLayoutTrans(b, p, s);
    forall q | InBounds(b, q) && !At(b, q).isClue && At(b, q).fixed && At(b, q).value != 0
      ensures At(s, q).value == At(b, q).value
    {
      assert Frame(At(p, q), At(s, q));
    }
  }

  // ---------------------------------------------------------------------------
  // What preparation sets up

  lemma PrepareSteps(b: Board)
    requires Shaped(b) && Meta.MetaReady(b) && Meta.FixedInRange(b)
    ensures Meta.FixedInRange(Seeded(b)) && Prepare(b) == Meta.RemoveNotesFixedValues(Seeded(b))
  {
    SeedFixedInRange(b, Seeded(b));
  }

  /** Seeding writes notes only. */
  lemma SeededLists(b: Board)
    requires Shaped(b) && Meta.MetaReady(b) && Meta.FixedInRange(b)
    ensures ListsKept(Annotated(b), Seeded(b))
  {
    Meta.WriteNotesFrame(Annotated(b));
  }

  /** After the first pass no step of preparation writes a combination list. */
  lemma PrepareLists(b: Board)
    requires Shaped(b) && Meta.MetaReady(b) && Meta.FixedInRange(b)
    ensures ListsKept(Annotated(b), Prepare(b))
  {
    PrepareSteps(b);
    SeededLists(b);
    Meta.RemoveNotesFixedValuesLists(Seeded(b));
    ListsKeptTrans(Annotated(b), Seeded(b), Prepare(b));
  }

  /** Every combination listed on the prepared board has its run's length. */
  lemma PrepareListsFit(b: Board)
    requires Shaped(b) && Meta.MetaReady(b) && Meta.FixedInRange(b)
    ensures ListsFit(Prepare(b))
  {
    ClearKeepsMeta(b);
    Meta.MetaListsFit(ClearBoard(b));
    PrepareLists(b);
    ListsKeptFacts(Annotated(b), Prepare(b), Prepare(b));
  }

  /** Every fixed fill-in square of the prepared board is settled. */
  lemma PrepareSettled(b: Board)
    requires Shaped(b) && Meta.MetaReady(b) && Meta.FixedInRange(b)
    ensures forall q :: InBounds(Prepare(b), q) ==> Meta.FixedSettled(Prepare(b), q)
  {
    PrepareSteps(b);
    forall q | InBounds(Prepare(b), q)
      ensures Meta.FixedSettled(Prepare(b), q)
    {
      Meta.RemoveNotesFixedValuesSettles(Seeded(b), q);
    }
  }

  /** A board whose only values are fixed ones, each settled, notes no
      placed digit where it is seen and nothing on a filled square. */
  lemma SettledTidy(b: Board, p: Board)
    requires Shaped(b) && Prepared(b, p)
    requires forall q :: InBounds(p, q) ==> Meta.FixedSettled(p, q)
    ensures NoStale(p) && FilledFew(p)
  {
    forall r | InBounds(p, r) && !At(p, r).isClue && At(p, r).value != 0
      ensures At(p, r).fixed
    {
    }
  }

  /** The prepared board meets the invariant the rules keep: its lists are
      the table entries, its only values are fixed ones, and a fixed square
      has no notes and its digit is struck from every square it sees. */
  lemma PrepareTidy(b: Board)
    requires Shaped(b) && Meta.MetaReady(b) && Meta.FixedInRange(b)
    ensures Tidy(Prepare(b))
  {
    PrepareListsFit(b);
    PrepareSettled(b);
    SettledTidy(b, Prepare(b));
  }

  /** The lists of the prepared board hold the digit sets of every solution
      of the puzzle whose squares hold digits. */
  lemma PrepareCovers(b: Board, s: Board)
    requires Shaped(b) && Meta.MetaReady(b) && Meta.FixedInRange(b) && SameLayout(b, s)
    requires forall q :: InBounds(b, q) && At(b, q).isClue ==>
      At(s, q).downClue == At(b, q).downClue && At(s, q).rightClue == At(b, q).rightClue
    requires Solution(s) && DigitsOnly(s)
    ensures Covers(Prepare(b), s)
  {
    var c := ClearBoard(b);
    ClearBoardFacts(b);
    ClearKeepsMeta(b);
    SameLayoutTrans(c, b, s);
    Meta.MetaCovers(c, s);
    PrepareLists(b);
    ListsKeptFacts(Annotated(b), Prepare(b), s);
  }

  /** A completion that agrees with a board whose values are at most 9
      holds digits only: its other squares take noted digits. */
  lemma AgreesDigits(p: Board, s: Board)
    requires Agrees(p, s)
    requires forall q :: InBounds(p, q) && !At(p, q).isClue ==> 0 <= At(p, q).value <= 9
    ensures DigitsOnly(s)
  {
    forall q | InBounds(s, q) && !At(s, q).isClue
      ensures 1 <= At(s, q).value <= 9
    {
      if At(p, q).value == 0 {
        assert At(s, q).value in At(p, q).notes;
      }
    }
  }

  /** A solution the prepared board agrees with is tracked by it: the lists
      the first pass writes hold every solution's digit sets. */
  lemma PrepareTracks(b: Board, s: Board)
    requires Shaped(b) && Meta.MetaReady(b) && Meta.FixedInRange(b)
    requires Agrees(Prepare(b), s) && Solution(s)
    ensures Tracks(Prepare(b), s)
  {
    var p := Prepare(b);
    PrepareTidy(b);
    SameLayoutTrans(b, p, s);
    AgreesDigits(p, s);
    PrepareCovers(b, s);
  }

  /** solve without search keeps every repeat-free solution, with a clue on
      each run, that the prepared board agrees with; when it reports solved,
      its board holds that solution's digits. */
  lemma SolveFinds(b: Board, s: Board)
    requires Shaped(b) && Meta.MetaReady(b) && Meta.FixedInRange(b)
    requires Agrees(Prepare(b), s) && Solution(s) && NoRepeats(s) && WellClued(s)
    ensures var l := LogicSolve(Prepare(b), false);
      && Agrees(l.board, s)
      && (l.solved ==> forall q :: InBounds(b, q) && !At(b, q).isClue ==> At(l.board, q).value == At(s, q).value)
  {
    var l := LogicSolve(Prepare(b), false);
    PrepareTracks(b, s);
    LogicSolveTracks(Prepare(b), false, s);
    SolvedHasNoEmpty(l.board);
  }
}
